=== FILE: README.md ===
# Cadastral parcel intersections, coverage and CU fields — a Dafny model

This project models the pure logic of a pipeline that answers a French
*certificat d'urbanisme* (CU) request. The pipeline takes the parcel
references of a CERFA form. It intersects each parcel with every layer of a
catalog of PostGIS tables: zoning (PLU), easements (SUP), risks, noise and
so on. From the result it builds the per-parcel intersection report, the
coverage percentages, and the fields of the CU document.

The SQL queries, the WFS parcel lookup, the enclave carving, the Supabase
reads and the Gemini calls are not modelled. They appear as function-typed
parameters (oracles) that return rows or fail. Everything around them is
modelled as pure functions over immutable datatypes. Percentages are
`real`s, and an ordered Python dict is an association list with unique keys.

Modules, following the source files:

- `Catalog` (`load_layer_map`): turns catalog keys into layers.
- `ParcelRefs` (`_parse_parcel_refs`, `_to_parcel_arg`): parses parcel
  references and writes them back.
- `Insee` (`_normalize_string`, `get_insee_from_csv` in both intersection
  runners and in the CERFA pipeline): resolves a commune to its INSEE code.
- `Intersections` and `IntersectionsLegacy`: post-process the query rows for
  one parcel and layer, in the current runner and in the older runner that
  `cua_service.py` imports.
- `Runner` (`run`): the batch loop.
- `Coverage` (`normalize_pairs`): groups, caps, sorts and rescales coverage
  pairs.
- `Mapping` (`_put_mapping_key`, key derivation, `mapping_for`): the layer
  mapping table.
- `CuaLayers`, `CuaExtract`, `CuaFields`, `ParcelGroups`: the remaining
  helpers of `cua_builder_utils.py`.
- `CuaService`: the pure helpers of `cua_service.py` and
  `intersect_one_parcel_batch`.
- `PluRegulation`, `PluLegacy`, `PluContext`: the three PLU regulation
  fetchers. Each fetcher's client is an oracle.
- `Dates` and `Cerfa`: the CERFA sanitisers (`_luhn_ok`, `_to_iso_date`,
  `_normalize_dept_for_numero`, `_extract_json`, `sanitize_and_enrich`) and
  `strptime`.
- `Judge`: the meta-judge's decision and the bounds of the
  extraction/judge/retry loop.
- `CuaDocx` and `Zonage` (`cua_docx.py`): payload normalisation, rounding,
  key lookup, layer classification, date parsing and the zoning aggregation.
- `ReportJson` (`report_from_json.py`): surface totals, compaction and layer
  lookup.
- `Wrappers`, `Text`, `Seqs`, `Sorting`, `Assoc`: shared building blocks.

Both runners load the catalog with identical code
(`intersections_parcelle.py:82-101` and
`INTERSECTIONS/intersections_parcelle.py:90-109`), so `Catalog.LoadLayerMap`
models both. The same holds for `get_insee_from_csv` and `Insee.GetInseeFromCsv`.
`Runner.Run` takes the per-parcel step as a parameter. It models the current
`run` with `Intersections.IntersectOneParcel`, and the older `run` with
`IntersectionsLegacy.IntersectOneParcel`.

Where the code and its design description disagree, the model follows the
code:

- The design says a failing geometry correction falls back to the raw
  geometry. The code calls `detect_and_carve_enclaves` outside any `try`, so
  the failure escapes the parcel and the batch. The carve oracle's failure
  is therefore a failure of `IntersectOneParcel`.
- The design says a failing layer is isolated. The older runner has no
  per-layer `try`, so a query failure there fails the whole parcel
  (`IntersectionsLegacy.LayerStep`).
- The design promises a "not found" placeholder for any unresolved parcel.
  The code produces it only when the WFS lookup returns nothing. A lookup
  that raises escapes the batch (`Runner.Run`, `CuaService.IntersectOneParcelBatch`).
- `cua_docx.py` reads a coverage class's percent from `parcel_pct`. The
  intersections emit `pct_of_parcel`, so with the current payloads every
  class counts 0.0. The model keeps the key the code reads.

## Model

| member | source | states |
|---|---|---|
| Catalog.SplitCoverageText | INTERSECTIONS/intersections_parcelle.py:100-101 | a comma-separated `coverage_by` string becomes columns that are non-empty, already stripped and free of commas |
| Catalog.CoverageTextRoundTrip | INTERSECTIONS/intersections_parcelle.py:100-101 | joining clean column names with commas and splitting the result again gives back the same list |
| Catalog.LayerOf | INTERSECTIONS/intersections_parcelle.py:96-108 | the key splits on its first '.', so the schema contains no '.' and schema + "." + table is the key again; `geom` defaults to "geom", `keep` defaults to [], and `coverage_by` defaults to [] or is split when it is a string |
| Catalog.LoadLayerMap | INTERSECTIONS/intersections_parcelle.py:90-109 | no more layers than catalog entries; every layer names a dotted key of the catalog, and its schema contains no '.' |
| Catalog.LoadLayerMapDistinct | INTERSECTIONS/intersections_parcelle.py:91-95 | a catalog with distinct keys, as a parsed JSON object has, gives layers with distinct qualified names |
| Catalog.LoadLayerMapOrder | INTERSECTIONS/intersections_parcelle.py:93-95 | the layers' qualified names are exactly the catalog keys that contain a '.', in key order; keys without a '.' are dropped |
| Catalog.LoadLayerMapEntry | INTERSECTIONS/intersections_parcelle.py:93-108 | every dotted key yields the layer built from its own entry |
| ParcelRefs.ParseChunks | INTERSECTIONS/intersections_parcelle.py:174-179 | a chunk gives at most one reference, so there are never more references than comma-chunks |
| ParcelRefs.ParseParcelRefsShape | INTERSECTIONS/intersections_parcelle.py:169-179 | every parsed reference has a non-empty, upper-case section and a number of at least four characters; neither part holds a blank or a comma |
| ParcelRefs.ParseChunkPair | INTERSECTIONS/intersections_parcelle.py:175-178 | a chunk of exactly two words parses to the upper-cased section and the number zero-padded to four, e.g. "AD 598" gives ("AD", "0598") |
| ParcelRefs.LeadingSpaceRefs | INTERSECTIONS/intersections_parcelle.py:174-175 | a blank in front of the text changes nothing, because each chunk is stripped before it is split |
| ParcelRefs.ParseJoined | INTERSECTIONS/intersections_parcelle.py:174 | splitting a list of comma-free parts joined by ", " recovers the parts one chunk each |
| ParcelRefs.ToParcelArg | cua_orchestrator.py:29-37 | an absent or empty reference list gives the empty string |
| ParcelRefs.ToParcelArgRoundTrip | cua_orchestrator.py:29-37 | the text written for clean references parses back to exactly the references that have a section, with the section upper-cased and the number padded, in input order |
| Insee.Fold | INTERSECTIONS/intersections_parcelle.py:115-122 | each character is lower-cased and the listed accented letters are folded to their base letter; '-' and "'" become blanks; the length is kept |
| Insee.NormalizeString | INTERSECTIONS/intersections_parcelle.py:112-123 | None gives ""; otherwise the result has the same words as the folded text, single-spaced, and contains only characters the fold leaves alone |
| Insee.NormalizeStringIdempotent | INTERSECTIONS/intersections_parcelle.py:112-123 | normalising a normalised name changes nothing |
| Insee.DeptKey | INTERSECTIONS/intersections_parcelle.py:151-153 | the department is upper-cased, and a single digit is padded to two |
| Insee.TwoStageFilter | INTERSECTIONS/intersections_parcelle.py:145-154 | filtering by name and then, only when something matched, by department selects the same rows as one filter on name and department |
| Insee.GetInseeFromCsv | INTERSECTIONS/intersections_parcelle.py:126-162 | it fails exactly when the table is unreadable, empty or lacks COM; otherwise it returns a code iff exactly one row is selected, and that code is the row's COM |
| Insee.UniqueLookup | INTERSECTIONS/intersections_parcelle.py:156-162 | "one row left after filtering" holds exactly when one and only one row satisfies the filter, and the answer is that row's COM |
| Insee.NormCerfa | PIPELINE_VISION/cerfa_gemini_pipeline.py:66-73 | the CERFA normaliser has the words of the lower-cased text with '-' and "'" turned into blanks; accents are not folded |
| Insee.GetInseeCerfa | PIPELINE_VISION/cerfa_gemini_pipeline.py:75-100 | a missing or empty name, an unreadable CSV, or an empty or COM-less table gives None; a table without LIBELLE makes the column lookup raise; a code is returned only for the single row whose name matches and whose zero-padded department matches when one is given; conversely, with a non-empty name and a table holding COM and LIBELLE, a single matching row always gives its code |
| ParcelRefs.ParseChunkLeadingSpace | INTERSECTIONS/intersections_parcelle.py:175 | a blank in front of one chunk does not change its parse |
| ParcelRefs.ParcelParts | cua_orchestrator.py:29-34 | at most one "SEC NNNN" part per input reference |
| ParcelRefs.CleanPart | cua_orchestrator.py:31-34 | the part written for a clean reference with a section has no comma and parses back to that section and padded number |
| ParcelRefs.PartsNoComma | cua_orchestrator.py:29-35 | no part written for clean references contains the comma used to join them |
| Insee.FoldOfFixed | INTERSECTIONS/intersections_parcelle.py:115-122 | folding a text whose characters are already folded returns it unchanged |
| Coverage.AddTo | CUA_GENERATION/cua_builder_utils.py:187 | `agg[k] += p` keeps a known value in its place and appends a new one at the end |
| Coverage.AddToHere | CUA_GENERATION/cua_builder_utils.py:187 | after `agg[k] += p`, `k` holds its previous total (0.0 when new) plus `p` |
| Coverage.AddToElsewhere | CUA_GENERATION/cua_builder_utils.py:187 | `agg[k] += p` leaves every other value's total unchanged |
| Coverage.Group | CUA_GENERATION/cua_builder_utils.py:183-187 | the accumulation has one entry per value |
| Coverage.GroupHas | CUA_GENERATION/cua_builder_utils.py:184-187 | exactly the values seen are grouped, with None grouped under "" |
| Coverage.GroupSum | CUA_GENERATION/cua_builder_utils.py:184-187 | every value holds the sum of its percents, a missing percent counting as 0.0 |
| Coverage.Min100 | CUA_GENERATION/cua_builder_utils.py:188 | the cap is at most 100 and at most the percent, and it is one of the two |
| Coverage.Capped | CUA_GENERATION/cua_builder_utils.py:183-188 | the grouped, capped list has unique values, each percent at most 100, and exactly the values of the input |
| Coverage.Ordered | CUA_GENERATION/cua_builder_utils.py:188-189 | after the sort, values are unique, percents are at most 100 and in descending order, the values are those of the input, and the total is unchanged by sorting |
| Coverage.NormalizePairs | CUA_GENERATION/cua_builder_utils.py:178-193 | `normalize_pairs` outputs unique values, each percent at most 100, a total of at most 100.0001, descending percents, and exactly the input's values (None read as "") |
| Coverage.OrderedPct | CUA_GENERATION/cua_builder_utils.py:183-189 | each sorted pair carries its value's summed percent capped at 100 |
| Coverage.NormalizePairsPct | CUA_GENERATION/cua_builder_utils.py:183-192 | each output pair carries its value's summed percent, capped at 100, then multiplied by 100/total when the capped total exceeds 100.0001 |
| Coverage.NormalizePairsNonNeg | CUA_GENERATION/cua_builder_utils.py:183-192 | non-negative input percents give non-negative output percents |
| Coverage.GroupDistinct | CUA_GENERATION/cua_builder_utils.py:183-187 | pairs whose values are already distinct group to themselves |
| Coverage.NormalizePairsIdempotent | CUA_GENERATION/cua_builder_utils.py:178-193 | `normalize_pairs` applied to its own output returns it unchanged |
| Coverage.SortSum | CUA_GENERATION/cua_builder_utils.py:189-190 | sorting does not change the total |
| Coverage.ScaleSum | CUA_GENERATION/cua_builder_utils.py:191-192 | scaling by 100/total multiplies the sum by 100/total |
| Coverage.RescaleSum | CUA_GENERATION/cua_builder_utils.py:190-192 | a list whose total exceeds 100.0001 is scaled to a total of exactly 100; after the conditional rescale the total is at most 100.0001 |
| Coverage.RescaleOrder | CUA_GENERATION/cua_builder_utils.py:191-192 | a positive rescale keeps descending order |
| Coverage.RescaleBound | CUA_GENERATION/cua_builder_utils.py:191-192 | percents at most 100 stay at most 100 after the rescale |
| Coverage.CapFixed | CUA_GENERATION/cua_builder_utils.py:188 | capping percents that are already at most 100 changes nothing |
| Coverage.SortedOrder | CUA_GENERATION/cua_builder_utils.py:189 | the sort by descending percent yields a list in descending percent order |
| Coverage.SortedMembers | CUA_GENERATION/cua_builder_utils.py:189 | the sort neither invents pairs nor loses a value: every sorted pair is an input pair and the values are the same |
| Coverage.RescaleAt | CUA_GENERATION/cua_builder_utils.py:190-192 | a total above the tolerance scales each percent by 100/total and leaves its value; otherwise the pair is kept as is |
| Coverage.RescaleKeys | CUA_GENERATION/cua_builder_utils.py:190-192 | the rescale keeps the values in place, so distinct values stay distinct |
| Coverage.ScaleBound | CUA_GENERATION/cua_builder_utils.py:191-192 | a percent at most 100, scaled against a total above 100, stays at most 100 |
| Coverage.ScaleMono | CUA_GENERATION/cua_builder_utils.py:191-192 | scaling by a positive total keeps the order of two percents |
| Mapping.PutMappingKey | CUA_GENERATION/cua_builder_utils.py:28-32 | a blank key, or a key already present after stripping, leaves the mapping unchanged |
| Mapping.PutMappingKeyBinds | CUA_GENERATION/cua_builder_utils.py:30-32 | after the call a non-blank stripped key is bound: to its previous entry if it had one, else to the new entry |
| Mapping.PutMappingKeyKeeps | CUA_GENERATION/cua_builder_utils.py:28-32 | `_put_mapping_key` never changes the entry of a key that is already bound |
| Mapping.PutMappingKeyClean | CUA_GENERATION/cua_builder_utils.py:30-32 | the mapping's keys stay distinct, stripped and non-blank |
| Mapping.ExactKeys | CUA_GENERATION/cua_builder_utils.py:40-41 | step 1 binds the stripped JSON keys, each one once, none blank |
| Mapping.Extras | CUA_GENERATION/cua_builder_utils.py:45-53 | the derived variants ("table" and "public.table" of a dotted key, "public.table" of a bare key) have distinct, stripped, non-blank keys |
| Mapping.UpdateWins | CUA_GENERATION/cua_builder_utils.py:54 | under `update` every extra key ends up bound to its extra entry, whether or not it was bound before |
| Mapping.UpdateOverwritesExact | CUA_GENERATION/cua_builder_utils.py:40-54 | as written, the JSON keys "t" to A and "public.t" to B end with "public.t" bound to A and "t" to B: the derived entries overwrite both exact keys |
| Mapping.MergeNewKeeps | CUA_GENERATION/cua_builder_utils.py:43-44 | merging the extras without overwriting keeps every bound key and its entry |
| Mapping.MergeNewHas | CUA_GENERATION/cua_builder_utils.py:43-53 | merging the extras without overwriting still binds every extra key |
| Mapping.DeriveMappingKeeps | CUA_GENERATION/cua_builder_utils.py:39-54 | with the corrected merge, every exact key keeps its own entry and every derived key is bound |
| Mapping.DeriveMappingKeepsExample | CUA_GENERATION/cua_builder_utils.py:40-54 | with the corrected merge, "t" to A and "public.t" to B stay bound as given |
| Mapping.Candidates | CUA_GENERATION/cua_builder_utils.py:150-155 | a layer without a table yields no candidate keys |
| Mapping.FirstBound | CUA_GENERATION/cua_builder_utils.py:157-160 | there is no entry exactly when no candidate key is bound |
| Mapping.FirstBoundAt | CUA_GENERATION/cua_builder_utils.py:157-159 | the entry is that of the first bound candidate |
| Mapping.MappingFor | CUA_GENERATION/cua_builder_utils.py:145-160 | a layer whose `table` (or `nom`) is blank gets no entry |
| Mapping.MappingForOrder | CUA_GENERATION/cua_builder_utils.py:145-160 | `mapping_for` resolves "schema.table" (only when both are non-blank), then "public.table", then "table", and gives nothing when none is bound |
| Mapping.LayerType | CUA_GENERATION/cua_builder_utils.py:168-170 | an unresolved layer (the `{}` of `mapping_for`), and so a layer with a blank table, has no type; a type found belongs to the entry of one of the layer's bound candidate keys |
| Mapping.LayerTypeAt | CUA_GENERATION/cua_builder_utils.py:145-170 | the type is that of the entry of the first candidate key, in resolution order, that the mapping binds |
| Mapping.DisplayName | CUA_GENERATION/cua_builder_utils.py:162-166 | the display name is never empty, and the mapping's non-empty name wins when there is one |
| Mapping.MergeNew | CUA_GENERATION/cua_builder_utils.py:43-54 | merging the extras without overwriting keeps the mapping's keys distinct |
| Mapping.ExactKeysExample | CUA_GENERATION/cua_builder_utils.py:40-41 | the JSON keys "t" and "public.t", already stripped and distinct, are bound as given and in order |
| Mapping.ExtrasOne | CUA_GENERATION/cua_builder_utils.py:45-53 | an undotted table "t" derives exactly its "public.t" variant |
| Mapping.ExtrasExample | CUA_GENERATION/cua_builder_utils.py:45-53 | from "t" to A and "public.t" to B the derivation yields "public.t" to A and then "t" to B, the pairs `update` then writes over the exact keys |
| Seqs.Somes | CUA_GENERATION/cua_builder_utils.py:207 | the kept values are exactly the present ones; None entries are dropped |
| Seqs.SomesIsComprehension | CUA_GENERATION/cua_builder_utils.py:207 | the result is the comprehension over the list itself: the present values in their order, with their repeats |
| Seqs.SomesConcat | CUA_GENERATION/cua_builder_utils.py:207 | the present values of a concatenation are those of each part, one after the other |
| CuaLayers.ValuesOf | CUA_GENERATION/cua_builder_utils.py:205-207 | a missing attribute gives []; otherwise the attribute's non-None values, in order and with their repeats |
| CuaLayers.FirstNonEmptyValues | CUA_GENERATION/cua_builder_utils.py:240-247 | a non-empty result is the present values of one of the candidate columns; when every candidate is empty or missing the result is [] |
| CuaLayers.FirstNonEmptyValuesAt | CUA_GENERATION/cua_builder_utils.py:243-246 | the first candidate with a non-empty list is the one read |
| CuaLayers.ItemPct | CUA_GENERATION/cua_builder_utils.py:225 | the percent is `pct_capped` when truthy, else `pct_of_parcel` when truthy, else 0.0 |
| CuaLayers.FirstNonEmpty | CUA_GENERATION/cua_builder_utils.py:220-237 | the first non-empty list is found exactly when some list is non-empty, and it is one of them |
| CuaLayers.FirstNonEmptyAt | CUA_GENERATION/cua_builder_utils.py:220-228 | the first non-empty list wins over later ones |
| CuaLayers.CoveragePairs | CUA_GENERATION/cua_builder_utils.py:209-238 | the result is always normalised (unique values, each at most 100, total at most 100.0001, descending) and is empty exactly when every coverage field is empty |
| CuaLayers.DeclaredFields | CUA_GENERATION/cua_builder_utils.py:218-219 | iterating `coverage_by` yields the names of a list, and the single characters of a legacy comma text, which the builder does not split |
| CuaLayers.CoverageFields | CUA_GENERATION/cua_builder_utils.py:217-218 | the mapping's declared fields when iterating them yields any, else every coverage field of the layer |
| CuaLayers.CoveragePairsDeclared | CUA_GENERATION/cua_builder_utils.py:217-228 | the first declared `coverage_by` field with classes is the one normalised; without declared fields the coverage keys are tried in order |
| CuaLayers.CoveragePairsFallback | CUA_GENERATION/cua_builder_utils.py:229-237 | when every tried field is empty, the first non-empty coverage field of the layer is normalised |
| CuaLayers.AllLayers | CUA_GENERATION/cua_builder_utils.py:200-203 | the layers iterated are exactly the layers of every report |
| CuaLayers.LayersByType | CUA_GENERATION/cua_builder_utils.py:249-256 | the selection is no longer than the iterated layers |
| CuaLayers.LayersByTypeMembers | CUA_GENERATION/cua_builder_utils.py:249-256 | a layer is selected exactly when it belongs to some report and its mapping type is listed |
| CuaExtract.Covers | CUA_GENERATION/cua_builder_utils.py:279-286 | a PLU layer with coverage contributes each pair with a non-empty code and only those |
| CuaExtract.Lists | CUA_GENERATION/cua_builder_utils.py:289-294 | without coverage, each raw code of the first non-empty zone column is listed, in order |
| CuaExtract.PutMax | CUA_GENERATION/cua_builder_utils.py:286 | `pct_map[key] = max(...)` keeps a known key in place and appends a new one |
| CuaExtract.PutMaxLookup | CUA_GENERATION/cua_builder_utils.py:286 | after the update the key holds the larger of its old share (0.0 if none) and the new one; other keys are unchanged |
| CuaExtract.MaxShare | CUA_GENERATION/cua_builder_utils.py:272-295 | the reference share of a key is non-negative and no smaller than any contribution's share to it |
| CuaExtract.MaxShareAttained | CUA_GENERATION/cua_builder_utils.py:286 | the reference share is 0.0 or is the share of some contribution |
| CuaExtract.PctStepLookup | CUA_GENERATION/cua_builder_utils.py:286-294 | a covered code raises its key to the larger share; a listed code only sets a missing key to 0.0 |
| CuaExtract.PctMapLookup | CUA_GENERATION/cua_builder_utils.py:275-295 | the share map binds exactly the keys the contributions name, each to its largest share, listed codes counting as 0.0 and never overwriting |
| CuaExtract.PctMapUnique | CUA_GENERATION/cua_builder_utils.py:275-295 | the share map has each key once |
| Seqs.DedupSnoc | CUA_GENERATION/cua_builder_utils.py:296-300 | one more element appended to the input is appended to the de-duplicated list exactly when it has not been seen before |
| CuaExtract.UniqLoopIsDedup | CUA_GENERATION/cua_builder_utils.py:296-300 | the `seen`/`uniq` loop over the zones gives the first occurrence of each non-empty zone, in the order the zones were collected |
| CuaExtract.ZoneList | CUA_GENERATION/cua_builder_utils.py:296-300 | the zone list is what the `seen`/`uniq` loop gives over the contributions' codes; it has no duplicates and holds exactly the non-empty codes seen |
| CuaExtract.ExtractZonesAndPct | CUA_GENERATION/cua_builder_utils.py:272-301 | the zones are what the `seen`/`uniq` loop gives over the codes of the PLU layers' contributions, so distinct, non-empty and in first-occurrence order; the share map has unique keys |
| CuaExtract.ExtractZonesShares | CUA_GENERATION/cua_builder_utils.py:277-295 | each zone key holds the largest share the PLU layers give it, and the keys are exactly those the PLU layers name |
| CuaExtract.SupTypesOf | CUA_GENERATION/cua_builder_utils.py:313 | a layer always has at least one easement type, a single blank one when none is listed |
| CuaExtract.SupLabels | CUA_GENERATION/cua_builder_utils.py:314-316 | a layer always has at least one label, its display name when no label column has values |
| CuaExtract.SupItem | CUA_GENERATION/cua_builder_utils.py:319 | a blank type shows the dash, so the type is never empty |
| CuaExtract.ProductMembers | CUA_GENERATION/cua_builder_utils.py:317-319 | the items of a layer are exactly every type paired with every label |
| CuaExtract.ExtractSupList | CUA_GENERATION/cua_builder_utils.py:304-321 | the easement list is strictly sorted by (type, label), so it has no duplicates, and it holds exactly the items of the easement layers |
| CuaExtract.SupItemsOfLayer | CUA_GENERATION/cua_builder_utils.py:312-319 | one layer's easements are every type with every label |
| CuaLayers.NonEmptyNormalized | CUA_GENERATION/cua_builder_utils.py:178-193 | normalising a non-empty list of pairs never yields an empty list |
| CuaExtract.PutMaxUnique | CUA_GENERATION/cua_builder_utils.py:286 | `pct_map[key] = max(...)` keeps the share map's keys distinct |
| CuaFields.ParcelNumOnly | CUA_GENERATION/cua_builder_utils.py:123-131 | an empty label gives the dash and a blank one is returned as is; otherwise the result is the last word without its leading zeros, a non-empty suffix of that word, and the whole word when it is all zeros |
| CuaFields.ParcelNumOnlyOfRef | CUA_GENERATION/cua_builder_utils.py:123-131 | "SEC NNNN" gives the number without leading zeros, e.g. "AC 0494" gives "494", and an all-zero number is kept |
| CuaFields.ParcelNumOnlyIdempotent | CUA_GENERATION/cua_builder_utils.py:123-131 | taking the number of a number changes nothing |
| CuaFields.Dep3 | CUA_GENERATION/cua_builder_utils.py:109 | a numeric department is zero-padded to at least three digits and keeps its digits at the end; any other department is kept |
| CuaFields.FooterFromNumero | CUA_GENERATION/cua_builder_utils.py:114-121 | the footer built from `numero_cu` always starts with "CU", whether or not the number has four '-'-separated parts |
| CuaFields.FormatFooterNumero | CUA_GENERATION/cua_builder_utils.py:105-121 | with all four header fields, the footer is "CU ddd ccc yy ND" (department padded to 3, commune to 3, the last two digits of the year, the file number upper-cased); otherwise it comes from the stripped `numero_cu`; it always starts with "CU" |
| CuaFields.NumeroSplits | CUA_GENERATION/cua_builder_utils.py:116 | a "dep-insee-yyyy-ND" number splits on '-' into its four parts |
| CuaFields.FooterRoutesAgree | CUA_GENERATION/cua_builder_utils.py:108-119 | the header route and the `numero_cu` route give the same footer for the same department, commune, year and upper-case file number |
| ParcelGroups.EntriesMembers | CUA_GENERATION/cua_builder_utils.py:666-667 | the pairs visited are exactly the (parcel, item) pairs of the map |
| ParcelGroups.Bucket | CUA_GENERATION/cua_builder_utils.py:665-674 | the buckets have one entry per key |
| ParcelGroups.BucketLookup | CUA_GENERATION/cua_builder_utils.py:665-674 | a key's bucket holds the parcels of every item with that key, in visiting order, and keys with no item have no bucket |
| ParcelGroups.RowLeOrder | CUA_GENERATION/cua_builder_utils.py:681 | the sort key (value, -pct) is a total, transitive order |
| ParcelGroups.GroupParcelsByValuePct | CUA_GENERATION/cua_builder_utils.py:656-682 | rows are sorted by value ascending, then percent descending, and are a permutation of the per-bucket rows |
| ParcelGroups.BucketAt | CUA_GENERATION/cua_builder_utils.py:674 | each bucket holds exactly the parcels of its key, and at least one |
| ParcelGroups.BucketOfEntry | CUA_GENERATION/cua_builder_utils.py:668-674 | every (parcel, item) lands in the bucket of its key (value, percent rounded to one decimal, and trunk when grouping by trunk) |
| ParcelGroups.GroupRow | CUA_GENERATION/cua_builder_utils.py:676-679 | each row lists a permutation of its key's parcels, sorted by (length, text), and the list is never empty |
| ParcelGroups.GroupHasEntry | CUA_GENERATION/cua_builder_utils.py:665-682 | every (parcel, item) shows up in the row of the item's key, so each pair is in exactly one bucket |
| CuaFields.FooterStartsWithCu | CUA_GENERATION/cua_builder_utils.py:108-113 | the footer built from the header fields always starts with "CU" |
| CuaService.FirstNonempty | cua_service.py:56-60 | None exactly when no value is present with non-blank text; a result is never empty |
| CuaService.FirstNonemptyIsFirst | cua_service.py:57-59 | the value returned is the first usable one, stripped, whatever follows it |
| CuaService.NormSection | cua_service.py:62-64 | a missing or empty section gives None; a result is non-empty, upper-case and has no spaces |
| CuaService.NormSectionIdempotent | cua_service.py:62-64 | normalising an already normalised section changes nothing |
| CuaService.Num4 | cua_service.py:66-69 | None exactly for a missing or blank number; otherwise the stripped number left-padded with zeros to at least four characters, and a number already four characters long is kept as it is |
| CuaService.Num4Idempotent | cua_service.py:66-69 | padding a padded number changes nothing |
| CuaService.DedupParcels | cua_service.py:71-77 | the loop with its `seen` set returns the reference de-duplication of the complete pairs: in input order, each kept at its first occurrence |
| CuaService.DedupCompleteMembers | cua_service.py:71-77 | no two output pairs are equal, and a pair is output exactly when it occurs in the input with both a section and a number |
| CuaService.PageHint | cua_service.py:81-89 | a page raises exactly when its land address has no postal code and the applicant's `adresse` is null; a postal code whose stripped text starts with two digits gives those digits; otherwise the header's department, stripped and upper-cased; nothing exactly when neither is there |
| CuaService.DeptHintFromPages | cua_service.py:79-90 | None exactly when every page gives nothing; otherwise the hint or the raise of the first page that gives either |
| CuaService.InlineReadsParcelArg | cua_service.py:92-101 | the service's inline parser reads the orchestrator's parcel argument back as exactly the references written, in order |
| CuaService.LabelToSlug | cua_service.py:103-104 | the slug has no spaces and is no longer than the label; a label without spaces is kept whole |
| CuaService.LabelToSlugSplits | cua_service.py:103-104 | the slug of a concatenation is the slugs of its parts, and one character gives nothing if it is a space and itself otherwise: every other character is kept, in order |
| CuaService.BatchLoop | cua_service.py:203-222 | the loop fails exactly when the reference batch does (a lookup or intersection raises); otherwise it returns that batch's reports (one per parcel, in order, a placeholder for a parcel not found) and a hit total equal to the sum of the reports' hit counters |
| CuaService.IntersectOneParcelBatch | cua_service.py:198-222 | the same guarantees with the older intersection routine applied to every located parcel |
| CuaService.DirectSetup | cua_service.py:437-444 | fails exactly when the parcel text holds no reference; otherwise returns those references and exactly the catalog layers in the allowed schemas (all of them without a list) |
| Runner.SelectLayers | INTERSECTIONS/intersections_parcelle.py:457-458 | without a schema list the layers are unchanged; otherwise exactly the layers of the listed schemas |
| Runner.Run | INTERSECTIONS/intersections_parcelle.py:446-488 | a failing INSEE lookup fails the run; no code or an empty code fails with "Impossible de déterminer un code INSEE unique."; no parcel reference fails; a success carries the resolved non-empty code, the stripped commune and department, and one report per reference matching the batch's per-reference rule |
| Reports.KeepEffective | INTERSECTIONS/intersections_parcelle.py:298 | an empty `keep` gives no columns without asking the database; otherwise it fails exactly when the column listing fails, and keeps the `keep` columns that exist, in `keep` order |
| Reports.AssignEach | INTERSECTIONS/intersections_parcelle.py:320-328 | fails exactly when one column's query fails; otherwise every kept column is bound to its query's answer and every other key keeps its previous binding, with keys unique |
| Reports.AssignOne | INTERSECTIONS/intersections_parcelle.py:328 | binding one column changes that key only, and keys stay unique |
| Reports.ValuesMap | INTERSECTIONS/intersections_parcelle.py:318-328 | fails exactly when a values query fails; otherwise the keys are exactly the kept columns, each bound to its non-null values |
| Reports.ValuesMapComprehension | INTERSECTIONS/intersections_parcelle.py:327 | each column is bound to the comprehension over its rows: the non-null values in row order, repeats included |
| Reports.SurfacesOf | INTERSECTIONS/intersections_parcelle.py:349-358 | every surface has a positive area and a share of the parcel that is the area over the parcel area times 100, or None when the parcel area is missing or zero |
| Reports.SurfacesArePositiveRows | INTERSECTIONS/intersections_parcelle.py:352-358 | exactly the rows with a positive area give a surface, one each, in query order |
| Reports.CovList | INTERSECTIONS/intersections_parcelle.py:389-397 | an unknown or zero parcel area gives an empty list; every entry has a positive area and its share of the parcel |
| Reports.CovListArePositiveRows | INTERSECTIONS/intersections_parcelle.py:390-397 | with a usable parcel area, exactly the classes with a positive area appear, in query order |
| Reports.RunLayers | INTERSECTIONS/intersections_parcelle.py:291-424 | the loop fails exactly when some layer's step raises; otherwise the hit counter equals the number of results and the results are, in layer order, what the steps produced |
| Reports.ConsThen | INTERSECTIONS/intersections_parcelle.py:291-424 | putting one layer's outcome in front commutes with joining two runs |
| Reports.RunLayersAppend | INTERSECTIONS/intersections_parcelle.py:291-424 | running two layer lists in a row gives the joined outcome of each |
| Reports.SkippedLayerDropped | INTERSECTIONS/intersections_parcelle.py:312-314 | a layer with no intersecting feature leaves exactly the outcome of the others |
| Reports.TotalHitsAppend | cua_service.py:220 | the hit total of two report lists is the sum of their totals |
| Reports.TotalHitsSnoc | cua_service.py:220 | appending one report adds its hit counter (none for a parcel not found) |
| Reports.PrefixedTwice | INTERSECTIONS/intersections_parcelle.py:465-481 | reports written in front of a batch outcome compose |
| Reports.Batch | INTERSECTIONS/intersections_parcelle.py:465-481 | fails exactly when some reference's lookup, or the intersection of a located parcel, raises; otherwise one report per reference in order: the not-found placeholder or the intersection's report |
| Reports.BatchCons | INTERSECTIONS/intersections_parcelle.py:466-481 | a reference that gives a report puts it in front of the rest of the batch |
| Reports.BatchRaisesFirst | INTERSECTIONS/intersections_parcelle.py:467 | a first reference whose lookup or intersection raises fails the whole batch |
| Intersections.TryLayer | INTERSECTIONS/intersections_parcelle.py:303-416 | a failing count raises; a count of zero or NULL gives no result; a result is tagged with the layer's schema and table, the metric column `geom_2154`, SRID 2154, and carries the positive count |
| Intersections.TryLayerMaps | INTERSECTIONS/intersections_parcelle.py:318-398 | a layer result's value keys are exactly the effective `keep` columns, its coverage keys exactly the layer's `coverage_by` columns (even when a list is empty), each bound to the coverage list of its query |
| Intersections.LayerStep | INTERSECTIONS/intersections_parcelle.py:292-424 | only the column listing outside the `try` raises out of the layer; a layer whose `try` raises is skipped; a result belongs to the layer |
| Intersections.FailingLayerDropped | INTERSECTIONS/intersections_parcelle.py:422-424 | a layer whose `try` raises leaves exactly the report the other layers give without it |
| Intersections.IntersectOneParcel | INTERSECTIONS/intersections_parcelle.py:257-441 | a carving that raises fails the parcel; a report carries the parcel's label, at most one result per layer, the results in layer order as the steps produced them, and a hit counter equal to their number |
| IntersectionsLegacy.LayerStep | intersections_parcelle.py:302-425 | with no `try`, a failing column listing or count raises out of the parcel; a count of zero or NULL gives no result |
| IntersectionsLegacy.LayerStepCoverage | intersections_parcelle.py:400-410 | a coverage column is a key exactly when its list has a class, and is then bound to that list; no other key appears |
| IntersectionsLegacy.IntersectOneParcel | intersections_parcelle.py:273-442 | a carving or any column listing that raises fails the parcel; a report carries the label, the results in layer order and a hit counter equal to their number |
| PluRegulation.KeepUpperAlnum | CUA_GENERATION/fetch_plu_regulation.py:49 | the result holds only `[0-9A-Z]`, is no longer than the input, and a text already of that form is kept |
| PluRegulation.KeepUpperAlnumChars | CUA_GENERATION/fetch_plu_regulation.py:49 | a character survives exactly when it occurs in the input and is an upper-case letter or a digit |
| PluRegulation.CanonicalizeZone | CUA_GENERATION/fetch_plu_regulation.py:40-50 | the code is canonical; a missing or empty zone gives "" |
| PluRegulation.CanonicalizeZoneChars | CUA_GENERATION/fetch_plu_regulation.py:48-49 | the code's characters are exactly the upper-cased zone's characters in `[0-9A-Z]` |
| PluRegulation.CanonicalizeZoneFixed | CUA_GENERATION/fetch_plu_regulation.py:40-50 | a canonical code is its own canonical form |
| PluRegulation.CanonicalizeZoneIdempotent | CUA_GENERATION/fetch_plu_regulation.py:40-50 | canonicalising twice is canonicalising once |
| PluRegulation.CandidateZones | CUA_GENERATION/fetch_plu_regulation.py:52-61 | no candidate exactly when the canonical code is empty; otherwise the single non-empty canonical code |
| PluRegulation.FirstText | CUA_GENERATION/fetch_plu_regulation.py:81-103 | not found exactly when no candidate's query answers a non-empty text (a query that raises moves on); otherwise the text and the candidate that gave it |
| PluRegulation.FirstTextAt | CUA_GENERATION/fetch_plu_regulation.py:81-94 | the answer is that of the first candidate whose query finds a text |
| PluRegulation.FetchForZone | CUA_GENERATION/fetch_plu_regulation.py:64-103 | a missing client raises; not found gives ("", None); a found text is non-empty, under the zone's non-empty canonical code, and is that code's query answer; a canonical code whose query answers a text is always found |
| PluRegulation.AddFoundLookup | CUA_GENERATION/fetch_plu_regulation.py:121-123 | a code already collected keeps its text; a new code with a non-empty text is added; nothing else changes |
| PluRegulation.AddFoundUnique | CUA_GENERATION/fetch_plu_regulation.py:121-123 | the collected codes stay unique |
| PluRegulation.CollectFound | CUA_GENERATION/fetch_plu_regulation.py:114-124 | the collected codes are unique; with every fetch succeeding the collection succeeds, and a last fetch that raises fails it |
| PluRegulation.CollectFoundHas | CUA_GENERATION/fetch_plu_regulation.py:117-123 | the codes collected are exactly the codes some zone fetched a non-empty text under |
| PluRegulation.CollectFoundFirst | CUA_GENERATION/fetch_plu_regulation.py:121-123 | a code holds the text of the first zone that fetched it |
| PluRegulation.FetchForZones | CUA_GENERATION/fetch_plu_regulation.py:105-124 | fails exactly when the client is missing and there is a zone to fetch; the codes are unique |
| PluRegulation.FetchForZonesCodes | CUA_GENERATION/fetch_plu_regulation.py:117-123 | every collected code is non-empty, canonical, and the canonical form of one of the requested zones |
| PluRegulation.SortedCodes | CUA_GENERATION/fetch_plu_regulation.py:134 | the codes are a permutation of the map's keys |
| PluRegulation.SortedCodesOrder | CUA_GENERATION/fetch_plu_regulation.py:134 | for a map with unique keys, the codes come in strictly increasing order, each key once |
| PluRegulation.JoinRegulations | CUA_GENERATION/fetch_plu_regulation.py:126-138 | the document is empty exactly when no regulation was found |
| PluRegulation.JoinRegulationsFirst | CUA_GENERATION/fetch_plu_regulation.py:131-138 | the document starts with the least code's block: "Zone", the code, a blank line and the stripped text |
| PluLegacy.CandForZone | fetch_plu_regulation.py:25-57 | no candidate exactly for a blank code; the whole "AU" family for a code starting with "AU"; for a numbered code "nAU", the code then "AU", then "1AU" unless the code is "1AU"; the cleaned code alone otherwise |
| PluLegacy.CleanZoneIdempotent | fetch_plu_regulation.py:37 | stripping and upper-casing a cleaned code changes nothing |
| PluLegacy.CandForZoneClean | fetch_plu_regulation.py:37 | a code and its cleaned form have the same candidates |
| PluLegacy.ArticlePart | fetch_plu_regulation.py:103-111 | an article gives nothing exactly when its title and content are both blank; otherwise a non-empty part |
| PluLegacy.Parts | fetch_plu_regulation.py:102-111 | one non-empty part per non-blank article at most; no part exactly when every article is blank |
| PluLegacy.CandLoop | fetch_plu_regulation.py:81-118 | a query error stops with a text opening with the error mark; nothing is found exactly when every candidate's query returns no row |
| PluLegacy.CandLoopAt | fetch_plu_regulation.py:81-114 | the first candidate whose query does not return an empty row list decides: its articles assembled, or an error stop |
| PluLegacy.QuoteFor | fetch_plu_regulation.py:118 | `repr` quotes a text with double quotes exactly when it holds a single quote and no double quote, otherwise with single quotes |
| PluLegacy.PyRepr | fetch_plu_regulation.py:118 | the literal opens and closes with the chosen quote, and its body reads back, escape by escape, as the text |
| PluLegacy.UnescapeEscChar | fetch_plu_regulation.py:118 | every escape `repr` writes (the quote, backslash, tab, newline, carriage return, `\xhh`) reads back as its character |
| PluLegacy.EscBodyRoundTrip | fetch_plu_regulation.py:118 | reading back the escaped body of a literal gives the original text |
| PluLegacy.Repr | fetch_plu_regulation.py:118 | the list repr is `[]` for no candidates and the bracketed item repr for one |
| PluLegacy.ReprOne | fetch_plu_regulation.py:118 | a single candidate that needs no escape is listed as its text between the chosen quotes, in brackets |
| PluLegacy.ReprQuotedCode | fetch_plu_regulation.py:57 | a direct code of the form X'Y (such as U'A) is listed as `["X'Y"]`, in double quotes |
| PluLegacy.ReprPlainCode | fetch_plu_regulation.py:57 | a direct two-letter code (such as UA) is listed as `['UA']`, in single quotes |
| PluLegacy.FetchPluRegulation | fetch_plu_regulation.py:59-118 | only a client that fails to connect raises; a missing configuration or library gives an error text; a blank code or no candidate found gives an information text; otherwise the candidate loop's text or error text |
| PluContext.InferZoneCodes | plu_regulation_context.py:5-11 | no code exactly when the chosen code (zone type, else label) is blank; the whole "AU" family for a code starting with "AU"; the code alone otherwise |
| PluContext.InferZoneCodesAsCandidates | plu_regulation_context.py:5-11 | for a code that is not a numbered "nAU", the inferred codes are the legacy fetcher's candidates |
| PluContext.FirstUsable | plu_regulation_context.py:22-26 | a kept code is one of the zone's codes, with its fetched text, which is non-empty and neither an error nor a notice; nothing is kept exactly when every fetch answers an unusable text |
| PluContext.FirstUsableAt | plu_regulation_context.py:22-26 | the kept code is the first one whose text is usable |
| PluContext.Collect | plu_regulation_context.py:19-26 | the collected codes are unique, their texts usable, and there are no more of them than zones |
| PluContext.CollectKeys | plu_regulation_context.py:19-26 | every collected code comes from one zone's code list |
| PluContext.CollectHas | plu_regulation_context.py:19-26 | a code is collected exactly when it is the first usable code of one of the lists |
| PluContext.CollectLast | plu_regulation_context.py:25 | the last zone with a usable text has the last word on its code |
| PluContext.CollectNothingUsable | plu_regulation_context.py:24 | when no fetch gives a usable text, nothing is collected |
| PluContext.CodeLists | plu_regulation_context.py:18-22 | one code list per zone, each inferred from the zone's stripped label and type |
| PluContext.Regulations | plu_regulation_context.py:13-27 | the regulations have unique codes, usable texts, at most one per zone |
| PluContext.RegulationsKeys | plu_regulation_context.py:19-25 | every code kept was inferred from some zone of the model |
| PluContext.RegulationsHas | plu_regulation_context.py:13-27 | a code has a regulation exactly when it is the first code with a usable text for one of the zones |
| PluContext.RegulationsLast | plu_regulation_context.py:25 | the last zone with a usable text has the last word on its code |
| PluContext.RegulationsForUnconfigured | plu_regulation_context.py:23-24 | with the legacy fetcher and no configured table, every fetch is an error text and no regulation is kept |
| PluContext.Section | plu_regulation_context.py:32-34 | a section opens with its header line: the code and, when known, its percentage with one decimal |
| PluContext.Sections | plu_regulation_context.py:31-34 | one section per regulation, in map order, each with that code's percentage |
| PluContext.JoinRegulationsLegacy | plu_regulation_context.py:29-35 | the text is empty exactly when there is no regulation |
| PluContext.JoinRegulationsLegacyCons | plu_regulation_context.py:29-35 | one regulation gives its section alone; with more, the first section, a blank line, then the joined remaining sections in mapping order |
| PluContext.JoinRegulationsLegacyFirst | plu_regulation_context.py:29-35 | the text opens with the first regulation's header |
| Dates.Digits | PIPELINE_VISION/cerfa_gemini_pipeline.py:48 | the decimal text of a number is all digits and reads back as the number |
| Dates.Padded | PIPELINE_VISION/cerfa_gemini_pipeline.py:48 | a number zero-padded to a width, as `strftime` prints a field, reads back as the number |
| Dates.SpaceRun | PIPELINE_VISION/cerfa_gemini_pipeline.py:46 | the leading run of whitespace that a blank in a format consumes: all whitespace, and the next character is not |
| Dates.Match | PIPELINE_VISION/cerfa_gemini_pipeline.py:46-48 | a match of a format gives one piece per directive, and the pieces put together are a prefix of the text |
| Dates.Strptime | PIPELINE_VISION/cerfa_gemini_pipeline.py:46-50 | a text read with a format gives only a valid calendar date (months of the right length, leap years) |
| Dates.FirstFormatSpec | PIPELINE_VISION/cerfa_gemini_pipeline.py:46-51 | None exactly when no format reads the text; otherwise the YYYY-MM-DD text of a date some format reads |
| Dates.FirstFormatAt | PIPELINE_VISION/cerfa_gemini_pipeline.py:46-50 | the first format that matches decides the result |
| Dates.StrptimeIsoShape | PIPELINE_VISION/cerfa_gemini_pipeline.py:46 | YYYY-MM-DD text of a valid date reads with `%Y-%m-%d` as that date |
| Dates.StrptimeIso | PIPELINE_VISION/cerfa_gemini_pipeline.py:46-48 | writing a date as YYYY-MM-DD and reading it back with `%Y-%m-%d` gives the date |
| Dates.StrptimeSlash | PIPELINE_VISION/cerfa_gemini_pipeline.py:46-48 | writing a date as DD/MM/YYYY and reading it back with `%d/%m/%Y` gives the date |
| Dates.SlashFailsOnIso | PIPELINE_VISION/cerfa_gemini_pipeline.py:46 | `%d/%m/%Y` does not read YYYY-MM-DD text |
| Dates.CompactFailsOnIso | PIPELINE_VISION/cerfa_gemini_pipeline.py:46 | `%d%m%Y` does not read YYYY-MM-DD text |
| Dates.YmdFailsOnIso | cua_docx.py:161-176 | `%Y%m%d` does not read YYYY-MM-DD text |
| Cerfa.ToIsoDate | PIPELINE_VISION/cerfa_gemini_pipeline.py:41-43 | a missing or empty value gives None |
| Cerfa.ToIsoDateSpec | PIPELINE_VISION/cerfa_gemini_pipeline.py:41-51 | a result is the YYYY-MM-DD text of the date one of the three formats reads in the stripped text |
| Cerfa.ToIsoDateOfIso | PIPELINE_VISION/cerfa_gemini_pipeline.py:41-51 | a YYYY-MM-DD date is kept as it is |
| Cerfa.ToIsoDateOfSlash | PIPELINE_VISION/cerfa_gemini_pipeline.py:41-51 | a DD/MM/YYYY date becomes the same date written YYYY-MM-DD |
| Cerfa.ToIsoDateIdempotent | PIPELINE_VISION/cerfa_gemini_pipeline.py:41-51 | normalising a normalised date changes nothing |
| Cerfa.LuhnOk | PIPELINE_VISION/cerfa_gemini_pipeline.py:53-64 | an accepted number has exactly fourteen digits once everything else is dropped, and a Luhn sum that is a multiple of ten |
| Cerfa.LuhnLeftIsAnnexB | PIPELINE_VISION/cerfa_gemini_pipeline.py:57-63 | the left-to-right sum with the length's parity is the right-to-left Luhn sum of ISO/IEC 7812-1 Annex B |
| Cerfa.LuhnOkIsAnnexB | PIPELINE_VISION/cerfa_gemini_pipeline.py:53-64 | a number passes exactly when it has fourteen digits and the standard Luhn check holds |
| Cerfa.LuhnCheckDigit | PIPELINE_VISION/cerfa_gemini_pipeline.py:53-64 | thirteen digits followed by one digit pass exactly when that digit is the standard check digit, so exactly one completion passes |
| Cerfa.NormalizeDeptForNumero | PIPELINE_VISION/cerfa_gemini_pipeline.py:202-215 | empty exactly for a blank code; "2A", "2B" and the overseas codes are kept upper-cased, as is a code without digits; otherwise the code's digits, a single digit padded to two |
| Cerfa.NormalizeDeptIdempotent | PIPELINE_VISION/cerfa_gemini_pipeline.py:202-215 | normalising a normalised code changes nothing |
| Cerfa.RStripChar | PIPELINE_VISION/cerfa_gemini_pipeline.py:185 | a prefix of the text that no longer ends with the character |
| Cerfa.LStripAny | PIPELINE_VISION/cerfa_gemini_pipeline.py:186 | the suffix left after dropping every leading character of the set, and it starts with none of them |
| Cerfa.BraceSpan | PIPELINE_VISION/cerfa_gemini_pipeline.py:187-190 | a span opens with '{' and closes with '}' |
| Cerfa.BraceSpanExists | PIPELINE_VISION/cerfa_gemini_pipeline.py:187-189 | there is a span exactly when some '{' comes before some '}' |
| Cerfa.BraceSpanWidest | PIPELINE_VISION/cerfa_gemini_pipeline.py:187-190 | the span is a slice of the text with no '{' before it and no '}' after it |
| Cerfa.FencedReply | PIPELINE_VISION/cerfa_gemini_pipeline.py:183-190 | an object fenced as a json code block is cut out of the fence exactly |
| Cerfa.DropCommaBefore | PIPELINE_VISION/cerfa_gemini_pipeline.py:194-195 | the text never grows, and a text without commas is kept |
| Cerfa.DropTrailingCommasKeeps | PIPELINE_VISION/cerfa_gemini_pipeline.py:194-195 | the repair removes nothing but commas and blanks, and leaves a text without commas unchanged |
| Cerfa.ExtractJson | PIPELINE_VISION/cerfa_gemini_pipeline.py:182-199 | no span gives None; a span that parses gives its object; a span that does not parse gives whatever parsing the repaired span gives |
| Cerfa.WithSource | PIPELINE_VISION/cerfa_gemini_pipeline.py:223-224 | only the source file changes: kept when given, otherwise the PDF name |
| Cerfa.WithIsoDate | PIPELINE_VISION/cerfa_gemini_pipeline.py:227-230 | only the deposit date changes, and only when it normalises to a date |
| Cerfa.CsvInsee | PIPELINE_VISION/cerfa_gemini_pipeline.py:233-235 | no table or no commune name gives no code; otherwise the table lookup for the commune and department |
| Cerfa.WithNumero | PIPELINE_VISION/cerfa_gemini_pipeline.py:244-253 | only the CU number changes: kept when given, otherwise the rebuilt number when one can be built |
| Cerfa.Enrich | PIPELINE_VISION/cerfa_gemini_pipeline.py:221-255 | the enrichment fails exactly when the table lookup raises |
| Cerfa.SanitizeAndEnrich | PIPELINE_VISION/cerfa_gemini_pipeline.py:217-256 | an unsuccessful extraction or one without object data is returned unchanged; otherwise the result fails exactly when the table lookup raises, and only the data is replaced by its enrichment |
| Cerfa.EnrichFields | PIPELINE_VISION/cerfa_gemini_pipeline.py:221-255 | after enrichment: the source file and date as their steps give; the INSEE code is the lookup's code when non-empty, else null; a given CU number is kept; every other field is unchanged |
| Cerfa.EnrichInseeUnique | PIPELINE_VISION/cerfa_gemini_pipeline.py:233-237 | an INSEE code set by enrichment comes from the only table row matching the commune (and department); conversely, with a readable table holding COM and LIBELLE, a single matching row with a non-empty code sets that code |
| Cerfa.RebuiltNumeroRoundTrip | PIPELINE_VISION/cerfa_gemini_pipeline.py:252-253 | a rebuilt CU number splits on '-' into its four parts, and the footer formats it the same way as the header the parts came from |
| Cerfa.EnrichIdempotent | PIPELINE_VISION/cerfa_gemini_pipeline.py:221-255 | enriching enriched metadata changes nothing |
| Cerfa.SanitizeIdempotent | PIPELINE_VISION/cerfa_gemini_pipeline.py:217-256 | sanitising a sanitised extraction changes nothing |
| Cerfa.Unfenced | PIPELINE_VISION/cerfa_gemini_pipeline.py:183-186 | a reply fenced as a json code block is stripped of its fence and language tag, leaving the object and one line break |
| Cerfa.SpanOfLine | PIPELINE_VISION/cerfa_gemini_pipeline.py:187-190 | an object followed by a line break is found as the whole span from its '{' to its '}' |
| Judge.JudgeMeta | PIPELINE_VISION/cerfa_meta_judge.py:40-68 | metadata missing a commune, a parcel or a CU type never passes and always asks for a rerun; otherwise the model's verdict is returned as given; without a usable reply, the verdict is the baseline rule alone with no reasons and no fixes; the model's reasons and fixes are always kept |
| Judge.JudgeRejectsIncomplete | PIPELINE_VISION/cerfa_meta_judge.py:47-64 | whatever the model says, metadata without a commune or without a parcel fails and asks for a rerun |
| Judge.JudgeFallbackIsBaseline | PIPELINE_VISION/cerfa_meta_judge.py:47-68 | without the model, the verdict passes exactly when a commune, a parcel and a CU type are all present |
| Judge.CallWithRetry | PIPELINE_VISION/cerfa_gemini_pipeline.py:302-324 | at most five attempts; a reply gives its text (empty for none); the attempts before the last all raised a transient error (503, UNAVAILABLE, overloaded); giving up happens on a non-transient error or at the fifth attempt, with that attempt's error |
| Judge.CallWithRetryStopsAt | PIPELINE_VISION/cerfa_gemini_pipeline.py:302-319 | the first attempt that replies, raises a non-transient error or is the fifth is the last one made |
| Judge.ApplyFixes | PIPELINE_VISION/cerfa_gemini_pipeline.py:350-356 | each fix that is given replaces its field; every other field is unchanged |
| Judge.Round | PIPELINE_VISION/cerfa_gemini_pipeline.py:298-334 | a round makes one to five model calls; it ends in a call error exactly when the retries give up, and in a parse error exactly when the reply holds no JSON object or only the empty one `{}`; a sanitised extraction is successful and holds data |
| Judge.AfterCall | PIPELINE_VISION/cerfa_gemini_pipeline.py:326-332 | the call's attempts are the round's calls; a parse error exactly when the text holds no object or `{}`, which is falsy for `if not parsed` |
| Judge.Rounds | PIPELINE_VISION/cerfa_gemini_pipeline.py:293-380 | the loop makes at least one more round and at most `max_judge_retries + 1` in all; each round makes one to five calls; each round adds at most one verdict, after the earlier ones |
| Judge.Steps | PIPELINE_VISION/cerfa_gemini_pipeline.py:298-334 | every round of a run makes between one and five model calls |
| Judge.Run | PIPELINE_VISION/cerfa_gemini_pipeline.py:289-380 | one to `max_judge_retries + 1` rounds, each with one to five calls; every verdict but the last failed and asked for a rerun; an accepted run's last verdict passed; without the judge there is one round and no verdict |
| Judge.FinalPassIffAccepted | PIPELINE_VISION/cerfa_gemini_pipeline.py:367-389 | the recorded `final_pass` is true exactly when the judge accepted the extraction |
| CuaDocx.NormalizeIntersectionsPayload | cua_docx.py:66-94 | a payload with top-level results is returned as it is; otherwise the results become those of the first report (none when absent), the reports and context are kept, and a parcel is always present, whose truthy area and non-empty WKT are never overwritten |
| CuaDocx.NormalizeIdempotent | cua_docx.py:66-94 | normalising a normalised payload changes nothing |
| CuaDocx.NormalizeBorrowsArea | cua_docx.py:85-87 | on the new schema, the context's truthy area fills a parcel that has none |
| CuaDocx.RoundHalfUp | cua_docx.py:98 | the nearest integer, a tie going away from zero as `ROUND_HALF_UP` does |
| CuaDocx.RoundPctFractionToPct | cua_docx.py:96-98 | the fraction times 100 to within half a hundredth, with at most two decimals |
| CuaDocx.RoundPctExact | cua_docx.py:96-98 | a fraction with at most four decimals converts to its percent exactly |
| CuaDocx.RoundPctExample | cua_docx.py:97 | 0.50478 gives 50.48 |
| CuaDocx.LastWhere | cua_docx.py:105 | None exactly when no key qualifies; otherwise the last key that does, as a dict comprehension keeps the last entry for a repeated key |
| CuaDocx.KeyFor | cua_docx.py:105-108 | a key found is a non-empty key of the dict equal to the candidate up to case |
| CuaDocx.KeyForSome | cua_docx.py:105-108 | a key is found exactly when some non-empty key equals the candidate up to case |
| CuaDocx.FirstFound | cua_docx.py:106-109 | None exactly when no candidate finds an answer; otherwise the first candidate's answer |
| CuaDocx.FindKeyCi | cua_docx.py:103-109 | None exactly when no candidate matches a key up to case; otherwise the key of the first candidate that matches, a non-empty key of the dict |
| CuaDocx.ValueAttr | cua_docx.py:111-116 | no matching attribute gives no value; otherwise the non-null values of the first matching attribute, in order and with their repeats (its first value is the one `va[0]` reads) |
| CuaDocx.PairsOf | cua_docx.py:123-126 | one pair per row: the value's text and its fraction, a missing fraction read as zero |
| CuaDocx.CoveragePairs | cua_docx.py:118-127 | no matching coverage list gives no pair; otherwise one pair per row of the first matching list |
| CuaDocx.ClassifyFrom | cua_docx.py:133-159 | from one rule on: "autres" exactly when no later rule's needle is in the name; otherwise the class of the first rule whose needle is |
| CuaDocx.Classify | cua_docx.py:133-159 | "autres" exactly when no rule's needle is in the lower-cased table name; otherwise the class of the first rule that has one |
| CuaDocx.ClassifyZonage | cua_docx.py:135-136 | a table is a zoning layer exactly when its lower-cased name contains "zone_urba" or "zonage_plu" |
| CuaDocx.LaterRulesNotZonage | cua_docx.py:137-159 | no rule after the first gives the zoning class |
| CuaDocx.ParseDate | cua_docx.py:161-163 | None exactly for empty text |
| CuaDocx.ParseDateSpec | cua_docx.py:161-176 | a non-empty text one of the three formats reads gives the YYYY-MM-DD text of that date; any other text gives the part of the stripped text before its first space |
| CuaDocx.ParseDateOfIso | cua_docx.py:161-171 | a YYYY-MM-DD date is kept as it is |
| Zonage.AddPairs | cua_docx.py:236-239 | adding coverage pairs keeps the labels unique |
| Zonage.PairSumConcat | cua_docx.py:236-239 | the fractions of two pair lists sum label by label |
| Zonage.Bump | cua_docx.py:238 | a label's fraction grows by the pair's fraction, from zero for a new label |
| Zonage.AddOnePct | cua_docx.py:237-238 | one pair adds its fraction to its own label and leaves the others unchanged |
| Zonage.AddPairsPct | cua_docx.py:236-239 | each label's fraction grows by the sum of its pairs' fractions |
| Zonage.AddPairsKeys | cua_docx.py:236-239 | the labels after are those before plus the pairs' values |
| Zonage.AssignTypes | cua_docx.py:242-248 | the first zones, in insertion order, take the layer's zone types one by one; labels, fractions and the other zones' types are unchanged |
| Zonage.AssignTypesKeeps | cua_docx.py:246-247 | assigning types keeps every label, the labels unique, and every fraction |
| Zonage.DateOf | cua_docx.py:254-257 | a date offered by one attribute is non-empty |
| Zonage.NextDate | cua_docx.py:253-258 | a date already found is kept; otherwise the layer's date, `datappro` before `DATAPPRO` |
| Zonage.View | cua_docx.py:228-266 | the layer view's date, when present, is non-empty |
| Zonage.ViewFacts | cua_docx.py:253-270 | a view is a zoning view exactly when the layer classifies as zoning, and carries the layer's date |
| Zonage.IngestZones | cua_docx.py:234-248 | labels stay unique; each label's fraction grows by its pairs' fractions; the labels after are those before plus the pairs' values |
| Zonage.Ingest | cua_docx.py:228-266 | one layer keeps the state well formed and updates the fractions and labels as its pairs say |
| Zonage.Fold | cua_docx.py:268-274 | folding the layers in order keeps labels unique and any date found non-empty |
| Zonage.ZoneLeOrder | cua_docx.py:284 | the order by decreasing percent, then label, is total and transitive |
| Zonage.ToZones | cua_docx.py:276-282 | one zone per label, in insertion order, with its type and its fraction rounded to a percent |
| Zonage.FromViews | cua_docx.py:276-293 | the zones are sorted by decreasing percent then label, are a permutation of the accumulated zones, and the date found is non-empty |
| Zonage.FoldPct | cua_docx.py:236-274 | a label's accumulated fraction is the sum of its fractions over the zoning layers' pairs, and a label appears exactly when some zoning pair carries it |
| Zonage.FoldDate | cua_docx.py:253-274 | a date is found exactly when some zoning layer offers one, and it is that of the first such layer |
| Zonage.FoldNom | cua_docx.py:262-274 | the PLU name is "PLU de la commune" exactly when some zoning layer has an INSEE attribute value, and none otherwise |
| Zonage.FoldOnlyZoning | cua_docx.py:268-274 | dropping the layers that are not zoning layers changes nothing |
| Zonage.ViewsFilter | cua_docx.py:268-274 | the views of the zoning layers are the zoning views |
| Zonage.ZonageOnlyZoning | cua_docx.py:216-293 | the result on the zoning layers alone is the result on all layers |
| Zonage.ZonageZone | cua_docx.py:276-282 | every zone's label comes from a zoning layer's coverage, and its percent is the rounded sum of that label's fractions |
| Zonage.ZonageCovers | cua_docx.py:236-282 | every label of a zoning layer's coverage has its zone in the result |
| Zonage.ZonageDate | cua_docx.py:253-274 | the approval date is present exactly when some zoning layer offers one, and is that of the first such layer |
| CuaDocx.RoundHalfUpWhole | cua_docx.py:98 | half-up rounding leaves a whole number unchanged |
| CuaDocx.IsoDocxFirst | cua_docx.py:161-171 | a valid YYYY-MM-DD text is read by the first accepted format, as the same date |
| Zonage.LayerDate | cua_docx.py:253-258 | a layer's approval date, `datappro` first then `DATAPPRO`, is non-empty when present |
| ReportJson.RoundHalfEven | report_from_json.py:17 | the nearest integer, a tie going to the even one as Python's `round` does |
| ReportJson.RoundTenth | report_from_json.py:17 | within half a tenth of the value, with at most one decimal |
| ReportJson.Round1 | report_from_json.py:15-19 | null, 0 and "" give 0.0; None exactly for a non-empty text that does not convert to a number; a number is rounded to within half a tenth; every result has at most one decimal |
| ReportJson.RoundHalfEvenWhole | report_from_json.py:17 | a whole number rounds to itself |
| ReportJson.Round1Idempotent | report_from_json.py:15-19 | rounding a rounded value changes nothing |
| ReportJson.AreaSumConcat | report_from_json.py:43-47 | the area total of two row lists is the sum of their totals |
| ReportJson.AreaSumNumericOnly | report_from_json.py:45-47 | rows without a numeric area do not count towards the total |
| ReportJson.LayerTotals | report_from_json.py:42-55 | the intersected total is the sum of the numeric areas when positive and null otherwise; the parcel percentage is null exactly when the parcel area is missing or zero, and is otherwise the sum over the parcel area times 100 |
| ReportJson.WithTotals | report_from_json.py:52-55 | a layer gains its totals and nothing else changes |
| ReportJson.ReportWithTotals | report_from_json.py:41-55 | every layer of a report gains its own totals, in place |
| ReportJson.FirstInLayers | report_from_json.py:48-50 | None exactly when no layer has a truthy parcel area; otherwise a truthy area |
| ReportJson.FirstInLayersIsFirst | report_from_json.py:48-50 | the area found is that of a layer no truthy layer precedes |
| ReportJson.FirstArea | report_from_json.py:40-50 | None exactly when no layer of any report has a truthy parcel area; otherwise a truthy area |
| ReportJson.FirstAreaIsFirst | report_from_json.py:40-50 | the estimate comes from a layer that no truthy layer precedes, reports in order and layers in order within a report |
| ReportJson.SetAreaEst | report_from_json.py:57-58 | an existing estimate key is kept, even null; otherwise the context (created if missing) gets the estimate |
| ReportJson.AddSurfaceTotals | report_from_json.py:31-59 | same reports and layers; every layer gains its totals and nothing else changes; the context is unchanged without an estimate and otherwise gets the first truthy parcel area as its default |
| ReportJson.FirstAreaWithTotals | report_from_json.py:40-55 | adding totals does not change which parcel area comes first |
| ReportJson.ReportWithTotalsTwice | report_from_json.py:41-55 | adding a report's totals twice is adding them once |
| ReportJson.AddSurfaceTotalsIdempotent | report_from_json.py:31-59 | adding the totals to a payload that has them changes nothing |
| ReportJson.TruncateAttr | report_from_json.py:73-75 | a list longer than the maximum keeps its first `max` values followed by "…"; a shorter list, or a value that is not a list, is unchanged |
| ReportJson.TruncateIdempotent | report_from_json.py:73-75 | truncating a truncated list changes nothing |
| ReportJson.TruncateValues | report_from_json.py:72-75 | the same attributes in the same order, each truncated |
| ReportJson.AreaDescOrder | report_from_json.py:80-84 | the order by decreasing area is total and transitive |
| ReportJson.ByArea | report_from_json.py:80-84 | a permutation of the rows with a numeric area, largest area first |
| ReportJson.TopRows | report_from_json.py:80-85 | at most `max` rows (fewer only when fewer rows are numeric), all numeric rows of the input, largest first |
| ReportJson.CompactSurfaces | report_from_json.py:78-85 | a missing list stays missing; a list no longer than the maximum is unchanged; a longer one becomes its largest numeric rows followed by the "…" row |
| ReportJson.PrefixIsTop | report_from_json.py:85 | cutting a sorted list keeps rows at least as large as every dropped one |
| ReportJson.TopRowsSub | report_from_json.py:80-85 | the rows kept are drawn from the numeric rows, each no more often than it occurs |
| ReportJson.TopRowsTop | report_from_json.py:80-85 | every numeric row dropped has an area no larger than every row kept |
| ReportJson.CompactReport | report_from_json.py:70-85 | every layer of a report is compacted in place |
| ReportJson.CompactPayload | report_from_json.py:62-86 | the context is that of the totals step; same reports and layers; each layer keeps its table and parcel area, gains its totals, has its values truncated and its surfaces compacted |
| ReportJson.FindLayer | report_from_json.py:172-176 | None exactly when no layer has the table; otherwise a layer with that table |
| ReportJson.FindLayerFirst | report_from_json.py:173-175 | the layer found is the first with that table |

## Left out

- Geometry: the PostGIS SQL is not modelled (intersection, area, reprojection to EPSG:2154, statement timeouts). The count, column, distinct-value, area and grouped-coverage queries are oracles that return rows or fail.
- Enclave carving: `detect_and_carve_enclaves` is not part of this model. Only the corrected geometry it returns enters, as an oracle result.
- Network and storage: the WFS lookup, the database engine and the Supabase clients are oracles. Their sockets, environment variables, retry sleeps and logging are left out.
- LLM calls: Gemini and the meta-judge's model are oracles, and so is `json.loads`. The prompts, the PDF upload, the backoff sleeps and the JSON files written after each attempt are left out.
- Rendering and front ends: DOCX and HTML/map output, the FastAPI app, the notifier and the orchestrator's uploads and inserts are I/O with no logic to prove.
- `build_ppr_struct` and `build_env_struct`: these consumers of `normalize_pairs` only format its output into document tables. `Coverage` covers the normaliser they rely on.
- Text formatting: `pct_fr`, `_pct_str`, `f"{:.1f}"`, `_compute_surface_m2` and the printed forms of `round` produce display strings only.
- PluLegacy.PyRepr: `repr` escapes of characters above U+00FF that Unicode does not class as printable (`\uXXXX`, `\UXXXXXXXX`) are not modelled; such characters are written as they are. Those escapes depend on the Unicode character database. Every Latin-1 character is escaped as Python does.
- Disk and CSV reading: the import-time load of the mapping file and the pandas CSV read are left out. The mapping starts from an already-parsed dict, and the CSV is a sequence of text rows (or a read failure).
- Floating point: percentages and areas are exact `real`s. IEEE rounding and `Decimal` conversion errors are not modelled, and `round(x, 1)` in `group_parcels_by_value_pct` is a parameter.
- Characters: whitespace is the ASCII set (space, tab, line feed, carriage return, vertical tab, form feed), and digits are ASCII. Case mapping covers ASCII and Latin-1 only; other Unicode mappings (such as "ß" to "SS") are not modelled.
- JSON values: parsed JSON is modelled as records of the fields the code reads. Some cases are not modelled: non-string scalar values where text is expected, a `json.loads` result that is not a dict, and Python's `bool` counting as an `int`. Nor are a `terrain_adresse` or `coord_demandeur` that is a non-object truthy value, which would also raise in `_dept_hint_from_pages`; the null `adresse` that raises there is modelled.
- Judge details: autofix keys other than the three the pipeline applies are dropped. The `judge_validation` record keeps only `final_pass`. A negative `max_judge_retries` is excluded by its `nat` type.
- `group_parcels_by_value_pct` tuple arity: items always carry an optional trunk, and a flag chooses whether it enters the key. The source's 2- versus 3-tuples are not distinguished.
- `extract_zones_and_pct` and `canonicalize_zone`: whether the import of `canonicalize_zone` succeeded is a boolean parameter.
- `parcel_extra` and enclave statistics: the `enclaves` and `holes_in_host` blocks that the carving adds to the parcel record are dropped from the modelled report, which keeps only the label.
- Query limits: the SQL `LIMIT` on sampled values is part of the oracle's answer.
- ReportJson.AddSurfaceTotals: the deep copy is implicit, since values are immutable. Context keys other than `parcel_area_est_m2`, and a context that is not a dict, are not modelled.
- ReportJson.TopRows: the order among rows of equal area is not stated; Python's stable sort keeps their input order.
- PluRegulation.JoinRegulations: the contract states only that the document is empty exactly when the map is. `PluRegulation.JoinRegulationsFirst` adds that the document opens with the block of the least code. The ordering of the later blocks is not stated.
- Dates.Strptime: only the formats the code uses (`%d/%m/%Y`, `%d%m%Y`, `%Y-%m-%d`, `%Y%m%d`, `%Y-%m-%d %H:%M:%S`) are modelled, with `strptime`'s digit-width rules. Locale and other directives are left out.

## Findings

| source | as written | input that shows it | evidently intended | confidence | as-written member | corrected member |
|---|---|---|---|---|---|---|
| CUA_GENERATION/cua_builder_utils.py:54 | the derived table-name variants are merged with `dict.update`, which overwrites keys already bound by the JSON file | JSON keys "t" to A and "public.t" to B: the derived "public.t" to A replaces B, and the derived "t" to B replaces A | the comments at lines 29 and 43-44: a derived key never replaces a bound one, as `_put_mapping_key` does | not executed | Mapping.UpdateOverwritesExact | Mapping.DeriveMappingKeepsExample |

=== FILE: assoc.dfy ===
/** Python dictionaries whose iteration order matters, as association lists:
    a key is bound at most once, assignment to a present key keeps its
    position, assignment to a new key appends it. */
module Assoc {
  import opened Wrappers

  type Assoc<K, V> = seq<(K, V)>

  function Keys<K, V>(m: Assoc<K, V>): (ks: seq<K>)
    ensures |ks| == |m|
    ensures forall i | 0 <= i < |m| :: ks[i] == m[i].0
  {
    if |m| == 0 then [] else [m[0].0] + Keys(m[1..])
  }

  function Values<K, V>(m: Assoc<K, V>): (vs: seq<V>)
    ensures |vs| == |m|
    ensures forall i | 0 <= i < |m| :: vs[i] == m[i].1
  {
    if |m| == 0 then [] else [m[0].1] + Values(m[1..])
  }

  predicate UniqueKeys<K(==), V>(m: Assoc<K, V>) {
    forall i, j | 0 <= i < j < |m| :: m[i].0 != m[j].0
  }

  /** `d.get(k)`: the value bound to the first occurrence of `k`. */
  function Lookup<K(==), V>(m: Assoc<K, V>, k: K): (r: Option<V>)
    ensures r.None? <==> k !in Keys(m)
    ensures r.Some? ==> exists i | 0 <= i < |m| :: m[i] == (k, r.value)
  {
    if |m| == 0 then None
    else if m[0].0 == k then Some(m[0].1)
    else
      var r := Lookup(m[1..], k);
      assert r.Some? ==> exists i | 0 <= i < |m[1..]| :: m[1..][i] == (k, r.value);
      r
  }

  lemma LookupAt<K, V>(m: Assoc<K, V>, i: nat)
    requires UniqueKeys(m) && i < |m|
    ensures Lookup(m, m[i].0) == Some(m[i].1)
  {
    if i > 0 {
      assert UniqueKeys(m[1..]);
      LookupAt(m[1..], i - 1);
    }
  }

  /** `d[k] = v`: a present key keeps its place, a new key goes last. */
  function Put<K(==), V>(m: Assoc<K, V>, k: K, v: V): (r: Assoc<K, V>)
    ensures k in Keys(m) ==> Keys(r) == Keys(m)
    ensures k !in Keys(m) ==> Keys(r) == Keys(m) + [k]
  {
    if |m| == 0 then [(k, v)]
    else if m[0].0 == k then [(k, v)] + m[1..]
    else
      var rest := Put(m[1..], k, v);
      assert Keys(m) == [m[0].0] + Keys(m[1..]);
      assert Keys([m[0]] + rest) == [m[0].0] + Keys(rest);
      [m[0]] + rest
  }

  lemma {:induction false} PutLookup<K, V>(m: Assoc<K, V>, k: K, v: V, k': K)
    ensures Lookup(Put(m, k, v), k') == if k' == k then Some(v) else Lookup(m, k')
  {
    if |m| > 0 && m[0].0 != k {
      PutLookup(m[1..], k, v, k');
    }
  }

  /** Every binding after `d[k] = v` was there before or is the new one. */
  lemma {:induction false} PutEntries<K, V>(m: Assoc<K, V>, k: K, v: V)
    ensures forall e | e in Put(m, k, v) :: e in m || e == (k, v)
  {
    if |m| > 0 && m[0].0 != k {
      PutEntries(m[1..], k, v);
      assert forall e | e in m[1..] :: e in m;
    }
  }

  /** Binding a new key appends it. */
  lemma {:induction false} PutNew<K, V>(m: Assoc<K, V>, k: K, v: V)
    requires k !in Keys(m)
    ensures Put(m, k, v) == m + [(k, v)]
  {
    if |m| > 0 {
      assert m[0].0 == Keys(m)[0] && k != m[0].0;
      assert k !in Keys(m[1..]) by {
        forall j | 0 <= j < |m[1..]| ensures Keys(m[1..])[j] != k {
          assert Keys(m[1..])[j] == Keys(m)[j + 1];
        }
      }
      PutNew(m[1..], k, v);
      assert Put(m, k, v) == [m[0]] + Put(m[1..], k, v);
      assert [m[0]] + (m[1..] + [(k, v)]) == m + [(k, v)];
    }
  }

  lemma {:induction false} PutUnique<K, V>(m: Assoc<K, V>, k: K, v: V)
    requires UniqueKeys(m)
    ensures UniqueKeys(Put(m, k, v))
  {
    var r := Put(m, k, v);
    forall i, j | 0 <= i < j < |r| ensures r[i].0 != r[j].0 {
      assert Keys(r)[i] == r[i].0 && Keys(r)[j] == r[j].0;
      if k in Keys(m) {
        assert Keys(m)[i] == m[i].0 && Keys(m)[j] == m[j].0;
      } else if j == |m| {
        assert Keys(m)[i] == m[i].0;
      } else {
        assert Keys(m)[i] == m[i].0 && Keys(m)[j] == m[j].0;
      }
    }
  }

  /** `d.setdefault(k, v)`: binds `k` only when it is absent. */
  function PutIfAbsent<K(==), V>(m: Assoc<K, V>, k: K, v: V): (r: Assoc<K, V>)
    ensures Lookup(r, k) == Some(Lookup(m, k).GetOr(v))
    ensures k in Keys(m) ==> r == m
    ensures k !in Keys(m) ==> Keys(r) == Keys(m) + [k]
  {
    if k in Keys(m) then m
    else
      PutLookup(m, k, v, k);
      Put(m, k, v)
  }
}

=== FILE: catalog.dfy ===
/** The layer catalog: a JSON object whose keys are qualified table names
    `schema.table` and whose entries name the geometry column, the columns to
    sample (`keep`) and the columns to measure coverage by (`coverage_by`).
    Both intersection runners parse it identically. */
module Catalog {
  import opened Wrappers
  import opened Text
  import opened Assoc

  /** `coverage_by` as found in the file: a list, or a legacy comma list. */
  datatype CoverageBy = ByList(cols: seq<string>) | ByText(text: string)

  /** One catalog entry; `None` is a key absent from the entry. */
  datatype Entry = Entry(geom: Option<string>, keep: Option<seq<string>>, coverageBy: Option<CoverageBy>)

  /** One layer to intersect. */
  datatype Layer = Layer(schema: string, table: string, geomCol: string, keep: seq<string>, coverageBy: seq<string>)

  function QualifiedName(l: Layer): string {
    l.schema + "." + l.table
  }

  /** `[c.strip() for c in text.split(",") if c.strip()]`. */
  function SplitCoverageText(text: string): (cols: seq<string>)
    ensures forall i | 0 <= i < |cols| :: |cols[i]| > 0 && Strip(cols[i]) == cols[i] && ',' !in cols[i]
  {
    var parts := SplitOn(text, ',');
    var cols := StrippedNonEmpty(parts);
    StrippedNoComma(parts, ',');
    cols
  }

  lemma {:induction false} StrippedNoComma(xs: seq<string>, c: char)
    requires forall i | 0 <= i < |xs| :: c !in xs[i]
    ensures forall i | 0 <= i < |StrippedNonEmpty(xs)| :: c !in StrippedNonEmpty(xs)[i]
  {
    if |xs| > 0 {
      StrippedNoComma(xs[1..], c);
      StripNoChar(xs[0], c);
    }
  }

  function CoverageColumns(c: Option<CoverageBy>): seq<string> {
    match c
    case None => []
    case Some(ByList(cols)) => cols
    case Some(ByText(text)) => SplitCoverageText(text)
  }

  /** The layer for a qualified key: split on the first '.', defaults filled in. */
  function LayerOf(key: string, e: Entry): (l: Layer)
    requires '.' in key
    ensures QualifiedName(l) == key && '.' !in l.schema
    ensures l.geomCol == e.geom.GetOr("geom")
    ensures l.keep == e.keep.GetOr([])
    ensures l.coverageBy == CoverageColumns(e.coverageBy)
  {
    var (schema, table) := SplitFirst(key, '.');
    Layer(schema, table, e.geom.GetOr("geom"), e.keep.GetOr([]), CoverageColumns(e.coverageBy))
  }

  /** `load_layer_map`: one layer per qualified key, in key order; keys
      without a '.' are skipped. */
  function LoadLayerMap(raw: Assoc<string, Entry>): (layers: seq<Layer>)
    ensures |layers| <= |raw|
    ensures forall i | 0 <= i < |layers| :: '.' !in layers[i].schema && QualifiedName(layers[i]) in Keys(raw)
  {
    if |raw| == 0 then []
    else
      var (key, e) := raw[0];
      var rest := LoadLayerMap(raw[1..]);
      assert Keys(raw) == [key] + Keys(raw[1..]);
      if '.' in key then [LayerOf(key, e)] + rest else rest
  }

  /** No two layers share a qualified name. */
  predicate DistinctNames(ls: seq<Layer>) {
    forall i, j | 0 <= i < j < |ls| :: QualifiedName(ls[i]) != QualifiedName(ls[j])
  }

  /** A catalog with distinct keys, as a parsed JSON object has, gives
      layers with distinct qualified names. */
  lemma {:induction false} LoadLayerMapDistinct(raw: Assoc<string, Entry>)
    requires UniqueKeys(raw)
    ensures DistinctNames(LoadLayerMap(raw))
  {
    if |raw| > 0 {
      UniqueTail(raw);
      LoadLayerMapDistinct(raw[1..]);
      LoadLayerMapCons(raw);
      var key := raw[0].0;
      var rest := LoadLayerMap(raw[1..]);
      if '.' in key {
        forall k | 0 <= k < |rest| ensures QualifiedName(rest[k]) != QualifiedName(LayerOf(key, raw[0].1)) {
          assert QualifiedName(rest[k]) in Keys(raw[1..]);
        }
        DistinctCons(LayerOf(key, raw[0].1), rest);
      }
    }
  }

  lemma LoadLayerMapCons(raw: Assoc<string, Entry>)
    requires |raw| > 0
    ensures LoadLayerMap(raw) ==
      (if '.' in raw[0].0 then [LayerOf(raw[0].0, raw[0].1)] else []) + LoadLayerMap(raw[1..])
  {
  }

  lemma DistinctCons(l: Layer, rest: seq<Layer>)
    requires DistinctNames(rest)
    requires forall k | 0 <= k < |rest| :: QualifiedName(rest[k]) != QualifiedName(l)
    ensures DistinctNames([l] + rest)
  {
    var ls := [l] + rest;
    forall i, j | 0 <= i < j < |ls| ensures QualifiedName(ls[i]) != QualifiedName(ls[j]) {
      assert ls[j] == rest[j - 1];
      if i > 0 {
        assert ls[i] == rest[i - 1];
      }
    }
  }

  /** Past the first entry of a map with distinct keys, the keys stay
      distinct and the first key does not return. */
  lemma UniqueTail<V>(raw: Assoc<string, V>)
    requires |raw| > 0
    ensures UniqueKeys(raw) ==> UniqueKeys(raw[1..]) && raw[0].0 !in Keys(raw[1..])
  {
    if UniqueKeys(raw) {
      forall i, j | 0 <= i < j < |raw[1..]| ensures raw[1..][i].0 != raw[1..][j].0 {
        assert raw[1..][i] == raw[i + 1] && raw[1..][j] == raw[j + 1];
      }
      forall k | 0 <= k < |raw[1..]| ensures Keys(raw[1..])[k] != raw[0].0 {
        assert raw[1..][k] == raw[k + 1];
      }
    }
  }

  /** The keys that name a table in some schema, in order. */
  function QualifiedKeys(ks: seq<string>): seq<string> {
    if |ks| == 0 then []
    else (if '.' in ks[0] then [ks[0]] else []) + QualifiedKeys(ks[1..])
  }

  function QualifiedNames(ls: seq<Layer>): (ns: seq<string>)
    ensures |ns| == |ls|
    ensures forall i | 0 <= i < |ls| :: ns[i] == QualifiedName(ls[i])
  {
    if |ls| == 0 then [] else [QualifiedName(ls[0])] + QualifiedNames(ls[1..])
  }

  /** The layers come back in catalog order and re-qualifying them gives back
      exactly the dotted keys: the first-dot split loses nothing. */
  lemma {:induction false} LoadLayerMapOrder(raw: Assoc<string, Entry>)
    ensures QualifiedNames(LoadLayerMap(raw)) == QualifiedKeys(Keys(raw))
  {
    if |raw| > 0 {
      LoadLayerMapOrder(raw[1..]);
      assert Keys(raw)[1..] == Keys(raw[1..]);
      var key := raw[0].0;
      if '.' in key {
        assert QualifiedNames([LayerOf(key, raw[0].1)] + LoadLayerMap(raw[1..]))
            == [key] + QualifiedNames(LoadLayerMap(raw[1..]));
      }
    }
  }

  /** The layer built from the i-th dotted key carries that key's entry. */
  lemma {:induction false} LoadLayerMapEntry(raw: Assoc<string, Entry>, i: nat)
    requires i < |raw| && '.' in raw[i].0
    ensures LayerOf(raw[i].0, raw[i].1) in LoadLayerMap(raw)
  {
    if i > 0 {
      LoadLayerMapEntry(raw[1..], i - 1);
    }
  }

  /** Writing the columns back as a comma list and re-reading it gives the
      same columns: the legacy text form loses nothing for clean names. */
  lemma CoverageTextRoundTrip(cols: seq<string>)
    requires forall i | 0 <= i < |cols| :: |cols[i]| > 0 && Strip(cols[i]) == cols[i] && ',' !in cols[i]
    ensures SplitCoverageText(JoinSep(cols, [','])) == cols
  {
    if |cols| == 0 {
      assert SplitOn("", ',') == [""];
      assert Strip("") == "";
    } else {
      JoinSplit(cols, ',');
      StrippedNonEmptyFixed(cols);
    }
  }
}

=== FILE: cerfa.dfy ===
/** The field sanitisers of the CERFA extraction: the filing date, the SIRET
    check digit, the department code used in the CU number, the JSON object
    cut out of the model's reply, and `sanitize_and_enrich`, which applies
    them to an extraction. */
module Cerfa {
  import opened Wrappers
  import opened Text
  import opened Dates
  import opened Insee
  import opened CuaFields
  import opened Seqs

  // ------------------------------------------------------------------ date

  /** `%d/%m/%Y`, `%d%m%Y`, `%Y-%m-%d`, in the order they are tried. */
  const CerfaDateFormats: seq<seq<Directive>> := [DayMonthYearSlash, DayMonthYear, IsoDate]

  /** `_to_iso_date`: the stripped text read with the first format that
      accepts it, written YYYY-MM-DD; nothing for empty text. */
  function ToIsoDate(s: Option<string>): (r: Option<string>)
    ensures !Given(s) ==> r.None?
  {
    if !Given(s) then None else FirstFormat(CerfaDateFormats, Strip(s.value))
  }

  /** A result is the ISO text of the date one of the formats reads in the
      stripped text. */
  lemma ToIsoDateSpec(s: Option<string>)
    ensures ToIsoDate(s).Some? ==> exists i | 0 <= i < |CerfaDateFormats| ::
      Strptime(CerfaDateFormats[i], Strip(s.value)).Some? &&
      ToIsoDate(s).value == IsoText(Strptime(CerfaDateFormats[i], Strip(s.value)).value)
  {
    if ToIsoDate(s).Some? {
      var t := Strip(s.value);
      FirstFormatSpec(CerfaDateFormats, t);
      var i :| 0 <= i < |CerfaDateFormats| && FirstFormat(CerfaDateFormats, t) == IsoOf(CerfaDateFormats[i], t);
      assert Strptime(CerfaDateFormats[i], t).Some?;
    }
  }

  /** Text with neither a leading nor a trailing blank is its own strip. */
  lemma ShapeStripped(s: string)
    requires IsoShape(s) || SlashShape(s)
    ensures Strip(s) == s
  {
    assert IsDigit(s[0]) && IsDigit(s[9]);
    StripNoSpace(s);
  }

  /** The formats read by `_to_iso_date`, `s` already stripped. */
  lemma ToIsoDateVia(s: string, x: string)
    requires s != "" && Strip(s) == s && FirstFormat(CerfaDateFormats, s) == Some(x)
    ensures ToIsoDate(Some(s)) == Some(x)
  {
  }

  lemma IsoFirst(s: string)
    requires IsoShape(s) && Valid(IsoDateOf(s))
    ensures FirstFormat(CerfaDateFormats, s) == Some(IsoText(IsoDateOf(s)))
  {
    SlashFailsOnIso(s);
    CompactFailsOnIso(s);
    StrptimeIsoShape(s);
    FirstFormatAt(CerfaDateFormats, s, 2);
  }

  /** A YYYY-MM-DD date is kept as it is: `%d/%m/%Y` and `%d%m%Y` reject it
      and `%Y-%m-%d` reads it back. */
  lemma ToIsoDateOfIso(dt: Date)
    requires Valid(dt)
    ensures ToIsoDate(Some(IsoText(dt))) == Some(IsoText(dt))
  {
    var s := IsoText(dt);
    IsoTextParts(dt);
    assert IsoDateOf(s) == dt;
    IsoFirst(s);
    ShapeStripped(s);
    ToIsoDateVia(s, s);
  }

  lemma SlashFirst(s: string)
    requires SlashShape(s) && Valid(SlashDateOf(s))
    ensures FirstFormat(CerfaDateFormats, s) == Some(IsoText(SlashDateOf(s)))
  {
    StrptimeSlashShape(s);
    FirstFormatAt(CerfaDateFormats, s, 0);
  }

  /** A DD/MM/YYYY date becomes YYYY-MM-DD. */
  lemma ToIsoDateOfSlash(dt: Date)
    requires Valid(dt)
    ensures ToIsoDate(Some(SlashText(dt))) == Some(IsoText(dt))
  {
    var s := SlashText(dt);
    SlashTextParts(dt);
    assert SlashDateOf(s) == dt;
    SlashFirst(s);
    ShapeStripped(s);
    ToIsoDateVia(s, IsoText(dt));
  }

  /** Normalising a normalised date changes nothing. */
  lemma ToIsoDateIdempotent(s: Option<string>)
    ensures ToIsoDate(s).Some? ==> ToIsoDate(ToIsoDate(s)) == ToIsoDate(s)
  {
    if ToIsoDate(s).Some? {
      ToIsoDateSpec(s);
      var i :| 0 <= i < |CerfaDateFormats| &&
        Strptime(CerfaDateFormats[i], Strip(s.value)).Some? &&
        ToIsoDate(s).value == IsoText(Strptime(CerfaDateFormats[i], Strip(s.value)).value);
      ToIsoDateOfIso(Strptime(CerfaDateFormats[i], Strip(s.value)).value);
    }
  }

  // ----------------------------------------------------------------- SIRET

  /** A doubled Luhn digit, its two decimal digits added. */
  function Doubled(d: nat): nat {
    if d * 2 > 9 then d * 2 - 9 else d * 2
  }

  /** The sum `_luhn_ok` forms, left to right: the digit at index `i` is
      doubled when `i % 2 == parity`. */
  function LuhnLeft(ds: string, parity: nat): nat
    decreases |ds|
  {
    if |ds| == 0 then 0
    else
      var i := |ds| - 1;
      LuhnLeft(ds[..i], parity) + (if i % 2 == parity then Doubled(DigitVal(ds[i])) else DigitVal(ds[i]))
  }

  /** `_luhn_ok`: exactly fourteen digits once everything else is dropped,
      and a Luhn sum that is a multiple of ten. */
  function LuhnOk(num: string): (b: bool)
    ensures b ==> |DigitsOnly(num)| == 14 && LuhnLeft(DigitsOnly(num), 0) % 10 == 0
  {
    var ds := DigitsOnly(num);
    |ds| == 14 && LuhnLeft(ds, |ds| % 2) % 10 == 0
  }

  /** The Luhn sum of ISO/IEC 7812-1 Annex B, right to left from the check
      digit, every second digit doubled (`dbl` says whether the rightmost
      one is). */
  function AnnexBSum(ds: string, dbl: bool): nat
    decreases |ds|
  {
    if |ds| == 0 then 0
    else
      var d := DigitVal(ds[|ds| - 1]);
      (if dbl then Doubled(d) else d) + AnnexBSum(ds[..|ds| - 1], !dbl)
  }

  /** Doubling by index parity from the left is doubling every second digit
      from the right. */
  lemma {:induction false} LuhnLeftIsAnnexB(ds: string, parity: nat)
    requires parity < 2
    ensures LuhnLeft(ds, parity) == AnnexBSum(ds, (|ds| - 1) % 2 == parity)
    decreases |ds|
  {
    if |ds| > 0 {
      LuhnLeftIsAnnexB(ds[..|ds| - 1], parity);
    }
  }

  /** `_luhn_ok` is the check of ISO/IEC 7812-1 Annex B on fourteen digits:
      the check digit itself is not doubled. */
  lemma LuhnOkIsAnnexB(num: string)
    ensures LuhnOk(num) <==> |DigitsOnly(num)| == 14 && AnnexBSum(DigitsOnly(num), false) % 10 == 0
  {
    LuhnLeftIsAnnexB(DigitsOnly(num), |DigitsOnly(num)| % 2);
  }

  /** Thirteen digits have exactly one valid check digit. */
  lemma LuhnCheckDigit(body: string, c: char)
    requires |body| == 13 && IsDigits(body) && IsDigit(c)
    ensures LuhnOk(body + [c]) <==> DigitVal(c) == (10 - AnnexBSum(body, true) % 10) % 10
  {
    var ds := body + [c];
    AllDigitsOnly(body, c);
    LuhnOkIsAnnexB(ds);
    AnnexBLast(body, c);
    CheckDigitArith(DigitVal(c), AnnexBSum(body, true));
  }

  /** The check digit is the rightmost one and is not doubled. */
  lemma AnnexBLast(body: string, c: char)
    ensures AnnexBSum(body + [c], false) == DigitVal(c) + AnnexBSum(body, true)
  {
    assert (body + [c])[..|body|] == body;
  }

  lemma AllDigitsOnly(body: string, c: char)
    requires IsDigits(body) && IsDigit(c)
    ensures DigitsOnly(body + [c]) == body + [c]
  {
    var ds := body + [c];
    assert forall i | 0 <= i < |ds| :: IsDigit(ds[i]);
  }

  lemma CheckDigitArith(d: nat, sum: nat)
    requires d < 10
    ensures (d + sum) % 10 == 0 <==> d == (10 - sum % 10) % 10
  {
  }

  // ------------------------------------------------------------ department

  /** The overseas departments, whose three digits are kept. */
  const DomDepts: set<string> := {"971", "972", "973", "974", "976"}

  /** Codes kept as they are. */
  predicate KeptDept(d: string) {
    d == "2A" || d == "2B" || d in DomDepts
  }

  /** `_normalize_dept_for_numero`: the stripped, upper-cased code; Corsica
      and the overseas codes as they are, anything else reduced to its
      digits, a single digit padded to two; a code without digits is kept. */
  function NormalizeDeptForNumero(depRaw: string): (r: string)
    ensures r == "" <==> Strip(depRaw) == ""
    ensures var d := Upper(Strip(depRaw));
      KeptDept(d) || DigitsOnly(d) == "" ==> r == d
    ensures var d := Upper(Strip(depRaw));
      !KeptDept(d) && DigitsOnly(d) != "" ==>
        IsDigits(r) && |r| >= 2 && (r == DigitsOnly(d) || (|DigitsOnly(d)| == 1 && r == "0" + DigitsOnly(d)))
  {
    var d := Upper(Strip(depRaw));
    assert |d| == |Strip(depRaw)|;
    if d == "" || KeptDept(d) then d
    else
      var d2 := DigitsOnly(d);
      if d2 == "" then d
      else if |d2| == 1 then
        ZFillOne(d2);
        ZFill(d2, 2)
      else d2
  }

  lemma ZFillOne(d: string)
    requires |d| == 1 && IsDigit(d[0])
    ensures ZFill(d, 2) == "0" + d && IsDigits("0" + d)
  {
  }

  /** Digits are their own strip and upper case. */
  lemma DigitsFixed(s: string)
    requires IsDigits(s)
    ensures Strip(s) == s && Upper(s) == s && DigitsOnly(s) == s
  {
    StripNoSpace(s);
    UpperDigits(s);
  }

  lemma UpperDigits(s: string)
    requires IsDigits(s)
    ensures Upper(s) == s
  {
    assert forall i | 0 <= i < |s| :: UpperChar(s[i]) == s[i];
  }

  /** Normalising a normalised code changes nothing. */
  lemma NormalizeDeptIdempotent(depRaw: string)
    ensures NormalizeDeptForNumero(NormalizeDeptForNumero(depRaw)) == NormalizeDeptForNumero(depRaw)
  {
    var s := Strip(depRaw);
    var d := Upper(s);
    var r := NormalizeDeptForNumero(depRaw);
    if KeptDept(d) || DigitsOnly(d) == "" {
      UpperCharFacts(if |s| > 0 then s[0] else ' ');
      UpperCharFacts(if |s| > 0 then s[|s| - 1] else ' ');
      StripNoSpace(d);
      UpperIdempotent(s);
    } else {
      DigitsFixed(r);
    }
  }

  // ------------------------------------------------------------------ JSON

  /** Python's `s.rstrip(c)` for one character. */
  function RStripChar(s: string, c: char): (r: string)
    ensures |r| <= |s| && r == s[..|r|]
    ensures |r| == 0 || r[|r| - 1] != c
  {
    if |s| > 0 && s[|s| - 1] == c then RStripChar(s[..|s| - 1], c) else s
  }

  /** Python's `s.lstrip(chars)`. */
  function LStripAny(s: string, chars: string): (r: string)
    ensures |r| <= |s| && r == s[|s| - |r|..]
    ensures |r| == 0 || r[0] !in chars
    ensures forall i | 0 <= i < |s| - |r| :: s[i] in chars
  {
    if |s| > 0 && s[0] in chars then LStripAny(s[1..], chars) else s
  }

  /** A reply fenced with three backticks loses the backticks at both ends
      and then any of the characters of "json", CR and LF in front. */
  function Unfence(t: string): (r: string)
    ensures |r| <= |t|
  {
    if StartsWith(t, "```") then LStripAny(RStripChar(LStripChar(t, '`'), '`'), "json\n\r") else t
  }

  /** The text `_extract_json` searches. */
  function ReplyText(text: string): string {
    Unfence(Strip(text))
  }

  /** The span from the first '{' to the last '}' of `t`, when the last
      '}' comes after the first '{'. */
  function BraceSpan(t: string): (r: Option<string>)
    ensures r.Some? ==> |r.value| >= 2 && r.value[0] == '{' && r.value[|r.value| - 1] == '}'
  {
    var i, j := FindFirst(t, '{'), FindLast(t, '}');
    if i == -1 || j == -1 || j <= i then None
    else
      var raw := t[i..j + 1];
      assert raw[0] == t[i] && raw[|raw| - 1] == t[j];
      Some(raw)
  }

  /** There is a span exactly when some '{' comes before some '}'. */
  lemma BraceSpanExists(t: string)
    ensures BraceSpan(t).Some? <==> exists a, b | 0 <= a < b < |t| :: t[a] == '{' && t[b] == '}'
  {
    var i, j := FindFirst(t, '{'), FindLast(t, '}');
    if exists a, b | 0 <= a < b < |t| :: t[a] == '{' && t[b] == '}' {
      var a, b :| 0 <= a < b < |t| && t[a] == '{' && t[b] == '}';
      assert i != -1 && j != -1;
    }
  }

  /** The span is the widest: no '{' before it and no '}' after it. */
  lemma BraceSpanWidest(t: string)
    requires BraceSpan(t).Some?
    ensures var raw := BraceSpan(t).value;
      exists i | 0 <= i && i + |raw| <= |t| ::
        t[i..i + |raw|] == raw && '{' !in t[..i] && '}' !in t[i + |raw|..]
  {
    var i, j := FindFirst(t, '{'), FindLast(t, '}');
    var raw := BraceSpan(t).value;
    assert raw == t[i..j + 1] && i + |raw| == j + 1;
  }

  /** The object `_extract_json` cuts out of a reply. */
  function JsonSlice(text: string): Option<string> {
    BraceSpan(ReplyText(text))
  }

  lemma {:induction false} LStripCharRun(s: string, c: char, n: nat)
    requires n <= |s| && (forall i | 0 <= i < n :: s[i] == c) && (n == |s| || s[n] != c)
    ensures LStripChar(s, c) == s[n..]
    decreases n
  {
    if n > 0 {
      assert s[1..][n - 1..] == s[n..];
      LStripCharRun(s[1..], c, n - 1);
    }
  }

  lemma {:induction false} RStripCharRun(s: string, c: char, n: nat)
    requires n <= |s| && (forall i | |s| - n <= i < |s| :: s[i] == c) && (n == |s| || s[|s| - n - 1] != c)
    ensures RStripChar(s, c) == s[..|s| - n]
    decreases n
  {
    if n > 0 {
      assert s[..|s| - 1][..|s| - n] == s[..|s| - n];
      RStripCharRun(s[..|s| - 1], c, n - 1);
    }
  }

  lemma {:induction false} LStripAnyRun(s: string, chars: string, n: nat)
    requires n <= |s| && (forall i | 0 <= i < n :: s[i] in chars) && (n == |s| || s[n] !in chars)
    ensures LStripAny(s, chars) == s[n..]
    decreases n
  {
    if n > 0 {
      assert s[1..][n - 1..] == s[n..];
      LStripAnyRun(s[1..], chars, n - 1);
    }
  }

  /** An object fenced as a json code block is taken out of the fence. */
  lemma FencedReply(body: string)
    requires |body| >= 2 && body[0] == '{' && body[|body| - 1] == '}'
    ensures JsonSlice("```json\n" + body + "\n```") == Some(body)
  {
    Unfenced(body);
    SpanOfLine(body);
  }

  lemma Unfenced(body: string)
    requires |body| >= 2 && body[0] == '{'
    ensures ReplyText("```json\n" + body + "\n```") == body + "\n"
  {
    var text := "```json\n" + body + "\n```";
    assert text[0] == '`' && text[|text| - 1] == '`';
    StripNoSpace(text);
    assert StartsWith(text, "```");
    FenceOpen(body);
    FenceClose(body);
    FenceTag(body);
  }

  lemma FenceOpen(body: string)
    ensures LStripChar("```json\n" + body + "\n```", '`') == "json\n" + body + "\n```"
  {
    var text := "```json\n" + body + "\n```";
    assert text[0] == '`' && text[1] == '`' && text[2] == '`' && text[3] == 'j';
    LStripCharRun(text, '`', 3);
    assert text[3..] == "json\n" + body + "\n```";
  }

  lemma FenceClose(body: string)
    ensures RStripChar("json\n" + body + "\n```", '`') == "json\n" + body + "\n"
  {
    var a := "json\n" + body + "\n```";
    RStripCharRun(a, '`', 3);
    assert a[..|a| - 3] == "json\n" + body + "\n";
  }

  lemma FenceTag(body: string)
    requires |body| > 0 && body[0] == '{'
    ensures LStripAny("json\n" + body + "\n", "json\n\r") == body + "\n"
  {
    var b := "json\n" + body + "\n";
    LStripAnyRun(b, "json\n\r", 5);
    assert b[5..] == body + "\n";
  }

  lemma SpanOfLine(body: string)
    requires |body| >= 2 && body[0] == '{' && body[|body| - 1] == '}'
    ensures BraceSpan(body + "\n") == Some(body)
  {
    var t := body + "\n";
    assert FindFirst(t, '{') == 0;
    assert t[|body|..] == "\n";
    assert FindLast(t, '}') == |body| - 1;
    assert t[..|body|] == body;
  }

  /** `re.sub(r",\s*" + close, close, s)`: a comma followed, after any
      blanks, by `close` is dropped together with the blanks. */
  function DropCommaBefore(s: string, close: char): (r: string)
    ensures |r| <= |s|
    ensures ',' !in s ==> r == s
    decreases |s|
  {
    if |s| == 0 then ""
    else if s[0] == ',' && 1 + SpaceRun(s[1..]) < |s| && s[1 + SpaceRun(s[1..])] == close then
      [close] + DropCommaBefore(s[2 + SpaceRun(s[1..])..], close)
    else
      assert s[0] != ',' ==> ',' !in s[1..] || ',' in s;
      [s[0]] + DropCommaBefore(s[1..], close)
  }

  /** The repair tried when the slice does not parse: trailing commas
      before '}' and then before ']' removed. */
  function DropTrailingCommas(raw: string): string {
    DropCommaBefore(DropCommaBefore(raw, '}'), ']')
  }

  /** The characters of a text other than commas and blanks. */
  function Kept(s: string): string
    decreases |s|
  {
    if |s| == 0 then "" else (if s[0] == ',' || IsSpace(s[0]) then "" else [s[0]]) + Kept(s[1..])
  }

  lemma {:induction false} KeptSkipsSpaces(s: string, n: nat)
    requires n <= |s| && forall i | 0 <= i < n :: IsSpace(s[i])
    ensures Kept(s) == Kept(s[n..])
    decreases n
  {
    if n > 0 {
      assert s[1..][n - 1..] == s[n..];
      KeptSkipsSpaces(s[1..], n - 1);
    }
  }

  /** Dropping trailing commas removes nothing but commas and blanks. */
  lemma {:induction false} DropCommaKeeps(s: string, close: char)
    requires close != ',' && !IsSpace(close)
    ensures Kept(DropCommaBefore(s, close)) == Kept(s)
    decreases |s|
  {
    if |s| > 0 {
      var k := 1 + SpaceRun(s[1..]);
      if s[0] == ',' && k < |s| && s[k] == close {
        DropCommaKeeps(s[k + 1..], close);
        DropCommaDropped(s, close, k);
      } else {
        DropCommaKeeps(s[1..], close);
        DropCommaCopied(s, close, k);
      }
    }
  }

  /** The first character of `[c] + t` is kept unless it is a comma or a blank. */
  lemma KeptCons(c: char, t: string)
    ensures Kept([c] + t) == (if c == ',' || IsSpace(c) then "" else [c]) + Kept(t)
  {
    assert ([c] + t)[0] == c && ([c] + t)[1..] == t;
  }

  /** A comma dropped before `close` and the blanks after it. */
  lemma DropCommaDropped(s: string, close: char, k: nat)
    requires |s| > 0 && close != ',' && !IsSpace(close) && k == 1 + SpaceRun(s[1..])
    requires s[0] == ',' && k < |s| && s[k] == close
    requires Kept(DropCommaBefore(s[k + 1..], close)) == Kept(s[k + 1..])
    ensures Kept(DropCommaBefore(s, close)) == Kept(s)
  {
    DropCommaDroppedOut(s, close, k);
    DropCommaDroppedIn(s, close, k);
  }

  /** What is kept of the output: `close`, then what is kept of the rest's output. */
  lemma DropCommaDroppedOut(s: string, close: char, k: nat)
    requires |s| > 0 && close != ',' && !IsSpace(close) && k == 1 + SpaceRun(s[1..])
    requires s[0] == ',' && k < |s| && s[k] == close
    ensures Kept(DropCommaBefore(s, close)) == [close] + Kept(DropCommaBefore(s[k + 1..], close))
  {
    DropCommaStep(s, close, k);
    KeptCons(close, DropCommaBefore(s[k + 1..], close));
  }

  /** What is kept of the input: `close`, then what is kept of the rest. */
  lemma DropCommaDroppedIn(s: string, close: char, k: nat)
    requires |s| > 0 && close != ',' && !IsSpace(close) && k == 1 + SpaceRun(s[1..])
    requires s[0] == ',' && k < |s| && s[k] == close
    ensures Kept(s) == [close] + Kept(s[k + 1..])
  {
    var n := k - 1;
    assert s[k..] == [close] + s[k + 1..];
    KeptCons(close, s[k + 1..]);
    assert s == [','] + s[1..];
    KeptCons(',', s[1..]);
    KeptSkipsSpaces(s[1..], n);
    assert s[1..][n..] == s[k..];
  }


  /** One step of `DropCommaBefore` that drops a comma and its blanks. */
  lemma DropCommaStep(s: string, close: char, k: nat)
    requires |s| > 0 && k == 1 + SpaceRun(s[1..])
    requires s[0] == ',' && k < |s| && s[k] == close
    ensures DropCommaBefore(s, close) == [close] + DropCommaBefore(s[k + 1..], close)
  {
  }

  /** A character copied as it is. */
  lemma DropCommaCopied(s: string, close: char, k: nat)
    requires |s| > 0 && k == 1 + SpaceRun(s[1..])
    requires !(s[0] == ',' && k < |s| && s[k] == close)
    requires Kept(DropCommaBefore(s[1..], close)) == Kept(s[1..])
    ensures Kept(DropCommaBefore(s, close)) == Kept(s)
  {
    assert DropCommaBefore(s, close) == [s[0]] + DropCommaBefore(s[1..], close);
    KeptCons(s[0], DropCommaBefore(s[1..], close));
  }


  lemma DropTrailingCommasKeeps(raw: string)
    ensures Kept(DropTrailingCommas(raw)) == Kept(raw)
    ensures ',' !in raw ==> DropTrailingCommas(raw) == raw
  {
    DropCommaKeeps(raw, '}');
    DropCommaKeeps(DropCommaBefore(raw, '}'), ']');
  }

  /** `_extract_json`, with `json.loads` as the oracle `loads`: nothing
      without a slice; the slice if it parses, else its repair. */
  function ExtractJson<J>(text: string, loads: string -> Option<J>): (r: Option<J>)
    ensures JsonSlice(text).None? ==> r.None?
    ensures JsonSlice(text).Some? && loads(JsonSlice(text).value).Some? ==> r == loads(JsonSlice(text).value)
    ensures r.Some? ==> loads(JsonSlice(text).value).Some? || r == loads(DropTrailingCommas(JsonSlice(text).value))
    ensures JsonSlice(text).Some? && loads(JsonSlice(text).value).None? ==> r == loads(DropTrailingCommas(JsonSlice(text).value))
  {
    match JsonSlice(text)
    case None => None
    case Some(raw) =>
      match loads(raw)
      case Some(j) => Some(j)
      case None => loads(DropTrailingCommas(raw))
  }

  // ------------------------------------------------------------ enrichment

  /** A cadastral reference as extracted. */
  datatype CadRef = CadRef(section: Option<string>, numero: Option<string>)

  /** The extracted metadata fields the pipeline reads or writes; a missing
      key and JSON null are both `None`. */
  datatype Meta = Meta(
    sourceFile: Option<string>, dateDepot: Option<string>, communeNom: Option<string>,
    departementCode: Option<string>, communeInsee: Option<string>, numeroCu: Option<string>,
    typeCu: Option<string>, header: Option<HeaderCu>, refs: seq<CadRef>, siretInvalid: bool)

  /** An extraction result: `data` is `None` when it is missing or not an object. */
  datatype Extraction = Extraction(success: bool, data: Option<Meta>, error: Option<string>)

  const NoHeader: HeaderCu := HeaderCu(None, None, None, None)

  /** `source_file` defaults to the PDF name. */
  function WithSource(m: Meta, pdfName: string): (r: Meta)
    ensures r == m.(sourceFile := r.sourceFile)
    ensures Given(m.sourceFile) ==> r.sourceFile == m.sourceFile
    ensures !Given(m.sourceFile) ==> r.sourceFile == Some(pdfName)
  {
    if Given(m.sourceFile) then m else m.(sourceFile := Some(pdfName))
  }

  /** `date_depot` becomes YYYY-MM-DD when it reads as a date; otherwise it
      is left as it was. */
  function WithIsoDate(m: Meta): (r: Meta)
    ensures r == m.(dateDepot := r.dateDepot)
    ensures r.dateDepot == if ToIsoDate(m.dateDepot).Some? then ToIsoDate(m.dateDepot) else m.dateDepot
  {
    if Given(m.dateDepot) then
      match ToIsoDate(m.dateDepot)
      case Some(iso) => m.(dateDepot := Some(iso))
      case None => m
    else m
  }

  /** The INSEE code looked up in the commune table, `csv` being `None` when
      no table is configured and `Some(None)` when it cannot be read. */
  function CsvInsee(m: Meta, csv: Option<Option<Csv>>): (r: Result<Option<string>>)
    ensures csv.None? || !Given(m.communeNom) ==> r == Success(None)
    ensures csv.Some? && Given(m.communeNom) ==> r == GetInseeCerfa(csv.value, m.communeNom, m.departementCode)
  {
    if csv.Some? && Given(m.communeNom) then GetInseeCerfa(csv.value, m.communeNom, m.departementCode)
    else Success(None)
  }

  /** The CU number rebuilt from the department, the INSEE code and the
      header's year and dossier, when all four are non-empty; a two-digit
      year is read as 20yy. */
  function RebuiltNumero(m: Meta): (r: Option<string>)
    ensures r.Some? ==> Given(r)
  {
    var hdr := m.header.GetOr(NoHeader);
    var depRaw := if Given(m.departementCode) then m.departementCode.value else Or(hdr.dept, "");
    var dep := NormalizeDeptForNumero(depRaw);
    var insee := Or(m.communeInsee, "");
    var an := Strip(Or(hdr.annee, ""));
    var nd := Strip(Or(hdr.numeroDossier, ""));
    if dep != "" && insee != "" && an != "" && nd != "" then
      var yyyy := if |an| == 2 then "20" + ZFill(an, 2) else an;
      Some(Numero(dep, insee, yyyy, nd))
    else None
  }

  /** `numero_cu` is rebuilt only when it is missing. */
  function WithNumero(m: Meta): (r: Meta)
    ensures r == m.(numeroCu := r.numeroCu)
    ensures Given(m.numeroCu) ==> r.numeroCu == m.numeroCu
    ensures !Given(m.numeroCu) && RebuiltNumero(m).None? ==> r.numeroCu == m.numeroCu
    ensures !Given(m.numeroCu) && RebuiltNumero(m).Some? ==> r.numeroCu == RebuiltNumero(m)
  {
    if Given(m.numeroCu) then m
    else
      match RebuiltNumero(m)
      case Some(n) => m.(numeroCu := Some(n))
      case None => m
  }

  /** The metadata after enrichment, or the failure of the table lookup. */
  function Enrich(m: Meta, csv: Option<Option<Csv>>, pdfName: string): (r: Result<Meta>)
    ensures r.Failure? <==> CsvInsee(m, csv).Failure?
  {
    var m1 := WithIsoDate(WithSource(m, pdfName));
    match CsvInsee(m, csv)
    case Failure(e) => Failure(e)
    case Success(found) =>
      var m2 := m1.(communeInsee := if Given(found) then found else None);
      Success(WithNumero(m2))
  }

  /** `sanitize_and_enrich`: a failed or data-less extraction passes
      through; otherwise the metadata is enriched, a failing table lookup
      failing the whole step. */
  function SanitizeAndEnrich(e: Extraction, csv: Option<Option<Csv>>, pdfName: string): (r: Result<Extraction>)
    ensures !e.success || e.data.None? ==> r == Success(e)
    ensures e.success && e.data.Some? ==>
      (r.Failure? <==> CsvInsee(e.data.value, csv).Failure?) &&
      (r.Success? ==> r.value == e.(data := Some(Enrich(e.data.value, csv, pdfName).value)))
  {
    if !e.success || e.data.None? then Success(e)
    else
      match Enrich(e.data.value, csv, pdfName)
      case Failure(err) => Failure(err)
      case Success(m) => Success(e.(data := Some(m)))
  }

  /** What enrichment does to each field: the source file and date as
      their steps say, the INSEE code always replaced by the lookup's
      answer, a given CU number kept, and every other field unchanged. */
  lemma EnrichFields(m: Meta, csv: Option<Option<Csv>>, pdfName: string)
    requires Enrich(m, csv, pdfName).Success?
    ensures var r := Enrich(m, csv, pdfName).value;
      var found := CsvInsee(m, csv).value;
      r.sourceFile == WithSource(m, pdfName).sourceFile &&
      r.dateDepot == WithIsoDate(m).dateDepot &&
      r.communeInsee == (if Given(found) then found else None) &&
      (Given(m.numeroCu) ==> r.numeroCu == m.numeroCu) &&
      r.communeNom == m.communeNom && r.departementCode == m.departementCode &&
      r.typeCu == m.typeCu && r.header == m.header && r.refs == m.refs && r.siretInvalid == m.siretInvalid
  {
  }

  /** An INSEE code set by enrichment is the code of the only row of the
      table matching the commune; conversely, when the table is readable
      with `COM` and `LIBELLE` and exactly one row matches, enrichment
      sets that row's (non-empty) code. */
  lemma EnrichInseeUnique(m: Meta, csv: Option<Option<Csv>>, pdfName: string)
    ensures Enrich(m, csv, pdfName).Success? && Enrich(m, csv, pdfName).value.communeInsee.Some? ==>
      csv.Some? && csv.value.Some? && Given(m.communeNom) &&
      var t := csv.value.value;
      var sel := (row: CommuneRow) => CerfaSelected(t, NormCerfa(m.communeNom.value), m.departementCode, row);
      exists i :: OnlyMatch(t.rows, sel, i) && Enrich(m, csv, pdfName).value.communeInsee == Some(t.rows[i].com)
    ensures csv.Some? && csv.value.Some? && Given(m.communeNom) && csv.value.value.hasCom && csv.value.value.hasLibelle ==>
      var t := csv.value.value;
      var sel := (row: CommuneRow) => CerfaSelected(t, NormCerfa(m.communeNom.value), m.departementCode, row);
      forall i | OnlyMatch(t.rows, sel, i) && t.rows[i].com != "" ::
        Enrich(m, csv, pdfName).Success? && Enrich(m, csv, pdfName).value.communeInsee == Some(t.rows[i].com)
  {
  }

  /** A rebuilt CU number splits back, at its dashes, into the department,
      the INSEE code, the four-digit year and the dossier, and gives the same
      footer as the header fields would. */
  lemma RebuiltNumeroRoundTrip(dep: string, insee: string, an: string, nd: string)
    requires |dep| > 0 && |insee| >= 3 && |an| == 2 && |nd| > 0
    requires NoSpace(dep) && NoSpace(nd) && Upper(nd) == nd
    requires '-' !in dep && '-' !in insee && '-' !in an && '-' !in nd
    ensures var yyyy := "20" + ZFill(an, 2);
      SplitOn(Numero(dep, insee, yyyy, nd), '-') == [dep, insee, yyyy, nd] &&
      FormatFooterNumero(NoHeader, Some(Numero(dep, insee, yyyy, nd))) ==
      FormatFooterNumero(HeaderCu(Some(dep), Some(Suffix(insee, 3)), Some(yyyy), Some(nd)), None)
  {
    var yyyy := "20" + ZFill(an, 2);
    assert ZFill(an, 2) == an;
    assert '-' !in yyyy;
    NumeroSplits(dep, insee, yyyy, nd);
    FooterRoutesAgree(dep, insee, yyyy, nd);
  }

  /** Enriching twice is enriching once: the date is already YYYY-MM-DD, the
      lookup gives the same answer, and a rebuilt number is now given. */
  lemma EnrichIdempotent(m: Meta, csv: Option<Option<Csv>>, pdfName: string)
    requires Enrich(m, csv, pdfName).Success?
    ensures Enrich(Enrich(m, csv, pdfName).value, csv, pdfName) == Enrich(m, csv, pdfName)
  {
    var r := Enrich(m, csv, pdfName).value;
    EnrichFields(m, csv, pdfName);
    ToIsoDateIdempotent(m.dateDepot);
    assert CsvInsee(r, csv) == CsvInsee(m, csv);
    var found := CsvInsee(m, csv).value;
    var m2 := WithIsoDate(WithSource(m, pdfName)).(communeInsee := if Given(found) then found else None);
    assert r == WithNumero(m2);
    var r1 := WithIsoDate(WithSource(r, pdfName));
    assert r1 == r;
    var r2 := r1.(communeInsee := if Given(found) then found else None);
    assert r2 == r;
    if !Given(m2.numeroCu) && RebuiltNumero(m2).None? {
      assert RebuiltNumero(r) == RebuiltNumero(m2);
    }
  }

  /** Sanitising twice is sanitising once. */
  lemma SanitizeIdempotent(e: Extraction, csv: Option<Option<Csv>>, pdfName: string)
    requires SanitizeAndEnrich(e, csv, pdfName).Success?
    ensures SanitizeAndEnrich(SanitizeAndEnrich(e, csv, pdfName).value, csv, pdfName) == SanitizeAndEnrich(e, csv, pdfName)
  {
    if e.success && e.data.Some? {
      EnrichIdempotent(e.data.value, csv, pdfName);
    }
  }
}

=== FILE: coverage.dfy ===
/** `normalize_pairs`, the coverage normaliser every CUA consumer runs its
    (value, percent) pairs through: percents are summed per value, each sum
    is capped at 100, the pairs are ordered by percent, highest first, and
    the whole list is scaled down to 100 when its total exceeds 100.0001. */
module Coverage {
  import opened Wrappers
  import opened Assoc
  import opened Sorting

  /** A pair as a consumer hands it in; `None` is a null value or percent. */
  datatype RawPair = RawPair(value: Option<string>, pct: Option<real>)

  /** A normalised (value, percent) pair. */
  type Pair = (string, real)

  /** The grouping key: a null value groups with "". */
  function KeyOf(p: RawPair): string {
    p.value.GetOr("")
  }

  /** `float(pct or 0.0)`. */
  function PctOf(p: RawPair): real {
    p.pct.GetOr(0.0)
  }

  function RawKeys(pairs: seq<RawPair>): (ks: seq<string>)
    ensures |ks| == |pairs|
    ensures forall i | 0 <= i < |pairs| :: ks[i] == KeyOf(pairs[i])
  {
    if |pairs| == 0 then [] else RawKeys(pairs[..|pairs| - 1]) + [KeyOf(pairs[|pairs| - 1])]
  }

  /** The total percent the pairs give the value `k`. */
  function SumFor(pairs: seq<RawPair>, k: string): real {
    if |pairs| == 0 then 0.0
    else
      var last := pairs[|pairs| - 1];
      SumFor(pairs[..|pairs| - 1], k) + (if KeyOf(last) == k then PctOf(last) else 0.0)
  }

  /** `agg[k] += p` on a `defaultdict(float)`: a present value keeps its
      place, a new one goes last starting from 0.0. */
  function AddTo(g: Assoc<string, real>, k: string, p: real): (r: Assoc<string, real>)
    ensures k in Keys(g) ==> Keys(r) == Keys(g)
    ensures k !in Keys(g) ==> Keys(r) == Keys(g) + [k]
  {
    if |g| == 0 then [(k, 0.0 + p)]
    else if g[0].0 == k then [(k, g[0].1 + p)] + g[1..]
    else
      var rest := AddTo(g[1..], k, p);
      assert Keys(g) == [g[0].0] + Keys(g[1..]);
      assert Keys([g[0]] + rest) == [g[0].0] + Keys(rest);
      [g[0]] + rest
  }

  /** After `agg[k] += p`, `k` holds its previous value (0.0 if none) plus `p`. */
  lemma {:induction false} AddToHere(g: Assoc<string, real>, k: string, p: real)
    ensures Lookup(AddTo(g, k, p), k).Some?
    ensures Lookup(AddTo(g, k, p), k).value == Lookup(g, k).GetOr(0.0) + p
  {
    var r := AddTo(g, k, p);
    if |g| == 0 {
      assert r == [(k, 0.0 + p)];
    } else if g[0].0 == k {
      assert r[0] == (k, g[0].1 + p);
    } else {
      AddToHere(g[1..], k, p);
      assert r[0] == g[0] && r[1..] == AddTo(g[1..], k, p);
    }
  }

  /** ... and every other value is untouched. */
  lemma {:induction false} AddToElsewhere(g: Assoc<string, real>, k: string, p: real, k': string)
    requires k' != k
    ensures Lookup(AddTo(g, k, p), k') == Lookup(g, k')
  {
    var r := AddTo(g, k, p);
    if |g| == 0 {
      assert r == [(k, 0.0 + p)];
    } else if g[0].0 == k {
      assert r[0] == (k, g[0].1 + p) && r[1..] == g[1..];
    } else {
      AddToElsewhere(g[1..], k, p, k');
      assert r[0] == g[0] && r[1..] == AddTo(g[1..], k, p);
    }
  }

  lemma AddToUnique(g: Assoc<string, real>, k: string, p: real)
    requires UniqueKeys(g)
    ensures UniqueKeys(AddTo(g, k, p))
  {
    var r := AddTo(g, k, p);
    forall i, j | 0 <= i < j < |r| ensures r[i].0 != r[j].0 {
      assert Keys(r)[i] == r[i].0 && Keys(r)[j] == r[j].0;
      if j < |g| {
        assert Keys(g)[i] == g[i].0 && Keys(g)[j] == g[j].0;
      } else {
        assert Keys(g)[i] == g[i].0;
      }
    }
  }

  function AddPair(g: Assoc<string, real>, p: RawPair): Assoc<string, real> {
    AddTo(g, KeyOf(p), PctOf(p))
  }

  /** The `defaultdict(float)` accumulation: one entry per value, in the
      order values are first seen. */
  function Group(pairs: seq<RawPair>): (g: Assoc<string, real>)
    ensures UniqueKeys(g)
  {
    if |pairs| == 0 then []
    else
      var g := Group(pairs[..|pairs| - 1]);
      var p := pairs[|pairs| - 1];
      AddToUnique(g, KeyOf(p), PctOf(p));
      AddPair(g, p)
  }

  /** Exactly the values seen are grouped. */
  lemma {:induction false} GroupHas(pairs: seq<RawPair>, k: string)
    ensures Lookup(Group(pairs), k).Some? <==> k in RawKeys(pairs)
  {
    if |pairs| > 0 {
      var pre := pairs[..|pairs| - 1];
      var last := pairs[|pairs| - 1];
      assert RawKeys(pairs) == RawKeys(pre) + [KeyOf(last)];
      GroupHas(pre, k);
      if k == KeyOf(last) {
        AddToHere(Group(pre), k, PctOf(last));
      } else {
        AddToElsewhere(Group(pre), KeyOf(last), PctOf(last), k);
      }
    }
  }

  /** Every value holds the sum of its percents. */
  lemma {:induction false} GroupSum(pairs: seq<RawPair>, k: string)
    ensures Lookup(Group(pairs), k).GetOr(0.0) == SumFor(pairs, k)
  {
    if |pairs| > 0 {
      var pre := pairs[..|pairs| - 1];
      var last := pairs[|pairs| - 1];
      GroupSum(pre, k);
      if k == KeyOf(last) {
        AddToHere(Group(pre), k, PctOf(last));
        assert SumFor(pairs, k) == SumFor(pre, k) + PctOf(last);
      } else {
        AddToElsewhere(Group(pre), KeyOf(last), PctOf(last), k);
        assert SumFor(pairs, k) == SumFor(pre, k);
      }
    }
  }

  /** `min(p, 100.0)`. */
  function Min100(p: real): (r: real)
    ensures r <= 100.0 && r <= p
    ensures r == p || r == 100.0
  {
    if 100.0 < p then 100.0 else p
  }

  /** Each grouped percent capped at 100. */
  function Cap(g: Assoc<string, real>): (r: seq<Pair>)
    ensures |r| == |g|
    ensures forall i | 0 <= i < |g| :: r[i] == (g[i].0, Min100(g[i].1))
  {
    if |g| == 0 then [] else [(g[0].0, Min100(g[0].1))] + Cap(g[1..])
  }

  /** "Sorts no later than" for `sort(key=pct, reverse=True)`. */
  function Desc(): (Pair, Pair) -> bool {
    (a: Pair, b: Pair) => a.1 >= b.1
  }

  predicate Descending(s: seq<Pair>) {
    forall i, j | 0 <= i < j < |s| :: s[i].1 >= s[j].1
  }

  function Sum(s: seq<Pair>): real {
    if |s| == 0 then 0.0 else s[0].1 + Sum(s[1..])
  }

  /** `p * 100.0 / total`. */
  function Scaled(p: real, total: real): real
    requires total > 0.0
  {
    p * 100.0 / total
  }

  /** `[(v, p * 100.0 / total) for v, p in norm]`. */
  function Scale(s: seq<Pair>, total: real): (r: seq<Pair>)
    requires total > 0.0
    ensures |r| == |s|
    ensures forall i | 0 <= i < |s| :: r[i] == (s[i].0, Scaled(s[i].1, total))
  {
    if |s| == 0 then [] else [(s[0].0, Scaled(s[0].1, total))] + Scale(s[1..], total)
  }

  /** The threshold above which the list is scaled back to 100. */
  const Tolerance: real := 100.0001

  function Rescale(s: seq<Pair>): seq<Pair> {
    var total := Sum(s);
    if total > Tolerance then Scale(s, total) else s
  }

  /** The grouped, capped pairs, still in first-seen order. */
  function Capped(pairs: seq<RawPair>): (c: seq<Pair>)
    ensures UniqueKeys(c)
    ensures forall i | 0 <= i < |c| :: c[i].1 <= 100.0
    ensures forall k :: k in Keys(c) <==> k in RawKeys(pairs)
  {
    var g := Group(pairs);
    forall k ensures k in Keys(g) <==> k in RawKeys(pairs) {
      GroupHas(pairs, k);
    }
    assert Keys(Cap(g)) == Keys(g);
    Cap(g)
  }

  /** The capped pairs ordered by percent, highest first (ties keep their
      first-seen order). */
  function Ordered(pairs: seq<RawPair>): (s: seq<Pair>)
    ensures UniqueKeys(s)
    ensures forall i | 0 <= i < |s| :: s[i].1 <= 100.0
    ensures forall k :: k in Keys(s) <==> k in RawKeys(pairs)
    ensures Descending(s)
    ensures Sum(s) == Sum(Capped(pairs))
  {
    var c := Capped(pairs);
    SortedOrder(c);
    SortSum(c);
    SortUnique(c, Desc());
    SortedMembers(c);
    SortBy(c, Desc())
  }

  /** `normalize_pairs`: distinct values, each percent at most 100, a total
      of at most 100.0001, highest percent first, and exactly the values the
      input holds. */
  function NormalizePairs(pairs: seq<RawPair>): (r: seq<Pair>)
    ensures UniqueKeys(r)
    ensures forall i | 0 <= i < |r| :: r[i].1 <= 100.0
    ensures Sum(r) <= Tolerance
    ensures Descending(r)
    ensures forall k :: k in Keys(r) <==> k in RawKeys(pairs)
  {
    var s := Ordered(pairs);
    RescaleKeys(s);
    RescaleSum(s);
    RescaleOrder(s);
    RescaleBound(s);
    Rescale(s)
  }

  // --------------------------------------------------- what each value gets

  /** The total of the capped sums, before any scaling. */
  function CappedTotal(pairs: seq<RawPair>): real {
    Sum(Capped(pairs))
  }

  /** The percent a value ends with: its summed percent capped at 100,
      scaled by 100 / total when the capped total exceeds the tolerance. */
  function FinalPct(pairs: seq<RawPair>, k: string): real {
    var c := Min100(SumFor(pairs, k));
    var t := CappedTotal(pairs);
    if t > Tolerance then Scaled(c, t) else c
  }

  lemma CappedPct(pairs: seq<RawPair>, j: nat)
    requires j < |Capped(pairs)|
    ensures Capped(pairs)[j].1 == Min100(SumFor(pairs, Capped(pairs)[j].0))
  {
    var g := Group(pairs);
    LookupAt(g, j);
    GroupSum(pairs, g[j].0);
  }

  lemma OrderedPct(pairs: seq<RawPair>, i: nat)
    requires i < |Ordered(pairs)|
    ensures Ordered(pairs)[i].1 == Min100(SumFor(pairs, Ordered(pairs)[i].0))
  {
    var c := Capped(pairs);
    SortedMembers(c);
    var j :| 0 <= j < |c| && c[j] == Ordered(pairs)[i];
    CappedPct(pairs, j);
  }

  lemma RescaleAt(s: seq<Pair>, i: nat)
    requires i < |s|
    ensures Rescale(s)[i] == (s[i].0, if Sum(s) > Tolerance then Scaled(s[i].1, Sum(s)) else s[i].1)
  {
  }

  /** Each output pair carries its value's summed, capped, rescaled percent. */
  lemma NormalizePairsPct(pairs: seq<RawPair>, i: nat)
    requires i < |NormalizePairs(pairs)|
    ensures NormalizePairs(pairs)[i].1 == FinalPct(pairs, NormalizePairs(pairs)[i].0)
  {
    var s := Ordered(pairs);
    assert NormalizePairs(pairs) == Rescale(s);
    RescaleKeys(s);
    RescaleAt(s, i);
    OrderedPct(pairs, i);
  }

  lemma {:induction false} SumForNonNeg(pairs: seq<RawPair>, k: string)
    requires forall i | 0 <= i < |pairs| :: PctOf(pairs[i]) >= 0.0
    ensures SumFor(pairs, k) >= 0.0
  {
    if |pairs| > 0 {
      SumForNonNeg(pairs[..|pairs| - 1], k);
    }
  }

  /** Non-negative percents stay non-negative. */
  lemma NormalizePairsNonNeg(pairs: seq<RawPair>)
    requires forall i | 0 <= i < |pairs| :: PctOf(pairs[i]) >= 0.0
    ensures forall i | 0 <= i < |NormalizePairs(pairs)| :: NormalizePairs(pairs)[i].1 >= 0.0
  {
    var r := NormalizePairs(pairs);
    forall i | 0 <= i < |r| ensures r[i].1 >= 0.0 {
      NormalizePairsPct(pairs, i);
      SumForNonNeg(pairs, r[i].0);
      ScaleNonNeg(Min100(SumFor(pairs, r[i].0)), CappedTotal(pairs));
    }
  }

  lemma ScaleNonNeg(c: real, t: real)
    requires c >= 0.0
    ensures t > 0.0 ==> Scaled(c, t) >= 0.0
  {
  }

  // ---------------------------------------------------------- idempotence

  /** Normalised pairs handed back in as input. */
  function AsRaw(s: seq<Pair>): (r: seq<RawPair>)
    ensures |r| == |s|
    ensures forall i | 0 <= i < |s| :: r[i] == RawPair(Some(s[i].0), Some(s[i].1))
  {
    if |s| == 0 then [] else [RawPair(Some(s[0].0), Some(s[0].1))] + AsRaw(s[1..])
  }

  lemma {:induction false} AddToNew(g: Assoc<string, real>, k: string, p: real)
    requires k !in Keys(g)
    ensures AddTo(g, k, p) == g + [(k, p)]
  {
    if |g| > 0 {
      assert g[0].0 == Keys(g)[0] && k != g[0].0;
      assert k !in Keys(g[1..]) by {
        forall j | 0 <= j < |g[1..]| ensures Keys(g[1..])[j] != k {
          assert Keys(g[1..])[j] == Keys(g)[j + 1];
        }
      }
      AddToNew(g[1..], k, p);
      assert AddTo(g, k, p) == [g[0]] + AddTo(g[1..], k, p);
      assert [g[0]] + (g[1..] + [(k, p)]) == g + [(k, p)];
    } else {
      assert AddTo(g, k, p) == [(k, 0.0 + p)];
    }
  }

  /** Pairs with distinct values group to themselves. */
  lemma {:induction false} GroupDistinct(s: seq<Pair>)
    requires UniqueKeys(s)
    ensures Group(AsRaw(s)) == s
  {
    if |s| > 0 {
      var n := |s| - 1;
      var pre := s[..n];
      assert AsRaw(s)[..n] == AsRaw(pre);
      assert UniqueKeys(pre);
      GroupDistinct(pre);
      assert s[n].0 !in Keys(pre) by {
        forall j | 0 <= j < n ensures Keys(pre)[j] != s[n].0 {
          assert Keys(pre)[j] == s[j].0;
        }
      }
      AddToNew(pre, s[n].0, s[n].1);
      assert pre + [s[n]] == s;
    }
  }

  lemma CapFixed(g: Assoc<string, real>)
    requires forall i | 0 <= i < |g| :: g[i].1 <= 100.0
    ensures Cap(g) == g
  {
  }

  /** `normalize_pairs` applied to its own output returns it unchanged. */
  lemma NormalizePairsIdempotent(pairs: seq<RawPair>)
    ensures NormalizePairs(AsRaw(NormalizePairs(pairs))) == NormalizePairs(pairs)
  {
    var r := NormalizePairs(pairs);
    GroupDistinct(r);
    CapFixed(r);
    assert Capped(AsRaw(r)) == r;
    assert SortedBy(r, Desc());
    SortBySorted(r, Desc());
    assert Ordered(AsRaw(r)) == r;
  }

  // ------------------------------------------------------------ sorting

  lemma DescOrder()
    ensures Total(Desc()) && Transitive(Desc())
  {
  }

  lemma SortedOrder(c: seq<Pair>)
    ensures Descending(SortBy(c, Desc()))
  {
    var s := SortBy(c, Desc());
    DescOrder();
    forall i, j | 0 <= i < j < |s| ensures s[i].1 >= s[j].1 {
      SortedPairwise(s, Desc(), i, j);
    }
  }

  /** Sorting keeps the elements, hence the keys and the percents. */
  lemma SortedMembers(c: seq<Pair>)
    ensures forall i | 0 <= i < |c| :: SortBy(c, Desc())[i] in c
    ensures forall k :: k in Keys(SortBy(c, Desc())) <==> k in Keys(c)
  {
    var s := SortBy(c, Desc());
    forall i | 0 <= i < |s| ensures s[i] in c {
      assert s[i] in multiset(c);
    }
    KeysPerm(s, c);
  }

  lemma {:induction false} InsertSum(x: Pair, t: seq<Pair>, le: (Pair, Pair) -> bool)
    ensures Sum(InsertBy(x, t, le)) == x.1 + Sum(t)
  {
    if |t| > 0 {
      if le(x, t[0]) {
        assert ([x] + t)[1..] == t;
      } else {
        InsertSum(x, t[1..], le);
        var rest := InsertBy(x, t[1..], le);
        assert ([t[0]] + rest)[1..] == rest;
      }
    }
  }

  lemma {:induction false} SortSum(s: seq<Pair>)
    ensures Sum(SortBy(s, Desc())) == Sum(s)
  {
    if |s| > 0 {
      SortSum(s[1..]);
      InsertSum(s[0], SortBy(s[1..], Desc()), Desc());
    }
  }

  /** A key outside `t` stays outside its tail. */
  lemma KeyNotInTail(k: string, t: seq<Pair>)
    requires |t| > 0 && k !in Keys(t)
    ensures k !in Keys(t[1..]) && k != t[0].0
  {
    assert Keys(t) == [t[0].0] + Keys(t[1..]);
  }

  lemma {:induction false} InsertUnique(x: Pair, t: seq<Pair>, le: (Pair, Pair) -> bool)
    requires UniqueKeys(t) && x.0 !in Keys(t)
    ensures UniqueKeys(InsertBy(x, t, le))
  {
    if |t| > 0 {
      if le(x, t[0]) {
        ConsUnique(x, t);
      } else {
        var tail := t[1..];
        KeyNotInTail(x.0, t);
        InsertUnique(x, tail, le);
        var rest := InsertBy(x, tail, le);
        HeadOutsideInsert(x, t, le);
        ConsUnique(t[0], rest);
      }
    }
  }

  /** The head of `t` keeps a key of its own when `x` goes into the tail. */
  lemma HeadOutsideInsert(x: Pair, t: seq<Pair>, le: (Pair, Pair) -> bool)
    requires |t| > 0 && UniqueKeys(t) && x.0 !in Keys(t)
    ensures t[0].0 !in Keys(InsertBy(x, t[1..], le))
  {
    var tail := t[1..];
    var rest := InsertBy(x, tail, le);
    forall j | 0 <= j < |rest| ensures Keys(rest)[j] != t[0].0 {
      var y := rest[j];
      assert y in multiset(rest);
      if y == x {
        assert Keys(t)[0] == t[0].0;
      } else {
        assert y in tail;
        var m :| 0 <= m < |tail| && tail[m] == y;
        assert t[m + 1] == y;
      }
    }
  }

  /** Putting a fresh key in front keeps keys unique. */
  lemma ConsUnique(x: Pair, t: seq<Pair>)
    requires UniqueKeys(t) && x.0 !in Keys(t)
    ensures UniqueKeys([x] + t)
  {
    var r := [x] + t;
    forall i, j | 0 <= i < j < |r| ensures r[i].0 != r[j].0 {
      assert r[j] == t[j - 1] && Keys(t)[j - 1] == t[j - 1].0;
      if i > 0 {
        assert r[i] == t[i - 1];
      }
    }
  }

  lemma {:induction false} SortUnique(s: seq<Pair>, le: (Pair, Pair) -> bool)
    requires UniqueKeys(s)
    ensures UniqueKeys(SortBy(s, le))
  {
    if |s| > 0 {
      var tail := s[1..];
      assert UniqueKeys(tail);
      SortUnique(tail, le);
      var t := SortBy(tail, le);
      assert s[0].0 !in Keys(t) by {
        forall i | 0 <= i < |t| ensures Keys(t)[i] != s[0].0 {
          assert t[i] in multiset(tail);
          var m :| 0 <= m < |tail| && tail[m] == t[i];
          assert s[m + 1] == t[i];
        }
      }
      InsertUnique(s[0], t, le);
    }
  }

  /** Reordering keeps the set of keys. */
  lemma KeysPerm(a: seq<Pair>, b: seq<Pair>)
    requires multiset(a) == multiset(b)
    ensures forall k :: k in Keys(a) <==> k in Keys(b)
  {
    forall k ensures k in Keys(a) ==> k in Keys(b) {
      if k in Keys(a) {
        var i :| 0 <= i < |a| && Keys(a)[i] == k;
        assert a[i] in multiset(b);
        var j :| 0 <= j < |b| && b[j] == a[i];
        assert Keys(b)[j] == k;
      }
    }
    forall k ensures k in Keys(b) ==> k in Keys(a) {
      if k in Keys(b) {
        var i :| 0 <= i < |b| && Keys(b)[i] == k;
        assert b[i] in multiset(a);
        var j :| 0 <= j < |a| && a[j] == b[i];
        assert Keys(a)[j] == k;
      }
    }
  }

  // ---------------------------------------------------------- rescaling

  lemma ScaleBound(p: real, total: real)
    requires p <= 100.0 && total > 100.0
    ensures Scaled(p, total) <= 100.0
  {
  }

  lemma ScaleMono(a: real, b: real, total: real)
    requires a >= b && total > 0.0
    ensures Scaled(a, total) >= Scaled(b, total)
  {
  }

  lemma {:induction false} ScaleSum(s: seq<Pair>, total: real)
    requires total > 0.0
    ensures Sum(Scale(s, total)) == Sum(s) * 100.0 / total
  {
    if |s| > 0 {
      ScaleSum(s[1..], total);
      assert Scale(s, total)[1..] == Scale(s[1..], total);
    }
  }

  lemma RescaleKeys(s: seq<Pair>)
    ensures |Rescale(s)| == |s| && Keys(Rescale(s)) == Keys(s)
    ensures UniqueKeys(s) ==> UniqueKeys(Rescale(s))
  {
  }

  /** Scaled back, the total is exactly 100; a list left alone was already
      within the tolerance. */
  lemma RescaleSum(s: seq<Pair>)
    ensures Sum(s) > Tolerance ==> Sum(Rescale(s)) == 100.0
    ensures Sum(Rescale(s)) <= Tolerance
  {
    var total := Sum(s);
    if total > Tolerance {
      ScaleSum(s, total);
      assert total * 100.0 / total == 100.0;
    }
  }

  lemma RescaleOrder(s: seq<Pair>)
    requires Descending(s)
    ensures Descending(Rescale(s))
  {
    var total := Sum(s);
    if total > Tolerance {
      var r := Scale(s, total);
      forall i, j | 0 <= i < j < |r| ensures r[i].1 >= r[j].1 {
        ScaleMono(s[i].1, s[j].1, total);
      }
    }
  }

  lemma RescaleBound(s: seq<Pair>)
    requires forall i | 0 <= i < |s| :: s[i].1 <= 100.0
    ensures forall i | 0 <= i < |Rescale(s)| :: Rescale(s)[i].1 <= 100.0
  {
    var total := Sum(s);
    if total > Tolerance {
      var r := Scale(s, total);
      forall i | 0 <= i < |r| ensures r[i].1 <= 100.0 {
        ScaleBound(s[i].1, total);
      }
    }
  }
}

=== FILE: cua_docx.dfy ===
/** The helpers the CUA document generator uses to read an intersections
    payload: schema normalisation, percent rounding, case-insensitive key
    lookup, value and coverage extraction, layer classification and date
    parsing. */
module CuaDocx {
  import opened Wrappers
  import opened Text
  import opened Assoc
  import opened Dates
  import opened Seqs

  // ------------------------------------------------------------ payload

  /** One coverage row: its value (any JSON, `None` when absent) and the
      fraction of the parcel it covers. */
  datatype CovRow = CovRow(value: Option<string>, parcelPct: Option<real>)

  /** An intersected layer as the generator reads it; a missing attribute
      list reads as empty. */
  datatype DocLayer = DocLayer(
    table: Option<string>,
    valueAttributes: Assoc<string, seq<Option<string>>>,
    coverage: Assoc<string, seq<CovRow>>)

  datatype Report = Report(results: Option<seq<DocLayer>>)
  datatype DocParcel = DocParcel(areaEst: Option<real>, wkt: Option<string>)
  datatype DocContext = DocContext(parcelAreaEst: Option<real>, wkt: Option<string>)

  /** The old schema has `results` and `parcel` at the top; the new one has
      `reports` and `context`. */
  datatype Payload = Payload(
    results: Option<seq<DocLayer>>,
    reports: Option<seq<Report>>,
    parcel: Option<DocParcel>,
    context: Option<DocContext>)

  /** `(d.get("reports") or [{}])[0].get("results") or []`. */
  function FirstReportResults(reports: Option<seq<Report>>): seq<DocLayer> {
    if reports.None? || |reports.value| == 0 then []
    else reports.value[0].results.GetOr([])
  }

  /** `_normalize_intersections_payload`: a payload with results is returned
      as it is; otherwise the first report's results move to the top and
      the parcel borrows the context's area and WKT where it has none. */
  function NormalizeIntersectionsPayload(d: Payload): (r: Payload)
    ensures d.results.Some? && |d.results.value| > 0 ==> r == d
    ensures !(d.results.Some? && |d.results.value| > 0) ==>
      r.results == Some(FirstReportResults(d.reports)) &&
      r.reports == d.reports && r.context == d.context && r.parcel.Some?
    ensures Truthy(d.parcel.GetOr(DocParcel(None, None)).areaEst) ==> r.parcel.value.areaEst == d.parcel.value.areaEst
    ensures Given(d.parcel.GetOr(DocParcel(None, None)).wkt) ==> r.parcel.value.wkt == d.parcel.value.wkt
  {
    if d.results.Some? && |d.results.value| > 0 then d
    else
      var parcel := d.parcel.GetOr(DocParcel(None, None));
      var ctx := d.context.GetOr(DocContext(None, None));
      var p1 := if Truthy(ctx.parcelAreaEst) && !Truthy(parcel.areaEst) then parcel.(areaEst := ctx.parcelAreaEst) else parcel;
      var p2 := if Given(ctx.wkt) && !Given(p1.wkt) then p1.(wkt := ctx.wkt) else p1;
      d.(results := Some(FirstReportResults(d.reports)), parcel := Some(p2))
  }

  /** Normalising twice is normalising once: the moved results and the
      borrowed fields are kept by the second pass. */
  lemma NormalizeIdempotent(d: Payload)
    ensures NormalizeIntersectionsPayload(NormalizeIntersectionsPayload(d)) == NormalizeIntersectionsPayload(d)
  {
    var n := NormalizeIntersectionsPayload(d);
    if !(d.results.Some? && |d.results.value| > 0) && !(n.results.Some? && |n.results.value| > 0) {
      var p := n.parcel.value;
      var ctx := d.context.GetOr(DocContext(None, None));
      assert Truthy(ctx.parcelAreaEst) ==> Truthy(p.areaEst);
      assert Given(ctx.wkt) ==> Given(p.wkt);
    }
  }

  /** The context's area fills a parcel that has none, on the new schema. */
  lemma NormalizeBorrowsArea(d: Payload)
    requires d.results.None? || d.results == Some([])
    requires d.context.Some? && Truthy(d.context.value.parcelAreaEst)
    requires !Truthy(d.parcel.GetOr(DocParcel(None, None)).areaEst)
    ensures NormalizeIntersectionsPayload(d).parcel.value.areaEst == d.context.value.parcelAreaEst
  {
  }

  // ------------------------------------------------------------ rounding

  /** Rounding to the nearest integer, ties away from zero (`ROUND_HALF_UP`). */
  function RoundHalfUp(y: real): (n: int)
    ensures y - 0.5 <= n as real <= y + 0.5
    ensures (n as real - y == 0.5 || y - n as real == 0.5) ==> (if y >= 0.0 then n as real > y else n as real < y)
  {
    if y >= 0.0 then (y + 0.5).Floor else -((-y + 0.5).Floor)
  }

  /** `_round_pct_fraction_to_pct`: a fraction as a percent with two
      decimals, half up. */
  function RoundPctFractionToPct(x: real): (r: real)
    ensures x * 100.0 - 0.005 <= r <= x * 100.0 + 0.005
    ensures (r * 100.0).Floor as real == r * 100.0
  {
    var n := RoundHalfUp(x * 10000.0);
    assert (n as real / 100.0) * 100.0 == n as real;
    n as real / 100.0
  }

  /** Whole numbers are their own rounding. */
  lemma RoundHalfUpWhole(k: int)
    ensures RoundHalfUp(k as real) == k
  {
    if k >= 0 {
      assert (k as real + 0.5).Floor == k;
    } else {
      assert (-(k as real) + 0.5).Floor == -k;
    }
  }

  /** A fraction with at most four decimals converts exactly. */
  lemma RoundPctExact(k: int)
    ensures RoundPctFractionToPct(k as real / 10000.0) == k as real / 100.0
  {
    var x := k as real / 10000.0;
    assert x * 10000.0 == k as real;
    RoundHalfUpWhole(k);
  }

  /** The example of the source's docstring. */
  lemma RoundPctExample()
    ensures RoundPctFractionToPct(0.50478) == 50.48
  {
    assert 0.50478 * 10000.0 == 5047.8;
    assert (5047.8 + 0.5).Floor == 5048;
  }

  // ------------------------------------------------------------ keys

  /** The last element satisfying `p`. */
  function LastWhere(ks: seq<string>, p: string -> bool): (r: Option<string>)
    ensures r.None? <==> forall i | 0 <= i < |ks| :: !p(ks[i])
    ensures r.Some? ==>
      exists i | 0 <= i < |ks| :: ks[i] == r.value && p(r.value) && forall j | i < j < |ks| :: !p(ks[j])
  {
    if |ks| == 0 then None
    else if p(ks[|ks| - 1]) then Some(ks[|ks| - 1])
    else LastWhere(ks[..|ks| - 1], p)
  }

  /** The key a candidate finds, when it is truthy: the dictionary
      `{k.lower(): k}` keeps the last key of each lower-case form. */
  function KeyFor<V>(d: Assoc<string, V>, c: string): (r: Option<string>)
    ensures r.Some? ==> r.value in Keys(d) && r.value != "" && Lower(r.value) == Lower(c)
  {
    match LastWhere(Keys(d), k => Lower(k) == Lower(c))
    case Some(k) => if k != "" then Some(k) else None
    case None => None
  }

  /** A candidate finds a key exactly when some non-empty key has its
      lower-case form. */
  lemma KeyForSome<V>(d: Assoc<string, V>, c: string)
    ensures KeyFor(d, c).Some? <==> exists k | k in Keys(d) :: Lower(k) == Lower(c) && k != ""
  {
    var l := LastWhere(Keys(d), k => Lower(k) == Lower(c));
    if KeyFor(d, c).Some? {
      var i :| 0 <= i < |Keys(d)| && Keys(d)[i] == l.value;
      assert l.value in Keys(d);
    } else {
      forall k | k in Keys(d) && Lower(k) == Lower(c) ensures k == "" {
        var i :| 0 <= i < |Keys(d)| && Keys(d)[i] == k;
        assert l.Some? && l.value == "";
        assert |Lower(c)| == 0 && |Lower(k)| == |k|;
      }
    }
  }

  /** The answer of the first candidate that has one, in order. */
  function FirstFound(candidates: seq<string>, find: string -> Option<string>): (r: Option<string>)
    ensures r.None? <==> forall i | 0 <= i < |candidates| :: find(candidates[i]).None?
    ensures r.Some? ==> exists i | 0 <= i < |candidates| ::
      r == find(candidates[i]) && forall j | 0 <= j < i :: find(candidates[j]).None?
  {
    if |candidates| == 0 then None
    else if find(candidates[0]).Some? then find(candidates[0])
    else
      var r := FirstFound(candidates[1..], find);
      assert forall i | 1 <= i < |candidates| :: candidates[1..][i - 1] == candidates[i];
      r
  }

  /** `_find_key_ci`: the actual key of the first candidate that matches a
      non-empty key regardless of case; none when no candidate does. */
  function FindKeyCi<V>(d: Assoc<string, V>, candidates: seq<string>): (r: Option<string>)
    ensures r.Some? ==> r.value in Keys(d) && r.value != ""
    ensures r.None? <==> forall i | 0 <= i < |candidates| :: KeyFor(d, candidates[i]).None?
    ensures r.Some? ==> exists i | 0 <= i < |candidates| ::
      r == KeyFor(d, candidates[i]) && Lower(r.value) == Lower(candidates[i]) &&
      forall j | 0 <= j < i :: KeyFor(d, candidates[j]).None?
  {
    FirstFound(candidates, c => KeyFor(d, c))
  }

  /** `str(x)` of a value, `None` included. */
  function ValueText(x: Option<string>): string {
    match x
    case Some(s) => s
    case None => "None"
  }

  /** `_value_attr`: the non-null values of the first matching attribute. */
  function ValueAttr(layer: DocLayer, names: seq<string>): (r: seq<string>)
    ensures FindKeyCi(layer.valueAttributes, names).None? ==> r == []
    ensures FindKeyCi(layer.valueAttributes, names).Some? ==>
      var vs := Lookup(layer.valueAttributes, FindKeyCi(layer.valueAttributes, names).value).value;
      (forall x :: x in r <==> Some(x) in vs) && r == Map(Filter(vs, Present), PresentText)
  {
    match FindKeyCi(layer.valueAttributes, names)
    case None => []
    case Some(k) =>
      SomesIsComprehension(Lookup(layer.valueAttributes, k).value);
      Somes(Lookup(layer.valueAttributes, k).value)
  }

  /** One (value, fraction) per row, a missing fraction reading as zero. */
  function PairsOf(rows: seq<CovRow>): (r: seq<(string, real)>)
    ensures |r| == |rows|
    ensures forall i | 0 <= i < |rows| :: r[i].0 == ValueText(rows[i].value) && r[i].1 == rows[i].parcelPct.GetOr(0.0)
  {
    seq(|rows|, i requires 0 <= i < |rows| => (ValueText(rows[i].value), rows[i].parcelPct.GetOr(0.0)))
  }

  /** `_coverage_pairs`: the pairs of the first matching coverage list. */
  function CoveragePairs(layer: DocLayer, names: seq<string>): (r: seq<(string, real)>)
    ensures FindKeyCi(layer.coverage, names).None? ==> r == []
    ensures FindKeyCi(layer.coverage, names).Some? ==>
      r == PairsOf(Lookup(layer.coverage, FindKeyCi(layer.coverage, names).value).value)
  {
    match FindKeyCi(layer.coverage, names)
    case None => []
    case Some(k) => PairsOf(Lookup(layer.coverage, k).value)
  }

  // ------------------------------------------------------------ classify

  /** `_is_like`: the lower-cased name contains one of the needles. */
  predicate IsLike(name: string, needles: seq<string>) {
    exists k | k in needles :: Contains(Lower(name), k)
  }

  /** The classes a layer can fall in. */
  datatype Class =
    | Zonage | Dpu | PrescriptionSurf | PrescriptionLin | Sup | Env
    | InfosGenerales | ObservationsDoc | Departement | Autres
  {
    /** The name the generator uses for the class. */
    function Name(): string {
      match this
      case Zonage => "zonage"
      case Dpu => "dpu"
      case PrescriptionSurf => "prescription_surf"
      case PrescriptionLin => "prescription_lin"
      case Sup => "sup"
      case Env => "env"
      case InfosGenerales => "infos_generales"
      case ObservationsDoc => "observations_doc"
      case Departement => "departement"
      case Autres => "autres"
    }
  }

  /** The classification rules in the order they are tried. */
  const ClassRules: seq<(seq<string>, Class)> := [
    (["zone_urba", "zonage_plu"], Zonage),
    (["info_surf", "zones_de_preemptions"], Dpu),
    (["prescription_surf", "prescriptions_surfaciques"], PrescriptionSurf),
    (["prescription_lin", "prescriptions_lineaires", "info_lin"], PrescriptionLin),
    (["sup_"], Sup),
    (["znieff", "natura"], Env),
    (["aoc_viticole"], Env),
    (["irsn_radon"], InfosGenerales),
    (["sismique"], InfosGenerales),
    (["alearg", "rg"], InfosGenerales),
    (["n_document_"], ObservationsDoc),
    (["admin_express_departement"], Departement)
  ]

  function ClassifyFrom(t: string, i: nat): (r: Class)
    requires i <= |ClassRules|
    ensures r == Autres <==> forall j | i <= j < |ClassRules| :: !IsLike(t, ClassRules[j].0)
    ensures r != Autres ==> exists j | i <= j < |ClassRules| ::
      IsLike(t, ClassRules[j].0) && r == ClassRules[j].1 && forall l | i <= l < j :: !IsLike(t, ClassRules[l].0)
    decreases |ClassRules| - i
  {
    if i == |ClassRules| then Autres
    else if IsLike(t, ClassRules[i].0) then ClassRules[i].1
    else ClassifyFrom(t, i + 1)
  }

  /** `_classify`: the class of the first rule one of whose needles the
      lower-cased table name contains, `Autres` when none does. */
  function Classify(table: string): (r: Class)
    ensures r == Autres <==> forall j | 0 <= j < |ClassRules| :: !IsLike(Lower(table), ClassRules[j].0)
    ensures r != Autres ==> exists j | 0 <= j < |ClassRules| ::
      IsLike(Lower(table), ClassRules[j].0) && r == ClassRules[j].1 &&
      forall l | 0 <= l < j :: !IsLike(Lower(table), ClassRules[l].0)
  {
    ClassifyFrom(Lower(table), 0)
  }

  lemma {:induction false} LowerIdempotent(s: string)
    ensures Lower(Lower(s)) == Lower(s)
  {
    forall i | 0 <= i < |s| ensures Lower(Lower(s))[i] == Lower(s)[i] {
      var c := s[i];
      assert Lower(s)[i] == LowerChar(c);
    }
  }

  /** A table is zoning exactly when its name mentions `zone_urba` or
      `zonage_plu`, in any case: the zoning rule is tried first, so a name
      that also mentions `sup_` is still zoning. */
  lemma ClassifyZonage(table: string)
    ensures Classify(table) == Zonage <==>
      Contains(Lower(table), "zone_urba") || Contains(Lower(table), "zonage_plu")
  {
    LowerIdempotent(table);
    var t := Lower(table);
    var needles := ClassRules[0].0;
    assert needles == ["zone_urba", "zonage_plu"];
    assert IsLike(t, needles) <==> Contains(t, "zone_urba") || Contains(t, "zonage_plu") by {
      assert "zone_urba" in needles && "zonage_plu" in needles;
    }
    if !IsLike(t, needles) {
      LaterRulesNotZonage(t, 1);
    }
  }

  /** Only the first rule classifies as zoning. */
  lemma {:induction false} LaterRulesNotZonage(t: string, i: nat)
    requires 1 <= i <= |ClassRules|
    ensures ClassifyFrom(t, i) != Zonage
    decreases |ClassRules| - i
  {
    if i < |ClassRules| {
      assert ClassRules[i].1 != Zonage;
      LaterRulesNotZonage(t, i + 1);
    }
  }

  // ------------------------------------------------------------ dates

  /** The formats `_parse_date` tries, in order. */
  const DocxDateFormats: seq<seq<Directive>> := [YearMonthDay, IsoDate, IsoDateTime]

  /** `_parse_date`: the ISO text of the first format that reads the
      stripped text, else what precedes its first space; absent only for
      empty text. */
  function ParseDate(s: string): (r: Option<string>)
    ensures r.None? <==> s == ""
  {
    if s == "" then None
    else
      var t := Strip(s);
      match FirstFormat(DocxDateFormats, t)
      case Some(d) => Some(d)
      case None => Some(SplitOn(t, ' ')[0])
  }

  /** A text one of the formats reads gives the ISO text of that date; any
      other text gives a space-free prefix of the stripped text. */
  lemma ParseDateSpec(s: string)
    requires s != ""
    ensures FirstFormat(DocxDateFormats, Strip(s)).Some? ==>
      exists i | 0 <= i < |DocxDateFormats| :: Strptime(DocxDateFormats[i], Strip(s)).Some? &&
        ParseDate(s).value == IsoText(Strptime(DocxDateFormats[i], Strip(s)).value)
    ensures FirstFormat(DocxDateFormats, Strip(s)).None? ==>
      ' ' !in ParseDate(s).value && ParseDate(s).value <= Strip(s) &&
      (forall i | 0 <= i < |DocxDateFormats| :: Strptime(DocxDateFormats[i], Strip(s)).None?)
  {
    var t := Strip(s);
    FirstFormatSpec(DocxDateFormats, t);
    if FirstFormat(DocxDateFormats, t).Some? {
      var i :| 0 <= i < |DocxDateFormats| && FirstFormat(DocxDateFormats, t) == IsoOf(DocxDateFormats[i], t);
      assert Strptime(DocxDateFormats[i], t).Some?;
    } else {
      SplitOnFirstPrefix(t, ' ');
    }
  }

  /** The first piece of a split is a prefix of the text. */
  lemma {:induction false} SplitOnFirstPrefix(s: string, c: char)
    ensures SplitOn(s, c)[0] <= s
  {
    if |s| > 0 && s[0] != c {
      SplitOnFirstPrefix(s[1..], c);
    }
  }

  lemma IsoDocxFirst(s: string)
    requires IsoShape(s) && Valid(IsoDateOf(s))
    ensures FirstFormat(DocxDateFormats, s) == Some(IsoText(IsoDateOf(s)))
  {
    YmdFailsOnIso(s);
    StrptimeIsoShape(s);
    FirstFormatAt(DocxDateFormats, s, 1);
  }

  lemma ParseDateVia(s: string, x: string)
    requires s != "" && Strip(s) == s && FirstFormat(DocxDateFormats, s) == Some(x)
    ensures ParseDate(s) == Some(x)
  {
  }

  lemma IsoStripped(s: string)
    requires IsoShape(s)
    ensures Strip(s) == s
  {
    assert IsDigit(s[0]) && IsDigit(s[9]);
    StripNoSpace(s);
  }

  /** A YYYY-MM-DD date comes back as it is: `%Y%m%d` rejects it and
      `%Y-%m-%d` reads it. */
  lemma ParseDateOfIso(dt: Date)
    requires Valid(dt)
    ensures ParseDate(IsoText(dt)) == Some(IsoText(dt))
  {
    var s := IsoText(dt);
    IsoTextParts(dt);
    assert IsoDateOf(s) == dt;
    IsoDocxFirst(s);
    IsoStripped(s);
    ParseDateVia(s, s);
  }
}

=== FILE: cua_extract.dfy ===
/** The CUA extractors over the intersection report: the PLU zones with the
    largest share of each zone, and the list of easements (servitudes). */
module CuaExtract {
  import opened Wrappers
  import opened Text
  import opened Assoc
  import opened Seqs
  import opened Sorting
  import opened Coverage
  import opened Mapping
  import opened CuaLayers
  import PluRegulation

  // ------------------------------------------------------------- zones

  /** What one PLU layer says about one zone: a code with its share of the
      parcel, or a bare code read from the attribute columns. */
  datatype Contribution = Covered(code: string, pct: real) | Listed(code: string)

  /** The attribute columns read when a layer has no coverage, in order. */
  const ZoneColumns: seq<string> := ["libelong", "libelle", "typezone", "codezone"]

  /** The coverage pairs with a code; pairs with an empty code are skipped. */
  function Covers(pairs: seq<Pair>): (r: seq<Contribution>)
    ensures forall i | 0 <= i < |r| :: r[i].Covered? && r[i].code != ""
    ensures forall i | 0 <= i < |pairs| && pairs[i].0 != "" :: Covered(pairs[i].0, pairs[i].1) in r
    ensures forall c | c in r :: (c.code, c.pct) in pairs
  {
    if |pairs| == 0 then []
    else
      var rest := Covers(pairs[1..]);
      assert forall i | 1 <= i < |pairs| :: pairs[i] == pairs[1..][i - 1];
      (if pairs[0].0 != "" then [Covered(pairs[0].0, pairs[0].1)] else []) + rest
  }

  function Lists(codes: seq<string>): (r: seq<Contribution>)
    ensures |r| == |codes|
    ensures forall i | 0 <= i < |codes| :: r[i] == Listed(codes[i])
  {
    seq(|codes|, i requires 0 <= i < |codes| => Listed(codes[i]))
  }

  /** One PLU layer: its coverage pairs when it has any, else the codes of
      its first non-empty attribute column. */
  function LayerContributions(m: Assoc<string, MapEntry>, l: ReportLayer): seq<Contribution> {
    var pairs := CoveragePairs(m, l);
    if pairs != [] then Covers(pairs) else Lists(FirstNonEmptyValues(l, ZoneColumns))
  }

  /** The contributions of every layer, in layer order. */
  function Contributions(m: Assoc<string, MapEntry>, layers: seq<ReportLayer>): seq<Contribution>
    decreases |layers|
  {
    if |layers| == 0 then []
    else Contributions(m, layers[..|layers| - 1]) + LayerContributions(m, layers[|layers| - 1])
  }

  /** The key of a zone in the share map: the canonical code when the
      canonicaliser could be imported, the code as read otherwise. */
  function ZoneKey(hasCanon: bool, code: string): string {
    if hasCanon then PluRegulation.CanonicalizeZone(Some(code)) else code
  }

  function Max(a: real, b: real): (r: real)
    ensures r >= a && r >= b && (r == a || r == b)
  {
    if a >= b then a else b
  }

  /** `g[k] = max(g.get(k, 0.0), p)`. */
  function PutMax(g: Assoc<string, real>, k: string, p: real): (r: Assoc<string, real>)
    ensures k in Keys(g) ==> Keys(r) == Keys(g)
    ensures k !in Keys(g) ==> Keys(r) == Keys(g) + [k]
  {
    if |g| == 0 then [(k, Max(0.0, p))]
    else if g[0].0 == k then [(k, Max(g[0].1, p))] + g[1..]
    else
      var rest := PutMax(g[1..], k, p);
      assert Keys(g) == [g[0].0] + Keys(g[1..]);
      assert Keys([g[0]] + rest) == [g[0].0] + Keys(rest);
      [g[0]] + rest
  }

  lemma {:induction false} PutMaxLookup(g: Assoc<string, real>, k: string, p: real, k': string)
    ensures Lookup(PutMax(g, k, p), k') == if k' == k then Some(Max(Lookup(g, k).GetOr(0.0), p)) else Lookup(g, k')
  {
    if |g| > 0 && g[0].0 != k {
      PutMaxLookup(g[1..], k, p, k');
    }
  }

  /** The share map after one more contribution. */
  function PctStep(hasCanon: bool, g: Assoc<string, real>, c: Contribution): Assoc<string, real> {
    match c
    case Covered(code, p) => PutMax(g, ZoneKey(hasCanon, code), p)
    case Listed(code) => PutIfAbsent(g, ZoneKey(hasCanon, code), 0.0)
  }

  /** The share map of `extract_zones_and_pct`. */
  function PctMap(hasCanon: bool, cs: seq<Contribution>): Assoc<string, real>
    decreases |cs|
  {
    if |cs| == 0 then [] else PctStep(hasCanon, PctMap(hasCanon, cs[..|cs| - 1]), cs[|cs| - 1])
  }

  /** The keys the contributions name. */
  function ZoneKeys(hasCanon: bool, cs: seq<Contribution>): (ks: seq<string>)
    ensures |ks| == |cs|
    ensures forall i | 0 <= i < |cs| :: ks[i] == ZoneKey(hasCanon, cs[i].code)
    decreases |cs|
  {
    if |cs| == 0 then []
    else
      var init := ZoneKeys(hasCanon, cs[..|cs| - 1]);
      init + [ZoneKey(hasCanon, cs[|cs| - 1].code)]
  }

  /** The share a contribution gives to key `k`: its percent if it is a
      covered zone with that key, 0.0 otherwise. */
  function Share(hasCanon: bool, c: Contribution, k: string): real {
    if c.Covered? && ZoneKey(hasCanon, c.code) == k then c.pct else 0.0
  }

  /** Reference definition: the largest share given to `k`, never below 0.0. */
  function MaxShare(hasCanon: bool, cs: seq<Contribution>, k: string): (r: real)
    ensures r >= 0.0
    ensures forall i | 0 <= i < |cs| :: r >= Share(hasCanon, cs[i], k)
    decreases |cs|
  {
    if |cs| == 0 then 0.0
    else
      var init := cs[..|cs| - 1];
      var r := Max(MaxShare(hasCanon, init, k), Share(hasCanon, cs[|cs| - 1], k));
      assert forall i | 0 <= i < |cs| - 1 :: cs[i] == init[i];
      r
  }

  /** The largest share is one of the shares (or the 0.0 floor). */
  lemma {:induction false} MaxShareAttained(hasCanon: bool, cs: seq<Contribution>, k: string)
    ensures MaxShare(hasCanon, cs, k) == 0.0 ||
      exists i | 0 <= i < |cs| :: MaxShare(hasCanon, cs, k) == Share(hasCanon, cs[i], k)
    decreases |cs|
  {
    if |cs| > 0 {
      var init := cs[..|cs| - 1];
      MaxShareAttained(hasCanon, init, k);
      if MaxShare(hasCanon, cs, k) != 0.0 && MaxShare(hasCanon, cs, k) == MaxShare(hasCanon, init, k) {
        var i :| 0 <= i < |init| && MaxShare(hasCanon, init, k) == Share(hasCanon, init[i], k);
        assert init[i] == cs[i];
      }
    }
  }

  /** A key no contribution names has no share. */
  lemma {:induction false} MaxShareAbsent(hasCanon: bool, cs: seq<Contribution>, k: string)
    requires k !in ZoneKeys(hasCanon, cs)
    ensures MaxShare(hasCanon, cs, k) == 0.0
    decreases |cs|
  {
    if |cs| > 0 {
      var init := cs[..|cs| - 1];
      assert ZoneKeys(hasCanon, cs)[|cs| - 1] == ZoneKey(hasCanon, cs[|cs| - 1].code);
      assert forall i | 0 <= i < |init| :: ZoneKeys(hasCanon, init)[i] == ZoneKeys(hasCanon, cs)[i];
      MaxShareAbsent(hasCanon, init, k);
    }
  }

  /** One step of the share map: the contribution's key takes the larger of
      its previous share and the new one. */
  lemma PctStepLookup(hasCanon: bool, g: Assoc<string, real>, c: Contribution, k: string)
    requires Lookup(g, k).GetOr(0.0) >= 0.0
    ensures Lookup(PctStep(hasCanon, g, c), k) ==
      if k == ZoneKey(hasCanon, c.code) then Some(Max(Lookup(g, k).GetOr(0.0), Share(hasCanon, c, k)))
      else Lookup(g, k)
  {
    var key := ZoneKey(hasCanon, c.code);
    match c
    case Covered(code, p) =>
      PutMaxLookup(g, key, p, k);
    case Listed(code) =>
      if k != key {
        PutLookup(g, key, 0.0, k);
      }
  }

  /** The share map binds exactly the named keys, each to its largest share. */
  lemma {:induction false} PctMapLookup(hasCanon: bool, cs: seq<Contribution>, k: string)
    ensures Lookup(PctMap(hasCanon, cs), k) ==
      if k in ZoneKeys(hasCanon, cs) then Some(MaxShare(hasCanon, cs, k)) else None
    decreases |cs|
  {
    if |cs| > 0 {
      var init := cs[..|cs| - 1];
      var c := cs[|cs| - 1];
      var g := PctMap(hasCanon, init);
      var key := ZoneKey(hasCanon, c.code);
      PctMapLookup(hasCanon, init, k);
      assert ZoneKeys(hasCanon, cs) == ZoneKeys(hasCanon, init) + [key];
      assert MaxShare(hasCanon, cs, k) == Max(MaxShare(hasCanon, init, k), Share(hasCanon, c, k));
      if k !in ZoneKeys(hasCanon, init) {
        MaxShareAbsent(hasCanon, init, k);
      }
      PctStepLookup(hasCanon, g, c, k);
      if k != key {
        assert Share(hasCanon, c, k) == 0.0;
      }
    }
  }

  lemma {:induction false} PctMapUnique(hasCanon: bool, cs: seq<Contribution>)
    ensures UniqueKeys(PctMap(hasCanon, cs))
    decreases |cs|
  {
    if |cs| > 0 {
      var g := PctMap(hasCanon, cs[..|cs| - 1]);
      PctMapUnique(hasCanon, cs[..|cs| - 1]);
      match cs[|cs| - 1]
      case Covered(code, p) =>
        PutMaxUnique(g, ZoneKey(hasCanon, code), p);
      case Listed(code) =>
        PutUnique(g, ZoneKey(hasCanon, code), 0.0);
    }
  }

  lemma PutMaxUnique(g: Assoc<string, real>, k: string, p: real)
    requires UniqueKeys(g)
    ensures UniqueKeys(PutMax(g, k, p))
  {
    var r := PutMax(g, k, p);
    forall i, j | 0 <= i < j < |r| ensures r[i].0 != r[j].0 {
      assert Keys(r)[i] == r[i].0 && Keys(r)[j] == r[j].0;
      if j < |g| {
        assert Keys(g)[i] == g[i].0 && Keys(g)[j] == g[j].0;
      } else {
        assert Keys(g)[i] == g[i].0;
      }
    }
  }

  /** The codes of the contributions. */
  function Codes(cs: seq<Contribution>): (r: seq<string>)
    ensures |r| == |cs|
    ensures forall i | 0 <= i < |cs| :: r[i] == cs[i].code
  {
    seq(|cs|, i requires 0 <= i < |cs| => cs[i].code)
  }

  function NonEmptyFn(): string -> bool {
    (z: string) => z != ""
  }

  /** The `seen`/`uniq` loop over the collected zones, one zone at a time
      from the left: a zone is appended when it is non-empty and not yet
      in the list. */
  function UniqLoop(zs: seq<string>): seq<string>
    decreases |zs|
  {
    if |zs| == 0 then []
    else
      var u := UniqLoop(zs[..|zs| - 1]);
      var z := zs[|zs| - 1];
      if z != "" && z !in u then u + [z] else u
  }

  /** The loop keeps the first occurrence of each non-empty zone, in order. */
  lemma {:induction false} UniqLoopIsDedup(zs: seq<string>)
    ensures UniqLoop(zs) == Dedup(Filter(zs, NonEmptyFn()))
  {
    if |zs| > 0 {
      var init, z := zs[..|zs| - 1], zs[|zs| - 1];
      assert zs == init + [z];
      UniqLoopIsDedup(init);
      FilterConcat(init, [z], NonEmptyFn());
      var f := Filter(init, NonEmptyFn());
      if z != "" {
        assert Filter([z], NonEmptyFn()) == [z];
        DedupSnoc(f, z);
      } else {
        assert Filter([z], NonEmptyFn()) == [];
        assert f + [] == f;
      }
    }
  }

  /** The zone list: the non-empty codes, first occurrence kept. */
  function ZoneList(cs: seq<Contribution>): (r: seq<string>)
    ensures Distinct(r)
    ensures forall z :: z in r <==> z != "" && z in Codes(cs)
    ensures r == UniqLoop(Codes(cs))
  {
    var codes := Codes(cs);
    FilterMembers(codes, NonEmptyFn());
    UniqLoopIsDedup(codes);
    Dedup(Filter(codes, NonEmptyFn()))
  }

  const PluZonage: string := "plu_zonage"

  /** `extract_zones_and_pct`: the zones of the PLU layers, each once, and
      the largest share per zone key. */
  function ExtractZonesAndPct(m: Assoc<string, MapEntry>, reps: seq<ParcelRep>, hasCanon: bool): (r: (seq<string>, Assoc<string, real>))
    ensures Distinct(r.0)
    ensures forall z | z in r.0 :: z != ""
    ensures UniqueKeys(r.1)
    ensures r.0 == UniqLoop(Codes(Contributions(m, LayersByType(m, reps, [PluZonage]))))
  {
    var cs := Contributions(m, LayersByType(m, reps, [PluZonage]));
    PctMapUnique(hasCanon, cs);
    (ZoneList(cs), PctMap(hasCanon, cs))
  }

  /** Each zone key maps to the largest share given to it, so no share of a
      zone exceeds it and it is never below 0.0. */
  lemma ExtractZonesShares(m: Assoc<string, MapEntry>, reps: seq<ParcelRep>, hasCanon: bool, k: string)
    ensures var cs := Contributions(m, LayersByType(m, reps, [PluZonage]));
      Lookup(ExtractZonesAndPct(m, reps, hasCanon).1, k) ==
        if k in ZoneKeys(hasCanon, cs) then Some(MaxShare(hasCanon, cs, k)) else None
  {
    PctMapLookup(hasCanon, Contributions(m, LayersByType(m, reps, [PluZonage])), k);
  }

  // -------------------------------------------------------- servitudes

  const SupLayerTypes: seq<string> := ["servitudes", "servitudes_aeronautiques"]

  function UpperStripped(s: seq<string>): (r: seq<string>)
    ensures |r| == |s|
    ensures forall i | 0 <= i < |s| :: r[i] == Strip(Upper(s[i]))
  {
    seq(|s|, i requires 0 <= i < |s| => Strip(Upper(s[i])))
  }

  /** The easement types of a layer, or a single blank one. */
  function SupTypesOf(l: ReportLayer): (r: seq<string>)
    ensures |r| > 0
  {
    var s := ValuesOf(l, "suptype");
    if s == [] then [""] else UpperStripped(s)
  }

  /** The easement labels of a layer: the first non-empty of three columns,
      else the display name of the layer. */
  function SupLabels(m: Assoc<string, MapEntry>, l: ReportLayer): (r: seq<string>)
    ensures |r| > 0
  {
    var a := ValuesOf(l, "nomsuplitt");
    if a != [] then a
    else
      var b := ValuesOf(l, "libelle");
      if b != [] then b
      else
        var c := ValuesOf(l, "nom");
        if c != [] then c else [DisplayName(m, l)]
  }

  /** One easement: a blank type or label shows the dash. */
  function SupItem(st: string, nm: string): (r: (string, string))
    ensures r.0 != ""
  {
    (if st != "" then st else CuaDash, Strip(if nm != "" then nm else CuaDash))
  }

  const CuaDash: string := "\U{2014}"

  function SupItemFn(): (string, string) -> (string, string) {
    (st: string, nm: string) => SupItem(st, nm)
  }

  /** Every type paired with every label, type-major. */
  function Product(sts: seq<string>, nms: seq<string>): (r: seq<(string, string)>)
    ensures forall x | x in r :: x.0 != ""
  {
    var r := Grid(sts, nms, SupItemFn());
    assert forall x | x in r :: x.0 != "" by {
      forall x | x in r ensures x.0 != "" {
        GridFrom(sts, nms, SupItemFn(), x);
      }
    }
    r
  }

  /** The product holds exactly the items of a type and a label. */
  lemma ProductMembers(sts: seq<string>, nms: seq<string>, x: (string, string))
    ensures x in Product(sts, nms) <==>
      exists i, j | 0 <= i < |sts| && 0 <= j < |nms| :: x == SupItem(sts[i], nms[j])
  {
    GridMembers(sts, nms, SupItemFn(), x);
  }

  /** The easements of every layer, in layer order. */
  function SupItems(m: Assoc<string, MapEntry>, layers: seq<ReportLayer>): (r: seq<(string, string)>)
    ensures forall x | x in r :: x.0 != ""
    decreases |layers|
  {
    if |layers| == 0 then []
    else
      var l := layers[|layers| - 1];
      SupItems(m, layers[..|layers| - 1]) + Product(SupTypesOf(l), SupLabels(m, l))
  }

  /** `extract_sup_list`: the easements of the servitude layers, each once,
      in increasing (type, label) order. */
  function ExtractSupList(m: Assoc<string, MapEntry>, reps: seq<ParcelRep>): (r: seq<(string, string)>)
    ensures forall i, j | 0 <= i < j < |r| :: PairLt(r[i], r[j])
    ensures forall x :: x in r <==> x in SupItems(m, LayersByType(m, reps, SupLayerTypes))
    ensures forall x | x in r :: x.0 != ""
  {
    var items := Dedup(SupItems(m, LayersByType(m, reps, SupLayerTypes)));
    SortPairs(items);
    SortBy(items, PairLeFn())
  }

  /** A layer's easement list is every type with every label. */
  lemma SupItemsOfLayer(m: Assoc<string, MapEntry>, l: ReportLayer, x: (string, string))
    ensures x in SupItems(m, [l]) <==>
      exists i, j | 0 <= i < |SupTypesOf(l)| && 0 <= j < |SupLabels(m, l)| :: x == SupItem(SupTypesOf(l)[i], SupLabels(m, l)[j])
  {
    assert [l][..0] == [];
    ProductMembers(SupTypesOf(l), SupLabels(m, l), x);
  }
}

=== FILE: cua_fields.dfy ===
/** Two fields of the CU document: the footer number "CU ddd ccc yy ND"
    and the bare parcel number shown per parcel. */
module CuaFields {
  import opened Wrappers
  import opened Text

  /** The dash shown for a missing label. */
  const Dash: string := "\U{2014}"

  // -------------------------------------------------------- parcel number

  /** `parcel_num_only`: the last word of the label without its leading
      zeros ("AC 0494" gives "494"); an all-zero number stays as it is, an
      empty label gives the dash and a blank one is returned unchanged. */
  function ParcelNumOnly(parcelLabel: string): (r: string)
    ensures parcelLabel == "" ==> r == Dash
    ensures parcelLabel != "" && Words(parcelLabel) == [] ==> r == parcelLabel
    ensures Words(parcelLabel) != [] ==>
      var w := Words(parcelLabel)[|Words(parcelLabel)| - 1];
      r != "" && |r| <= |w| && r == w[|w| - |r|..] && (r[0] != '0' || r == w) &&
      forall i | 0 <= i < |w| - |r| :: w[i] == '0'
  {
    if parcelLabel == "" then Dash
    else
      var bits := Words(parcelLabel);
      if |bits| == 0 then parcelLabel
      else
        var num := bits[|bits| - 1];
        var t := LStripChar(num, '0');
        if t != "" then t else num
  }

  /** A section and a number separated by a space give the number without
      its leading zeros. */
  lemma ParcelNumOnlyOfRef(section: string, number: string)
    requires |section| > 0 && NoSpace(section)
    requires |number| > 0 && NoSpace(number)
    ensures ParcelNumOnly(section + " " + number) ==
      if LStripChar(number, '0') != "" then LStripChar(number, '0') else number
  {
    WordsOfPair(section, number);
  }

  /** Taking the number of a number changes nothing. */
  lemma ParcelNumOnlyIdempotent(parcelLabel: string)
    ensures ParcelNumOnly(ParcelNumOnly(parcelLabel)) == ParcelNumOnly(parcelLabel)
  {
    var r := ParcelNumOnly(parcelLabel);
    if parcelLabel == "" {
      assert NoSpace(Dash);
      WordsOfWord(Dash);
    } else if Words(parcelLabel) != [] {
      var w := Words(parcelLabel)[|Words(parcelLabel)| - 1];
      assert NoSpace(w);
      assert NoSpace(r) by {
        forall i | 0 <= i < |r| ensures !IsSpace(r[i]) {
          assert r[i] == w[|w| - |r| + i];
        }
      }
      WordsOfWord(r);
      if r[0] == '0' {
        assert r == w;
        assert forall i | 0 <= i < |r| :: r[i] == '0';
        assert LStripChar(r, '0') == "";
      }
    }
  }

  // -------------------------------------------------------- footer number

  /** The `header_cu` block of the CERFA data. */
  datatype HeaderCu = HeaderCu(dept: Option<string>, communeCode: Option<string>,
                               annee: Option<string>, numeroDossier: Option<string>)

  /** All four header fields present and non-empty. */
  predicate HeaderComplete(h: HeaderCu) {
    Given(h.dept) && Given(h.communeCode) && Given(h.annee) && Given(h.numeroDossier)
  }

  /** A numeric department is padded to three digits ("33" gives "033"). */
  function Dep3(dep: string): (r: string)
    ensures IsDigits(dep) ==> |r| >= 3 && |r| >= |dep| && IsDigits(r) && r[|r| - |dep|..] == dep
    ensures !IsDigits(dep) ==> r == dep
  {
    if IsDigits(dep) then
      var r := ZFill(dep, 3);
      assert forall i | 0 <= i < |r| :: IsDigit(r[i]) by {
        forall i | 0 <= i < |r| ensures IsDigit(r[i]) {
          if i >= |r| - |dep| {
            assert r[i] == r[|r| - |dep|..][i - (|r| - |dep|)];
          }
        }
      }
      r
    else dep
  }

  function Footer(dep3: string, com3: string, an2: string, nd: string): string {
    "CU " + dep3 + " " + com3 + " " + an2 + " " + nd
  }

  lemma FooterStartsWithCu(dep3: string, com3: string, an2: string, nd: string)
    ensures StartsWith(Footer(dep3, com3, an2, nd), "CU")
  {
    StartsWithConcat("CU", " " + dep3 + " " + com3 + " " + an2 + " " + nd);
    assert Footer(dep3, com3, an2, nd) == "CU" + (" " + dep3 + " " + com3 + " " + an2 + " " + nd);
  }

  /** Stripping a text that opens with "CU" keeps it opening with "CU". */
  lemma StripKeepsCu(s: string)
    requires |s| >= 2 && s[..2] == "CU"
    ensures StartsWith(Strip(s), "CU")
  {
    assert !IsSpace(s[0]) && !IsSpace(s[1]);
    var l := StripLeft(s);
    assert l == s;
    var r := StripRight(l);
    assert |r| >= 2;
    assert r[..2] == s[..2];
  }

  /** The number written from the numero field: four dash-separated parts
      give the footer, anything else gives "CU" and the number as written. */
  function FooterFromNumero(num: string): (r: string)
    ensures StartsWith(r, "CU")
  {
    var parts := SplitOn(num, '-');
    if |parts| == 4 then
      FooterStartsWithCu(Dep3(parts[0]), Suffix(parts[1], 3), Suffix(parts[2], 2), parts[3]);
      Footer(Dep3(parts[0]), Suffix(parts[1], 3), Suffix(parts[2], 2), parts[3])
    else
      StripKeepsCu("CU " + num);
      Strip("CU " + num)
  }

  /** `format_footer_numero`: the four header fields when all are given,
      else the `numero_cu` field. */
  function FormatFooterNumero(h: HeaderCu, numeroCu: Option<string>): (r: string)
    ensures StartsWith(r, "CU")
    ensures HeaderComplete(h) ==>
      r == Footer(Dep3(h.dept.value), ZFill(h.communeCode.value, 3),
                  ZFill(Suffix(h.annee.value, 2), 2), Upper(h.numeroDossier.value))
    ensures !HeaderComplete(h) ==> r == FooterFromNumero(Strip(Or(numeroCu, "")))
  {
    if HeaderComplete(h) then
      var dep3 := Dep3(h.dept.value);
      var com3 := ZFill(h.communeCode.value, 3);
      var an2 := ZFill(Suffix(h.annee.value, 2), 2);
      var nd := Upper(h.numeroDossier.value);
      FooterStartsWithCu(dep3, com3, an2, nd);
      Footer(dep3, com3, an2, nd)
    else FooterFromNumero(Strip(Or(numeroCu, "")))
  }

  /** The "dep-insee-yyyy-ND" form of a CU number. */
  function Numero(dep: string, insee: string, yyyy: string, nd: string): string {
    dep + "-" + insee + "-" + yyyy + "-" + nd
  }

  lemma NumeroSplits(dep: string, insee: string, yyyy: string, nd: string)
    requires |dep| > 0 && |nd| > 0
    requires NoSpace(dep) && NoSpace(nd)
    requires '-' !in dep && '-' !in insee && '-' !in yyyy && '-' !in nd
    ensures Strip(Numero(dep, insee, yyyy, nd)) == Numero(dep, insee, yyyy, nd)
    ensures SplitOn(Numero(dep, insee, yyyy, nd), '-') == [dep, insee, yyyy, nd]
  {
    var parts := [dep, insee, yyyy, nd];
    var num := Numero(dep, insee, yyyy, nd);
    assert JoinSep(parts[3..], "-") == nd;
    assert JoinSep(parts[2..], "-") == yyyy + "-" + nd;
    assert JoinSep(parts[1..], "-") == insee + "-" + (yyyy + "-" + nd);
    assert JoinSep(parts, "-") == num;
    JoinSplit(parts, '-');
    assert num[0] == dep[0] && num[|num| - 1] == nd[|nd| - 1];
    StripNoSpace(num);
  }

  /** A `numero_cu` written "dep-insee-yyyy-ND" gives the same footer as the
      header fields it was made from. */
  lemma FooterRoutesAgree(dep: string, insee: string, yyyy: string, nd: string)
    requires |dep| > 0 && |insee| >= 3 && |yyyy| >= 2 && |nd| > 0
    requires NoSpace(dep) && NoSpace(nd)
    requires '-' !in dep && '-' !in insee && '-' !in yyyy && '-' !in nd
    requires Upper(nd) == nd
    ensures FormatFooterNumero(HeaderCu(None, None, None, None), Some(Numero(dep, insee, yyyy, nd))) ==
            FormatFooterNumero(HeaderCu(Some(dep), Some(Suffix(insee, 3)), Some(yyyy), Some(nd)), None)
  {
    var num := Numero(dep, insee, yyyy, nd);
    NumeroSplits(dep, insee, yyyy, nd);
    assert Or(Some(num), "") == num;
    assert FooterFromNumero(num) == Footer(Dep3(dep), Suffix(insee, 3), Suffix(yyyy, 2), nd);
    var h := HeaderCu(Some(dep), Some(Suffix(insee, 3)), Some(yyyy), Some(nd));
    assert HeaderComplete(h);
    assert ZFill(Suffix(insee, 3), 3) == Suffix(insee, 3);
    assert ZFill(Suffix(yyyy, 2), 2) == Suffix(yyyy, 2);
  }
}

=== FILE: cua_layers.dfy ===
/** How the CUA builder reads the layers of an intersection report: the
    values of a column, the (value, percent) pairs of a coverage field
    chosen through the mapping, and the layers of given types. */
module CuaLayers {
  import opened Wrappers
  import opened Text
  import opened Assoc
  import opened Seqs
  import opened Coverage
  import opened Mapping
  import Catalog

  /** `values_of`: the present values of column `key`, none when the column
      is missing. */
  function ValuesOf(l: ReportLayer, key: string): (r: seq<string>)
    ensures key !in Keys(l.values) ==> r == []
    ensures key in Keys(l.values) ==> forall x :: x in r <==> Some(x) in Lookup(l.values, key).value
    ensures key in Keys(l.values) ==> r == Map(Filter(Lookup(l.values, key).value, Present), PresentText)
  {
    SomesIsComprehension(Lookup(l.values, key).GetOr([]));
    Somes(Lookup(l.values, key).GetOr([]))
  }

  /** `first_non_empty_values`: the present values of the first candidate
      column holding a non-empty list (which may still have none present). */
  function FirstNonEmptyValues(l: ReportLayer, cands: seq<string>): (r: seq<string>)
    ensures r != [] ==> exists i | 0 <= i < |cands| :: r == Somes(Lookup(l.values, cands[i]).GetOr([]))
    ensures (forall i | 0 <= i < |cands| :: Lookup(l.values, cands[i]).GetOr([]) == []) ==> r == []
  {
    if |cands| == 0 then []
    else
      var arr := Lookup(l.values, cands[0]).GetOr([]);
      if arr != [] then Somes(arr)
      else
        var r := FirstNonEmptyValues(l, cands[1..]);
        assert forall i | 1 <= i < |cands| :: cands[i] == cands[1..][i - 1];
        assert r != [] ==> exists i | 0 <= i < |cands[1..]| :: r == Somes(Lookup(l.values, cands[1..][i]).GetOr([]));
        r
  }

  /** The first non-empty candidate column is the one read. */
  lemma {:induction false} FirstNonEmptyValuesAt(l: ReportLayer, cands: seq<string>, i: nat)
    requires i < |cands| && Lookup(l.values, cands[i]).GetOr([]) != []
    requires forall j | 0 <= j < i :: Lookup(l.values, cands[j]).GetOr([]) == []
    ensures FirstNonEmptyValues(l, cands) == Somes(Lookup(l.values, cands[i]).value)
  {
    if i > 0 {
      FirstNonEmptyValuesAt(l, cands[1..], i - 1);
    }
  }

  // ------------------------------------------------------ coverage pairs

  /** `float(pct_capped or pct_of_parcel or 0.0)`. */
  function ItemPct(it: CovItem): (p: real)
    ensures Truthy(it.pctCapped) ==> p == it.pctCapped.value
    ensures !Truthy(it.pctCapped) && Truthy(it.pctOfParcel) ==> p == it.pctOfParcel.value
    ensures !Truthy(it.pctCapped) && !Truthy(it.pctOfParcel) ==> p == 0.0
  {
    if Truthy(it.pctCapped) then it.pctCapped.value
    else if Truthy(it.pctOfParcel) then it.pctOfParcel.value
    else 0.0
  }

  /** One coverage class as a pair: a missing value reads as "". */
  function ItemPair(it: CovItem): RawPair {
    RawPair(Some(Or(it.value, "")), Some(ItemPct(it)))
  }

  function ItemPairs(items: seq<CovItem>): (r: seq<RawPair>)
    ensures |r| == |items|
    ensures forall i | 0 <= i < |items| :: r[i] == ItemPair(items[i])
  {
    seq(|items|, i requires 0 <= i < |items| => ItemPair(items[i]))
  }

  /** The first non-empty list. */
  function FirstNonEmpty<T>(lists: seq<seq<T>>): (r: Option<seq<T>>)
    ensures r.None? <==> forall i | 0 <= i < |lists| :: lists[i] == []
    ensures r.Some? ==> r.value != [] && r.value in lists
  {
    if |lists| == 0 then None
    else if lists[0] != [] then Some(lists[0])
    else
      assert forall i | 1 <= i < |lists| :: lists[i] == lists[1..][i - 1];
      FirstNonEmpty(lists[1..])
  }

  lemma {:induction false} FirstNonEmptyAt<T>(lists: seq<seq<T>>, i: nat)
    requires i < |lists| && lists[i] != []
    requires forall j | 0 <= j < i :: lists[j] == []
    ensures FirstNonEmpty(lists) == Some(lists[i])
  {
    if i > 0 {
      FirstNonEmptyAt(lists[1..], i - 1);
    }
  }

  /** What iterating `coverage_by` yields: the names of a list, and the
      single characters of a text, which the builder does not split. */
  function DeclaredFields(c: Option<Catalog.CoverageBy>): (r: seq<string>)
    ensures c.Some? && c.value.ByList? ==> r == c.value.cols
    ensures c.Some? && c.value.ByText? ==>
      |r| == |c.value.text| && forall i | 0 <= i < |r| :: r[i] == [c.value.text[i]]
    ensures c.None? ==> r == []
  {
    if c.None? then []
    else if c.value.ByList? then c.value.cols
    else seq(|c.value.text|, i requires 0 <= i < |c.value.text| => [c.value.text[i]])
  }

  /** The coverage fields tried first: the mapping's declared ones when
      there are any, else every field of the layer. */
  function CoverageFields(m: Assoc<string, MapEntry>, l: ReportLayer): (r: seq<string>)
    ensures MappingFor(m, l).Some? && DeclaredFields(MappingFor(m, l).value.coverageBy) != [] ==>
      r == DeclaredFields(MappingFor(m, l).value.coverageBy)
    ensures (MappingFor(m, l).None? || DeclaredFields(MappingFor(m, l).value.coverageBy) == []) ==>
      r == Keys(l.coverage)
  {
    var d := if MappingFor(m, l).Some? then DeclaredFields(MappingFor(m, l).value.coverageBy) else [];
    if |d| > 0 then d else Keys(l.coverage)
  }

  /** The pairs of each named field, a missing field giving none. */
  function FieldPairs(cov: Assoc<string, seq<CovItem>>, fields: seq<string>): (r: seq<seq<RawPair>>)
    ensures |r| == |fields|
    ensures forall i | 0 <= i < |fields| :: r[i] == ItemPairs(Lookup(cov, fields[i]).GetOr([]))
  {
    seq(|fields|, i requires 0 <= i < |fields| => ItemPairs(Lookup(cov, fields[i]).GetOr([])))
  }

  /** The pairs of every field, in field order. */
  function AllFieldPairs(cov: Assoc<string, seq<CovItem>>): (r: seq<seq<RawPair>>)
    ensures |r| == |cov|
    ensures forall i | 0 <= i < |cov| :: r[i] == ItemPairs(cov[i].1)
  {
    seq(|cov|, i requires 0 <= i < |cov| => ItemPairs(cov[i].1))
  }

  /** The result of `normalize_pairs`, or nothing. */
  predicate Normalized(r: seq<Pair>) {
    UniqueKeys(r) && (forall i | 0 <= i < |r| :: r[i].1 <= 100.0) && Sum(r) <= Tolerance && Descending(r)
  }

  /** `coverage_pairs`: the normalised pairs of the first non-empty field
      among the declared ones, else of the first non-empty field of the
      layer; nothing when every field is empty. */
  function CoveragePairs(m: Assoc<string, MapEntry>, l: ReportLayer): (r: seq<Pair>)
    ensures Normalized(r)
    ensures r == [] <==> forall i | 0 <= i < |l.coverage| :: l.coverage[i].1 == []
  {
    if |l.coverage| == 0 then []
    else
      match FirstNonEmpty(FieldPairs(l.coverage, CoverageFields(m, l)))
      case Some(pairs) =>
        NonEmptyNormalized(pairs);
        NonEmptyCoverage(l.coverage, CoverageFields(m, l), pairs);
        NormalizePairs(pairs)
      case None =>
        match FirstNonEmpty(AllFieldPairs(l.coverage))
        case Some(pairs) =>
          NonEmptyNormalized(pairs);
          NormalizePairs(pairs)
        case None =>
          var all := AllFieldPairs(l.coverage);
          assert forall i | 0 <= i < |l.coverage| :: l.coverage[i].1 == [] by {
            forall i | 0 <= i < |l.coverage| ensures l.coverage[i].1 == [] {
              assert all[i] == [];
            }
          }
          []
  }

  lemma NonEmptyNormalized(pairs: seq<RawPair>)
    requires pairs != []
    ensures NormalizePairs(pairs) != []
  {
    assert RawKeys(pairs)[0] in RawKeys(pairs);
  }

  /** A non-empty declared field is a non-empty field of the layer. */
  lemma NonEmptyCoverage(cov: Assoc<string, seq<CovItem>>, fields: seq<string>, pairs: seq<RawPair>)
    requires pairs != [] && pairs in FieldPairs(cov, fields)
    ensures exists i | 0 <= i < |cov| :: cov[i].1 != []
  {
    var fp := FieldPairs(cov, fields);
    var j :| 0 <= j < |fp| && fp[j] == pairs;
    var o := Lookup(cov, fields[j]);
    assert o.Some?;
    var i :| 0 <= i < |cov| && cov[i] == (fields[j], o.value);
  }

  /** The first declared field with classes is the one read. */
  lemma CoveragePairsDeclared(m: Assoc<string, MapEntry>, l: ReportLayer, i: nat)
    requires |l.coverage| > 0
    requires i < |CoverageFields(m, l)|
    requires Lookup(l.coverage, CoverageFields(m, l)[i]).GetOr([]) != []
    requires forall j | 0 <= j < i :: Lookup(l.coverage, CoverageFields(m, l)[j]).GetOr([]) == []
    ensures CoveragePairs(m, l) == NormalizePairs(ItemPairs(Lookup(l.coverage, CoverageFields(m, l)[i]).value))
  {
    var fp := FieldPairs(l.coverage, CoverageFields(m, l));
    FirstNonEmptyAt(fp, i);
  }

  /** Without any declared field with classes, the first field of the layer
      with classes is read. */
  lemma CoveragePairsFallback(m: Assoc<string, MapEntry>, l: ReportLayer, i: nat)
    requires i < |l.coverage| && l.coverage[i].1 != []
    requires forall j | 0 <= j < i :: l.coverage[j].1 == []
    requires forall f | f in CoverageFields(m, l) :: Lookup(l.coverage, f).GetOr([]) == []
    ensures CoveragePairs(m, l) == NormalizePairs(ItemPairs(l.coverage[i].1))
  {
    FieldPairsNone(l.coverage, CoverageFields(m, l));
    FirstNonEmptyAt(AllFieldPairs(l.coverage), i);
  }

  /** Fields without classes give no pairs at all. */
  lemma FieldPairsNone(cov: Assoc<string, seq<CovItem>>, fields: seq<string>)
    requires forall f | f in fields :: Lookup(cov, f).GetOr([]) == []
    ensures FirstNonEmpty(FieldPairs(cov, fields)).None?
  {
    var fp := FieldPairs(cov, fields);
    forall j | 0 <= j < |fp| ensures fp[j] == [] {
      assert fields[j] in fields;
    }
  }

  // --------------------------------------------------------------- layers

  /** A report of the intersection run, as the builder reads it. */
  datatype ParcelRep = ParcelRep(parcelLabel: Option<string>, results: seq<ReportLayer>)

  /** `iter_layers`: the layers of every report, in report order. */
  function AllLayers(reps: seq<ParcelRep>): (r: seq<ReportLayer>)
    ensures forall l :: l in r <==> exists i | 0 <= i < |reps| :: l in reps[i].results
  {
    if |reps| == 0 then []
    else
      var init := AllLayers(reps[..|reps| - 1]);
      assert forall i | 0 <= i < |reps| - 1 :: reps[..|reps| - 1][i] == reps[i];
      init + reps[|reps| - 1].results
  }

  /** The mapping type of a layer is one of `types`. */
  predicate OfType(m: Assoc<string, MapEntry>, l: ReportLayer, types: seq<string>) {
    LayerType(m, l).Some? && LayerType(m, l).value in types
  }

  /** `get_layers_by_type`: the layers whose mapping type is listed, in
      report order. */
  function LayersByType(m: Assoc<string, MapEntry>, reps: seq<ParcelRep>, types: seq<string>): (r: seq<ReportLayer>)
    ensures |r| <= |AllLayers(reps)|
  {
    Filter(AllLayers(reps), (l: ReportLayer) => OfType(m, l, types))
  }

  /** The selected layers are exactly the layers of the listed types. */
  lemma LayersByTypeMembers(m: Assoc<string, MapEntry>, reps: seq<ParcelRep>, types: seq<string>, l: ReportLayer)
    ensures l in LayersByType(m, reps, types) <==>
      OfType(m, l, types) && exists i | 0 <= i < |reps| :: l in reps[i].results
  {
    FilterMembers(AllLayers(reps), (l: ReportLayer) => OfType(m, l, types));
  }
}

=== FILE: cua_service.dfy ===
/** The pure helpers of the CUA service and its two entry checks: field
    normalisers for parcel references, the order-preserving de-duplication,
    the department hint read from the CERFA pages, and the batch that
    intersects every parcel with the older runner's `_intersect_one_parcel`. */
module CuaService {
  import opened Wrappers
  import opened Text
  import opened Seqs
  import opened Assoc
  import opened Catalog
  import opened ParcelRefs
  import opened Reports
  import Runner
  import IntersectionsLegacy

  /** A value is usable when its stripped text is not empty. */
  predicate Usable(v: Option<string>) {
    v.Some? && |Strip(v.value)| > 0
  }

  /** `_first_nonempty`: the first usable value, stripped. */
  function FirstNonempty(vals: seq<Option<string>>): (r: Option<string>)
    ensures r.None? <==> forall i | 0 <= i < |vals| :: !Usable(vals[i])
    ensures r.Some? ==> |r.value| > 0
  {
    if |vals| == 0 then None
    else if Usable(vals[0]) then Some(Strip(vals[0].value))
    else
      var r := FirstNonempty(vals[1..]);
      assert forall i | 1 <= i < |vals| :: vals[i] == vals[1..][i - 1];
      r
  }

  /** The value kept is the first usable one, stripped. */
  lemma {:induction false} FirstNonemptyIsFirst(vals: seq<Option<string>>, k: nat)
    requires k < |vals| && Usable(vals[k])
    requires forall j | 0 <= j < k :: !Usable(vals[j])
    ensures FirstNonempty(vals) == Some(Strip(vals[k].value))
  {
    if k > 0 {
      FirstNonemptyIsFirst(vals[1..], k - 1);
    }
  }

  /** `_norm_section`: stripped, upper-cased, spaces removed; nothing when
      that leaves nothing. */
  function NormSection(s: Option<string>): (r: Option<string>)
    ensures s.None? || s.value == "" ==> r.None?
    ensures r.Some? ==> |r.value| > 0 && ' ' !in r.value && Upper(r.value) == r.value
  {
    if s.None? || s.value == "" then None
    else
      var u := Upper(Strip(s.value));
      var v := RemoveChar(u, ' ');
      assert Upper(v) == v by {
        assert AllChars(u, UpperFixed) by {
          forall i | 0 <= i < |u| ensures UpperFixed(u[i]) { UpperCharFacts(Strip(s.value)[i]); }
        }
        RemoveCharChars(u, ' ', UpperFixed);
      }
      if |v| == 0 then None else Some(v)
  }

  predicate UpperFixed(c: char) {
    UpperChar(c) == c
  }

  /** A normalised section normalises to itself. */
  lemma NormSectionIdempotent(s: Option<string>)
    requires NormSection(s).Some?
    ensures NormSection(NormSection(s)) == NormSection(s)
  {
    var t := Strip(s.value);
    var u := Upper(t);
    var v := NormSection(s).value;
    UpperCharFacts(t[0]);
    UpperCharFacts(t[|t| - 1]);
    RemoveCharEnds(u, ' ');
    StripNoSpace(v);
  }

  /** `_num4`: stripped and zero-padded to four; nothing for a missing or
      blank number. */
  function Num4(n: Option<string>): (r: Option<string>)
    ensures r.None? <==> n.None? || |Strip(n.value)| == 0
    ensures r.Some? ==> |r.value| >= 4 && r.value == ZFill(Strip(n.value), 4)
    ensures r.Some? && |Strip(n.value)| >= 4 ==> r.value == Strip(n.value)
  {
    if n.None? then None
    else
      var t := Strip(n.value);
      if |t| > 0 then Some(ZFill(t, 4)) else None
  }

  /** A padded number pads to itself. */
  lemma Num4Idempotent(n: Option<string>)
    requires Num4(n).Some?
    ensures Num4(Num4(n)) == Num4(n)
  {
    var t := Strip(n.value);
    var v := ZFill(t, 4);
    assert !IsSpace(v[0]) && !IsSpace(v[|v| - 1]);
    StripNoSpace(v);
  }

  // ---------------------------------------------------- de-duplication

  predicate Complete(t: (string, string)) {
    t.0 != "" && t.1 != ""
  }

  function CompleteRefs(): ((string, string)) -> bool {
    t => Complete(t)
  }

  /** `_dedup_parcels`: the complete pairs, each once, at its first
      occurrence. */
  method DedupParcels(items: seq<(string, string)>) returns (out: seq<(string, string)>)
    ensures out == Dedup(Filter(items, CompleteRefs()))
  {
    ghost var goal := Dedup(Filter(items, CompleteRefs()));
    var seen: set<(string, string)> := {};
    out := [];
    var i := 0;
    while i < |items|
      invariant 0 <= i <= |items|
      invariant forall t :: t in seen <==> t in out
      invariant out + DedupFrom(Filter(items[i..], CompleteRefs()), out) == goal
    {
      var t := items[i];
      var before := out;
      if t.0 != "" && t.1 != "" && t !in seen {
        seen := seen + {t};
        out := out + [t];
      }
      DedupStep(items, i, before, out);
      i := i + 1;
    }
    assert items[i..] == [];
  }

  /** What `_dedup_parcels` returns holds no pair twice, and holds exactly
      the complete pairs of the input. */
  lemma DedupCompleteMembers(items: seq<(string, string)>)
    ensures var out := Dedup(Filter(items, CompleteRefs()));
      forall i, j | 0 <= i < j < |out| :: out[i] != out[j]
    ensures forall t :: t in Dedup(Filter(items, CompleteRefs())) <==> t in items && Complete(t)
  {
    FilterMembers(items, CompleteRefs());
  }

  /** One turn of the de-duplication loop, from the remaining items' view. */
  lemma DedupStep(items: seq<(string, string)>, i: nat, out: seq<(string, string)>, out': seq<(string, string)>)
    requires i < |items|
    requires out' == if Complete(items[i]) && items[i] !in out then out + [items[i]] else out
    ensures out + DedupFrom(Filter(items[i..], CompleteRefs()), out)
        == out' + DedupFrom(Filter(items[i + 1..], CompleteRefs()), out')
  {
    var t := items[i];
    var rest := Filter(items[i + 1..], CompleteRefs());
    assert Filter(items[i..], CompleteRefs()) == (if Complete(t) then [t] else []) + rest by {
      assert items[i..][0] == t && items[i..][1..] == items[i + 1..];
    }
    if Complete(t) {
      DedupFromCons(t, rest, out);
      if t !in out {
        ConcatAssoc(out, [t], DedupFrom(rest, out + [t]));
      }
    } else {
      assert [] + rest == rest;
    }
  }

  // ------------------------------------------------ the department hint

  /** The applicant's address under `coord_demandeur`: missing (no
      applicant block, or no `adresse` key), JSON null, or an object with
      a postal code (`None` when absent or empty). */
  datatype Address = NoAddress | NullAddress | Postal(cp: Option<string>)

  /** One CERFA page: the postal code of the land address, the applicant's
      address, and the department of the CU header; `None` is an absent or
      empty field. */
  datatype Page = Page(terrainCp: Option<string>, demandeur: Address, headerDept: Option<string>)

  /** The postal code a page offers: the land address's when it is set,
      else the applicant's. */
  function PostalOf(p: Page): Option<string> {
    if Given(p.terrainCp) then p.terrainCp
    else if p.demandeur.Postal? then p.demandeur.cp
    else None
  }

  /** The offered postal code starts with two digits once stripped. */
  predicate PostalDigits(p: Page) {
    Given(PostalOf(p)) && |Strip(PostalOf(p).value)| >= 2 && IsDigits(Strip(PostalOf(p).value)[..2])
  }

  /** The department one page gives, if any: two leading digits of the
      postal code (the land address's, else the applicant's), else the
      header's department upper-cased. Reading the applicant's postal code
      from a null address raises. */
  function PageHint(p: Page): (r: Result<Option<string>>)
    ensures r.Failure? <==> !Given(p.terrainCp) && p.demandeur.NullAddress?
    ensures r.Success? && PostalDigits(p) ==> r.value == Some(Strip(PostalOf(p).value)[..2])
    ensures r.Success? && r.value.Some? ==>
      (|r.value.value| == 2 && IsDigits(r.value.value)) || (Given(p.headerDept) && r.value.value == Upper(Strip(p.headerDept.value)))
    ensures r.Success? ==> (r.value.None? <==> !Given(p.headerDept) && !PostalDigits(p))
  {
    if !Given(p.terrainCp) && p.demandeur.NullAddress? then Failure("AttributeError")
    else
      var cp := PostalOf(p);
      var c := if cp.Some? then Strip(cp.value) else "";
      if Given(cp) && |c| >= 2 && IsDigits(c[..2]) then Success(Some(c[..2]))
      else if Given(p.headerDept) then Success(Some(Upper(Strip(p.headerDept.value))))
      else Success(None)
  }

  /** `_dept_hint_from_pages`: the first page that gives a hint or raises
      decides. */
  function DeptHintFromPages(pages: seq<Page>): (r: Result<Option<string>>)
    ensures r == Success(None) <==> forall i | 0 <= i < |pages| :: PageHint(pages[i]) == Success(None)
    ensures r != Success(None) ==> exists i | 0 <= i < |pages| ::
      r == PageHint(pages[i]) && forall j | 0 <= j < i :: PageHint(pages[j]) == Success(None)
  {
    if |pages| == 0 then Success(None)
    else if PageHint(pages[0]) != Success(None) then PageHint(pages[0])
    else
      var r := DeptHintFromPages(pages[1..]);
      assert forall i | 1 <= i < |pages| :: pages[i] == pages[1..][i - 1];
      if r != Success(None) then
        var k :| 0 <= k < |pages[1..]| && r == PageHint(pages[1..][k])
                 && forall j | 0 <= j < k :: PageHint(pages[1..][j]) == Success(None);
        assert r == PageHint(pages[k + 1]) && forall j | 0 <= j < k + 1 :: PageHint(pages[j]) == Success(None);
        r
      else r
  }

  // ------------------------------------------------ references and slugs

  /** `_parse_parcel_refs_inline`, the service's copy of the runner's parser
      (a missing text reads as empty). */
  function ParseParcelRefsInline(text: Option<string>): seq<Ref> {
    ParseParcelRefs(text.GetOr(""))
  }

  /** The service reads back the orchestrator's parcel argument exactly as
      the runner does. */
  lemma InlineReadsParcelArg(refs: seq<CerfaRef>)
    requires forall i | 0 <= i < |refs| :: Clean(refs[i])
    ensures ParseParcelRefsInline(Some(ToParcelArg(Some(refs)))) == Expected(refs)
  {
    ToParcelArgRoundTrip(refs);
  }

  /** `_label_to_slug`: the label without its spaces. */
  function LabelToSlug(text: string): (slug: string)
    ensures ' ' !in slug && |slug| <= |text|
    ensures ' ' !in text ==> slug == text
  {
    RemoveChar(text, ' ')
  }

  /** The slug of a label is the slugs of its pieces, one character at a
      time: a space goes, any other character stays in place. */
  lemma LabelToSlugSplits(a: string, b: string, x: char)
    ensures LabelToSlug(a + b) == LabelToSlug(a) + LabelToSlug(b)
    ensures LabelToSlug([x]) == (if x == ' ' then "" else [x])
  {
    RemoveCharConcat(a, b, ' ');
  }

  // ------------------------------------------------------- the batch

  /** The loop of `intersect_one_parcel_batch` for any way of intersecting
      one located parcel: one report per parcel, in order, and the sum of
      their hits; the first lookup or intersection that raises ends it. */
  method BatchLoop(insee: string, parcels: seq<Ref>,
                   locate: (string, string, string) -> Result<Option<Feature>>,
                   intersect: Feature -> Result<ParcelReport>)
    returns (r: Result<(seq<ParcelReport>, int)>)
    ensures r.Failure? <==> Batch(insee, parcels, locate, intersect).Failure?
    ensures r.Success? ==> r.value.0 == Batch(insee, parcels, locate, intersect).value
    ensures r.Success? ==> r.value.1 == TotalHits(r.value.0)
  {
    var reports: seq<ParcelReport> := [];
    var total := 0;
    var i := 0;
    assert parcels[0..] == parcels;
    assert Prefixed([], Batch(insee, parcels, locate, intersect)) == Batch(insee, parcels, locate, intersect) by {
      var b := Batch(insee, parcels, locate, intersect);
      if b.Success? { assert [] + b.value == b.value; }
    }
    while i < |parcels|
      invariant 0 <= i <= |parcels|
      invariant Batch(insee, parcels, locate, intersect) == Prefixed(reports, Batch(insee, parcels[i..], locate, intersect))
      invariant total == TotalHits(reports)
    {
      var (sec, num4) := parcels[i];
      assert parcels[i..][0] == parcels[i] && parcels[i..][1..] == parcels[i + 1..];
      var feat := locate(insee, sec, num4);
      if feat.Failure? {
        BatchRaisesFirst(insee, parcels[i..], locate, intersect);
        return Failure(feat.error);
      }
      var rpt: ParcelReport;
      if feat.value.None? {
        rpt := NotFoundReport(insee, sec, num4);
      } else {
        var res := intersect(feat.value.value);
        if res.Failure? {
          BatchRaisesFirst(insee, parcels[i..], locate, intersect);
          return Failure(res.error);
        }
        rpt := res.value;
      }
      BatchCons(insee, parcels[i..], locate, intersect, rpt);
      PrefixedTwice(reports, [rpt], Batch(insee, parcels[i + 1..], locate, intersect));
      TotalHitsSnoc(reports, rpt);
      total := total + Hits(rpt);
      reports := reports + [rpt];
      i := i + 1;
    }
    assert parcels[i..] == [];
    return Success((reports, total));
  }

  /** `intersect_one_parcel_batch`, with the older runner's
      `_intersect_one_parcel` on every located parcel. */
  method IntersectOneParcelBatch(db: Db, layers: seq<Layer>, insee: string, parcels: seq<Ref>,
                                 carveEnclaves: bool, carve: Feature -> Result<string>,
                                 locate: (string, string, string) -> Result<Option<Feature>>)
    returns (r: Result<(seq<ParcelReport>, int)>)
    ensures r.Failure? <==> Batch(insee, parcels, locate, f => IntersectionsLegacy.IntersectOneParcel(db, carveEnclaves, carve, layers, f)).Failure?
    ensures r.Success? ==>
      r.value.0 == Batch(insee, parcels, locate, f => IntersectionsLegacy.IntersectOneParcel(db, carveEnclaves, carve, layers, f)).value
    ensures r.Success? ==> r.value.1 == TotalHits(r.value.0)
  {
    r := BatchLoop(insee, parcels, locate, f => IntersectionsLegacy.IntersectOneParcel(db, carveEnclaves, carve, layers, f));
  }

  // ------------------------------------------------- the direct entry

  /** The checks `run_cua_direct` makes before any lookup: the layers of the
      allowed schemas, and at least one parcel reference, else it raises. */
  function DirectSetup(catalog: Assoc<string, Entry>, whitelist: seq<string>, parcel: string)
    : (r: Result<(seq<Layer>, seq<Ref>)>)
    ensures r.Failure? <==> ParseParcelRefs(parcel) == []
    ensures r.Success? ==> r.value.1 == ParseParcelRefs(parcel) && |r.value.1| > 0
    ensures r.Success? ==> forall l :: l in r.value.0 <==>
      l in LoadLayerMap(catalog) && (|whitelist| > 0 ==> l.schema in whitelist)
  {
    var layers := Runner.SelectLayers(LoadLayerMap(catalog), whitelist);
    var refs := ParseParcelRefsInline(Some(parcel));
    if |refs| == 0 then Failure("Aucune parcelle valide. Format attendu: 'AC 0496' ou 'AC 0496, AC 0497'.")
    else Success((layers, refs))
  }
}

=== FILE: dates.dfy ===
/** `datetime.strptime(s, fmt).strftime("%Y-%m-%d")` for the numeric
    formats the pipeline reads. A format is a sequence of directives. Each
    directive is tried the way the regular expression CPython compiles for
    it is tried: its alternatives in order, with backtracking, the first
    match of the whole pattern winning. A match that stops before the end
    of the text is an error ("unconverted data remains"), and so is a
    matched date the calendar does not have. */
module Dates {
  import opened Wrappers
  import opened Text

  datatype Field = Day | Month | Year | Hour | Minute | Second

  /** A `%` field, a literal character, or the `\s+` that a space of the
      format becomes. */
  datatype Directive = Field(f: Field) | Lit(c: char) | Ws

  datatype Date = Date(year: nat, month: nat, day: nat)

  // ------------------------------------------------------------- numbers

  /** The value of a digit; any other character counts as 0 (the leading
      space of a " 5" day). */
  function DigitVal(c: char): nat {
    if IsDigit(c) then c as int - '0' as int else 0
  }

  /** `int(s)` of a matched field. */
  function Num(s: string): nat {
    if |s| == 0 then 0 else Num(s[..|s| - 1]) * 10 + DigitVal(s[|s| - 1])
  }

  function DigitChar(n: nat): (c: char)
    requires n < 10
    ensures IsDigit(c) && DigitVal(c) == n
  {
    ('0' as int + n) as char
  }

  /** `str(n)`: the decimal digits of `n`. */
  function Digits(n: nat): (r: string)
    ensures IsDigits(r) && Num(r) == n
    ensures n < 10 ==> |r| == 1
    ensures n < 100 ==> |r| <= 2
    ensures n < 10000 ==> |r| <= 4
  {
    if n < 10 then [DigitChar(n)]
    else
      var r := Digits(n / 10) + [DigitChar(n % 10)];
      assert r[..|r| - 1] == Digits(n / 10);
      r
  }

  lemma {:induction false} NumZeros(k: nat)
    ensures Num(Zeros(k)) == 0
  {
    if k > 0 {
      assert Zeros(k)[..k - 1] == Zeros(k - 1);
      NumZeros(k - 1);
    }
  }

  /** Leading zeros do not change a number. */
  lemma {:induction false} NumPadded(k: nat, s: string)
    ensures Num(Zeros(k) + s) == Num(s)
    decreases |s|
  {
    if |s| == 0 {
      assert Zeros(k) + s == Zeros(k);
      NumZeros(k);
    } else {
      assert (Zeros(k) + s)[..|Zeros(k) + s| - 1] == Zeros(k) + s[..|s| - 1];
      NumPadded(k, s[..|s| - 1]);
    }
  }

  /** `n` written on exactly `width` digits, as `%Y`/`%m`/`%d` print it. */
  function Padded(n: nat, width: nat): (r: string)
    requires 1 <= width
    ensures |r| >= width
    ensures width == 2 && n < 100 ==> |r| == 2
    ensures width == 4 && n < 10000 ==> |r| == 4
    ensures IsDigits(r) && Num(r) == n
  {
    var d := Digits(n);
    PaddedNum(d, width);
    ZFill(d, width)
  }

  lemma PaddedNum(d: string, width: nat)
    requires IsDigits(d)
    ensures Num(ZFill(d, width)) == Num(d) && IsDigits(ZFill(d, width))
  {
    if |d| < width {
      assert ZFill(d, width) == Zeros(width - |d|) + d;
      NumPadded(width - |d|, d);
    }
  }

  // ------------------------------------------------------------ calendar

  predicate Leap(y: nat) {
    y % 4 == 0 && (y % 100 != 0 || y % 400 == 0)
  }

  function DaysIn(y: nat, m: nat): nat {
    if m == 2 then (if Leap(y) then 29 else 28)
    else if m == 4 || m == 6 || m == 9 || m == 11 then 30
    else 31
  }

  /** A date `datetime` accepts. */
  predicate Valid(dt: Date) {
    1 <= dt.year <= 9999 && 1 <= dt.month <= 12 && 1 <= dt.day <= DaysIn(dt.year, dt.month)
  }

  /** `strftime("%Y-%m-%d")`. */
  function IsoText(dt: Date): (r: string)
    requires Valid(dt)
  {
    Padded(dt.year, 4) + "-" + Padded(dt.month, 2) + "-" + Padded(dt.day, 2)
  }

  // ------------------------------------------------------------- matching

  predicate CharIn(s: string, i: nat, lo: char, hi: char) {
    i < |s| && lo <= s[i] <= hi
  }

  /** The number of leading whitespace characters. */
  function SpaceRun(s: string): (n: nat)
    ensures n <= |s|
    ensures forall i | 0 <= i < n :: IsSpace(s[i])
    ensures n < |s| ==> !IsSpace(s[n])
  {
    if |s| > 0 && IsSpace(s[0]) then 1 + SpaceRun(s[1..]) else 0
  }

  /** The lengths of the alternatives that match, in order. */
  function Matching(alts: seq<(bool, nat)>, len: nat): (r: seq<nat>)
    ensures forall i | 0 <= i < |r| :: 1 <= r[i] <= len
  {
    if |alts| == 0 then []
    else (if alts[0].0 && 1 <= alts[0].1 <= len then [alts[0].1] else []) + Matching(alts[1..], len)
  }

  /** The lengths the alternatives of a directive's pattern consume at the
      start of `s`, in the order the pattern lists them:
      `%d` is `3[01]|[12]\d|0[1-9]|[1-9]| [1-9]`, `%m` is `1[0-2]|0[1-9]|[1-9]`,
      `%Y` is `\d\d\d\d`, `%H` is `2[0-3]|[0-1]\d|\d`, `%M` is `[0-5]\d|\d`,
      `%S` is `6[0-1]|[0-5]\d|\d`, and `\s+` is greedy. */
  function Alternatives(d: Directive, s: string): (r: seq<nat>)
    ensures forall i | 0 <= i < |r| :: 1 <= r[i] <= |s|
  {
    match d
    case Lit(c) => if |s| > 0 && s[0] == c then [1] else []
    case Ws =>
      var n := SpaceRun(s);
      seq(n, i requires 0 <= i < n => n - i)
    case Field(f) => Matching(FieldAlternatives(f, s), |s|)
  }

  function FieldAlternatives(f: Field, s: string): seq<(bool, nat)> {
    match f
    case Day =>
      [(CharIn(s, 0, '3', '3') && CharIn(s, 1, '0', '1'), 2),
       (CharIn(s, 0, '1', '2') && CharIn(s, 1, '0', '9'), 2),
       (CharIn(s, 0, '0', '0') && CharIn(s, 1, '1', '9'), 2),
       (CharIn(s, 0, '1', '9'), 1),
       (CharIn(s, 0, ' ', ' ') && CharIn(s, 1, '1', '9'), 2)]
    case Month =>
      [(CharIn(s, 0, '1', '1') && CharIn(s, 1, '0', '2'), 2),
       (CharIn(s, 0, '0', '0') && CharIn(s, 1, '1', '9'), 2),
       (CharIn(s, 0, '1', '9'), 1)]
    case Year =>
      [(CharIn(s, 0, '0', '9') && CharIn(s, 1, '0', '9') && CharIn(s, 2, '0', '9') && CharIn(s, 3, '0', '9'), 4)]
    case Hour =>
      [(CharIn(s, 0, '2', '2') && CharIn(s, 1, '0', '3'), 2),
       (CharIn(s, 0, '0', '1') && CharIn(s, 1, '0', '9'), 2),
       (CharIn(s, 0, '0', '9'), 1)]
    case Minute =>
      [(CharIn(s, 0, '0', '5') && CharIn(s, 1, '0', '9'), 2),
       (CharIn(s, 0, '0', '9'), 1)]
    case Second =>
      [(CharIn(s, 0, '6', '6') && CharIn(s, 1, '0', '1'), 2),
       (CharIn(s, 0, '0', '5') && CharIn(s, 1, '0', '9'), 2),
       (CharIn(s, 0, '0', '9'), 1)]
  }

  function Concat(ps: seq<string>): string {
    if |ps| == 0 then "" else ps[0] + Concat(ps[1..])
  }

  /** The first match of the pattern at the start of `s`: the text each
      directive consumed. */
  function Match(ds: seq<Directive>, s: string): (r: Option<seq<string>>)
    ensures r.Some? ==> |r.value| == |ds| && |Concat(r.value)| <= |s| && s[..|Concat(r.value)|] == Concat(r.value)
    decreases |ds|, 1
  {
    if |ds| == 0 then Some([]) else TryAlternatives(ds, s, Alternatives(ds[0], s))
  }

  /** Backtracking over the alternatives of the first directive. */
  function TryAlternatives(ds: seq<Directive>, s: string, alts: seq<nat>): (r: Option<seq<string>>)
    requires |ds| > 0
    requires forall i | 0 <= i < |alts| :: alts[i] <= |s|
    ensures r.Some? ==> |r.value| == |ds| && |Concat(r.value)| <= |s| && s[..|Concat(r.value)|] == Concat(r.value)
    decreases |ds|, 0, |alts|
  {
    if |alts| == 0 then None
    else
      match Match(ds[1..], s[alts[0]..])
      case Some(rest) =>
        var ps := [s[..alts[0]]] + rest;
        assert ps[1..] == rest;
        assert Concat(ps) == s[..alts[0]] + Concat(rest);
        Some(ps)
      case None => TryAlternatives(ds, s, alts[1..])
  }

  /** The value read for a field: the first directive for it, or the
      default `strptime` uses when the format has none. */
  function FieldValue(ds: seq<Directive>, ps: seq<string>, f: Field, default: nat): nat
    requires |ps| == |ds|
  {
    if |ds| == 0 then default
    else if ds[0] == Field(f) then Num(ps[0])
    else FieldValue(ds[1..], ps[1..], f, default)
  }

  /** `datetime.strptime(s, fmt)`, keeping the date: `None` for the
      `ValueError` cases. A second of 60 or 61 passes the pattern but not
      `datetime`. */
  function Strptime(ds: seq<Directive>, s: string): (r: Option<Date>)
    ensures r.Some? ==> Valid(r.value)
  {
    match Match(ds, s)
    case None => None
    case Some(ps) =>
      var dt := Date(FieldValue(ds, ps, Year, 1900), FieldValue(ds, ps, Month, 1), FieldValue(ds, ps, Day, 1));
      if |Concat(ps)| == |s| && Valid(dt) && FieldValue(ds, ps, Second, 0) <= 59 then Some(dt) else None
  }

  // ------------------------------------------------------------- formats

  /** `%d/%m/%Y`, `%d%m%Y`, `%Y-%m-%d`, `%Y%m%d` and `%Y-%m-%d %H:%M:%S`. */
  const DayMonthYearSlash: seq<Directive> := [Field(Day), Lit('/'), Field(Month), Lit('/'), Field(Year)]
  const DayMonthYear: seq<Directive> := [Field(Day), Field(Month), Field(Year)]
  const IsoDate: seq<Directive> := [Field(Year), Lit('-'), Field(Month), Lit('-'), Field(Day)]
  const YearMonthDay: seq<Directive> := [Field(Year), Field(Month), Field(Day)]
  const IsoDateTime: seq<Directive> :=
    [Field(Year), Lit('-'), Field(Month), Lit('-'), Field(Day), Ws,
     Field(Hour), Lit(':'), Field(Minute), Lit(':'), Field(Second)]

  /** The first format that parses, written as YYYY-MM-DD. */
  function FirstFormat(fmts: seq<seq<Directive>>, s: string): Option<string> {
    FirstSome(fmts, f => IsoOf(f, s))
  }

  /** Nothing exactly when no format reads the text; otherwise the ISO text
      of the date one of the formats reads. */
  lemma FirstFormatSpec(fmts: seq<seq<Directive>>, s: string)
    ensures FirstFormat(fmts, s).None? <==> forall i | 0 <= i < |fmts| :: Strptime(fmts[i], s).None?
    ensures FirstFormat(fmts, s).Some? ==> exists i | 0 <= i < |fmts| :: FirstFormat(fmts, s) == IsoOf(fmts[i], s)
  {
    FirstSomeSpec(fmts, f => IsoOf(f, s));
  }

  /** The loop that returns at the first candidate giving an answer. */
  function FirstSome<F>(xs: seq<F>, f: F -> Option<string>): Option<string> {
    if |xs| == 0 then None
    else if f(xs[0]).Some? then f(xs[0])
    else FirstSome(xs[1..], f)
  }

  lemma {:induction false} FirstSomeSpec<F>(xs: seq<F>, f: F -> Option<string>)
    ensures FirstSome(xs, f).None? <==> forall i | 0 <= i < |xs| :: f(xs[i]).None?
    ensures FirstSome(xs, f).Some? ==> exists i | 0 <= i < |xs| :: FirstSome(xs, f) == f(xs[i])
  {
    if |xs| > 0 {
      if f(xs[0]).None? {
        FirstSomeSpec(xs[1..], f);
        FirstShift(xs, f, FirstSome(xs[1..], f));
      } else {
        assert FirstSome(xs, f) == f(xs[0]);
      }
    }
  }

  /** The first candidate with an answer gives the result. */
  lemma {:induction false} FirstSomeAt<F>(xs: seq<F>, f: F -> Option<string>, k: nat)
    requires k < |xs| && f(xs[k]).Some?
    requires forall j | 0 <= j < k :: f(xs[j]).None?
    ensures FirstSome(xs, f) == f(xs[k])
  {
    if k > 0 {
      assert xs[1..][k - 1] == xs[k];
      assert forall j | 0 <= j < k - 1 :: xs[1..][j] == xs[j + 1];
      FirstSomeAt(xs[1..], f, k - 1);
    }
  }

  /** `strptime` then `strftime("%Y-%m-%d")`. */
  function IsoOf(fmt: seq<Directive>, s: string): (r: Option<string>)
    ensures r.Some? <==> Strptime(fmt, s).Some?
  {
    match Strptime(fmt, s)
    case None => None
    case Some(dt) => Some(IsoText(dt))
  }

  /** A first success among the formats after a failing first one is the
      first success among all of them. */
  lemma FirstShift<F>(fmts: seq<F>, parse: F -> Option<string>, r: Option<string>)
    requires |fmts| > 0 && parse(fmts[0]).None?
    requires r.None? <==> forall i | 0 <= i < |fmts[1..]| :: parse(fmts[1..][i]).None?
    requires r.Some? ==> exists i | 0 <= i < |fmts[1..]| :: r == parse(fmts[1..][i])
    ensures r.None? <==> forall i | 0 <= i < |fmts| :: parse(fmts[i]).None?
    ensures r.Some? ==> exists i | 0 <= i < |fmts| :: r == parse(fmts[i])
  {
    var tail := fmts[1..];
    if r.Some? {
      var i :| 0 <= i < |tail| && r == parse(tail[i]);
      assert fmts[i + 1] == tail[i];
    } else {
      forall i | 0 <= i < |fmts| ensures parse(fmts[i]).None? {
        if i > 0 { assert fmts[i] == tail[i - 1]; }
      }
    }
  }

  // --------------------------------------------------------- about ISO text

  /** The shape of YYYY-MM-DD text. */
  predicate IsoShape(s: string) {
    |s| == 10 && s[4] == '-' && s[7] == '-' &&
    IsDigit(s[0]) && IsDigit(s[1]) && IsDigit(s[2]) && IsDigit(s[3]) &&
    IsDigit(s[5]) && IsDigit(s[6]) && IsDigit(s[8]) && IsDigit(s[9])
  }


  lemma IsoTextParts(dt: Date)
    requires Valid(dt)
    ensures var s := IsoText(dt);
      IsoShape(s) && s[..4] == Padded(dt.year, 4) && s[5..7] == Padded(dt.month, 2) && s[8..] == Padded(dt.day, 2)
  {
    PaddedPieces(dt);
    ShapeOf(Padded(dt.year, 4), Padded(dt.month, 2), Padded(dt.day, 2));
  }

  /** The three numbers of a valid date print on 4, 2 and 2 digits. */
  lemma PaddedPieces(dt: Date)
    requires Valid(dt)
    ensures |Padded(dt.year, 4)| == 4 && |Padded(dt.month, 2)| == 2 && |Padded(dt.day, 2)| == 2
  {
    assert dt.year < 10000 && dt.month < 100 && dt.day < 100;
    PaddedFits(dt.year, 4);
    PaddedFits(dt.month, 2);
    PaddedFits(dt.day, 2);
  }

  lemma PaddedFits(n: nat, width: nat)
    requires (width == 2 && n < 100) || (width == 4 && n < 10000)
    ensures |Padded(n, width)| == width
  {
  }

  lemma ShapeOf(a: string, b: string, c: string)
    requires |a| == 4 && |b| == 2 && |c| == 2 && IsDigits(a) && IsDigits(b) && IsDigits(c)
    ensures var s := a + "-" + b + "-" + c;
      IsoShape(s) && s[..4] == a && s[5..7] == b && s[8..] == c
  {
  }

  // ------------------------------------------------------- match helpers

  lemma {:induction false} MatchingBounds(alts: seq<(bool, nat)>, len: nat, lo: nat, hi: nat)
    requires forall j | 0 <= j < |alts| :: lo <= alts[j].1 <= hi
    ensures forall i | 0 <= i < |Matching(alts, len)| :: lo <= Matching(alts, len)[i] <= hi
  {
    if |alts| > 0 {
      MatchingBounds(alts[1..], len, lo, hi);
    }
  }

  /** A day or month field takes one or two characters, a year four. */
  lemma FieldLengths(f: Field, s: string)
    ensures f != Year ==> forall i | 0 <= i < |Alternatives(Field(f), s)| :: Alternatives(Field(f), s)[i] <= 2
    ensures f == Year ==> forall i | 0 <= i < |Alternatives(Field(f), s)| :: Alternatives(Field(f), s)[i] == 4
  {
    var alts := FieldAlternatives(f, s);
    if f == Year {
      MatchingBounds(alts, |s|, 4, 4);
    } else {
      MatchingBounds(alts, |s|, 1, 2);
    }
  }

  /** Every alternative failing means no match. */
  lemma {:induction false} TryNone(ds: seq<Directive>, s: string, alts: seq<nat>)
    requires |ds| > 0
    requires forall i | 0 <= i < |alts| :: alts[i] <= |s|
    requires forall i | 0 <= i < |alts| :: Match(ds[1..], s[alts[i]..]).None?
    ensures TryAlternatives(ds, s, alts).None?
  {
    if |alts| > 0 {
      TryNone(ds, s, alts[1..]);
    }
  }

  /** A field needs a digit (or a space) where it starts. */
  lemma FieldNeedsDigit(f: Field, s: string)
    requires |s| == 0 || !(IsDigit(s[0]) || s[0] == ' ')
    ensures Alternatives(Field(f), s) == []
  {
    MatchingNone(FieldAlternatives(f, s), |s|);
  }

  lemma {:induction false} MatchingNone(alts: seq<(bool, nat)>, len: nat)
    requires forall j | 0 <= j < |alts| :: !alts[j].0
    ensures Matching(alts, len) == []
  {
    if |alts| > 0 {
      MatchingNone(alts[1..], len);
    }
  }

  lemma {:induction false} NumTwo(t: string)
    requires |t| == 2
    ensures Num(t) == DigitVal(t[0]) * 10 + DigitVal(t[1])
  {
    assert Num(t) == Num(t[..1]) * 10 + DigitVal(t[1]);
    assert t[..1][..0] == "";
    assert Num(t[..1]) == Num("") * 10 + DigitVal(t[0]);
  }

  /** A two-digit day from 01 to 31 takes its first alternative, two characters. */
  lemma DayFirst(s: string)
    requires |s| >= 2 && IsDigit(s[0]) && IsDigit(s[1]) && 1 <= Num(s[..2]) <= 31
    ensures |Alternatives(Field(Day), s)| > 0 && Alternatives(Field(Day), s)[0] == 2
  {
    NumTwo(s[..2]);
    var alts := FieldAlternatives(Day, s);
    if s[0] == '3' {
      assert alts[0].0;
    } else if s[0] == '1' || s[0] == '2' {
      assert alts[1].0;
      assert Matching(alts, |s|) == Matching(alts[1..], |s|);
    } else {
      assert s[0] == '0' && alts[2].0;
      assert Matching(alts, |s|) == Matching(alts[1..], |s|);
      assert Matching(alts[1..], |s|) == Matching(alts[2..], |s|);
    }
  }

  /** A two-digit month from 01 to 12 takes its first alternative, two characters. */
  lemma MonthFirst(s: string)
    requires |s| >= 2 && IsDigit(s[0]) && IsDigit(s[1]) && 1 <= Num(s[..2]) <= 12
    ensures |Alternatives(Field(Month), s)| > 0 && Alternatives(Field(Month), s)[0] == 2
  {
    NumTwo(s[..2]);
    var alts := FieldAlternatives(Month, s);
    if s[0] == '1' {
      assert alts[0].0;
    } else {
      assert s[0] == '0' && alts[1].0;
      assert Matching(alts, |s|) == Matching(alts[1..], |s|);
    }
  }

  lemma YearFirst(s: string)
    requires |s| >= 4 && IsDigits(s[..4])
    ensures Alternatives(Field(Year), s) == [4]
  {
    assert IsDigit(s[..4][0]) && IsDigit(s[..4][1]) && IsDigit(s[..4][2]) && IsDigit(s[..4][3]);
    var alts := FieldAlternatives(Year, s);
    assert alts[0].0 && alts[1..] == [];
    assert Matching(alts, |s|) == [4] + Matching(alts[1..], |s|);
  }

  /** The first alternative leading to a match of the rest is taken. */
  lemma MatchStep(ds: seq<Directive>, s: string, a: nat, rest: seq<string>)
    requires |ds| > 0 && |Alternatives(ds[0], s)| > 0 && Alternatives(ds[0], s)[0] == a
    requires Match(ds[1..], s[a..]) == Some(rest)
    ensures Match(ds, s) == Some([s[..a]] + rest)
  {
  }

  lemma ConcatFive(a: string, b: string, c: string, d: string, e: string)
    ensures Concat([a, b, c, d, e]) == a + b + c + d + e
  {
    var ps := [a, b, c, d, e];
    assert ps[1..] == [b, c, d, e] && ps[1..][1..] == [c, d, e];
    assert ps[1..][1..][1..] == [d, e] && ps[1..][1..][1..][1..] == [e];
    assert Concat([e]) == e;
    assert Concat([d, e]) == d + e;
    assert Concat([c, d, e]) == c + (d + e);
    assert Concat([b, c, d, e]) == b + (c + (d + e));
  }

  lemma ConcatThree(a: string, b: string, c: string)
    ensures Concat([a, b, c]) == a + b + c
  {
    var ps := [a, b, c];
    assert ps[1..] == [b, c] && ps[1..][1..] == [c];
    assert Concat([c]) == c;
    assert Concat([b, c]) == b + c;
  }

  /** The first directive matching `a` exactly, with the rest of the pattern
      matching after it. */
  lemma MatchFirst(ds: seq<Directive>, a: string, u: string, rest: seq<string>, ps: seq<string>)
    requires |ds| > 0 && |Alternatives(ds[0], a + u)| > 0 && Alternatives(ds[0], a + u)[0] == |a|
    requires Match(ds[1..], u) == Some(rest)
    requires ps == [a] + rest
    ensures Match(ds, a + u) == Some(ps)
  {
    var s := a + u;
    assert s[|a|..] == u && s[..|a|] == a;
    MatchStep(ds, s, |a|, rest);
  }

  /** The day tail "-DD" of ISO text. */
  lemma MatchIsoDay(d: string)
    requires |d| == 2 && IsDigit(d[0]) && IsDigit(d[1]) && 1 <= Num(d) <= 31
    ensures Match(IsoDate[3..], "-" + d) == Some(["-", d])
  {
    var ds := IsoDate;
    assert Match(ds[4..], d) == Some([d]) by {
      assert ds[4..][0] == Field(Day) && ds[4..][1..] == [];
      assert d[..2] == d && d + "" == d;
      DayFirst(d);
      MatchFirst(ds[4..], d, "", [], [d]);
    }
    assert ds[3..][0] == Lit('-') && ds[3..][1..] == ds[4..];
    MatchFirst(ds[3..], "-", d, [d], ["-", d]);
  }

  /** The month-day tail "-MM-DD" of ISO text. */
  lemma MatchIsoTail(m: string, d: string)
    requires |m| == 2 && IsDigit(m[0]) && IsDigit(m[1]) && 1 <= Num(m) <= 12
    requires |d| == 2 && IsDigit(d[0]) && IsDigit(d[1]) && 1 <= Num(d) <= 31
    ensures Match(IsoDate[1..], "-" + (m + ("-" + d))) == Some(["-", m, "-", d])
  {
    var ds := IsoDate;
    var t3, t2 := "-" + d, m + ("-" + d);
    assert Match(ds[2..], t2) == Some([m, "-", d]) by {
      MatchIsoDay(d);
      assert t2[..2] == m;
      MonthFirst(t2);
      assert ds[2..][0] == Field(Month) && ds[2..][1..] == ds[3..];
      MatchFirst(ds[2..], m, t3, ["-", d], [m, "-", d]);
    }
    assert ds[1..][0] == Lit('-') && ds[1..][1..] == ds[2..];
    MatchFirst(ds[1..], "-", t2, [m, "-", d], ["-", m, "-", d]);
  }

  // ------------------------------------------------------ format round trips

  /** The date ISO-shaped text denotes. */
  function IsoDateOf(s: string): Date
    requires |s| == 10
  {
    Date(Num(s[..4]), Num(s[5..7]), Num(s[8..]))
  }

  /** ISO-shaped text of a valid date parses, with `%Y-%m-%d`, as that date. */
  lemma StrptimeIsoShape(s: string)
    requires IsoShape(s) && Valid(IsoDateOf(s))
    ensures Strptime(IsoDate, s) == Some(IsoDateOf(s))
  {
    MatchIso(s);
    var ps := [s[..4], "-", s[5..7], "-", s[8..]];
    ConcatFive(s[..4], "-", s[5..7], "-", s[8..]);
    assert |Concat(ps)| == |s|;
    IsoDateValues(ps);
  }

  /** YYYY-MM-DD text reads back, with `%Y-%m-%d`, as its date. */
  lemma StrptimeIso(dt: Date)
    requires Valid(dt)
    ensures Strptime(IsoDate, IsoText(dt)) == Some(dt)
  {
    var s := IsoText(dt);
    IsoTextParts(dt);
    assert IsoDateOf(s) == dt;
    StrptimeIsoShape(s);
  }

  /** `%d/%m/%Y` does not read ISO-shaped text: the day takes one or two
      digits and a digit follows, not a slash. */
  lemma SlashFailsOnIso(s: string)
    requires IsoShape(s)
    ensures Match(DayMonthYearSlash, s).None?
  {
    var ds := DayMonthYearSlash;
    var alts := Alternatives(ds[0], s);
    FieldLengths(Day, s);
    forall i | 0 <= i < |alts| ensures Match(ds[1..], s[alts[i]..]).None? {
      var t := s[alts[i]..];
      assert t[0] == s[alts[i]];
      assert Alternatives(ds[1..][0], t) == [];
    }
    TryNone(ds, s, alts);
  }

  /** A year needs four digits where it starts. */
  lemma YearNeedsDigits(u: string, k: nat)
    requires k < 4 && k < |u| && !IsDigit(u[k])
    ensures Alternatives(Field(Year), u) == []
  {
    MatchingNone(FieldAlternatives(Year, u), |u|);
  }

  /** `%d%m%Y` does not read ISO-shaped text: day and month take two to
      four characters, and the four digits of the year would then cover
      the dash. */
  lemma CompactFailsOnIso(s: string)
    requires IsoShape(s)
    ensures Match(DayMonthYear, s).None?
  {
    var ds := DayMonthYear;
    var alts := Alternatives(ds[0], s);
    FieldLengths(Day, s);
    forall i | 0 <= i < |alts| ensures Match(ds[1..], s[alts[i]..]).None? {
      var t := s[alts[i]..];
      var malts := Alternatives(ds[1..][0], t);
      FieldLengths(Month, t);
      forall j | 0 <= j < |malts| ensures Match(ds[1..][1..], t[malts[j]..]).None? {
        var u := t[malts[j]..];
        var k := 4 - alts[i] - malts[j];
        assert u[k] == s[4];
        YearNeedsDigits(u, k);
        assert ds[1..][1..][0] == Field(Year);
      }
      TryNone(ds[1..], t, malts);
    }
    TryNone(ds, s, alts);
  }

  /** `%Y%m%d` does not read ISO-shaped text: a dash follows the year. */
  lemma YmdFailsOnIso(s: string)
    requires IsoShape(s)
    ensures Match(YearMonthDay, s).None?
  {
    var ds := YearMonthDay;
    YearFirst(s);
    var t := s[4..];
    assert t[0] == '-';
    FieldNeedsDigit(Month, t);
    assert ds[1..][0] == Field(Month);
    TryNone(ds, s, [4]);
  }

  /** The first format that reads `s` gives the result. */
  lemma FirstFormatAt(fmts: seq<seq<Directive>>, s: string, k: nat)
    requires k < |fmts| && Strptime(fmts[k], s).Some?
    requires forall j | 0 <= j < k :: Match(fmts[j], s).None?
    ensures FirstFormat(fmts, s) == Some(IsoText(Strptime(fmts[k], s).value))
  {
    forall j | 0 <= j < k ensures IsoOf(fmts[j], s).None? {
      assert Match(fmts[j], s).None?;
    }
    FirstSomeAt(fmts, f => IsoOf(f, s), k);
  }

  lemma IsoDateValues(ps: seq<string>)
    requires |ps| == 5
    ensures FieldValue(IsoDate, ps, Year, 1900) == Num(ps[0])
    ensures FieldValue(IsoDate, ps, Month, 1) == Num(ps[2])
    ensures FieldValue(IsoDate, ps, Day, 1) == Num(ps[4])
    ensures FieldValue(IsoDate, ps, Second, 0) == 0
  {
    FieldValueAt(IsoDate, ps, Month, 1, 2);
    FieldValueAt(IsoDate, ps, Day, 1, 4);
    FieldValueAbsent(IsoDate, ps, Second, 0);
  }

  /** The value of a field is read at its first directive. */
  lemma {:induction false} FieldValueAt(ds: seq<Directive>, ps: seq<string>, f: Field, default: nat, k: nat)
    requires |ps| == |ds| && k < |ds| && ds[k] == Field(f)
    requires forall j | 0 <= j < k :: ds[j] != Field(f)
    ensures FieldValue(ds, ps, f, default) == Num(ps[k])
  {
    if k > 0 {
      FieldValueAt(ds[1..], ps[1..], f, default, k - 1);
    }
  }

  /** A field the format does not have reads as its default. */
  lemma {:induction false} FieldValueAbsent(ds: seq<Directive>, ps: seq<string>, f: Field, default: nat)
    requires |ps| == |ds| && Field(f) !in ds
    ensures FieldValue(ds, ps, f, default) == default
  {
    if |ds| > 0 {
      FieldValueAbsent(ds[1..], ps[1..], f, default);
    }
  }

  /** ISO-shaped text with a month from 01 to 12 and a day from 01 to 31
      matches `%Y-%m-%d` field by field. */
  lemma MatchIso(s: string)
    requires IsoShape(s) && 1 <= Num(s[5..7]) <= 12 && 1 <= Num(s[8..]) <= 31
    ensures Match(IsoDate, s) == Some([s[..4], "-", s[5..7], "-", s[8..]])
  {
    var y, m, d := s[..4], s[5..7], s[8..];
    var tail := "-" + (m + ("-" + d));
    assert s == y + tail;
    MatchIsoTail(m, d);
    YearFirst(s);
    MatchFirst(IsoDate, y, tail, ["-", m, "-", d], [y, "-", m, "-", d]);
  }

  // ------------------------------------------------------ DD/MM/YYYY text

  /** `strftime("%d/%m/%Y")`. */
  function SlashText(dt: Date): string
    requires Valid(dt)
  {
    Padded(dt.day, 2) + "/" + Padded(dt.month, 2) + "/" + Padded(dt.year, 4)
  }

  /** The shape of DD/MM/YYYY text. */
  predicate SlashShape(s: string) {
    |s| == 10 && s[2] == '/' && s[5] == '/' &&
    IsDigit(s[0]) && IsDigit(s[1]) && IsDigit(s[3]) && IsDigit(s[4]) &&
    IsDigit(s[6]) && IsDigit(s[7]) && IsDigit(s[8]) && IsDigit(s[9])
  }

  lemma SlashShapeOf(a: string, b: string, c: string)
    requires |a| == 2 && |b| == 2 && |c| == 4 && IsDigits(a) && IsDigits(b) && IsDigits(c)
    ensures var s := a + "/" + b + "/" + c;
      SlashShape(s) && s[..2] == a && s[3..5] == b && s[6..] == c
  {
  }

  lemma SlashTextParts(dt: Date)
    requires Valid(dt)
    ensures var s := SlashText(dt);
      SlashShape(s) && s[..2] == Padded(dt.day, 2) && s[3..5] == Padded(dt.month, 2) && s[6..] == Padded(dt.year, 4)
  {
    PaddedPieces(dt);
    SlashShapeOf(Padded(dt.day, 2), Padded(dt.month, 2), Padded(dt.year, 4));
  }


  /** The year tail "/YYYY" of DD/MM/YYYY text. */
  lemma MatchSlashYear(y: string)
    requires |y| == 4 && IsDigits(y)
    ensures Match(DayMonthYearSlash[3..], "/" + y) == Some(["/", y])
  {
    var ds := DayMonthYearSlash;
    assert Match(ds[4..], y) == Some([y]) by {
      assert ds[4..][0] == Field(Year) && ds[4..][1..] == [];
      assert y[..4] == y && y + "" == y;
      YearFirst(y);
      MatchFirst(ds[4..], y, "", [], [y]);
    }
    assert ds[3..][0] == Lit('/') && ds[3..][1..] == ds[4..];
    MatchFirst(ds[3..], "/", y, [y], ["/", y]);
  }

  /** The month-year tail "/MM/YYYY" of DD/MM/YYYY text. */
  lemma MatchSlashTail(m: string, y: string)
    requires |m| == 2 && IsDigit(m[0]) && IsDigit(m[1]) && 1 <= Num(m) <= 12
    requires |y| == 4 && IsDigits(y)
    ensures Match(DayMonthYearSlash[1..], "/" + (m + ("/" + y))) == Some(["/", m, "/", y])
  {
    var ds := DayMonthYearSlash;
    var t3, t2 := "/" + y, m + ("/" + y);
    assert Match(ds[2..], t2) == Some([m, "/", y]) by {
      MatchSlashYear(y);
      assert t2[..2] == m;
      MonthFirst(t2);
      assert ds[2..][0] == Field(Month) && ds[2..][1..] == ds[3..];
      MatchFirst(ds[2..], m, t3, ["/", y], [m, "/", y]);
    }
    assert ds[1..][0] == Lit('/') && ds[1..][1..] == ds[2..];
    MatchFirst(ds[1..], "/", t2, [m, "/", y], ["/", m, "/", y]);
  }

  lemma MatchSlash(s: string)
    requires SlashShape(s) && 1 <= Num(s[..2]) <= 31 && 1 <= Num(s[3..5]) <= 12
    ensures Match(DayMonthYearSlash, s) == Some([s[..2], "/", s[3..5], "/", s[6..]])
  {
    var d, m, y := s[..2], s[3..5], s[6..];
    var tail := "/" + (m + ("/" + y));
    assert s == d + tail;
    assert IsDigit(y[0]) && IsDigit(y[1]) && IsDigit(y[2]) && IsDigit(y[3]);
    MatchSlashTail(m, y);
    DayFirst(s);
    MatchFirst(DayMonthYearSlash, d, tail, ["/", m, "/", y], [d, "/", m, "/", y]);
  }

  /** The date DD/MM/YYYY-shaped text denotes. */
  function SlashDateOf(s: string): Date
    requires |s| == 10
  {
    Date(Num(s[6..]), Num(s[3..5]), Num(s[..2]))
  }

  lemma SlashValues(ps: seq<string>)
    requires |ps| == 5
    ensures FieldValue(DayMonthYearSlash, ps, Year, 1900) == Num(ps[4])
    ensures FieldValue(DayMonthYearSlash, ps, Month, 1) == Num(ps[2])
    ensures FieldValue(DayMonthYearSlash, ps, Day, 1) == Num(ps[0])
    ensures FieldValue(DayMonthYearSlash, ps, Second, 0) == 0
  {
    FieldValueAt(DayMonthYearSlash, ps, Year, 1900, 4);
    FieldValueAt(DayMonthYearSlash, ps, Month, 1, 2);
    FieldValueAbsent(DayMonthYearSlash, ps, Second, 0);
  }

  /** DD/MM/YYYY-shaped text of a valid date parses, with `%d/%m/%Y`, as
      that date. */
  lemma StrptimeSlashShape(s: string)
    requires SlashShape(s) && Valid(SlashDateOf(s))
    ensures Strptime(DayMonthYearSlash, s) == Some(SlashDateOf(s))
  {
    MatchSlash(s);
    var ps := [s[..2], "/", s[3..5], "/", s[6..]];
    ConcatFive(s[..2], "/", s[3..5], "/", s[6..]);
    assert |Concat(ps)| == |s|;
    SlashValues(ps);
  }

  /** DD/MM/YYYY text reads back, with `%d/%m/%Y`, as its date. */
  lemma StrptimeSlash(dt: Date)
    requires Valid(dt)
    ensures Strptime(DayMonthYearSlash, SlashText(dt)) == Some(dt)
  {
    var s := SlashText(dt);
    SlashTextParts(dt);
    assert SlashDateOf(s) == dt;
    StrptimeSlashShape(s);
  }
}

=== FILE: insee.dfy ===
/** Commune-name resolution against the INSEE communes table: two name
    normalisers and the lookups of the intersection runners (which raise on an
    unusable table) and of the CERFA post-processing (which answers `None`).
    The CSV file is given as its parsed rows plus the columns it has. */
module Insee {
  import opened Wrappers
  import opened Text
  import opened Seqs

  // ------------------------------------------------------ normalisation

  /** Lower-case, fold the French accents the runner lists, and turn '-' and
      '\'' into spaces. */
  function FoldChar(c: char): char {
    var l := LowerChar(c);
    if l == '\U{00E9}' || l == '\U{00E8}' || l == '\U{00EA}' then 'e'
    else if l == '\U{00E0}' || l == '\U{00E2}' then 'a'
    else if l == '\U{00F4}' then 'o'
    else if l == '\U{00F9}' || l == '\U{00FB}' then 'u'
    else if l == '\U{00EF}' || l == '\U{00EE}' then 'i'
    else if l == '\U{00E7}' then 'c'
    else if l == '-' || l == '\'' then ' '
    else l
  }

  lemma FoldCharIdempotent(c: char)
    ensures FoldChar(FoldChar(c)) == FoldChar(c)
  {
  }

  function Fold(s: string): (r: string)
    ensures |r| == |s|
    ensures forall i | 0 <= i < |s| :: r[i] == FoldChar(s[i])
  {
    if |s| == 0 then "" else [FoldChar(s[0])] + Fold(s[1..])
  }

  predicate FoldFixed(c: char) {
    FoldChar(c) == c
  }

  /** `_normalize_string`: folded, words separated by single spaces. */
  function NormalizeString(text: Option<string>): (r: string)
    ensures text.None? ==> r == ""
    ensures text.Some? ==> Words(r) == Words(Fold(text.value))
    ensures AllChars(r, FoldFixed)
  {
    match text
    case None => ""
    case Some(t) =>
      var f := Fold(t);
      assert AllChars(f, FoldFixed) by {
        forall i | 0 <= i < |f| ensures FoldFixed(f[i]) {
          FoldCharIdempotent(t[i]);
        }
      }
      WordsChars(f, FoldFixed);
      JoinChars(Words(f), " ", FoldFixed);
      CollapseSpaces(f)
  }

  lemma FoldOfFixed(s: string)
    requires AllChars(s, FoldFixed)
    ensures Fold(s) == s
  {
  }

  /** Normalising a normalised name changes nothing, so a table column that
      was normalised once compares equal to a query normalised again. */
  lemma NormalizeStringIdempotent(text: Option<string>)
    ensures NormalizeString(Some(NormalizeString(text))) == NormalizeString(text)
  {
    var r := NormalizeString(text);
    FoldOfFixed(r);
    if text.Some? {
      var ws := Words(Fold(text.value));
      assert r == JoinSep(ws, " ");
      WordsOfJoin(ws);
    }
  }

  // -------------------------------------------------------- the table

  /** One row of the communes table; every cell is read as text. */
  datatype CommuneRow = CommuneRow(com: string, dep: string, libelle: string, nccenr: string)

  /** The parsed table: which of the used columns exist, and the rows. */
  datatype Csv = Csv(hasCom: bool, hasDep: bool, hasLibelle: bool, hasNccenr: bool, rows: seq<CommuneRow>)

  /** The department filter key: upper-cased, a single digit padded to two. */
  function DeptKey(code: string): (k: string)
    ensures IsDigits(Upper(code)) && |code| == 1 ==> k == "0" + Upper(code)
    ensures !(IsDigits(Upper(code)) && |code| == 1) ==> k == Upper(code)
  {
    var d := Upper(code);
    if IsDigits(d) && |d| == 1 then ZFill(d, 2) else d
  }

  predicate NameMatches(csv: Csv, name: string, row: CommuneRow) {
    (csv.hasLibelle && NormalizeString(Some(row.libelle)) == name)
    || (csv.hasNccenr && NormalizeString(Some(row.nccenr)) == name)
  }

  predicate DeptMatches(dept: string, row: CommuneRow) {
    Upper(row.dep) == DeptKey(dept)
  }

  /** The rows the runner accepts: the name matches and, when a department is
      given and the table has one, the department matches too. */
  predicate Selected(csv: Csv, name: string, dept: string, row: CommuneRow) {
    NameMatches(csv, name, row) && (|dept| > 0 && csv.hasDep ==> DeptMatches(dept, row))
  }

  lemma {:induction false} FilterBoth(rows: seq<CommuneRow>, p: CommuneRow -> bool, q: CommuneRow -> bool, pq: CommuneRow -> bool)
    requires forall r :: pq(r) == (p(r) && q(r))
    ensures Filter(Filter(rows, p), q) == Filter(rows, pq)
  {
    if |rows| > 0 {
      FilterBoth(rows[1..], p, q, pq);
      FilterConcat(if p(rows[0]) then [rows[0]] else [], Filter(rows[1..], p), q);
    }
  }

  function ByName(t: Csv, name: string): CommuneRow -> bool {
    row => NameMatches(t, name, row)
  }

  function ByDept(dept: string): CommuneRow -> bool {
    row => DeptMatches(dept, row)
  }

  function BySelection(t: Csv, name: string, dept: string): CommuneRow -> bool {
    row => Selected(t, name, dept, row)
  }

  /** The runner filters by name and only then, if anything matched, by
      department; that is the same as one filter on the conjunction. */
  lemma TwoStageFilter(t: Csv, name: string, dept: string)
    ensures (var df2 := Filter(t.rows, ByName(t, name));
             if |dept| > 0 && t.hasDep && |df2| > 0 then Filter(df2, ByDept(dept)) else df2)
         == Filter(t.rows, BySelection(t, name, dept))
  {
    var df2 := Filter(t.rows, ByName(t, name));
    if |dept| > 0 && t.hasDep {
      FilterBoth(t.rows, ByName(t, name), ByDept(dept), BySelection(t, name, dept));
      if |df2| == 0 {
        FilterNone(t.rows, BySelection(t, name, dept));
      }
    } else {
      FilterAll(df2, _ => true);
      FilterBoth(t.rows, ByName(t, name), _ => true, BySelection(t, name, dept));
    }
  }

  /** `get_insee_from_csv` of the intersection runners: an unreadable table,
      an empty one or one without `COM` raises; otherwise the code of the one
      selected row, or `None` when no row or several rows are selected. */
  function GetInseeFromCsv(csv: Result<Csv>, communeName: string, dept: string): (r: Result<Option<string>>)
    ensures r.Failure? <==> csv.Failure? || |csv.value.rows| == 0 || !csv.value.hasCom
    ensures r.Success? ==>
      var sel := BySelection(csv.value, NormalizeString(Some(communeName)), dept);
      (r.value.Some? <==> exists i :: OnlyMatch(csv.value.rows, sel, i))
      && (forall i | OnlyMatch(csv.value.rows, sel, i) :: r.value == Some(csv.value.rows[i].com))
  {
    if csv.Failure? then Failure("Impossible de lire le CSV communes")
    else if |csv.value.rows| == 0 || !csv.value.hasCom then Failure("CSV communes invalide: colonne 'COM' absente.")
    else
      var t := csv.value;
      var name := NormalizeString(Some(communeName));
      var df2 := Filter(t.rows, ByName(t, name));
      var df3 := if |dept| > 0 && t.hasDep && |df2| > 0 then Filter(df2, ByDept(dept)) else df2;
      TwoStageFilter(t, name, dept);
      var answer := if |df3| == 0 then None else if |df3| != 1 then None else Some(df3[0].com);
      UniqueLookup(t.rows, BySelection(t, name, dept), df3, answer);
      Success(answer)
  }

  /** What "the one selected row" means, stated for any filter result. */
  lemma UniqueLookup(rows: seq<CommuneRow>, sel: CommuneRow -> bool, sub: seq<CommuneRow>, answer: Option<string>)
    requires sub == Filter(rows, sel)
    requires answer == if |sub| == 1 then Some(sub[0].com) else None
    ensures answer.Some? <==> exists i :: OnlyMatch(rows, sel, i)
    ensures forall i | OnlyMatch(rows, sel, i) :: answer == Some(rows[i].com)
  {
    if |sub| == 1 {
      FilterSingletonBack(rows, sel);
    }
    forall i | OnlyMatch(rows, sel, i) ensures answer == Some(rows[i].com) {
      FilterSingleton(rows, sel, i);
    }
  }

  lemma {:induction false} FilterAll(s: seq<CommuneRow>, p: CommuneRow -> bool)
    requires forall r :: p(r)
    ensures Filter(s, p) == s
  {
    if |s| > 0 {
      FilterAll(s[1..], p);
      assert s == [s[0]] + s[1..];
    }
  }

  // ------------------------------------------- CERFA post-processing

  /** `_norm` of the CERFA pipeline: lower-case, '-' and '\'' to spaces,
      whitespace runs collapsed, stripped; no accent folding. */
  function LowerDash(c: char): char {
    var l := LowerChar(c);
    if l == '-' || l == '\'' then ' ' else l
  }

  function LowerDashAll(s: string): (r: string)
    ensures |r| == |s|
    ensures forall i | 0 <= i < |s| :: r[i] == LowerDash(s[i])
  {
    if |s| == 0 then "" else [LowerDash(s[0])] + LowerDashAll(s[1..])
  }

  function NormCerfa(s: string): (r: string)
    ensures Words(r) == Words(LowerDashAll(s))
  {
    CollapseSpaces(LowerDashAll(s))
  }

  predicate CerfaSelected(csv: Csv, name: string, dept: Option<string>, row: CommuneRow) {
    (NormCerfa(row.libelle) == name || (if csv.hasNccenr then NormCerfa(row.nccenr) else "") == name)
    && (dept.Some? && |dept.value| > 0 && csv.hasDep ==> ZFill(Upper(row.dep), 2) == ZFill(Upper(dept.value), 2))
  }

  /** `get_insee_from_csv` of the CERFA pipeline: `None` for a missing name,
      an unreadable, empty or `COM`-less table, or anything but one match.
      A table without `LIBELLE` makes the column lookup fail outright. */
  function GetInseeCerfa(csv: Option<Csv>, communeName: Option<string>, dept: Option<string>): (r: Result<Option<string>>)
    ensures communeName.None? || communeName.value == "" ==> r == Success(None)
    ensures r.Failure? <==>
      communeName.Some? && communeName.value != "" && csv.Some? && |csv.value.rows| > 0 && csv.value.hasCom && !csv.value.hasLibelle
    ensures r.Success? && r.value.Some? ==>
      communeName.Some? && csv.Some? &&
      var sel := (row: CommuneRow) => CerfaSelected(csv.value, NormCerfa(communeName.value), dept, row);
      exists i :: OnlyMatch(csv.value.rows, sel, i) && r.value == Some(csv.value.rows[i].com)
    ensures communeName.Some? && communeName.value != "" && csv.Some? && csv.value.hasCom && csv.value.hasLibelle ==>
      var sel := (row: CommuneRow) => CerfaSelected(csv.value, NormCerfa(communeName.value), dept, row);
      forall i | OnlyMatch(csv.value.rows, sel, i) :: r == Success(Some(csv.value.rows[i].com))
  {
    if communeName.None? || communeName.value == "" then Success(None)
    else if csv.None? then Success(None)
    else if |csv.value.rows| == 0 || !csv.value.hasCom then Success(None)
    else if !csv.value.hasLibelle then Failure("'str' object has no attribute 'map'")
    else
      var t := csv.value;
      var sel := (row: CommuneRow) => CerfaSelected(t, NormCerfa(communeName.value), dept, row);
      var sub := Filter(t.rows, sel);
      var answer := if |sub| == 1 then Some(sub[0].com) else None;
      UniqueLookup(t.rows, sel, sub, answer);
      Success(answer)
  }
}

=== FILE: intersections.dfy ===
/** `_intersect_one_parcel` of the current runner: every layer runs inside
    its own `try`, so a failing query drops that layer only; the geometry is
    always read from the indexed metric column `geom_2154`. */
module Intersections {
  import opened Wrappers
  import opened Assoc
  import opened Catalog
  import opened Reports
  import Insee
  import Runner

  /** A hit of this runner for the layer `l`. */
  predicate ResultOf(lr: LayerResult, l: Layer) {
    lr.schema == l.schema && lr.table == l.table && lr.geomCol == "geom_2154" && lr.srid == 2154 && lr.count > 0
  }

  /** The body of the per-layer `try`; a `Failure` is an exception, which the
      caller turns into a skipped layer. */
  function TryLayer(db: Db, g: string, l: Layer, keep: seq<string>): (r: Result<Option<LayerResult>>)
    ensures db.count(g, l).Failure? ==> r.Failure?
    ensures db.count(g, l).Success? && db.count(g, l).value.GetOr(0) <= 0 ==> r == Success(None)
    ensures r.Success? && r.value.Some? ==>
      ResultOf(r.value.value, l) && r.value.value.count == db.count(g, l).value.GetOr(0)
  {
    var n :- db.count(g, l);
    var count := n.GetOr(0);
    if count <= 0 then Success(None)
    else
      var values :- ValuesMap(db, g, l, keep);
      var cols :- db.columns(l.schema, l.table);
      var rows :- db.areas(g, l, "id" in cols);
      var area := ParcelAreaOf(rows);
      var coverage :-
        if |l.coverageBy| > 0 then AssignEach(l.coverageBy, CoverageQuery(db, g, l, area), Always(), [])
        else Success([]);
      Success(Some(LayerResult(l.schema, l.table, "geom_2154", 2154, count, values,
                               SurfacesOf(rows, area), coverage, area)))
  }

  /** A hit samples exactly the kept columns and has a coverage list for
      every `coverage_by` column, possibly an empty one. */
  lemma TryLayerMaps(db: Db, g: string, l: Layer, keep: seq<string>)
    requires TryLayer(db, g, l, keep).Success? && TryLayer(db, g, l, keep).value.Some?
    ensures var lr := TryLayer(db, g, l, keep).value.value;
      (forall k :: k in Keys(lr.values) <==> k in keep)
      && (forall k :: k in Keys(lr.coverage) <==> k in l.coverageBy)
      && forall c | c in l.coverageBy ::
           db.coverage(g, l, c).Success?
           && Lookup(lr.coverage, c) == Some(CovList(db.coverage(g, l, c).value, lr.parcelArea))
  {
    TryLayerValues(db, g, l, keep);
    TryLayerCoverage(db, g, l, keep);
  }

  lemma TryLayerValues(db: Db, g: string, l: Layer, keep: seq<string>)
    requires TryLayer(db, g, l, keep).Success? && TryLayer(db, g, l, keep).value.Some?
    ensures forall k :: k in Keys(TryLayer(db, g, l, keep).value.value.values) <==> k in keep
  {
  }

  lemma TryLayerCoverage(db: Db, g: string, l: Layer, keep: seq<string>)
    requires TryLayer(db, g, l, keep).Success? && TryLayer(db, g, l, keep).value.Some?
    ensures var lr := TryLayer(db, g, l, keep).value.value;
      (forall k :: k in Keys(lr.coverage) <==> k in l.coverageBy)
      && forall c | c in l.coverageBy ::
           db.coverage(g, l, c).Success?
           && Lookup(lr.coverage, c) == Some(CovList(db.coverage(g, l, c).value, lr.parcelArea))
  {
    var lr := TryLayer(db, g, l, keep).value.value;
    TryLayerCoverageIs(db, g, l, keep);
    if |l.coverageBy| > 0 {
      var q := CoverageQuery(db, g, l, lr.parcelArea);
      AssignAll(l.coverageBy, q, lr.coverage);
      forall c | c in l.coverageBy
        ensures db.coverage(g, l, c).Success?
             && Lookup(lr.coverage, c) == Some(CovList(db.coverage(g, l, c).value, lr.parcelArea))
      {
        assert q(c).Success?;
      }
    }
  }

  /** The coverage lists of a hit are what `AssignEach` built from the
      layer's `coverage_by` columns. */
  lemma TryLayerCoverageIs(db: Db, g: string, l: Layer, keep: seq<string>)
    requires TryLayer(db, g, l, keep).Success? && TryLayer(db, g, l, keep).value.Some?
    ensures var lr := TryLayer(db, g, l, keep).value.value;
      if |l.coverageBy| > 0
      then AssignEach(l.coverageBy, CoverageQuery(db, g, l, lr.parcelArea), Always(), []) == Success(lr.coverage)
      else lr.coverage == []
  {
    var n := db.count(g, l);
    assert n.Success? && n.value.GetOr(0) > 0;
    var values := ValuesMap(db, g, l, keep);
    assert values.Success?;
    var cols := db.columns(l.schema, l.table);
    assert cols.Success?;
    var rows := db.areas(g, l, "id" in cols.value);
    assert rows.Success?;
    var area := ParcelAreaOf(rows.value);
    var coverage := if |l.coverageBy| > 0 then AssignEach(l.coverageBy, CoverageQuery(db, g, l, area), Always(), [])
                    else Success([]);
    assert coverage.Success?;
    assert TryLayer(db, g, l, keep) == Success(Some(LayerResult(l.schema, l.table, "geom_2154", 2154, n.value.GetOr(0), values.value,
                                                    SurfacesOf(rows.value, area), coverage.value, area)));
  }



  /** One layer: the column lookup before the `try` raises out of the
      parcel; whatever raises inside the `try` only skips the layer. */
  function LayerStep(db: Db, g: string, l: Layer): (r: Result<Option<LayerResult>>)
    ensures r.Failure? <==> KeepEffective(db, l).Failure?
    ensures KeepEffective(db, l).Success? && TryLayer(db, g, l, KeepEffective(db, l).value).Failure? ==>
      r == Success(None)
    ensures r.Success? && r.value.Some? ==> ResultOf(r.value.value, l)
  {
    var keep :- KeepEffective(db, l);
    var attempt := TryLayer(db, g, l, keep);
    Success(if attempt.Success? then attempt.value else None)
  }

  function StepOf(db: Db, g: string): Layer -> Result<Option<LayerResult>> {
    l => LayerStep(db, g, l)
  }

  /** Per-layer isolation: a layer whose `try` raises leaves exactly the
      report the other layers give without it. */
  lemma FailingLayerDropped(db: Db, g: string, a: seq<Layer>, l: Layer, b: seq<Layer>)
    requires KeepEffective(db, l).Success?
    requires TryLayer(db, g, l, KeepEffective(db, l).value).Failure?
    ensures RunLayers(StepOf(db, g), a + [l] + b) == RunLayers(StepOf(db, g), a + b)
  {
    SkippedLayerDropped(StepOf(db, g), a, l, b);
  }

  /** The geometry the queries are bound to: the feature's own, or the one
      with its enclaves carved out when asked. */
  function Geometry(carveEnclaves: bool, carve: Feature -> Result<string>, f: Feature): Result<string> {
    if carveEnclaves then carve(f) else Success(f.geometry)
  }

  /** `_intersect_one_parcel`: a carving that raises, or a column lookup
      outside the `try`, raises out of the call; otherwise the report holds
      the layer results in layer order and counts them as hits. */
  function IntersectOneParcel(db: Db, carveEnclaves: bool, carve: Feature -> Result<string>,
                              layers: seq<Layer>, f: Feature): (r: Result<ParcelReport>)
    ensures carveEnclaves && carve(f).Failure? ==> r.Failure?
    ensures r.Success? ==>
      r.value.Report? && r.value.parcelLabel == Label(f) && r.value.hits == |r.value.results| <= |layers|
    ensures r.Success? ==>
      FromSteps(r.value.results, layers, StepOf(db, Geometry(carveEnclaves, carve, f).value))
  {
    var g :- Geometry(carveEnclaves, carve, f);
    var out :- RunLayers(StepOf(db, g), layers);
    Success(Report(Label(f), out.1, out.0))
  }

  /** `run` of the current runner. */
  function Run(csv: Result<Insee.Csv>, commune: string, departement: string,
               catalog: Assoc<string, Entry>, whitelist: seq<string>, parcel: string,
               locate: (string, string, string) -> Result<Option<Feature>>,
               db: Db, carveEnclaves: bool, carve: Feature -> Result<string>): Result<Runner.Output> {
    Runner.Run(csv, commune, departement, catalog, whitelist, parcel, locate,
               (ls, f) => IntersectOneParcel(db, carveEnclaves, carve, ls, f))
  }
}

=== FILE: intersections_legacy.dfy ===
/** `_intersect_one_parcel` of the older runner (the one the CUA service
    imports): no `try` around a layer, so any failing query raises out of the
    parcel; the hit counter moves as soon as the count is positive; a
    coverage column is stored only when it has a class; the layer's own
    geometry column is reported. */
module IntersectionsLegacy {
  import opened Wrappers
  import opened Assoc
  import opened Catalog
  import opened Reports
  import Insee
  import Runner

  /** A hit of this runner for the layer `l`. */
  predicate ResultOf(lr: LayerResult, l: Layer) {
    lr.schema == l.schema && lr.table == l.table && lr.geomCol == l.geomCol && lr.srid == 4326 && lr.count > 0
  }

  function NonEmpty(): seq<CovEntry> -> bool {
    c => |c| > 0
  }

  /** One layer; every query failure raises out of the parcel. */
  function LayerStep(db: Db, g: string, l: Layer): (r: Result<Option<LayerResult>>)
    ensures KeepEffective(db, l).Failure? || db.count(g, l).Failure? ==> r.Failure?
    ensures KeepEffective(db, l).Success? && db.count(g, l).Success? && db.count(g, l).value.GetOr(0) <= 0 ==>
      r == Success(None)
    ensures r.Success? && r.value.Some? ==>
      ResultOf(r.value.value, l) && r.value.value.count == db.count(g, l).value.GetOr(0)
  {
    var keep :- KeepEffective(db, l);
    var n :- db.count(g, l);
    var count := n.GetOr(0);
    if count <= 0 then Success(None)
    else
      var values :- ValuesMap(db, g, l, keep);
      var cols :- db.columns(l.schema, l.table);
      var rows :- db.areas(g, l, "id" in cols);
      var area := ParcelAreaOf(rows);
      var coverage :- AssignEach(l.coverageBy, CoverageQuery(db, g, l, area), NonEmpty(), []);
      Success(Some(LayerResult(l.schema, l.table, l.geomCol, 4326, count, values,
                               SurfacesOf(rows, area), coverage, area)))
  }

  /** A coverage column is a key exactly when its list has a class. */
  lemma LayerStepCoverage(db: Db, g: string, l: Layer)
    requires LayerStep(db, g, l).Success? && LayerStep(db, g, l).value.Some?
    ensures var lr := LayerStep(db, g, l).value.value;
      (forall k :: k in Keys(lr.coverage) ==> k in l.coverageBy)
      && forall c | c in l.coverageBy ::
           db.coverage(g, l, c).Success?
           && var cov := CovList(db.coverage(g, l, c).value, lr.parcelArea);
              (c in Keys(lr.coverage) <==> cov != [])
              && (cov != [] ==> Lookup(lr.coverage, c) == Some(cov))
  {
    var lr := LayerStep(db, g, l).value.value;
    var q := CoverageQuery(db, g, l, lr.parcelArea);
    var cov := AssignEach(l.coverageBy, q, NonEmpty(), []);
    assert cov == Success(lr.coverage);
    forall c | c in l.coverageBy
      ensures db.coverage(g, l, c).Success?
      ensures var cl := CovList(db.coverage(g, l, c).value, lr.parcelArea);
        (c in Keys(lr.coverage) <==> cl != []) && (cl != [] ==> Lookup(lr.coverage, c) == Some(cl))
    {
      var i :| 0 <= i < |l.coverageBy| && l.coverageBy[i] == c;
      assert q(c).Success?;
    }
  }

  function StepOf(db: Db, g: string): Layer -> Result<Option<LayerResult>> {
    l => LayerStep(db, g, l)
  }

  /** `_intersect_one_parcel` of the older runner. */
  function IntersectOneParcel(db: Db, carveEnclaves: bool, carve: Feature -> Result<string>,
                              layers: seq<Layer>, f: Feature): (r: Result<ParcelReport>)
    ensures carveEnclaves && carve(f).Failure? ==> r.Failure?
    ensures (exists i | 0 <= i < |layers| :: KeepEffective(db, layers[i]).Failure?) ==> r.Failure?
    ensures r.Success? ==>
      r.value.Report? && r.value.parcelLabel == Label(f) && r.value.hits == |r.value.results| <= |layers|
    ensures r.Success? ==>
      var g := if carveEnclaves then carve(f).value else f.geometry;
      FromSteps(r.value.results, layers, StepOf(db, g))
  {
    var g :- if carveEnclaves then carve(f) else Success(f.geometry);
    var out :- RunLayers(StepOf(db, g), layers);
    Success(Report(Label(f), out.1, out.0))
  }

  /** `run` of the older runner. */
  function Run(csv: Result<Insee.Csv>, commune: string, departement: string,
               catalog: Assoc<string, Entry>, whitelist: seq<string>, parcel: string,
               locate: (string, string, string) -> Result<Option<Feature>>,
               db: Db, carveEnclaves: bool, carve: Feature -> Result<string>): Result<Runner.Output> {
    Runner.Run(csv, commune, departement, catalog, whitelist, parcel, locate,
               (ls, f) => IntersectOneParcel(db, carveEnclaves, carve, ls, f))
  }
}

=== FILE: judge.dfy ===
/** The judge of the CERFA extraction and the loop around it: each round
    asks the vision model for the JSON (retrying transient errors), cuts the
    object out of the reply, sanitises it and has the judge decide whether
    to accept it, reject it, or run another round. The model and the judge's
    language model are oracles. */
module Judge {
  import opened Wrappers
  import opened Text
  import opened Insee
  import opened Cerfa

  // ----------------------------------------------------------------- judge

  /** The corrections the judge may return. */
  datatype Autofixes = Autofixes(communeInsee: Option<string>, dateDepot: Option<string>, numeroCu: Option<string>)

  /** A verdict; a key the reply lacks reads as false or empty. */
  datatype Verdict = Verdict(pass: bool, reasons: seq<string>, autofixes: Autofixes, mustRerun: bool)

  const NoFixes: Autofixes := Autofixes(None, None, None)

  /** The minimal rule: a commune, at least one parcel and a CU type. The
      INSEE-length and SIRET checks are computed by the source but play no
      part. */
  predicate BaselineFail(m: Meta) {
    !Given(m.communeNom) || |m.refs| == 0 || !Given(m.typeCu)
  }

  /** `judge_meta`, `reply` being the language model's parsed answer, or
      `None` when the call fails or its answer does not parse. */
  function JudgeMeta(m: Meta, reply: Option<Verdict>): (r: Verdict)
    ensures BaselineFail(m) ==> !r.pass && r.mustRerun
    ensures !BaselineFail(m) && reply.Some? ==> r == reply.value
    ensures reply.None? ==> r == Verdict(!BaselineFail(m), [], NoFixes, BaselineFail(m))
    ensures reply.Some? ==> r.reasons == reply.value.reasons && r.autofixes == reply.value.autofixes
  {
    match reply
    case Some(j) => if BaselineFail(m) then j.(pass := false, mustRerun := true) else j
    case None => Verdict(!BaselineFail(m), [], NoFixes, BaselineFail(m))
  }

  /** A missing commune or an empty parcel list is never accepted, whatever
      the language model says. */
  lemma JudgeRejectsIncomplete(m: Meta, reply: Option<Verdict>)
    requires !Given(m.communeNom) || m.refs == []
    ensures !JudgeMeta(m, reply).pass && JudgeMeta(m, reply).mustRerun
  {
  }

  /** Without the language model, the verdict is the baseline rule alone. */
  lemma JudgeFallbackIsBaseline(m: Meta)
    ensures JudgeMeta(m, None).pass <==> Given(m.communeNom) && m.refs != [] && Given(m.typeCu)
  {
  }

  // ------------------------------------------------------------ model call

  /** One call of the vision model: its text (possibly absent) or the
      message of the exception it raised. */
  datatype CallResult = Reply(text: Option<string>) | Raised(msg: string)

  /** The errors worth another attempt. */
  predicate Transient(msg: string) {
    Contains(msg, "503") || Contains(msg, "UNAVAILABLE") || Contains(Lower(msg), "overloaded")
  }

  const MaxAttempts: nat := 5

  /** The text of the call, or the error that ended the attempts, with the
      number of the last attempt made. */
  datatype CallOutcome = Got(text: string, attempts: nat) | GaveUp(err: string, attempts: nat)

  /** The attempt loop from attempt `attempt` on: a reply ends it, a
      transient error before the fifth attempt retries, any other error
      gives up. `call(a)` is what attempt `a` gets. */
  function CallWithRetry(call: nat -> CallResult, attempt: nat): (r: CallOutcome)
    requires 1 <= attempt <= MaxAttempts
    ensures attempt <= r.attempts <= MaxAttempts
    ensures r.Got? ==> call(r.attempts).Reply? && r.text == Or(call(r.attempts).text, "")
    ensures r.GaveUp? ==>
      call(r.attempts).Raised? && r.err == call(r.attempts).msg && (r.attempts == MaxAttempts || !Transient(r.err))
    ensures forall a | attempt <= a < r.attempts :: call(a).Raised? && Transient(call(a).msg)
    decreases MaxAttempts - attempt
  {
    match call(attempt)
    case Reply(t) => Got(Or(t, ""), attempt)
    case Raised(msg) =>
      if attempt < MaxAttempts && Transient(msg) then CallWithRetry(call, attempt + 1)
      else GaveUp(msg, attempt)
  }

  /** The first attempt that does not raise a transient error decides. */
  lemma {:induction false} CallWithRetryStopsAt(call: nat -> CallResult, attempt: nat, k: nat)
    requires 1 <= attempt <= k <= MaxAttempts
    requires forall a | attempt <= a < k :: call(a).Raised? && Transient(call(a).msg)
    requires call(k).Reply? || !Transient(call(k).msg) || k == MaxAttempts
    ensures CallWithRetry(call, attempt).attempts == k
    decreases k - attempt
  {
    if attempt < k {
      CallWithRetryStopsAt(call, attempt + 1, k);
    }
  }

  // ------------------------------------------------------------ judge loop

  /** How a run ended. */
  datatype Stop = CallError(err: string) | ParseError | SanitizeError(err: string) | Accepted | Rejected | NotJudged

  /** The end of a run: the result kept, the verdicts in order, the number
      of rounds and of model calls made. */
  datatype RunResult = RunResult(stop: Stop, final: Option<Extraction>, verdicts: seq<Verdict>, rounds: nat, calls: nat)

  /** The judge's corrections that are given replace the fields. */
  function ApplyFixes(m: Meta, fx: Autofixes): (r: Meta)
    ensures r.communeInsee == (if fx.communeInsee.Some? then fx.communeInsee else m.communeInsee)
    ensures r.dateDepot == (if fx.dateDepot.Some? then fx.dateDepot else m.dateDepot)
    ensures r.numeroCu == (if fx.numeroCu.Some? then fx.numeroCu else m.numeroCu)
    ensures r == m.(communeInsee := r.communeInsee, dateDepot := r.dateDepot, numeroCu := r.numeroCu)
  {
    var m1 := if fx.communeInsee.Some? then m.(communeInsee := fx.communeInsee) else m;
    var m2 := if fx.dateDepot.Some? then m1.(dateDepot := fx.dateDepot) else m1;
    if fx.numeroCu.Some? then m2.(numeroCu := fx.numeroCu) else m2
  }

  /** An object the JSON parser read: its fields, and whether it is the
      empty object `{}`, which Python treats as false. */
  datatype Parsed = Parsed(meta: Meta, empty: bool)

  /** The oracles of a run: the model's answer per round and attempt, the
      JSON parser, and the judge's answer per round. */
  datatype Oracles = Oracles(
    call: (nat, nat) -> CallResult,
    loads: string -> Option<Parsed>,
    reply: (nat, Meta) -> Option<Verdict>)

  /** What one round yields before judging: the model's error, a reply
      with no JSON object or an empty one, a failing table lookup, or the sanitised
      extraction; with the number of model calls made. */
  datatype RoundOutcome =
    | CallErr(err: string, calls: nat)
    | ParseErr(calls: nat)
    | SanitizeErr(err: string, calls: nat)
    | Sanitized(fin: Extraction, calls: nat)

  /** One round: the call with its retries, the JSON cut out of the text,
      and `sanitize_and_enrich` on the successful extraction. */
  function Round(round: nat, o: Oracles, csv: Option<Option<Csv>>, pdfName: string): (r: RoundOutcome)
    ensures 1 <= r.calls <= MaxAttempts
    ensures r.CallErr? <==> CallWithRetry((a: nat) => o.call(round, a), 1).GaveUp?
    ensures var c := CallWithRetry((a: nat) => o.call(round, a), 1);
      r.ParseErr? <==> c.Got? && NoObject(c.text, o.loads)
    ensures r.Sanitized? ==> r.fin.success && r.fin.data.Some?
  {
    AfterCall(CallWithRetry((a: nat) => o.call(round, a), 1), o.loads, csv, pdfName)
  }

  /** The reply holds no JSON object, or only the empty one. */
  predicate NoObject(text: string, loads: string -> Option<Parsed>) {
    var p := ExtractJson(text, loads);
    p.None? || p.value.empty
  }

  /** What a round makes of the outcome of its call. */
  function AfterCall(c: CallOutcome, loads: string -> Option<Parsed>, csv: Option<Option<Csv>>, pdfName: string): (r: RoundOutcome)
    ensures r.calls == c.attempts
    ensures r.CallErr? <==> c.GaveUp?
    ensures r.ParseErr? <==> c.Got? && NoObject(c.text, loads)
    ensures r.Sanitized? ==> r.fin.success && r.fin.data.Some?
  {
    match c
    case GaveUp(err, n) => CallErr(err, n)
    case Got(text, n) =>
      var p := ExtractJson(text, loads);
      if p.None? || p.value.empty then ParseErr(n)
      else
        match SanitizeAndEnrich(Extraction(true, Some(p.value.meta), None), csv, pdfName)
        case Failure(err) => SanitizeErr(err, n)
        case Success(fin) => Sanitized(fin, n)
  }

  /** Every round makes between one and five model calls. */
  ghost predicate CallsBounded(step: nat -> RoundOutcome) {
    forall i: nat :: 1 <= step(i).calls <= MaxAttempts
  }

  /** The extraction recorded when the reply holds no JSON object. */
  const ParseFailure: Extraction := Extraction(false, None, Some("json_parse_error"))

  /** What one round decides: the run ends with a result, or the judge
      failed the extraction and asked for another round. */
  datatype Turn = Done(res: RunResult) | Again(verdicts: seq<Verdict>, calls: nat)

  /** Round `k + 1` of the loop: `step(k + 1)` is what the round yields
      before judging and `verdict(k + 1, m)` the judge's verdict on `m`;
      `verdicts` and `calls` are what earlier rounds produced. */
  function TurnOf(k: nat, maxRetries: nat, judge: bool, step: nat -> RoundOutcome, verdict: (nat, Meta) -> Verdict,
                  verdicts: seq<Verdict>, calls: nat): (t: Turn)
    requires 1 <= step(k + 1).calls <= MaxAttempts
    ensures t.Done? ==> t.res.rounds == k + 1 && calls + 1 <= t.res.calls <= calls + MaxAttempts
    ensures t.Done? && !t.res.stop.Accepted? && !t.res.stop.Rejected? ==> t.res.verdicts == verdicts
    ensures t.Done? && (t.res.stop.Accepted? || t.res.stop.Rejected?) ==>
      judge && |t.res.verdicts| == |verdicts| + 1 && t.res.verdicts[..|verdicts|] == verdicts
    ensures t.Done? && t.res.stop.Accepted? ==> t.res.verdicts[|verdicts|].pass
    ensures t.Done? && t.res.stop.Rejected? ==>
      !t.res.verdicts[|verdicts|].pass && (k + 1 > maxRetries || !t.res.verdicts[|verdicts|].mustRerun)
    ensures t.Again? ==>
      judge && k + 1 <= maxRetries && calls + 1 <= t.calls <= calls + MaxAttempts &&
      |t.verdicts| == |verdicts| + 1 && t.verdicts[..|verdicts|] == verdicts &&
      !t.verdicts[|verdicts|].pass && t.verdicts[|verdicts|].mustRerun
  {
    var round := k + 1;
    var made := calls + step(round).calls;
    match step(round)
    case CallErr(err, _) => Done(RunResult(CallError(err), None, verdicts, round, made))
    case ParseErr(_) => Done(RunResult(ParseError, Some(ParseFailure), verdicts, round, made))
    case SanitizeErr(err, _) => Done(RunResult(SanitizeError(err), None, verdicts, round, made))
    case Sanitized(fin, _) =>
      if !(judge && fin.success && fin.data.Some?) then Done(RunResult(NotJudged, Some(fin), verdicts, round, made))
      else
        var m := fin.data.value;
        var v := verdict(round, m);
        var vs := verdicts + [v];
        assert vs[..|verdicts|] == verdicts && vs[|verdicts|] == v;
        if v.pass then
          Done(RunResult(Accepted, Some(fin.(data := Some(ApplyFixes(m, v.autofixes)))), vs, round, made))
        else if round > maxRetries || !v.mustRerun then
          Done(RunResult(Rejected, Some(fin), vs, round, made))
        else
          Again(vs, made)
  }

  /** The loop from judge attempt `k` on, one `TurnOf` per round. */
  function Rounds(k: nat, maxRetries: nat, judge: bool, step: nat -> RoundOutcome, verdict: (nat, Meta) -> Verdict,
                  verdicts: seq<Verdict>, calls: nat): (r: RunResult)
    requires k <= maxRetries && CallsBounded(step)
    ensures k < r.rounds <= maxRetries + 1
    ensures calls + (r.rounds - k) <= r.calls <= calls + MaxAttempts * (r.rounds - k)
    ensures |verdicts| <= |r.verdicts| <= |verdicts| + (r.rounds - k) && r.verdicts[..|verdicts|] == verdicts
    ensures forall i | |verdicts| <= i < |r.verdicts| - 1 :: !r.verdicts[i].pass && r.verdicts[i].mustRerun
    ensures r.stop.Accepted? ==> |r.verdicts| > |verdicts| && r.verdicts[|r.verdicts| - 1].pass
    ensures r.stop.Rejected? ==>
      |r.verdicts| > |verdicts| && !r.verdicts[|r.verdicts| - 1].pass &&
      (r.rounds == maxRetries + 1 || !r.verdicts[|r.verdicts| - 1].mustRerun)
    ensures !r.stop.Accepted? && !r.stop.Rejected? ==>
      |r.verdicts| == |verdicts| + (r.rounds - k - 1) &&
      forall i | |verdicts| <= i < |r.verdicts| :: !r.verdicts[i].pass && r.verdicts[i].mustRerun
    ensures !judge ==> r.rounds == k + 1 && r.verdicts == verdicts
    decreases maxRetries - k
  {
    match TurnOf(k, maxRetries, judge, step, verdict, verdicts, calls)
    case Done(r) => r
    case Again(vs, made) =>
      var r := Rounds(k + 1, maxRetries, judge, step, verdict, vs, made);
      assert r.verdicts[..|verdicts|] == vs[..|verdicts|];
      assert r.verdicts[|verdicts|] == vs[|verdicts|];
      r
  }

  /** The rounds of a run on the given oracles. */
  function Steps(o: Oracles, csv: Option<Option<Csv>>, pdfName: string): (step: nat -> RoundOutcome)
    ensures CallsBounded(step)
  {
    (i: nat) => Round(i, o, csv, pdfName)
  }

  /** The judged run: at most `maxRetries + 1` rounds, at most five model
      calls per round, and a new round only after a verdict that failed and
      asked for one. */
  function Run(maxRetries: nat, judge: bool, o: Oracles, csv: Option<Option<Csv>>, pdfName: string): (r: RunResult)
    ensures 1 <= r.rounds <= maxRetries + 1
    ensures r.rounds <= r.calls <= MaxAttempts * r.rounds
    ensures forall i | 0 <= i < |r.verdicts| - 1 :: !r.verdicts[i].pass && r.verdicts[i].mustRerun
    ensures r.stop.Accepted? ==> |r.verdicts| > 0 && r.verdicts[|r.verdicts| - 1].pass
    ensures !judge ==> r.rounds == 1 && r.verdicts == []
  {
    Rounds(0, maxRetries, judge, Steps(o, csv, pdfName), (i: nat, m: Meta) => JudgeMeta(m, o.reply(i, m)), [], 0)
  }

  /** `final_pass` of the recorded validation: absent when the run ended by
      raising or was not judged. */
  function FinalPass(r: RunResult): Option<bool> {
    if r.stop.CallError? || r.stop.SanitizeError? || |r.verdicts| == 0 then None
    else if r.stop.Rejected? then Some(false)
    else Some(r.verdicts[|r.verdicts| - 1].pass)
  }

  /** The recorded validation passes exactly when the judge accepted: a
      run that stopped for another reason after some verdicts had only
      failing ones. */
  lemma FinalPassIffAccepted(maxRetries: nat, judge: bool, step: nat -> RoundOutcome, verdict: (nat, Meta) -> Verdict)
    requires CallsBounded(step)
    ensures var r := Rounds(0, maxRetries, judge, step, verdict, [], 0);
      FinalPass(r) == Some(true) <==> r.stop.Accepted?
  {
    var r := Rounds(0, maxRetries, judge, step, verdict, [], 0);
    if !r.stop.Accepted? && !r.stop.Rejected? && |r.verdicts| > 0 {
      assert !r.verdicts[|r.verdicts| - 1].pass;
    }
  }
}

=== FILE: mapping.dfy ===
/** The layer mapping of the CUA builder: the table of display names, layer
    types and declared coverage fields keyed by "schema.table", the derived
    "table" and "public.table" keys, and the lookup of a report layer in it. */
module Mapping {
  import opened Wrappers
  import opened Text
  import opened Assoc
  import Catalog

  /** One mapping entry: display name, layer type, declared coverage fields
      (a list, or the legacy comma text; `None` when absent). */
  datatype MapEntry = MapEntry(name: Option<string>, ltype: Option<string>, coverageBy: Option<Catalog.CoverageBy>)

  /** One coverage class of a report layer, as the intersection JSON holds it. */
  datatype CovItem = CovItem(value: Option<string>, pctCapped: Option<real>, pctOfParcel: Option<real>)

  /** A layer of the intersection report, as the builder reads it. */
  datatype ReportLayer = ReportLayer(schema: Option<string>, table: Option<string>, nom: Option<string>,
                                     name: Option<string>,
                                     values: Assoc<string, seq<Option<string>>>,
                                     coverage: Assoc<string, seq<CovItem>>)

  /** Keys stored by the mapping: stripped and not blank. */
  predicate CleanKeys(d: Assoc<string, MapEntry>) {
    forall i | 0 <= i < |d| :: |d[i].0| > 0 && Strip(d[i].0) == d[i].0
  }

  // ------------------------------------------------------ key derivation

  /** "schema.table". */
  function Dotted(schema: string, table: string): string {
    schema + "." + table
  }

  /** "public.table". */
  function Public(table: string): string {
    Dotted("public", table)
  }

  /** `_put_mapping_key`: the stripped key is inserted only when it is not
      blank and not already present. */
  function PutMappingKey(d: Assoc<string, MapEntry>, key: string, val: MapEntry): (r: Assoc<string, MapEntry>)
    ensures |Strip(key)| == 0 || Strip(key) in Keys(d) ==> r == d
    ensures |Strip(key)| > 0 && Strip(key) !in Keys(d) ==> Keys(r) == Keys(d) + [Strip(key)]
  {
    var k := Strip(key);
    if |k| > 0 && k !in Keys(d) then
      assert Keys(d + [(k, val)]) == Keys(d) + [k];
      d + [(k, val)]
    else d
  }

  /** A non-blank key ends up bound, to its old entry when it had one:
      `_put_mapping_key` behaves as `setdefault` on the stripped key. */
  lemma PutMappingKeyBinds(d: Assoc<string, MapEntry>, key: string, val: MapEntry)
    requires |Strip(key)| > 0
    ensures Lookup(PutMappingKey(d, key, val), Strip(key)) == Some(Lookup(d, Strip(key)).GetOr(val))
  {
    var k := Strip(key);
    if k !in Keys(d) {
      PutNew(d, k, val);
      PutLookup(d, k, val, k);
    }
  }

  /** `_put_mapping_key` never changes the entry of a bound key. */
  lemma PutMappingKeyKeeps(d: Assoc<string, MapEntry>, key: string, val: MapEntry, x: string)
    requires x in Keys(d)
    ensures x in Keys(PutMappingKey(d, key, val))
    ensures Lookup(PutMappingKey(d, key, val), x) == Lookup(d, x)
  {
    var k := Strip(key);
    if |k| > 0 && k !in Keys(d) {
      PutNew(d, k, val);
      PutLookup(d, k, val, x);
    }
  }

  /** The mapping's keys stay distinct, stripped and non-blank. */
  lemma PutMappingKeyClean(d: Assoc<string, MapEntry>, key: string, val: MapEntry)
    ensures UniqueKeys(d) ==> UniqueKeys(PutMappingKey(d, key, val))
    ensures CleanKeys(d) ==> CleanKeys(PutMappingKey(d, key, val))
  {
    var k := Strip(key);
    if |k| > 0 && k !in Keys(d) {
      PutNew(d, k, val);
      if UniqueKeys(d) { PutUnique(d, k, val); }
      StripIdempotent(key);
      CleanSnoc(d, k, val);
    }
  }

  lemma CleanSnoc(d: Assoc<string, MapEntry>, k: string, val: MapEntry)
    requires |k| > 0 && Strip(k) == k
    ensures CleanKeys(d) ==> CleanKeys(d + [(k, val)])
  {
    var r := d + [(k, val)];
    if CleanKeys(d) {
      forall i | 0 <= i < |r| ensures |r[i].0| > 0 && Strip(r[i].0) == r[i].0 {
        if i < |d| { assert r[i] == d[i]; }
      }
    }
  }

  /** Step 1: the keys exactly as the JSON gives them, stripped. */
  function ExactKeys(raw: Assoc<string, MapEntry>): (m: Assoc<string, MapEntry>)
    ensures UniqueKeys(m) && CleanKeys(m)
  {
    if |raw| == 0 then []
    else
      var last := raw[|raw| - 1];
      PutMappingKeyClean(ExactKeys(raw[..|raw| - 1]), Strip(last.0), last.1);
      PutMappingKey(ExactKeys(raw[..|raw| - 1]), Strip(last.0), last.1)
  }

  /** The variants one bound key gives: "table" and "public.table" for a
      dotted key (the text after its first '.'), "public.key" otherwise. */
  function ExtraStep(acc: Assoc<string, MapEntry>, k: string, v: MapEntry): (r: Assoc<string, MapEntry>)
    ensures UniqueKeys(acc) ==> UniqueKeys(r)
    ensures CleanKeys(acc) ==> CleanKeys(r)
  {
    if '.' in k then
      var table := SplitFirst(k, '.').1;
      PutMappingKeyClean(acc, table, v);
      PutMappingKeyClean(PutMappingKey(acc, table, v), Public(table), v);
      PutMappingKey(PutMappingKey(acc, table, v), Public(table), v)
    else
      PutMappingKeyClean(acc, Public(k), v);
      PutMappingKey(acc, Public(k), v)
  }

  /** Step 2: the derived variants of every bound key, in key order. */
  function Extras(m: Assoc<string, MapEntry>): (e: Assoc<string, MapEntry>)
    ensures UniqueKeys(e) && CleanKeys(e)
  {
    if |m| == 0 then []
    else
      var last := m[|m| - 1];
      ExtraStep(Extras(m[..|m| - 1]), last.0, last.1)
  }

  /** `d.update(extras)`: every extra key is assigned, present or not. */
  function Update(d: Assoc<string, MapEntry>, extras: Assoc<string, MapEntry>): Assoc<string, MapEntry> {
    if |extras| == 0 then d
    else
      var last := extras[|extras| - 1];
      Put(Update(d, extras[..|extras| - 1]), last.0, last.1)
  }

  /** Under `update` every extra key ends up bound to its extra entry,
      whether or not the key was bound before. */
  lemma {:induction false} UpdateWins(d: Assoc<string, MapEntry>, extras: Assoc<string, MapEntry>, i: nat)
    requires UniqueKeys(extras) && i < |extras|
    ensures Lookup(Update(d, extras), extras[i].0) == Some(extras[i].1)
  {
    var n := |extras| - 1;
    var pre := extras[..n];
    PutLookup(Update(d, pre), extras[n].0, extras[n].1, extras[i].0);
    if i < n {
      assert pre[i] == extras[i];
      UpdateWins(d, pre, i);
    }
  }

  /** The mapping as the module builds it at import time. */
  function DeriveMappingAsWritten(raw: Assoc<string, MapEntry>): Assoc<string, MapEntry> {
    var m := ExactKeys(raw);
    Update(m, Extras(m))
  }

  /** Merging the extras through `_put_mapping_key`, as the comments on the
      derivation promise: a derived key never replaces a bound one. */
  function MergeNew(d: Assoc<string, MapEntry>, extras: Assoc<string, MapEntry>): (r: Assoc<string, MapEntry>)
    ensures UniqueKeys(d) ==> UniqueKeys(r)
  {
    if |extras| == 0 then d
    else
      var last := extras[|extras| - 1];
      PutMappingKeyClean(MergeNew(d, extras[..|extras| - 1]), last.0, last.1);
      PutMappingKey(MergeNew(d, extras[..|extras| - 1]), last.0, last.1)
  }

  /** The mapping with the derived keys added only where absent. */
  function DeriveMapping(raw: Assoc<string, MapEntry>): Assoc<string, MapEntry> {
    var m := ExactKeys(raw);
    MergeNew(m, Extras(m))
  }

  /** Merging keeps every bound key and its entry. */
  lemma {:induction false} MergeNewKeeps(d: Assoc<string, MapEntry>, extras: Assoc<string, MapEntry>, k: string)
    requires k in Keys(d)
    ensures k in Keys(MergeNew(d, extras))
    ensures Lookup(MergeNew(d, extras), k) == Lookup(d, k)
  {
    if |extras| > 0 {
      var last := extras[|extras| - 1];
      MergeNewKeeps(d, extras[..|extras| - 1], k);
      PutMappingKeyKeeps(MergeNew(d, extras[..|extras| - 1]), last.0, last.1, k);
    }
  }

  /** Merging binds every extra key. */
  lemma {:induction false} MergeNewHas(d: Assoc<string, MapEntry>, extras: Assoc<string, MapEntry>, i: nat)
    requires CleanKeys(extras) && i < |extras|
    ensures extras[i].0 in Keys(MergeNew(d, extras))
  {
    var n := |extras| - 1;
    var pre := extras[..n];
    var acc := MergeNew(d, pre);
    assert MergeNew(d, extras) == PutMappingKey(acc, extras[n].0, extras[n].1);
    assert Strip(extras[n].0) == extras[n].0;
    if i == n {
      PutMappingKeyBinds(acc, extras[n].0, extras[n].1);
    } else {
      assert pre[i] == extras[i];
      assert CleanKeys(pre) by {
        forall j | 0 <= j < |pre| ensures |pre[j].0| > 0 && Strip(pre[j].0) == pre[j].0 {
          assert pre[j] == extras[j];
        }
      }
      MergeNewHas(d, pre, i);
      PutMappingKeyKeeps(acc, extras[n].0, extras[n].1, extras[i].0);
    }
  }

  /** The corrected derivation keeps every exact key's entry and binds every
      derived key. */
  lemma DeriveMappingKeeps(raw: Assoc<string, MapEntry>)
    ensures forall k | k in Keys(ExactKeys(raw)) :: Lookup(DeriveMapping(raw), k) == Lookup(ExactKeys(raw), k)
    ensures forall i | 0 <= i < |Extras(ExactKeys(raw))| :: Extras(ExactKeys(raw))[i].0 in Keys(DeriveMapping(raw))
  {
    var m := ExactKeys(raw);
    forall k | k in Keys(m) ensures Lookup(DeriveMapping(raw), k) == Lookup(m, k) {
      MergeNewKeeps(m, Extras(m), k);
    }
    forall i | 0 <= i < |Extras(m)| ensures Extras(m)[i].0 in Keys(DeriveMapping(raw)) {
      MergeNewHas(m, Extras(m), i);
    }
  }

  /** A blank-free name without a dot, and its "public." form. */
  lemma PublicKeyFacts(t: string)
    requires |t| > 0 && NoSpace(t) && '.' !in t
    ensures Strip(t) == t && Strip(Public(t)) == Public(t)
    ensures '.' in Public(t) && SplitFirst(Public(t), '.') == ("public", t)
    ensures t != Public(t)
  {
    StripNoSpace(t);
    var p := Public(t);
    assert p[0] == 'p' && p[|p| - 1] == t[|t| - 1];
    StripNoSpace(p);
    assert p == "public" + ['.'] + t;
    SplitFirstUnique("public", '.', t);
  }

  /** The exact keys of the example are bound as given. */
  lemma ExactKeysExample(t: string, a: MapEntry, b: MapEntry)
    requires |t| > 0 && NoSpace(t) && '.' !in t
    ensures ExactKeys([(t, a), (Public(t), b)]) == [(t, a), (Public(t), b)]
  {
    PublicKeyFacts(t);
    var raw := [(t, a), (Public(t), b)];
    assert raw[..1] == [(t, a)];
    assert [(t, a)][..0] == [];
    assert ExactKeys([]) == [];
    assert PutMappingKey([], Strip(t), a) == [(t, a)];
    var m1 := ExactKeys([(t, a)]);
    assert m1 == [(t, a)];
    assert Keys(m1) == [t];
    assert Strip(Public(t)) !in Keys(m1);
    assert ExactKeys(raw) == PutMappingKey(m1, Strip(Public(t)), b);
  }

  /** An undotted key derives its "public." form. */
  lemma ExtrasOne(t: string, a: MapEntry)
    requires |t| > 0 && NoSpace(t) && '.' !in t
    ensures Extras([(t, a)]) == [(Public(t), a)]
  {
    PublicKeyFacts(t);
    assert [(t, a)][..0] == [];
    assert Extras([]) == [];
    assert ExtraStep([], t, a) == PutMappingKey([], Public(t), a);
  }

  /** The example's derived keys: "public.t" from "t", then "t" from
      "public.t". */
  lemma ExtrasExample(t: string, a: MapEntry, b: MapEntry)
    requires |t| > 0 && NoSpace(t) && '.' !in t
    ensures Extras([(t, a), (Public(t), b)]) == [(Public(t), a), (t, b)]
  {
    PublicKeyFacts(t);
    var m := [(t, a), (Public(t), b)];
    assert m[..1] == [(t, a)];
    ExtrasOne(t, a);
    var e1 := [(Public(t), a)];
    assert Extras(m) == ExtraStep(e1, Public(t), b);
    ExtrasSecond(t, a, b);
  }

  lemma ExtrasSecond(t: string, a: MapEntry, b: MapEntry)
    requires |t| > 0 && NoSpace(t) && '.' !in t
    ensures ExtraStep([(Public(t), a)], Public(t), b) == [(Public(t), a), (t, b)]
  {
    PublicKeyFacts(t);
    var e1 := [(Public(t), a)];
    assert ExtraStep(e1, Public(t), b) == PutMappingKey(PutMappingKey(e1, t, b), Public(t), b);
    assert Keys(e1) == [Public(t)];
    assert PutMappingKey(e1, t, b) == e1 + [(t, b)];
    var e2 := e1 + [(t, b)];
    assert Keys(e2)[0] == Public(t);
  }

  /** The derivation as written lets the "public.t" variant of the exact
      key "t" replace the exact key "public.t", and the "t" variant of
      "public.t" replace the exact key "t". */
  lemma UpdateOverwritesExact(t: string, a: MapEntry, b: MapEntry)
    requires |t| > 0 && NoSpace(t) && '.' !in t
    ensures Lookup(ExactKeys([(t, a), (Public(t), b)]), Public(t)) == Some(b)
    ensures Lookup(DeriveMappingAsWritten([(t, a), (Public(t), b)]), Public(t)) == Some(a)
    ensures Lookup(DeriveMappingAsWritten([(t, a), (Public(t), b)]), t) == Some(b)
  {
    ExactKeysExample(t, a, b);
    ExtrasExample(t, a, b);
    var e := Extras([(t, a), (Public(t), b)]);
    UpdateWins([(t, a), (Public(t), b)], e, 0);
    UpdateWins([(t, a), (Public(t), b)], e, 1);
  }

  /** The corrected derivation keeps both exact keys. */
  lemma DeriveMappingKeepsExample(t: string, a: MapEntry, b: MapEntry)
    requires |t| > 0 && NoSpace(t) && '.' !in t
    ensures Lookup(DeriveMapping([(t, a), (Public(t), b)]), Public(t)) == Some(b)
    ensures Lookup(DeriveMapping([(t, a), (Public(t), b)]), t) == Some(a)
  {
    var m := [(t, a), (Public(t), b)];
    ExactKeysExample(t, a, b);
    LookupAt(m, 0);
    LookupAt(m, 1);
    MergeNewKeeps(m, Extras(m), t);
    MergeNewKeeps(m, Extras(m), Public(t));
  }

  // -------------------------------------------------------- resolution

  function SchemaOf(l: ReportLayer): string {
    Strip(Or(l.schema, ""))
  }

  /** `(layer.get("table") or layer.get("nom") or "").strip()`. */
  function TableOf(l: ReportLayer): string {
    Strip(Or(l.table, Or(l.nom, "")))
  }

  /** The keys tried, in order: "schema.table", "public.table", "table". */
  function Candidates(schema: string, table: string): (cs: seq<string>)
    ensures |table| == 0 ==> cs == []
  {
    (if |schema| > 0 && |table| > 0 then [Dotted(schema, table)] else [])
    + (if |table| > 0 then [Public(table), table] else [])
  }

  /** The entry of the first candidate the mapping binds. */
  function FirstBound(m: Assoc<string, MapEntry>, cands: seq<string>): (r: Option<MapEntry>)
    ensures r.None? <==> forall i | 0 <= i < |cands| :: cands[i] !in Keys(m)
  {
    if |cands| == 0 then None
    else if cands[0] in Keys(m) then Lookup(m, cands[0])
    else
      assert forall i | 1 <= i < |cands| :: cands[i] == cands[1..][i - 1];
      FirstBound(m, cands[1..])
  }

  lemma {:induction false} FirstBoundAt(m: Assoc<string, MapEntry>, cands: seq<string>, i: nat)
    requires i < |cands| && cands[i] in Keys(m)
    requires forall j | 0 <= j < i :: cands[j] !in Keys(m)
    ensures FirstBound(m, cands) == Lookup(m, cands[i])
  {
    if i > 0 {
      FirstBoundAt(m, cands[1..], i - 1);
    }
  }

  /** `mapping_for`: nothing for a layer without a table. */
  function MappingFor(m: Assoc<string, MapEntry>, l: ReportLayer): (r: Option<MapEntry>)
    ensures |TableOf(l)| == 0 ==> r.None?
  {
    FirstBound(m, Candidates(SchemaOf(l), TableOf(l)))
  }

  /** `mapping_for` resolves "schema.table", then "public.table", then
      "table", and gives nothing when none is bound. */
  lemma MappingForOrder(m: Assoc<string, MapEntry>, l: ReportLayer)
    ensures var s := SchemaOf(l); var t := TableOf(l);
      |s| > 0 && |t| > 0 && Dotted(s, t) in Keys(m) ==> MappingFor(m, l) == Lookup(m, Dotted(s, t))
    ensures var s := SchemaOf(l); var t := TableOf(l);
      |t| > 0 && (|s| == 0 || Dotted(s, t) !in Keys(m)) && Public(t) in Keys(m) ==>
        MappingFor(m, l) == Lookup(m, Public(t))
    ensures var s := SchemaOf(l); var t := TableOf(l);
      |t| > 0 && (|s| == 0 || Dotted(s, t) !in Keys(m)) && Public(t) !in Keys(m) && t in Keys(m) ==>
        MappingFor(m, l) == Lookup(m, t)
    ensures var s := SchemaOf(l); var t := TableOf(l);
      (|s| == 0 || |t| == 0 || Dotted(s, t) !in Keys(m)) && Public(t) !in Keys(m) && t !in Keys(m) ==>
        MappingFor(m, l).None?
  {
    var s := SchemaOf(l);
    var t := TableOf(l);
    var cs := Candidates(s, t);
    if |t| > 0 {
      if |s| > 0 {
        assert cs == [Dotted(s, t), Public(t), t];
        if Dotted(s, t) in Keys(m) {
          FirstBoundAt(m, cs, 0);
        } else if Public(t) in Keys(m) {
          FirstBoundAt(m, cs, 1);
        } else if t in Keys(m) {
          FirstBoundAt(m, cs, 2);
        }
      } else {
        assert cs == [Public(t), t];
        if Public(t) in Keys(m) {
          FirstBoundAt(m, cs, 0);
        } else if t in Keys(m) {
          FirstBoundAt(m, cs, 1);
        }
      }
    }
  }

  /** `display_name`: the mapping's name, else the layer's own name, table
      or `nom`, else "Couche"; never empty. */
  function DisplayName(m: Assoc<string, MapEntry>, l: ReportLayer): (r: string)
    ensures r != ""
    ensures MappingFor(m, l).Some? && Given(MappingFor(m, l).value.name) ==> r == MappingFor(m, l).value.name.value
  {
    var e := MappingFor(m, l);
    if e.Some? && Given(e.value.name) then e.value.name.value
    else Or(l.name, Or(l.table, Or(l.nom, "Couche")))
  }

  /** `get_layer_type`: the `type` of the resolved entry; an unresolved
      layer reads `type` from `{}` and gets nothing. */
  function LayerType(m: Assoc<string, MapEntry>, l: ReportLayer): (r: Option<string>)
    ensures MappingFor(m, l).None? ==> r.None?
    ensures |TableOf(l)| == 0 ==> r.None?
    ensures r.Some? ==> exists k | k in Candidates(SchemaOf(l), TableOf(l)) :: k in Keys(m) && Lookup(m, k).value.ltype == r
  {
    match MappingFor(m, l)
    case Some(e) =>
      FirstBoundFrom(m, Candidates(SchemaOf(l), TableOf(l)));
      e.ltype
    case None => None
  }

  /** A bound entry comes from a bound candidate. */
  lemma {:induction false} FirstBoundFrom(m: Assoc<string, MapEntry>, cands: seq<string>)
    ensures FirstBound(m, cands).Some? ==> exists k | k in cands :: k in Keys(m) && Lookup(m, k) == FirstBound(m, cands)
  {
    if |cands| > 0 && cands[0] !in Keys(m) {
      FirstBoundFrom(m, cands[1..]);
    }
  }

  /** The type is that of the first candidate the mapping binds. */
  lemma LayerTypeAt(m: Assoc<string, MapEntry>, l: ReportLayer, i: nat)
    requires var cs := Candidates(SchemaOf(l), TableOf(l));
      i < |cs| && cs[i] in Keys(m) && forall j | 0 <= j < i :: cs[j] !in Keys(m)
    ensures LayerType(m, l) == Lookup(m, Candidates(SchemaOf(l), TableOf(l))[i]).value.ltype
  {
    FirstBoundAt(m, Candidates(SchemaOf(l), TableOf(l)), i);
  }
}

=== FILE: parcel_groups.dfy ===
/** `group_parcels_by_value_pct`: the parcels of the PPR and environment
    tables grouped by identical (value, rounded percent[, trunk]), one row
    per group, rows ordered by value then by percent, highest first. */
module ParcelGroups {
  import opened Wrappers
  import opened Text
  import opened Assoc
  import opened Sorting

  /** One (value, percent[, trunk]) item of a parcel. */
  datatype Item = Item(value: string, pct: Option<real>, trunk: Option<string>)

  /** The grouping key: the value, the percent rounded to one decimal, and
      the trunk when grouping by trunk. */
  datatype GroupKey = GroupKey(value: string, pct: real, trunk: Option<string>)

  /** One output row: the key and the parcels sharing it. */
  datatype Row = Row(value: string, pct: real, trunk: Option<string>, parcels: seq<string>)

  /** The key of an item; `round1` is Python's `round(x, 1)`. */
  function KeyOf(it: Item, withTrunk: bool, round1: real -> real): GroupKey {
    GroupKey(it.value, round1(it.pct.GetOr(0.0)), if withTrunk && Given(it.trunk) then it.trunk else None)
  }

  /** Every (parcel, item) of the map, in map order then item order. */
  function Entries(pm: Assoc<string, seq<Item>>): seq<(string, Item)>
    decreases |pm|
  {
    if |pm| == 0 then []
    else
      var last := pm[|pm| - 1];
      Entries(pm[..|pm| - 1]) + seq(|last.1|, j requires 0 <= j < |last.1| => (last.0, last.1[j]))
  }

  /** The entries are exactly the (parcel, item) pairs of the map. */
  lemma {:induction false} EntriesMembers(pm: Assoc<string, seq<Item>>, e: (string, Item))
    ensures e in Entries(pm) <==> exists i | 0 <= i < |pm| :: pm[i].0 == e.0 && e.1 in pm[i].1
    decreases |pm|
  {
    if |pm| > 0 {
      var init := pm[..|pm| - 1];
      var last := pm[|pm| - 1];
      EntriesMembers(init, e);
      var tail := seq(|last.1|, j requires 0 <= j < |last.1| => (last.0, last.1[j]));
      assert Entries(pm) == Entries(init) + tail;
      assert e in tail <==> last.0 == e.0 && e.1 in last.1 by {
        if last.0 == e.0 && e.1 in last.1 {
          var j :| 0 <= j < |last.1| && last.1[j] == e.1;
          assert tail[j] == e;
        }
      }
      assert forall i | 0 <= i < |init| :: init[i] == pm[i];
    }
  }

  /** `bucket[k].append(p)` on a `defaultdict(list)`. */
  function Append(b: Assoc<GroupKey, seq<string>>, k: GroupKey, p: string): Assoc<GroupKey, seq<string>> {
    Put(b, k, Lookup(b, k).GetOr([]) + [p])
  }

  /** The buckets, keys in first-seen order. */
  function Bucket(es: seq<(string, Item)>, withTrunk: bool, round1: real -> real): (b: Assoc<GroupKey, seq<string>>)
    ensures UniqueKeys(b)
    decreases |es|
  {
    if |es| == 0 then []
    else
      var b := Bucket(es[..|es| - 1], withTrunk, round1);
      var e := es[|es| - 1];
      PutUnique(b, KeyOf(e.1, withTrunk, round1), Lookup(b, KeyOf(e.1, withTrunk, round1)).GetOr([]) + [e.0]);
      Append(b, KeyOf(e.1, withTrunk, round1), e.0)
  }

  /** Reference definition: the parcels of the entries with key `k`, in order. */
  function ParcelsFor(es: seq<(string, Item)>, k: GroupKey, withTrunk: bool, round1: real -> real): seq<string>
    decreases |es|
  {
    if |es| == 0 then []
    else
      var e := es[|es| - 1];
      ParcelsFor(es[..|es| - 1], k, withTrunk, round1) + (if KeyOf(e.1, withTrunk, round1) == k then [e.0] else [])
  }

  /** Each bucket holds exactly the parcels of its key, and a key no entry
      has has no bucket. */
  lemma {:induction false} BucketLookup(es: seq<(string, Item)>, k: GroupKey, withTrunk: bool, round1: real -> real)
    ensures Lookup(Bucket(es, withTrunk, round1), k) ==
      if ParcelsFor(es, k, withTrunk, round1) == [] then None else Some(ParcelsFor(es, k, withTrunk, round1))
    decreases |es|
  {
    if |es| > 0 {
      var init := es[..|es| - 1];
      var e := es[|es| - 1];
      BucketLookup(init, k, withTrunk, round1);
      var b := Bucket(init, withTrunk, round1);
      var ke := KeyOf(e.1, withTrunk, round1);
      PutLookup(b, ke, Lookup(b, ke).GetOr([]) + [e.0], k);
      assert Bucket(es, withTrunk, round1) == Put(b, ke, Lookup(b, ke).GetOr([]) + [e.0]);
      var ps := ParcelsFor(init, k, withTrunk, round1);
      assert ParcelsFor(es, k, withTrunk, round1) == ps + (if ke == k then [e.0] else []);
      if ke == k {
        assert Lookup(b, k).GetOr([]) == ps;
        assert ParcelsFor(es, k, withTrunk, round1) == ps + [e.0] != [];
      } else {
        assert ParcelsFor(es, k, withTrunk, round1) == ps;
        assert Lookup(Bucket(es, withTrunk, round1), k) == Lookup(b, k);
      }
    }
  }

  /** Python's sort key `(value, -pct)`. */
  predicate RowLe(a: Row, b: Row) {
    LexLt(a.value, b.value) || (a.value == b.value && a.pct >= b.pct)
  }

  function RowLeFn(): (Row, Row) -> bool {
    (a: Row, b: Row) => RowLe(a, b)
  }

  lemma RowLeOrder()
    ensures Total(RowLeFn()) && Transitive(RowLeFn())
  {
    forall a: Row, b: Row ensures RowLeFn()(a, b) || RowLeFn()(b, a) {
      LexLeTotal(a.value, b.value);
    }
    forall a: Row, b: Row, c: Row | RowLeFn()(a, b) && RowLeFn()(b, c) ensures RowLeFn()(a, c) {
      if a.value != b.value && b.value != c.value {
        LexLeTrans(a.value, b.value, c.value);
        if a.value == c.value {
          LexLeAntisym(a.value, b.value);
        }
      }
    }
  }

  /** The row of one bucket: its parcels by length, then text. */
  function RowOf(kv: (GroupKey, seq<string>)): Row {
    Row(kv.0.value, kv.0.pct, kv.0.trunk, SortBy(kv.1, ShortLexLeFn()))
  }

  function Rows(b: Assoc<GroupKey, seq<string>>): (rs: seq<Row>)
    ensures |rs| == |b|
    ensures forall i | 0 <= i < |b| :: rs[i] == RowOf(b[i])
  {
    seq(|b|, i requires 0 <= i < |b| => RowOf(b[i]))
  }

  /** `group_parcels_by_value_pct`: one row per bucket, ordered by value
      ascending, then percent descending. */
  function GroupParcelsByValuePct(pm: Assoc<string, seq<Item>>, withTrunk: bool, round1: real -> real): (r: seq<Row>)
    ensures forall i, j | 0 <= i < j < |r| :: RowLe(r[i], r[j])
    ensures multiset(r) == multiset(Rows(Bucket(Entries(pm), withTrunk, round1)))
  {
    var r := SortBy(Rows(Bucket(Entries(pm), withTrunk, round1)), RowLeFn());
    RowLeOrder();
    forall i, j | 0 <= i < j < |r| ensures RowLe(r[i], r[j]) {
      SortedPairwise(r, RowLeFn(), i, j);
    }
    r
  }

  function RowKey(row: Row): GroupKey {
    GroupKey(row.value, row.pct, row.trunk)
  }

  /** Each bucket holds the parcels of its key, and at least one. */
  lemma BucketAt(es: seq<(string, Item)>, withTrunk: bool, round1: real -> real, j: nat)
    requires j < |Bucket(es, withTrunk, round1)|
    ensures var kv := Bucket(es, withTrunk, round1)[j];
      kv.1 == ParcelsFor(es, kv.0, withTrunk, round1) && kv.1 != []
  {
    var b := Bucket(es, withTrunk, round1);
    LookupAt(b, j);
    BucketLookup(es, b[j].0, withTrunk, round1);
  }

  /** Every entry's parcel is in the bucket of the entry's key. */
  lemma BucketOfEntry(es: seq<(string, Item)>, withTrunk: bool, round1: real -> real, e: (string, Item))
    requires e in es
    ensures exists j | 0 <= j < |Bucket(es, withTrunk, round1)| ::
      Bucket(es, withTrunk, round1)[j].0 == KeyOf(e.1, withTrunk, round1) && e.0 in Bucket(es, withTrunk, round1)[j].1
  {
    var k := KeyOf(e.1, withTrunk, round1);
    var b := Bucket(es, withTrunk, round1);
    ParcelsForHas(es, e, withTrunk, round1);
    BucketLookup(es, k, withTrunk, round1);
    var j :| 0 <= j < |b| && b[j] == (k, ParcelsFor(es, k, withTrunk, round1));
  }

  /** Each row lists, by length then text, exactly the parcels whose items
      have its key; no row is empty. */
  lemma GroupRow(pm: Assoc<string, seq<Item>>, withTrunk: bool, round1: real -> real, i: nat)
    requires i < |GroupParcelsByValuePct(pm, withTrunk, round1)|
    ensures var row := GroupParcelsByValuePct(pm, withTrunk, round1)[i];
      var ps := ParcelsFor(Entries(pm), RowKey(row), withTrunk, round1);
      ps != [] && multiset(row.parcels) == multiset(ps) && SortedBy(row.parcels, ShortLexLeFn())
  {
    var es := Entries(pm);
    var b := Bucket(es, withTrunk, round1);
    var rs := Rows(b);
    var row := GroupParcelsByValuePct(pm, withTrunk, round1)[i];
    assert row in multiset(rs);
    var j :| 0 <= j < |rs| && rs[j] == row;
    assert row == RowOf(b[j]);
    BucketAt(es, withTrunk, round1, j);
    ShortLexLeOrder();
  }

  /** Every (parcel, item) shows up in the row of the item's key. */
  lemma GroupHasEntry(pm: Assoc<string, seq<Item>>, withTrunk: bool, round1: real -> real, e: (string, Item))
    requires e in Entries(pm)
    ensures exists i | 0 <= i < |GroupParcelsByValuePct(pm, withTrunk, round1)| ::
      var row := GroupParcelsByValuePct(pm, withTrunk, round1)[i];
      RowKey(row) == KeyOf(e.1, withTrunk, round1) && e.0 in row.parcels
  {
    var b := Bucket(Entries(pm), withTrunk, round1);
    BucketOfEntry(Entries(pm), withTrunk, round1, e);
    var j :| 0 <= j < |b| && b[j].0 == KeyOf(e.1, withTrunk, round1) && e.0 in b[j].1;
    var row := RowOf(b[j]);
    assert e.0 in multiset(b[j].1);
    assert e.0 in row.parcels;
    var rs := Rows(b);
    assert rs[j] == row;
    var r := GroupParcelsByValuePct(pm, withTrunk, round1);
    assert row in multiset(r);
    var i :| 0 <= i < |r| && r[i] == row;
    assert RowKey(r[i]) == KeyOf(e.1, withTrunk, round1) && e.0 in r[i].parcels;
  }

  lemma {:induction false} ParcelsForHas(es: seq<(string, Item)>, e: (string, Item), withTrunk: bool, round1: real -> real)
    requires e in es
    ensures e.0 in ParcelsFor(es, KeyOf(e.1, withTrunk, round1), withTrunk, round1)
    decreases |es|
  {
    if es[|es| - 1] != e {
      var i :| 0 <= i < |es| && es[i] == e;
      assert es[..|es| - 1][i] == e;
      ParcelsForHas(es[..|es| - 1], e, withTrunk, round1);
    }
  }
}

=== FILE: parcel_refs.dfy ===
/** Cadastral parcel references: the text form "AD 0598, AC 0042" read by the
    intersection runner, and the same text written by the orchestrator from
    the references the CERFA extraction returns. */
module ParcelRefs {
  import opened Wrappers
  import opened Text

  /** A parsed reference: upper-cased section, number padded to four. */
  type Ref = (string, string)

  /** One comma chunk: exactly two words, or nothing. The source strips the
      chunk before splitting it; `Text.StripWords` shows that changes nothing. */
  function ParseChunk(raw: string): Option<Ref> {
    var parts := Words(raw);
    if |parts| != 2 then None else Some((Upper(parts[0]), ZFill(parts[1], 4)))
  }

  function ParseChunks(chunks: seq<string>): (refs: seq<Ref>)
    ensures |refs| <= |chunks|
  {
    if |chunks| == 0 then []
    else
      var rest := ParseChunks(chunks[1..]);
      match ParseChunk(chunks[0])
      case Some(r) => [r] + rest
      case None => rest
  }

  /** `_parse_parcel_refs`: the comma chunks made of exactly two words, each
      as (upper-cased section, number padded to four), in input order. */
  function ParseParcelRefs(text: string): seq<Ref> {
    ParseChunks(SplitOn(text, ','))
  }

  /** Every parsed reference is a clean, upper-case section and a number of
      at least four characters, neither holding a blank or a comma. */
  lemma ParseParcelRefsShape(text: string)
    ensures forall i | 0 <= i < |ParseParcelRefs(text)| ::
      var r := ParseParcelRefs(text)[i];
      |r.0| > 0 && NoSpace(r.0) && ',' !in r.0 && Upper(r.0) == r.0
      && |r.1| >= 4 && NoSpace(r.1) && ',' !in r.1
  {
    ParseChunksShape(SplitOn(text, ','));
  }

  lemma {:induction false} ParseChunksShape(chunks: seq<string>)
    requires forall i | 0 <= i < |chunks| :: ',' !in chunks[i]
    ensures forall i | 0 <= i < |ParseChunks(chunks)| ::
      var r := ParseChunks(chunks)[i];
      |r.0| > 0 && NoSpace(r.0) && ',' !in r.0 && Upper(r.0) == r.0
      && |r.1| >= 4 && NoSpace(r.1) && ',' !in r.1
  {
    if |chunks| > 0 {
      ParseChunksShape(chunks[1..]);
      var c := chunks[0];
      var ws := Words(c);
      if |ws| == 2 {
        WordsChars(c, x => x != ',');
        assert ',' !in ws[0] && ',' !in ws[1] by {
          assert AllChars(ws[0], x => x != ',') && AllChars(ws[1], x => x != ',');
        }
        UpperKeepsShape(ws[0]);
        UpperIdempotent(ws[0]);
      }
    }
  }

  lemma ParseChunkLeadingSpace(c: string)
    ensures ParseChunk(" " + c) == ParseChunk(c)
  {
    WordsLeadingSpace(c);
  }

  /** A blank in front of the text changes nothing. */
  lemma LeadingSpaceRefs(x: string)
    ensures ParseParcelRefs(" " + x) == ParseParcelRefs(x)
  {
    var cs := SplitOn(x, ',');
    assert SplitOn(" " + x, ',') == [" " + cs[0]] + cs[1..] by {
      assert (" " + x)[1..] == x;
    }
    ParseChunkLeadingSpace(cs[0]);
    assert ([" " + cs[0]] + cs[1..])[1..] == cs[1..];
    assert cs == [cs[0]] + cs[1..];
  }

  /** A two-word chunk parses to its upper-cased section and padded number. */
  lemma ParseChunkPair(sec: string, num: string)
    requires |sec| > 0 && NoSpace(sec) && |num| > 0 && NoSpace(num)
    ensures ParseChunk(sec + " " + num) == Some((Upper(sec), ZFill(num, 4)))
  {
    WordsOfPair(sec, num);
  }

  // ------------------------------------------------ writing the text

  /** A reference as the CERFA extraction returns it; `None` is a missing or
      null field. */
  datatype CerfaRef = CerfaRef(section: Option<string>, numero: Option<string>)

  function SectionOf(r: CerfaRef): string {
    Upper(Strip(r.section.GetOr("")))
  }

  function NumberOf(r: CerfaRef): string {
    ZFill(Strip(r.numero.GetOr("")), 4)
  }

  /** The "SEC NNNN" parts of the references that have a section. */
  function ParcelParts(refs: seq<CerfaRef>): (parts: seq<string>)
    ensures |parts| <= |refs|
  {
    if |refs| == 0 then []
    else
      var sec := SectionOf(refs[0]);
      var num := NumberOf(refs[0]);
      (if |sec| > 0 && |num| > 0 then [sec + " " + num] else []) + ParcelParts(refs[1..])
  }

  /** `_to_parcel_arg`: the references joined with ", " in input order;
      references without a section are skipped, a blank number is padded. */
  function ToParcelArg(refs: Option<seq<CerfaRef>>): (text: string)
    ensures refs.None? || refs.value == [] ==> text == ""
  {
    JoinSep(ParcelParts(refs.GetOr([])), ", ")
  }

  /** The references the runner should see: the ones that have a section,
      normalised as the writer normalises them. */
  function Expected(refs: seq<CerfaRef>): seq<Ref> {
    if |refs| == 0 then []
    else
      var sec := SectionOf(refs[0]);
      (if |sec| > 0 then [(sec, NumberOf(refs[0]))] else []) + Expected(refs[1..])
  }

  /** Neither field holds a comma or an inner blank. */
  predicate Clean(r: CerfaRef) {
    var s := Strip(r.section.GetOr(""));
    var n := Strip(r.numero.GetOr(""));
    NoSpace(s) && ',' !in s && NoSpace(n) && ',' !in n
  }

  /** The part written for a clean reference holds no comma. */
  lemma CleanPartNoComma(r: CerfaRef)
    requires Clean(r)
    ensures ',' !in SectionOf(r) + " " + NumberOf(r)
  {
    var s := Strip(r.section.GetOr(""));
    var n := Strip(r.numero.GetOr(""));
    UpperKeepsShape(s);
    ZFillIdempotent(n, 4);
  }

  lemma CleanPart(r: CerfaRef)
    requires Clean(r) && |SectionOf(r)| > 0
    ensures ',' !in SectionOf(r) + " " + NumberOf(r)
    ensures ParseChunk(SectionOf(r) + " " + NumberOf(r)) == Some((SectionOf(r), NumberOf(r)))
  {
    var s := Strip(r.section.GetOr(""));
    var n := Strip(r.numero.GetOr(""));
    UpperKeepsShape(s);
    UpperIdempotent(s);
    ZFillIdempotent(n, 4);
    assert |NumberOf(r)| >= 4;
    WordsOfPair(SectionOf(r), NumberOf(r));
  }

  lemma {:induction false} PartsNoComma(refs: seq<CerfaRef>)
    requires forall i | 0 <= i < |refs| :: Clean(refs[i])
    ensures forall i | 0 <= i < |ParcelParts(refs)| :: ',' !in ParcelParts(refs)[i]
  {
    if |refs| > 0 {
      PartsNoComma(refs[1..]);
      CleanPartNoComma(refs[0]);
      var head := if |SectionOf(refs[0])| > 0 && |NumberOf(refs[0])| > 0
        then [SectionOf(refs[0]) + " " + NumberOf(refs[0])] else [];
      assert ParcelParts(refs) == head + ParcelParts(refs[1..]);
    }
  }

  lemma {:induction false} PartsParse(refs: seq<CerfaRef>)
    requires forall i | 0 <= i < |refs| :: Clean(refs[i])
    ensures ParseChunks(ParcelParts(refs)) == Expected(refs)
  {
    if |refs| > 0 {
      PartsParse(refs[1..]);
      var rest := ParcelParts(refs[1..]);
      if |SectionOf(refs[0])| > 0 {
        CleanPart(refs[0]);
        var p := SectionOf(refs[0]) + " " + NumberOf(refs[0]);
        assert ParcelParts(refs) == [p] + rest;
        assert ([p] + rest)[1..] == rest;
      } else {
        assert ParcelParts(refs) == rest;
      }
    }
  }

  /** Reading back a comma-free list joined by ", " parses each part. */
  lemma {:induction false} ParseJoined(parts: seq<string>)
    requires forall i | 0 <= i < |parts| :: ',' !in parts[i]
    ensures ParseParcelRefs(JoinSep(parts, ", ")) == ParseChunks(parts)
  {
    if |parts| == 0 {
      assert Words("") == [];
    } else if |parts| == 1 {
      SplitOnNoSep(parts[0], ',');
    } else {
      var y := JoinSep(parts[1..], ", ");
      ParseJoined(parts[1..]);
      assert JoinSep(parts, ", ") == parts[0] + [','] + (" " + y);
      SplitOnConcat(parts[0], ',', " " + y);
      LeadingSpaceRefs(y);
      assert parts == [parts[0]] + parts[1..];
    }
  }

  /** Round trip through the parcel argument: the runner reads back exactly
      the normalised references the orchestrator wrote, in order, whenever no
      field holds a comma or an inner blank. */
  lemma ToParcelArgRoundTrip(refs: seq<CerfaRef>)
    requires forall i | 0 <= i < |refs| :: Clean(refs[i])
    ensures ParseParcelRefs(ToParcelArg(Some(refs))) == Expected(refs)
  {
    PartsNoComma(refs);
    PartsParse(refs);
    ParseJoined(ParcelParts(refs));
  }
}

=== FILE: plu.dfy ===
/** The PLU regulation lookup the CUA builder uses: zone codes are reduced
    to their canonical upper-case alphanumeric form, one candidate per zone
    is looked up in the cleaned regulations table, and the texts found are
    assembled for the document in code order. The table is an oracle. */
module PluRegulation {
  import opened Wrappers
  import opened Text
  import opened Assoc
  import opened Sorting

  /** Only the characters `[0-9A-Z]`. */
  predicate Canonical(s: string) {
    forall i | 0 <= i < |s| :: IsUpperAlnum(s[i])
  }

  /** `re.sub(r"[^0-9A-Z]+", "", s)`. */
  function KeepUpperAlnum(s: string): (r: string)
    ensures Canonical(r) && |r| <= |s|
    ensures Canonical(s) ==> r == s
  {
    if |s| == 0 then ""
    else (if IsUpperAlnum(s[0]) then [s[0]] else []) + KeepUpperAlnum(s[1..])
  }

  /** Exactly the `[0-9A-Z]` characters survive. */
  lemma {:induction false} KeepUpperAlnumChars(s: string, c: char)
    ensures c in KeepUpperAlnum(s) <==> c in s && IsUpperAlnum(c)
  {
    if |s| > 0 {
      KeepUpperAlnumChars(s[1..], c);
      assert c in s <==> c == s[0] || c in s[1..];
    }
  }

  /** `canonicalize_zone`: "" for a missing or empty code, else the
      upper-cased code with everything outside `[0-9A-Z]` removed. */
  function CanonicalizeZone(z: Option<string>): (r: string)
    ensures Canonical(r)
    ensures z.None? || z.value == "" ==> r == ""
  {
    if z.None? || z.value == "" then "" else KeepUpperAlnum(Upper(z.value))
  }

  /** A character survives exactly when its upper-case form is in
      `[0-9A-Z]`. */
  lemma CanonicalizeZoneChars(z: string, c: char)
    requires z != ""
    ensures c in CanonicalizeZone(Some(z)) <==> c in Upper(z) && IsUpperAlnum(c)
  {
    KeepUpperAlnumChars(Upper(z), c);
  }

  lemma UpperCanonical(s: string)
    requires Canonical(s)
    ensures Upper(s) == s
  {
    assert forall i | 0 <= i < |s| :: UpperChar(s[i]) == s[i];
  }

  /** A canonical code is its own canonical form. */
  lemma CanonicalizeZoneFixed(s: string)
    requires Canonical(s)
    ensures CanonicalizeZone(Some(s)) == s
  {
    UpperCanonical(s);
  }

  lemma CanonicalizeZoneIdempotent(z: Option<string>)
    ensures CanonicalizeZone(Some(CanonicalizeZone(z))) == CanonicalizeZone(z)
  {
    CanonicalizeZoneFixed(CanonicalizeZone(z));
  }

  /** `candidate_zones`: no candidate for an empty canonical form, else the
      canonical form alone. */
  function CandidateZones(z: Option<string>): (r: seq<string>)
    ensures |r| <= 1
    ensures r == [] <==> CanonicalizeZone(z) == ""
    ensures forall i | 0 <= i < |r| :: r[i] == CanonicalizeZone(z) && |r[i]| > 0
  {
    var canon := CanonicalizeZone(z);
    if canon == "" then [] else [canon]
  }

  // ------------------------------------------------------------ fetching

  /** A query answer that counts as found: a row with a non-empty text. */
  predicate Hit(q: Result<Option<string>>) {
    q.Success? && q.value.Some? && q.value.value != ""
  }

  /** The candidate loop: the first candidate whose query finds a text;
      a query that raises only moves on to the next candidate. */
  function FirstText(cands: seq<string>, query: string -> Result<Option<string>>): (r: (string, Option<string>))
    ensures r.1.None? <==> forall i | 0 <= i < |cands| :: !Hit(query(cands[i]))
    ensures r.1.None? ==> r.0 == ""
    ensures r.1.Some? ==> r.1.value in cands && Hit(query(r.1.value)) && query(r.1.value).value == Some(r.0)
  {
    if |cands| == 0 then ("", None)
    else if Hit(query(cands[0])) then (query(cands[0]).value.value, Some(cands[0]))
    else
      assert forall i | 1 <= i < |cands| :: cands[i] == cands[1..][i - 1];
      FirstText(cands[1..], query)
  }

  lemma {:induction false} FirstTextAt(cands: seq<string>, query: string -> Result<Option<string>>, i: nat)
    requires i < |cands| && Hit(query(cands[i]))
    requires forall j | 0 <= j < i :: !Hit(query(cands[j]))
    ensures FirstText(cands, query) == (query(cands[i]).value.value, Some(cands[i]))
  {
    if i > 0 {
      FirstTextAt(cands[1..], query, i - 1);
    }
  }

  /** `fetch_plu_regulation_for_zone`: creating the client raises when it is
      not configured; otherwise ("", None) unless the canonical code has a
      non-empty text, which comes back with that code. */
  function FetchForZone(clientOk: bool, query: string -> Result<Option<string>>, zone: string): (r: Result<(string, Option<string>)>)
    ensures r.Failure? <==> !clientOk
    ensures r.Success? && r.value.1.None? ==> r.value.0 == ""
    ensures r.Success? && r.value.1.Some? ==>
      r.value.1.value == CanonicalizeZone(Some(zone)) && r.value.1.value != ""
      && r.value.0 != "" && query(r.value.1.value) == Success(Some(r.value.0))
    ensures clientOk && CanonicalizeZone(Some(zone)) != "" && Hit(query(CanonicalizeZone(Some(zone)))) ==>
      r == Success((query(CanonicalizeZone(Some(zone))).value.value, Some(CanonicalizeZone(Some(zone)))))
  {
    if !clientOk then Failure("SUPABASE_URL and SUPABASE_KEY/SUPABASE_SERVICE_KEY are required.")
    else
      var cands := CandidateZones(Some(zone));
      if cands == [] then Success(("", None))
      else
        assert cands == [CanonicalizeZone(Some(zone))];
        Success(FirstText(cands, query))
  }

  /** One zone of `fetch_plu_regulations_for_zones`: a found text is kept
      under its effective code unless that code already holds one. */
  function AddFound(out: Assoc<string, string>, found: (string, Option<string>)): (r: Assoc<string, string>)
  {
    var (txt, effective) := found;
    if txt != "" && effective.Some? && effective.value != "" && effective.value !in Keys(out) then
      out + [(effective.value, txt)]
    else out
  }

  /** What a code holds after one zone: its old text, else the zone's text
      when the zone found one under that code. */
  lemma AddFoundLookup(out: Assoc<string, string>, found: (string, Option<string>), k: string)
    ensures Lookup(AddFound(out, found), k) ==
      if k in Keys(out) then Lookup(out, k)
      else if found.0 != "" && found.1 == Some(k) && k != "" then Some(found.0)
      else None
  {
    var r := AddFound(out, found);
    if r != out {
      PutNew(out, found.1.value, found.0);
      PutLookup(out, found.1.value, found.0, k);
    }
  }

  lemma AddFoundUnique(out: Assoc<string, string>, found: (string, Option<string>))
    requires UniqueKeys(out)
    ensures UniqueKeys(AddFound(out, found))
  {
    var r := AddFound(out, found);
    if r != out {
      PutNew(out, found.1.value, found.0);
      PutUnique(out, found.1.value, found.0);
    }
  }

  /** The zones' loop of `fetch_plu_regulations_for_zones` over any
      per-zone fetch: a fetch that raises ends the loop. */
  function CollectFound(zones: seq<string>, fetch: string -> Result<(string, Option<string>)>): (r: Result<Assoc<string, string>>)
    ensures r.Success? ==> UniqueKeys(r.value)
    ensures (forall i | 0 <= i < |zones| :: fetch(zones[i]).Success?) ==> r.Success?
    ensures |zones| > 0 && fetch(zones[|zones| - 1]).Failure? ==> r.Failure?
  {
    if |zones| == 0 then Success([])
    else
      var n := |zones| - 1;
      assert forall i | 0 <= i < n :: zones[..n][i] == zones[i];
      var out :- CollectFound(zones[..n], fetch);
      var found :- fetch(zones[n]);
      AddFoundUnique(out, found);
      Success(AddFound(out, found))
  }

  /** The zone's fetch succeeds with a non-empty text under the code `k`. */
  predicate Fetches(fetch: string -> Result<(string, Option<string>)>, zone: string, k: string) {
    fetch(zone).Success? && fetch(zone).value.1 == Some(k) && fetch(zone).value.0 != "" && k != ""
  }

  /** The codes collected are exactly the codes some zone fetched a text
      under. */
  lemma {:induction false} CollectFoundHas(zones: seq<string>, fetch: string -> Result<(string, Option<string>)>, k: string)
    requires CollectFound(zones, fetch).Success?
    ensures k in Keys(CollectFound(zones, fetch).value) <==>
      exists i | 0 <= i < |zones| :: Fetches(fetch, zones[i], k)
  {
    if |zones| > 0 {
      var n := |zones| - 1;
      var pre := zones[..n];
      assert forall i | 0 <= i < n :: pre[i] == zones[i];
      CollectFoundHas(pre, fetch, k);
      var out := CollectFound(pre, fetch).value;
      var f := fetch(zones[n]).value;
      AddFoundLookup(out, f, k);
      assert CollectFound(zones, fetch).value == AddFound(out, f);
      if k in Keys(out) {
        assert exists i | 0 <= i < |zones| :: Fetches(fetch, zones[i], k) by {
          var i :| 0 <= i < n && Fetches(fetch, pre[i], k);
          assert Fetches(fetch, zones[i], k);
        }
      } else if !Fetches(fetch, zones[n], k) {
        assert forall i | 0 <= i < |zones| :: !Fetches(fetch, zones[i], k) by {
          forall i | 0 <= i < |zones| ensures !Fetches(fetch, zones[i], k) {
            if i < n { assert pre[i] == zones[i]; }
          }
        }
      }
    }
  }

  /** A code holds the text of the first zone that fetched it. */
  lemma {:induction false} CollectFoundFirst(zones: seq<string>, fetch: string -> Result<(string, Option<string>)>, k: string, i: nat)
    requires CollectFound(zones, fetch).Success?
    requires i < |zones| && Fetches(fetch, zones[i], k)
    requires forall j | 0 <= j < i :: !Fetches(fetch, zones[j], k)
    ensures Lookup(CollectFound(zones, fetch).value, k) == Some(fetch(zones[i]).value.0)
  {
    var n := |zones| - 1;
    var pre := zones[..n];
    assert forall j | 0 <= j < n :: pre[j] == zones[j];
    var out := CollectFound(pre, fetch).value;
    var f := fetch(zones[n]).value;
    AddFoundLookup(out, f, k);
    assert CollectFound(zones, fetch).value == AddFound(out, f);
    if i == n {
      CollectFoundHas(pre, fetch, k);
    } else {
      CollectFoundFirst(pre, fetch, k, i);
    }
  }

  /** `fetch_plu_regulations_for_zones`: the client raises before the first
      zone when it is not configured; otherwise every zone is fetched. */
  function FetchForZones(clientOk: bool, query: string -> Result<Option<string>>, zones: seq<string>): (r: Result<Assoc<string, string>>)
    ensures r.Failure? <==> !clientOk && |zones| > 0
    ensures r.Success? ==> UniqueKeys(r.value)
  {
    CollectFound(zones, z => FetchForZone(clientOk, query, z))
  }

  /** Every code collected is the canonical form of one of the zones and
      holds the text the first zone with that canonical form found. */
  lemma FetchForZonesCodes(query: string -> Result<Option<string>>, zones: seq<string>, k: string)
    requires k in Keys(FetchForZones(true, query, zones).value)
    ensures Canonical(k) && k != ""
    ensures exists i | 0 <= i < |zones| :: k == CanonicalizeZone(Some(zones[i]))
  {
    var fetch := z => FetchForZone(true, query, z);
    CollectFoundHas(zones, fetch, k);
    var i :| 0 <= i < |zones| && Fetches(fetch, zones[i], k);
    assert k == CanonicalizeZone(Some(zones[i]));
  }

  // ------------------------------------------------------------- joining

  /** The codes in `sorted()` order. */
  function SortedCodes(m: Assoc<string, string>): (cs: seq<string>)
    ensures |cs| == |m|
    ensures multiset(cs) == multiset(Keys(m))
  {
    SortBy(Keys(m), LexLeFn())
  }

  /** One block: "Zone {code}", a blank line, the stripped text. */
  function Block(code: string, text: string): (b: string)
    ensures |b| > 0
  {
    "Zone " + code + "\n\n" + Strip(text)
  }

  /** `join_regulations_for_docx`: "" for no regulation, else one block per
      code in code order, separated by two blank lines; the percents are not
      used. */
  function JoinRegulations(m: Assoc<string, string>, pctByZone: Assoc<string, real>): (r: string)
    ensures r == "" <==> |m| == 0
  {
    if |m| == 0 then ""
    else
      var codes := SortedCodes(m);
      var blocks := seq(|codes|, i requires 0 <= i < |codes| => Block(codes[i], Lookup(m, codes[i]).GetOr("")));
      JoinSepHead(blocks, "\n\n\n");
      JoinSep(blocks, "\n\n\n")
  }

  /** For a regulation map, the blocks are the codes in strictly increasing
      order, each code once. */
  lemma SortedCodesOrder(m: Assoc<string, string>)
    requires UniqueKeys(m)
    ensures var cs := SortedCodes(m);
      (forall i, j | 0 <= i < j < |cs| :: LexLt(cs[i], cs[j])) && (forall k :: k in cs <==> k in Keys(m))
  {
    assert Distinct(Keys(m));
    SortStrings(Keys(m));
    assert SortedCodes(m) == SortBy(Keys(m), LexLeFn());
  }

  /** The document starts with the block of the least code: "Zone", that
      code, a blank line and its stripped text. */
  lemma JoinRegulationsFirst(m: Assoc<string, string>, pctByZone: Assoc<string, real>)
    requires UniqueKeys(m) && |m| > 0
    ensures exists k | k in Keys(m) ::
      (forall k' | k' in Keys(m) && k' != k :: LexLt(k, k'))
      && var b := Block(k, Lookup(m, k).GetOr(""));
      |JoinRegulations(m, pctByZone)| >= |b| && JoinRegulations(m, pctByZone)[..|b|] == b
  {
    SortedCodesOrder(m);
    var codes := SortedCodes(m);
    var blocks := seq(|codes|, i requires 0 <= i < |codes| => Block(codes[i], Lookup(m, codes[i]).GetOr("")));
    JoinSepHead(blocks, "\n\n\n");
    var k := codes[0];
    forall k' | k' in Keys(m) && k' != k
      ensures LexLt(k, k')
    {
      var j :| 0 <= j < |codes| && codes[j] == k';
      assert j != 0;
    }
  }
}

=== FILE: plu_context.dfy ===
/** The regulation context of a CU model: every PLU zone of the model is
    turned into the codes to try, the first code whose regulation text is
    usable (not empty, not an error or information message) is kept, and
    the kept texts are joined into one block per zone. */
module PluContext {
  import opened Wrappers
  import opened Text
  import opened Assoc
  import PluLegacy

  /** A zone of the model's PLU section. */
  datatype ZoneRec = ZoneRec(libelle: Option<string>, typezone: Option<string>)

  /** The code chosen for a zone: the zone type, else its label. */
  function ChosenCode(libelle: Option<string>, typezone: Option<string>): string {
    Upper(Strip(Or(typezone, Or(libelle, ""))))
  }

  /** `infer_zone_codes`: nothing for a blank code, the whole "AU" family for
      a code starting with "AU", the code alone otherwise. */
  function InferZoneCodes(libelle: Option<string>, typezone: Option<string>): (r: seq<string>)
    ensures r == [] <==> ChosenCode(libelle, typezone) == ""
    ensures StartsWith(ChosenCode(libelle, typezone), PluLegacy.Au) ==> r == PluLegacy.AuFamily
    ensures ChosenCode(libelle, typezone) != "" && !StartsWith(ChosenCode(libelle, typezone), PluLegacy.Au) ==>
      r == [ChosenCode(libelle, typezone)]
  {
    var z := ChosenCode(libelle, typezone);
    if z == "" then []
    else if StartsWith(z, PluLegacy.Au) then PluLegacy.AuFamily
    else [z]
  }

  /** Outside numbered "nAU" codes, the inferred codes are exactly the
      candidates the fetcher itself would try for the chosen code. */
  lemma InferZoneCodesAsCandidates(libelle: Option<string>, typezone: Option<string>)
    requires !PluLegacy.NumberedAu(ChosenCode(libelle, typezone))
    ensures InferZoneCodes(libelle, typezone) == PluLegacy.CandForZone(Some(ChosenCode(libelle, typezone)))
  {
    var z := ChosenCode(libelle, typezone);
    PluLegacy.CleanZoneIdempotent(Some(Or(typezone, Or(libelle, ""))));
    assert PluLegacy.CleanZone(Some(z)) == z;
  }

  /** The codes tried for one zone of the model: both fields are stripped
      before the choice. */
  function ZoneCodes(z: ZoneRec): seq<string> {
    InferZoneCodes(Some(Strip(Or(z.libelle, ""))), Some(Strip(Or(z.typezone, ""))))
  }

  /** A text worth keeping: not empty, not an error, not a notice. */
  predicate Usable(txt: string) {
    txt != "" && !StartsWith(txt, PluLegacy.ErrMark) && !StartsWith(txt, PluLegacy.InfoMark)
  }

  predicate AllUsable(m: Assoc<string, string>) {
    forall e | e in m :: Usable(e.1)
  }

  /** The first code whose fetched text is usable; a fetch that raises ends
      the whole computation. */
  function FirstUsable(codes: seq<string>, fetch: string -> Result<string>): (r: Result<Option<(string, string)>>)
    ensures r.Success? && r.value.Some? ==>
      r.value.value.0 in codes && fetch(r.value.value.0) == Success(r.value.value.1) && Usable(r.value.value.1)
    ensures r == Success(None) <==>
      forall i | 0 <= i < |codes| :: fetch(codes[i]).Success? && !Usable(fetch(codes[i]).value)
  {
    if |codes| == 0 then Success(None)
    else
      assert forall i | 1 <= i < |codes| :: codes[i] == codes[1..][i - 1];
      match fetch(codes[0])
      case Failure(e) => Failure(e)
      case Success(txt) =>
        if Usable(txt) then Success(Some((codes[0], txt))) else FirstUsable(codes[1..], fetch)
  }

  /** The kept code is the first one whose text is usable. */
  lemma {:induction false} FirstUsableAt(codes: seq<string>, fetch: string -> Result<string>, i: nat)
    requires i < |codes| && fetch(codes[i]).Success? && Usable(fetch(codes[i]).value)
    requires forall j | 0 <= j < i :: fetch(codes[j]).Success? && !Usable(fetch(codes[j]).value)
    ensures FirstUsable(codes, fetch) == Success(Some((codes[i], fetch(codes[i]).value)))
  {
    if i > 0 {
      FirstUsableAt(codes[1..], fetch, i - 1);
    }
  }

  /** The fold of `get_regulation_for_cumodel_zones` over the code lists of
      the zones, in order: each list binds its first usable code to the
      text, and a later list overwrites an earlier one with the same code. */
  function Collect(lists: seq<seq<string>>, fetch: string -> Result<string>): (r: Result<Assoc<string, string>>)
    ensures r.Success? ==> UniqueKeys(r.value) && AllUsable(r.value) && |r.value| <= |lists|
    decreases |lists|
  {
    if |lists| == 0 then Success([])
    else
      match Collect(lists[..|lists| - 1], fetch)
      case Failure(e) => Failure(e)
      case Success(out) =>
        match FirstUsable(lists[|lists| - 1], fetch)
        case Failure(e) => Failure(e)
        case Success(None) => Success(out)
        case Success(Some(hit)) =>
          PutUnique(out, hit.0, hit.1);
          PutEntries(out, hit.0, hit.1);
          Success(Put(out, hit.0, hit.1))
  }

  /** Every kept code comes from one of the lists. */
  lemma {:induction false} CollectKeys(lists: seq<seq<string>>, fetch: string -> Result<string>, k: string)
    requires Collect(lists, fetch).Success? && k in Keys(Collect(lists, fetch).value)
    ensures exists i | 0 <= i < |lists| :: k in lists[i]
    decreases |lists|
  {
    var init := lists[..|lists| - 1];
    var out := Collect(init, fetch).value;
    var hit := FirstUsable(lists[|lists| - 1], fetch);
    if hit.value.Some? && k == hit.value.value.0 {
      assert k in lists[|lists| - 1];
    } else {
      assert k in Keys(out);
      CollectKeys(init, fetch, k);
      var i :| 0 <= i < |init| && k in init[i];
      assert init[i] == lists[i];
    }
  }

  /** `codes` gives a usable text under `k`. */
  predicate Hits(codes: seq<string>, fetch: string -> Result<string>, k: string) {
    var h := FirstUsable(codes, fetch);
    h.Success? && h.value.Some? && h.value.value.0 == k
  }

  /** One step of the fold: the last list's hit, if any, is put into what
      the earlier lists collected. */
  lemma CollectStep(lists: seq<seq<string>>, fetch: string -> Result<string>)
    requires |lists| > 0 && Collect(lists, fetch).Success?
    ensures var pre := Collect(lists[..|lists| - 1], fetch);
      var h := FirstUsable(lists[|lists| - 1], fetch);
      pre.Success? && h.Success? &&
      Collect(lists, fetch).value == if h.value.Some? then Put(pre.value, h.value.value.0, h.value.value.1) else pre.value
  {
  }

  /** After one step, a code is kept when the last list hits it or it was
      kept before. */
  lemma CollectKeysStep(lists: seq<seq<string>>, fetch: string -> Result<string>, k: string)
    requires |lists| > 0 && Collect(lists, fetch).Success?
    ensures Collect(lists[..|lists| - 1], fetch).Success?
    ensures k in Keys(Collect(lists, fetch).value) <==>
      Hits(lists[|lists| - 1], fetch, k) || k in Keys(Collect(lists[..|lists| - 1], fetch).value)
  {
    CollectStep(lists, fetch);
  }

  /** Some list hits `k` iff the last one does or an earlier one does. */
  lemma SomeHitSnoc(lists: seq<seq<string>>, pre: seq<seq<string>>, fetch: string -> Result<string>, k: string)
    requires |lists| > 0 && pre == lists[..|lists| - 1]
    ensures (exists i | 0 <= i < |lists| :: Hits(lists[i], fetch, k)) <==>
      Hits(lists[|lists| - 1], fetch, k) || exists i | 0 <= i < |pre| :: Hits(pre[i], fetch, k)
  {
    assert forall i | 0 <= i < |pre| :: pre[i] == lists[i];
  }

  /** The kept codes are exactly the first usable codes of the lists. */
  lemma {:induction false} CollectHas(lists: seq<seq<string>>, fetch: string -> Result<string>, k: string)
    requires Collect(lists, fetch).Success?
    ensures k in Keys(Collect(lists, fetch).value) <==> exists i | 0 <= i < |lists| :: Hits(lists[i], fetch, k)
    decreases |lists|
  {
    if |lists| > 0 {
      CollectKeysStep(lists, fetch, k);
      CollectHas(lists[..|lists| - 1], fetch, k);
      SomeHitSnoc(lists, lists[..|lists| - 1], fetch, k);
    }
  }

  /** The last list with a usable text has the last word on its code. */
  lemma CollectLast(lists: seq<seq<string>>, fetch: string -> Result<string>)
    requires |lists| > 0 && Collect(lists, fetch).Success?
    requires FirstUsable(lists[|lists| - 1], fetch).Success? && FirstUsable(lists[|lists| - 1], fetch).value.Some?
    ensures var hit := FirstUsable(lists[|lists| - 1], fetch).value.value;
      Lookup(Collect(lists, fetch).value, hit.0) == Some(hit.1)
  {
    var out := Collect(lists[..|lists| - 1], fetch).value;
    var hit := FirstUsable(lists[|lists| - 1], fetch).value.value;
    PutLookup(out, hit.0, hit.1, hit.0);
  }

  /** When no fetch ever gives a usable text, nothing is kept. */
  lemma {:induction false} CollectNothingUsable(lists: seq<seq<string>>, fetch: string -> Result<string>)
    requires forall c :: fetch(c).Success? && !Usable(fetch(c).value)
    ensures Collect(lists, fetch) == Success([])
    decreases |lists|
  {
    if |lists| > 0 {
      CollectNothingUsable(lists[..|lists| - 1], fetch);
      var codes := lists[|lists| - 1];
      assert forall i | 0 <= i < |codes| :: fetch(codes[i]).Success? && !Usable(fetch(codes[i]).value);
    }
  }

  function CodeLists(zones: seq<ZoneRec>): (r: seq<seq<string>>)
    ensures |r| == |zones|
    ensures forall i | 0 <= i < |zones| :: r[i] == ZoneCodes(zones[i])
  {
    seq(|zones|, i requires 0 <= i < |zones| => ZoneCodes(zones[i]))
  }

  /** `get_regulation_for_cumodel_zones`. */
  function Regulations(zones: seq<ZoneRec>, fetch: string -> Result<string>): (r: Result<Assoc<string, string>>)
    ensures r.Success? ==> UniqueKeys(r.value) && AllUsable(r.value) && |r.value| <= |zones|
  {
    Collect(CodeLists(zones), fetch)
  }

  /** Every kept code was inferred from some zone of the model. */
  lemma RegulationsKeys(zones: seq<ZoneRec>, fetch: string -> Result<string>, k: string)
    requires Regulations(zones, fetch).Success? && k in Keys(Regulations(zones, fetch).value)
    ensures exists i | 0 <= i < |zones| :: k in ZoneCodes(zones[i])
  {
    CollectKeys(CodeLists(zones), fetch, k);
  }

  /** A code is kept exactly when it is the first usable code of some
      zone's list. */
  lemma RegulationsHas(zones: seq<ZoneRec>, fetch: string -> Result<string>, k: string)
    requires Regulations(zones, fetch).Success?
    ensures k in Keys(Regulations(zones, fetch).value) <==> exists i | 0 <= i < |zones| :: Hits(ZoneCodes(zones[i]), fetch, k)
  {
    var lists := CodeLists(zones);
    CollectHas(lists, fetch, k);
    assert Regulations(zones, fetch) == Collect(lists, fetch);
    forall i | 0 <= i < |zones| ensures Hits(ZoneCodes(zones[i]), fetch, k) == Hits(lists[i], fetch, k) {
    }
  }

  /** The last zone with a usable text has the last word on its code. */
  lemma RegulationsLast(zones: seq<ZoneRec>, fetch: string -> Result<string>)
    requires |zones| > 0 && Regulations(zones, fetch).Success?
    requires FirstUsable(ZoneCodes(zones[|zones| - 1]), fetch).Success?
    requires FirstUsable(ZoneCodes(zones[|zones| - 1]), fetch).value.Some?
    ensures var hit := FirstUsable(ZoneCodes(zones[|zones| - 1]), fetch).value.value;
      Lookup(Regulations(zones, fetch).value, hit.0) == Some(hit.1)
  {
    CollectLast(CodeLists(zones), fetch);
  }

  /** The regulations of a model fetched with the legacy fetcher. */
  function RegulationsFor(env: PluLegacy.Env, query: string -> PluLegacy.Answer, zones: seq<ZoneRec>): Result<Assoc<string, string>> {
    Regulations(zones, code => PluLegacy.FetchPluRegulation(env, query, code))
  }

  /** Without a configured table, every fetch is an error text, so the
      context holds no regulation at all. */
  lemma RegulationsForUnconfigured(env: PluLegacy.Env, query: string -> PluLegacy.Answer, zones: seq<ZoneRec>)
    requires !env.configured
    ensures RegulationsFor(env, query, zones) == Success([])
  {
    var fetch := code => PluLegacy.FetchPluRegulation(env, query, code);
    assert forall c :: fetch(c).Success? && StartsWith(fetch(c).value, PluLegacy.ErrMark);
    CollectNothingUsable(CodeLists(zones), fetch);
  }

  // ---------------------------------------------------------------- join

  /** `=== code ===`, with the share of the zone written into it when one
      is known; `fmt1` is Python's one-decimal formatting. */
  function Header(code: string, pct: Option<real>, fmt1: real -> string): string {
    "=== " + code + (if pct.Some? then " (" + fmt1(pct.value) + " %)" else "") + " ==="
  }

  function Section(code: string, txt: string, pct: Option<real>, fmt1: real -> string): (s: string)
    ensures StartsWith(s, Header(code, pct, fmt1) + "\n")
  {
    StartsWithConcat(Header(code, pct, fmt1) + "\n", Strip(txt));
    Header(code, pct, fmt1) + "\n" + Strip(txt)
  }

  function Sections(m: Assoc<string, string>, pct: Assoc<string, real>, fmt1: real -> string): (ps: seq<string>)
    ensures |ps| == |m|
    ensures forall i | 0 <= i < |m| :: ps[i] == Section(m[i].0, m[i].1, Lookup(pct, m[i].0), fmt1)
  {
    seq(|m|, i requires 0 <= i < |m| => Section(m[i].0, m[i].1, Lookup(pct, m[i].0), fmt1))
  }

  /** `join_regulations_for_docx` of the context: one section per zone, in
      the order of the mapping, separated by a blank line. */
  function JoinRegulationsLegacy(m: Assoc<string, string>, pct: Assoc<string, real>, fmt1: real -> string): (r: string)
    ensures r == "" <==> |m| == 0
  {
    var ps := Sections(m, pct, fmt1);
    if |ps| == 0 then ""
    else
      JoinSepHead(ps, "\n\n");
      JoinSep(ps, "\n\n")
  }

  /** The joined text is the first zone's section, then, after a blank
      line, the joined text of the remaining zones, in mapping order. */
  lemma JoinRegulationsLegacyCons(m: Assoc<string, string>, pct: Assoc<string, real>, fmt1: real -> string)
    ensures |m| == 1 ==> JoinRegulationsLegacy(m, pct, fmt1) == Section(m[0].0, m[0].1, Lookup(pct, m[0].0), fmt1)
    ensures |m| >= 2 ==>
      JoinRegulationsLegacy(m, pct, fmt1) ==
        Section(m[0].0, m[0].1, Lookup(pct, m[0].0), fmt1) + "\n\n" + JoinRegulationsLegacy(m[1..], pct, fmt1)
  {
    if |m| >= 2 {
      var ps := Sections(m, pct, fmt1);
      assert ps[1..] == Sections(m[1..], pct, fmt1);
      JoinSepCons(ps, "\n\n");
    }
  }

  /** The joined text opens with the header of the first zone. */
  lemma JoinRegulationsLegacyFirst(m: Assoc<string, string>, pct: Assoc<string, real>, fmt1: real -> string)
    requires |m| > 0
    ensures StartsWith(JoinRegulationsLegacy(m, pct, fmt1), Header(m[0].0, Lookup(pct, m[0].0), fmt1) + "\n")
  {
    var ps := Sections(m, pct, fmt1);
    var h := Header(m[0].0, Lookup(pct, m[0].0), fmt1) + "\n";
    JoinSepHead(ps, "\n\n");
    var r := JoinSep(ps, "\n\n");
    assert r[..|ps[0]|] == ps[0];
    assert ps[0][..|h|] == h;
    assert r[..|h|] == ps[0][..|h|];
  }
}

=== FILE: plu_legacy.dfy ===
/** The older PLU regulation fetcher: a zone code expands to a short list
    of candidate codes (the "AU" family maps onto 1AU/AU/2AU/3AU), the
    article chunks of the first candidate that has any are assembled into
    one text, and every failure is reported as a text starting with a
    cross or an information mark. The table is an oracle. */
module PluLegacy {
  import opened Wrappers
  import opened Text

  /** The marks that open an error text and an information text. */
  const ErrMark: string := "\U{274C}"
  const InfoMark: string := "\U{2139}\U{FE0F}"

  const Au: string := "AU"

  /** The whole "AU" family, in the order it is tried. */
  const AuFamily: seq<string> := ["1AU", "AU", "2AU", "3AU"]

  /** `(z or "").strip().upper()`. */
  function CleanZone(z: Option<string>): string {
    Upper(Strip(z.GetOr("")))
  }

  /** `re.match(r"^(\d+)AU$", z)`: digits, then "AU", nothing after. */
  predicate NumberedAu(z: string) {
    |z| > 2 && z[|z| - 2..] == Au && IsDigits(z[..|z| - 2])
  }

  /** `_cand_for_zone`: nothing for a blank code; the whole family for a code
      starting with "AU"; "nAU" first, then "AU", then (except after 1AU)
      "1AU" for a numbered code; the cleaned code alone otherwise. */
  function CandForZone(z: Option<string>): (r: seq<string>)
    ensures r == [] <==> CleanZone(z) == ""
    ensures StartsWith(CleanZone(z), Au) ==> r == AuFamily
    ensures CleanZone(z) != "" && !StartsWith(CleanZone(z), Au) ==> r[0] == CleanZone(z)
    ensures NumberedAu(CleanZone(z)) ==> |r| >= 2 && r[1] == Au
    ensures NumberedAu(CleanZone(z)) ==>
      r == if CleanZone(z) == "1AU" then [CleanZone(z), Au] else [CleanZone(z), Au, "1AU"]
    ensures !StartsWith(CleanZone(z), Au) && !NumberedAu(CleanZone(z)) && CleanZone(z) != "" ==> r == [CleanZone(z)]
    ensures |r| <= 4
  {
    var u := CleanZone(z);
    if u == "" then []
    else if StartsWith(u, Au) then AuFamily
    else if NumberedAu(u) then
      var n := u[..|u| - 2];
      assert u == n + Au;
      if n == "1" then [u, Au]
      else if n == "2" then [u, Au, "1AU"]
      else [u, Au, "1AU"]
    else [u]
  }

  lemma UpperCharNotSpace(c: char)
    ensures IsSpace(UpperChar(c)) <==> IsSpace(c)
  {
    UpperCharFacts(c);
  }

  /** Cleaning is idempotent, so a cleaned code has the same candidates. */
  lemma CleanZoneIdempotent(z: Option<string>)
    ensures CleanZone(Some(CleanZone(z))) == CleanZone(z)
  {
    var s := Strip(z.GetOr(""));
    var u := Upper(s);
    if |u| > 0 {
      UpperCharNotSpace(s[0]);
      UpperCharNotSpace(s[|s| - 1]);
    }
    StripNoSpace(u);
    UpperIdempotent(s);
  }

  lemma CandForZoneClean(z: Option<string>)
    ensures CandForZone(Some(CleanZone(z))) == CandForZone(z)
  {
    CleanZoneIdempotent(z);
  }

  // ------------------------------------------------------------ articles

  /** One chunk row: its article title and content. */
  datatype ArticleRow = ArticleRow(title: Option<string>, content: Option<string>)

  /** What the table query gives for one candidate. */
  datatype Answer = Rows(rows: seq<ArticleRow>) | TypeErr(msg: string) | OtherErr(msg: string)

  /** One article: "=== title ===\ncontent", the title line alone, the
      content alone, or nothing when both are blank. */
  function ArticlePart(row: ArticleRow): (r: Option<string>)
    ensures r.None? <==> Strip(row.title.GetOr("")) == "" && Strip(row.content.GetOr("")) == ""
    ensures r.Some? ==> r.value != ""
  {
    var t := Strip(row.title.GetOr(""));
    var c := Strip(row.content.GetOr(""));
    if t != "" && c != "" then Some("=== " + t + " ===\n" + c)
    else if t != "" then Some("=== " + t + " ===")
    else if c != "" then Some(c)
    else None
  }

  /** The non-blank articles, in row order. */
  function Parts(rows: seq<ArticleRow>): (ps: seq<string>)
    ensures |ps| <= |rows|
    ensures forall i | 0 <= i < |ps| :: ps[i] != ""
    ensures (forall i | 0 <= i < |rows| :: ArticlePart(rows[i]).None?) <==> ps == []
  {
    if |rows| == 0 then []
    else
      var head := ArticlePart(rows[0]);
      var rest := Parts(rows[1..]);
      assert forall i | 1 <= i < |rows| :: rows[i] == rows[1..][i - 1];
      (if head.Some? then [head.value] else []) + rest
  }

  /** The assembled regulation: the articles separated by blank lines. */
  function Assemble(rows: seq<ArticleRow>): string {
    JoinSep(Parts(rows), "\n\n")
  }

  /** The outcome of the candidate loop. */
  datatype Outcome = Text(text: string) | Stop(message: string) | NoneFound

  /** The candidate loop: a query error stops with an error text, the first
      candidate with rows gives its assembled articles, a candidate without
      rows moves on. */
  function CandLoop(cands: seq<string>, query: string -> Answer): (r: Outcome)
    ensures r.Stop? ==> StartsWith(r.message, ErrMark)
    ensures r.NoneFound? <==> forall i | 0 <= i < |cands| :: query(cands[i]) == Rows([])
  {
    if |cands| == 0 then NoneFound
    else
      assert forall i | 1 <= i < |cands| :: cands[i] == cands[1..][i - 1];
      match query(cands[0])
      case TypeErr(msg) =>
        StartsWithConcat(ErrMark, " Erreur client Supabase (version API?): " + msg);
        Stop(ErrMark + " Erreur client Supabase (version API?): " + msg)
      case OtherErr(msg) =>
        StartsWithConcat(ErrMark, " Erreur lors de la r\U{00E9}cup\U{00E9}ration: " + msg);
        Stop(ErrMark + " Erreur lors de la r\U{00E9}cup\U{00E9}ration: " + msg)
      case Rows(rows) =>
        if |rows| > 0 then Text(Assemble(rows)) else CandLoop(cands[1..], query)
  }

  /** The loop stops at the first candidate whose query does not come back
      empty. */
  lemma {:induction false} CandLoopAt(cands: seq<string>, query: string -> Answer, i: nat)
    requires i < |cands| && query(cands[i]) != Rows([])
    requires forall j | 0 <= j < i :: query(cands[j]) == Rows([])
    ensures query(cands[i]).Rows? ==> CandLoop(cands, query) == Text(Assemble(query(cands[i]).rows))
    ensures !query(cands[i]).Rows? ==> CandLoop(cands, query).Stop?
  {
    if i > 0 {
      CandLoopAt(cands[1..], query, i - 1);
    }
  }

  // ------------------------------------------------- Python's str repr

  function HexDigit(n: int): char
    requires 0 <= n < 16
  {
    "0123456789abcdef"[n]
  }

  function HexVal(c: char): Option<int> {
    if '0' <= c <= '9' then Some(c as int - '0' as int)
    else if 'a' <= c <= 'f' then Some(c as int - 'a' as int + 10)
    else None
  }

  /** The Latin-1 characters `repr` writes as `\xhh`: the C0 and C1
      controls, DEL, the no-break space and the soft hyphen (tab, newline
      and carriage return have their own escapes). */
  predicate ByteEscaped(c: char) {
    c as int < 0x20 || (0x7F <= c as int <= 0xA0) || c as int == 0xAD
  }

  /** One character inside a literal quoted with `q`. */
  function EscChar(c: char, q: char): (r: string)
    ensures |r| >= 1
  {
    if c == q || c == '\\' then ['\\', c]
    else if c == '\t' then "\\t"
    else if c == '\n' then "\\n"
    else if c == '\r' then "\\r"
    else if ByteEscaped(c) then ['\\', 'x', HexDigit(c as int / 16), HexDigit(c as int % 16)]
    else [c]
  }

  function EscBody(s: string, q: char): (r: string)
    ensures |r| >= |s|
  {
    if |s| == 0 then "" else EscChar(s[0], q) + EscBody(s[1..], q)
  }

  /** Single quotes, unless the text holds a single quote and no double
      quote. */
  function QuoteFor(s: string): (q: char)
    ensures q == '"' <==> '\'' in s && '"' !in s
    ensures q == '\'' || q == '"'
  {
    if '\'' in s && '"' !in s then '"' else '\''
  }

  /** `repr(s)` of a Python `str`. */
  function PyRepr(s: string): (r: string)
    ensures |r| >= |s| + 2
    ensures r[0] == QuoteFor(s) && r[|r| - 1] == QuoteFor(s)
    ensures Unescape(r[1..|r| - 1]) == Some(s)
  {
    var q := QuoteFor(s);
    var body := EscBody(s, q);
    EscBodyRoundTrip(s, q);
    assert ([q] + body + [q])[1..|body| + 1] == body;
    [q] + body + [q]
  }

  /** Reading the escapes of a literal's body back. */
  function Unescape(t: string): (r: Option<string>)
    decreases |t|
  {
    if |t| == 0 then Some("")
    else if t[0] != '\\' then
      var rest :- Unescape(t[1..]);
      Some([t[0]] + rest)
    else if |t| < 2 then None
    else if t[1] == 'x' then
      if |t| < 4 || HexVal(t[2]).None? || HexVal(t[3]).None? then None
      else
        var rest :- Unescape(t[4..]);
        Some([(HexVal(t[2]).value * 16 + HexVal(t[3]).value) as char] + rest)
    else
      var c := if t[1] == 't' then Some('\t') else if t[1] == 'n' then Some('\n') else if t[1] == 'r' then Some('\r')
        else if t[1] == '\\' || t[1] == '\'' || t[1] == '"' then Some(t[1]) else None;
      if c.None? then None
      else
        var rest :- Unescape(t[2..]);
        Some([c.value] + rest)
  }

  lemma HexRoundTrip(n: int)
    requires 0 <= n < 16
    ensures HexVal(HexDigit(n)) == Some(n)
  {
  }

  /** Each escape reads back as its character. */
  lemma UnescapeEscChar(c: char, q: char, rest: string)
    requires q == '\'' || q == '"'
    ensures Unescape(EscChar(c, q) + rest) ==
      if Unescape(rest).Some? then Some([c] + Unescape(rest).value) else None
  {
    var t := EscChar(c, q) + rest;
    if c == q || c == '\\' || c == '\t' || c == '\n' || c == '\r' {
      assert t[2..] == rest;
    } else if ByteEscaped(c) {
      var hi, lo := c as int / 16, c as int % 16;
      HexRoundTrip(hi);
      HexRoundTrip(lo);
      assert t[4..] == rest;
      assert (hi * 16 + lo) as char == c;
    } else {
      assert t[1..] == rest;
    }
  }

  /** The body of a literal reads back as the text it was written from. */
  lemma {:induction false} EscBodyRoundTrip(s: string, q: char)
    requires q == '\'' || q == '"'
    ensures Unescape(EscBody(s, q)) == Some(s)
  {
    if |s| > 0 {
      EscBodyRoundTrip(s[1..], q);
      UnescapeEscChar(s[0], q, EscBody(s[1..], q));
      assert [s[0]] + s[1..] == s;
    }
  }

  /** `repr` of the candidate list in the not-found message: the items'
      `repr`s, comma-separated, in brackets. */
  function Repr(cands: seq<string>): (r: string)
    ensures |cands| == 1 ==> r == "[" + PyRepr(cands[0]) + "]"
    ensures |cands| == 0 ==> r == "[]"
  {
    "[" + JoinSep(seq(|cands|, i requires 0 <= i < |cands| => PyRepr(cands[i])), ", ") + "]"
  }

  /** A quote in the zone code switches the literal to double quotes: zone
      U'A is listed as `["U'A"]`. */
  lemma ReprQuotedCode(a: char, b: char)
    requires 'A' <= a <= 'Z' && 'A' <= b <= 'Z'
    ensures Repr([[a, '\'', b]]) == "[\"" + [a, '\'', b] + "\"]"
  {
    var quoted := [a, '\'', b];
    assert quoted[1] == '\'';
    assert QuoteFor(quoted) == '"';
    ReprOne(quoted, '"');
  }

  /** A plain code keeps single quotes: zone UA is listed as `['UA']`. */
  lemma ReprPlainCode(a: char, b: char)
    requires 'A' <= a <= 'Z' && 'A' <= b <= 'Z'
    ensures Repr([[a, b]]) == "['" + [a, b] + "']"
  {
    var plain := [a, b];
    assert QuoteFor(plain) == '\'';
    ReprOne(plain, '\'');
  }

  /** The repr of a one-code list whose code needs no escape. */
  lemma ReprOne(s: string, q: char)
    requires q == QuoteFor(s)
    requires forall i | 0 <= i < |s| :: s[i] != '\\' && s[i] != q && ' ' <= s[i] <= '~'
    ensures Repr([s]) == "[" + [q] + s + [q] + "]"
  {
    EscBodyPlain(s, q);
    assert [s][0] == s;
  }

  /** A text that needs no escape is written between its quotes as is. */
  lemma {:induction false} EscBodyPlain(s: string, q: char)
    requires forall i | 0 <= i < |s| :: s[i] != q && s[i] != '\\' && ' ' <= s[i] <= '~'
    ensures EscBody(s, q) == s
  {
    if |s| > 0 {
      EscBodyPlain(s[1..], q);
      assert [s[0]] + s[1..] == s;
    }
  }

  /** The deployment: configured credentials, an installed client library,
      and a client constructor that does not raise. */
  datatype Env = Env(configured: bool, installed: bool, connects: bool)

  /** `fetch_plu_regulation`: a missing configuration or library gives an
      error text, a client that fails to connect raises, a blank code gives
      an information text, and otherwise the candidate loop decides. */
  function FetchPluRegulation(env: Env, query: string -> Answer, zone: string): (r: Result<string>)
    ensures r.Failure? <==> env.configured && env.installed && !env.connects
    ensures !env.configured || !env.installed ==> r.Success? && StartsWith(r.value, ErrMark)
    ensures env.configured && env.installed && env.connects && CandForZone(Some(zone)) == [] ==>
      r.Success? && StartsWith(r.value, InfoMark)
    ensures env.configured && env.installed && env.connects && CandForZone(Some(zone)) != [] ==>
      match CandLoop(CandForZone(Some(zone)), query)
      case Text(t) => r == Success(t)
      case Stop(m) => r == Success(m)
      case NoneFound => r.Success? && StartsWith(r.value, InfoMark)
  {
    if !env.configured then
      StartsWithConcat(ErrMark, " Erreur: SUPABASE_URL et SUPABASE_KEY/SUPABASE_SERVICE_KEY requis dans .env");
      Success(ErrMark + " Erreur: SUPABASE_URL et SUPABASE_KEY/SUPABASE_SERVICE_KEY requis dans .env")
    else if !env.installed then
      StartsWithConcat(ErrMark, " Erreur: Module 'supabase' non install\U{00E9}. Installer avec: pip install supabase");
      Success(ErrMark + " Erreur: Module 'supabase' non install\U{00E9}. Installer avec: pip install supabase")
    else if !env.connects then Failure("create_client")
    else
      var cands := CandForZone(Some(zone));
      if cands == [] then
        StartsWithConcat(InfoMark, " Code de zone vide");
        Success(InfoMark + " Code de zone vide")
      else
        match CandLoop(cands, query)
        case Text(t) => Success(t)
        case Stop(m) => Success(m)
        case NoneFound =>
          var msg := " Aucun article trouv\U{00E9} pour " + zone + " (candidats test\U{00E9}s: " + Repr(cands) + ")";
          StartsWithConcat(InfoMark, msg);
          Success(InfoMark + msg)
  }
}

=== FILE: report_json.dfy ===
/** The text report's pre-processing of the intersection payload: rounding
    to one decimal, per-layer surface totals, the parcel area estimate,
    truncation of long value lists and of long surface lists, and the
    lookup of a layer by table name. */
module ReportJson {
  import opened Wrappers
  import opened Assoc
  import opened Sorting
  import opened Seqs

  /** A JSON scalar as the report reads it: a number, null (or a missing
      key), or a text. */
  datatype Num = NumV(v: real) | NoneV | TextV(s: string)

  /** One row of a layer's `surfaces`. */
  datatype Surface = Surface(id: Option<string>, area: Num, pctOfParcel: Num)

  /** One entry of a layer's `values`: a list of distinct values, or a
      value of any other kind, which is left alone. */
  datatype Attr = AList(items: seq<string>) | AOther(raw: string)

  /** The `surface_totals` record added to each layer. */
  datatype Totals = Totals(interTotal: Option<real>, pctTotal: Option<real>)

  datatype Layer = Layer(
    table: Option<string>, surfaces: Option<seq<Surface>>, parcelArea: Option<real>,
    values: Assoc<string, Attr>, totals: Option<Totals>)

  datatype Report = Report(results: seq<Layer>)

  /** The payload's `context`; `areaEst` is None when the key is absent. */
  datatype Context = Context(areaEst: Option<Num>)

  datatype Payload = Payload(reports: seq<Report>, context: Option<Context>)

  const Ellipsis := "…"

  /** The row closing a truncated surface list. */
  const Sentinel := Surface(Some(Ellipsis), NoneV, NoneV)

  const DefaultMaxValues: nat := 8
  const DefaultMaxSurfaces: nat := 60

  // ------------------------------------------------------------ _round1

  /** Python's `round` to an integer: the nearest one, ties to even. */
  function RoundHalfEven(y: real): (r: int)
    ensures -0.5 <= r as real - y <= 0.5
    ensures (r as real - y == 0.5 || r as real - y == -0.5) ==> r % 2 == 0
  {
    var f := y.Floor;
    var d := y - f as real;
    if d < 0.5 then f
    else if d > 0.5 then f + 1
    else if f % 2 == 0 then f else f + 1
  }

  /** `round(v, 1)` on an exact decimal. */
  function RoundTenth(v: real): (r: real)
    ensures -0.05 <= r - v <= 0.05
    ensures (r * 10.0).Floor as real == r * 10.0
  {
    RoundHalfEven(v * 10.0) as real / 10.0
  }

  /** `x or 0`: the falsy values (null, 0, "") become 0. */
  predicate Falsy(x: Num) {
    x.NoneV? || x == NumV(0.0) || x == TextV("")
  }

  /** `_round1`: `float(x or 0)` rounded to one decimal; a text is
      converted by `parse` (Python's `float`), and only a failed
      conversion gives None. */
  function Round1(x: Num, parse: string -> Option<real>): (r: Option<real>)
    ensures Falsy(x) ==> r == Some(0.0)
    ensures r.None? <==> !Falsy(x) && x.TextV? && parse(x.s).None?
    ensures x.NumV? ==> r.Some? && -0.05 <= r.value - x.v <= 0.05
    ensures r.Some? ==> (r.value * 10.0).Floor as real == r.value * 10.0
  {
    if Falsy(x) then Some(0.0)
    else match x
      case NumV(v) => Some(RoundTenth(v))
      case TextV(s) => (match parse(s) case Some(v) => Some(RoundTenth(v)) case None => None)
      case NoneV => Some(0.0)
  }

  lemma RoundHalfEvenWhole(k: int)
    ensures RoundHalfEven(k as real) == k
  {
    assert (k as real).Floor == k;
  }

  /** Rounding a rounded value changes nothing. */
  lemma Round1Idempotent(x: Num, parse: string -> Option<real>)
    requires Round1(x, parse).Some?
    ensures Round1(NumV(Round1(x, parse).value), parse) == Round1(x, parse)
  {
    var r := Round1(x, parse).value;
    var k := (r * 10.0).Floor;
    assert r * 10.0 == k as real;
    RoundHalfEvenWhole(k);
    if r != 0.0 {
      assert RoundTenth(r) == k as real / 10.0;
    }
  }

  // ------------------------------------------------------------ _add_surface_totals

  predicate IsNumeric(s: Surface) {
    s.area.NumV?
  }

  /** The sum of the numeric areas of the rows. */
  function AreaSum(surfs: seq<Surface>): real {
    if |surfs| == 0 then 0.0
    else (if IsNumeric(surfs[0]) then surfs[0].area.v else 0.0) + AreaSum(surfs[1..])
  }

  lemma {:induction false} AreaSumConcat(a: seq<Surface>, b: seq<Surface>)
    ensures AreaSum(a + b) == AreaSum(a) + AreaSum(b)
  {
    if |a| > 0 {
      assert (a + b)[1..] == a[1..] + b;
      AreaSumConcat(a[1..], b);
    } else {
      assert a + b == b;
    }
  }

  /** Rows without a numeric area do not count towards the total. */
  lemma {:induction false} AreaSumNumericOnly(surfs: seq<Surface>)
    ensures AreaSum(Filter(surfs, IsNumeric)) == AreaSum(surfs)
  {
    if |surfs| > 0 {
      AreaSumNumericOnly(surfs[1..]);
      var head := if IsNumeric(surfs[0]) then [surfs[0]] else [];
      assert Filter(surfs, IsNumeric) == head + Filter(surfs[1..], IsNumeric);
      AreaSumConcat(head, Filter(surfs[1..], IsNumeric));
      if IsNumeric(surfs[0]) {
        assert AreaSum(head) == surfs[0].area.v + AreaSum(head[1..]);
      }
    }
  }

  /** `layer.get("surfaces") or []`. */
  function Rows(l: Layer): seq<Surface> {
    if l.surfaces.Some? then l.surfaces.value else []
  }

  /** The totals of one layer: the positive sum of its numeric areas, and
      the percentage of the parcel whenever the parcel area is truthy. */
  function LayerTotals(l: Layer): (t: Totals)
    ensures t.interTotal.Some? ==> t.interTotal.value == AreaSum(Rows(l)) > 0.0
    ensures t.interTotal.None? ==> AreaSum(Rows(l)) <= 0.0
    ensures t.pctTotal.None? <==> !Truthy(l.parcelArea)
    ensures t.pctTotal.Some? ==> t.pctTotal.value * l.parcelArea.value == AreaSum(Rows(l)) * 100.0
  {
    var total := AreaSum(Rows(l));
    Totals(
      if total > 0.0 then Some(total) else None,
      if Truthy(l.parcelArea) then Some(total / l.parcelArea.value * 100.0) else None)
  }

  function WithTotals(l: Layer): (r: Layer)
    ensures r.totals == Some(LayerTotals(l))
    ensures r.(totals := l.totals) == l
  {
    l.(totals := Some(LayerTotals(l)))
  }

  function ReportWithTotals(rep: Report): (r: Report)
    ensures |r.results| == |rep.results|
    ensures forall j | 0 <= j < |rep.results| :: r.results[j] == WithTotals(rep.results[j])
  {
    Report(Map(rep.results, WithTotals))
  }

  /** The first truthy parcel area of the layers. */
  function FirstInLayers(ls: seq<Layer>): (r: Option<real>)
    ensures r.None? <==> forall j | 0 <= j < |ls| :: !Truthy(ls[j].parcelArea)
    ensures r.Some? ==> Truthy(r)
  {
    if |ls| == 0 then None
    else if Truthy(ls[0].parcelArea) then ls[0].parcelArea
    else
      assert forall j | 1 <= j < |ls| :: ls[j] == ls[1..][j - 1];
      FirstInLayers(ls[1..])
  }

  lemma {:induction false} FirstInLayersIsFirst(ls: seq<Layer>)
    requires FirstInLayers(ls).Some?
    ensures exists j | 0 <= j < |ls| ::
      ls[j].parcelArea == FirstInLayers(ls) && forall j' | 0 <= j' < j :: !Truthy(ls[j'].parcelArea)
  {
    if !Truthy(ls[0].parcelArea) {
      FirstInLayersIsFirst(ls[1..]);
      var j :| 0 <= j < |ls[1..]| && ls[1..][j].parcelArea == FirstInLayers(ls[1..]) &&
        forall j' | 0 <= j' < j :: !Truthy(ls[1..][j'].parcelArea);
      assert ls[j + 1].parcelArea == FirstInLayers(ls);
    }
  }

  /** Whether layer `j` of report `i` comes before layer `j2` of report `i2`. */
  predicate Before(i: int, j: int, i2: int, j2: int) {
    i < i2 || (i == i2 && j < j2)
  }

  /** The first truthy `parcel_area_m2`, reports in order and layers in
      order within a report. */
  function FirstArea(rs: seq<Report>): (r: Option<real>)
    ensures r.None? <==> forall i, j | 0 <= i < |rs| && 0 <= j < |rs[i].results| :: !Truthy(rs[i].results[j].parcelArea)
    ensures r.Some? ==> Truthy(r)
  {
    if |rs| == 0 then None
    else
      var h := FirstInLayers(rs[0].results);
      if h.Some? then h
      else
        var r := FirstArea(rs[1..]);
        assert forall i, j | 1 <= i < |rs| && 0 <= j < |rs[i].results| ::
          rs[i].results[j] == rs[1..][i - 1].results[j];
        r
  }

  /** The estimate is taken from a layer no truthy layer precedes. */
  lemma {:induction false} FirstAreaIsFirst(rs: seq<Report>)
    requires FirstArea(rs).Some?
    ensures exists i, j | 0 <= i < |rs| && 0 <= j < |rs[i].results| ::
      rs[i].results[j].parcelArea == FirstArea(rs) &&
      forall i2, j2 | 0 <= i2 < |rs| && 0 <= j2 < |rs[i2].results| && Before(i2, j2, i, j) ::
        !Truthy(rs[i2].results[j2].parcelArea)
  {
    if FirstInLayers(rs[0].results).Some? {
      FirstInLayersIsFirst(rs[0].results);
      var j :| 0 <= j < |rs[0].results| && rs[0].results[j].parcelArea == FirstArea(rs) &&
        forall j' | 0 <= j' < j :: !Truthy(rs[0].results[j'].parcelArea);
      assert rs[0].results[j].parcelArea == FirstArea(rs);
    } else {
      FirstAreaIsFirst(rs[1..]);
      var i, j :| 0 <= i < |rs[1..]| && 0 <= j < |rs[1..][i].results| &&
        rs[1..][i].results[j].parcelArea == FirstArea(rs[1..]) &&
        forall i2, j2 | 0 <= i2 < |rs[1..]| && 0 <= j2 < |rs[1..][i2].results| && Before(i2, j2, i, j) ::
          !Truthy(rs[1..][i2].results[j2].parcelArea);
      forall i2, j2 | 0 <= i2 < |rs| && 0 <= j2 < |rs[i2].results| && Before(i2, j2, i + 1, j)
        ensures !Truthy(rs[i2].results[j2].parcelArea)
      {
        if i2 > 0 {
          assert rs[i2] == rs[1..][i2 - 1];
        }
      }
      assert rs[i + 1] == rs[1..][i];
    }
  }

  /** `setdefault` on the context: a missing context is created, and an
      existing estimate, even null, is kept. */
  function SetAreaEst(ctx: Option<Context>, est: real): (r: Option<Context>)
    ensures r.Some? && r.value.areaEst.Some?
    ensures ctx.Some? && ctx.value.areaEst.Some? ==> r == ctx
    ensures ctx.None? || ctx.value.areaEst.None? ==> r.value.areaEst == Some(NumV(est))
  {
    match ctx
    case None => Some(Context(Some(NumV(est))))
    case Some(c) => if c.areaEst.Some? then ctx else Some(c.(areaEst := Some(NumV(est))))
  }

  /** `_add_surface_totals`: every layer gains its totals and nothing else
      changes; the context gains the first truthy parcel area unless it
      already has an estimate. The input itself is a value and cannot be
      altered. */
  function AddSurfaceTotals(p: Payload): (r: Payload)
    ensures |r.reports| == |p.reports|
    ensures forall i | 0 <= i < |p.reports| :: |r.reports[i].results| == |p.reports[i].results|
    ensures forall i, j | 0 <= i < |p.reports| && 0 <= j < |p.reports[i].results| ::
      r.reports[i].results[j].(totals := None) == p.reports[i].results[j].(totals := None) &&
      r.reports[i].results[j].totals == Some(LayerTotals(p.reports[i].results[j]))
    ensures FirstArea(p.reports).None? ==> r.context == p.context
    ensures FirstArea(p.reports).Some? ==> r.context == SetAreaEst(p.context, FirstArea(p.reports).value)
  {
    var rs := Map(p.reports, ReportWithTotals);
    var est := FirstArea(p.reports);
    Payload(rs, if est.Some? then SetAreaEst(p.context, est.value) else p.context)
  }

  lemma {:induction false} FirstAreaWithTotals(rs: seq<Report>)
    ensures FirstArea(Map(rs, ReportWithTotals)) == FirstArea(rs)
  {
    if |rs| > 0 {
      var ms := Map(rs, ReportWithTotals);
      assert ms[1..] == Map(rs[1..], ReportWithTotals);
      FirstAreaWithTotals(rs[1..]);
      FirstInLayersWithTotals(rs[0].results);
    }
  }

  lemma {:induction false} FirstInLayersWithTotals(ls: seq<Layer>)
    ensures FirstInLayers(Map(ls, WithTotals)) == FirstInLayers(ls)
  {
    if |ls| > 0 {
      assert Map(ls, WithTotals)[1..] == Map(ls[1..], WithTotals);
      FirstInLayersWithTotals(ls[1..]);
    }
  }

  lemma ReportWithTotalsTwice(rep: Report)
    ensures ReportWithTotals(ReportWithTotals(rep)) == ReportWithTotals(rep)
  {
    var r := ReportWithTotals(rep);
    forall j | 0 <= j < |r.results| ensures WithTotals(r.results[j]) == r.results[j] {
      assert Rows(r.results[j]) == Rows(rep.results[j]);
    }
  }

  /** Adding the totals twice is adding them once. */
  lemma AddSurfaceTotalsIdempotent(p: Payload)
    ensures AddSurfaceTotals(AddSurfaceTotals(p)) == AddSurfaceTotals(p)
  {
    var d := AddSurfaceTotals(p);
    FirstAreaWithTotals(p.reports);
    var rs := Map(p.reports, ReportWithTotals);
    forall i | 0 <= i < |rs| ensures ReportWithTotals(rs[i]) == rs[i] {
      ReportWithTotalsTwice(p.reports[i]);
    }
    assert Map(rs, ReportWithTotals) == rs;
  }

  // ------------------------------------------------------------ _compact_payload

  /** A list longer than `maxValues` keeps its first `maxValues` items and
      gains the ellipsis; anything else is left alone. */
  function TruncateAttr(a: Attr, maxValues: nat): (r: Attr)
    ensures r.AList? <==> a.AList?
    ensures r.AList? && |a.items| <= maxValues ==> r == a
    ensures r.AList? && |a.items| > maxValues ==>
      |r.items| == maxValues + 1 && r.items[..maxValues] == a.items[..maxValues] && r.items[maxValues] == Ellipsis
    ensures r.AOther? ==> r == a
  {
    match a
    case AList(items) => if |items| > maxValues then AList(items[..maxValues] + [Ellipsis]) else a
    case AOther(_) => a
  }

  /** Truncating a truncated list changes nothing. */
  lemma TruncateIdempotent(a: Attr, maxValues: nat)
    ensures TruncateAttr(TruncateAttr(a, maxValues), maxValues) == TruncateAttr(a, maxValues)
  {
    var r := TruncateAttr(a, maxValues);
    if r.AList? && |r.items| > maxValues {
      assert r.items == r.items[..maxValues] + [Ellipsis];
    }
  }

  function TruncateValues(vals: Assoc<string, Attr>, maxValues: nat): (r: Assoc<string, Attr>)
    ensures Keys(r) == Keys(vals)
    ensures forall i | 0 <= i < |vals| :: r[i].1 == TruncateAttr(vals[i].1, maxValues)
  {
    Map(vals, (kv: (string, Attr)) => (kv.0, TruncateAttr(kv.1, maxValues)))
  }

  /** The sort key `inter_area_m2`, 0.0 when absent. */
  function AreaKey(s: Surface): real {
    if s.area.NumV? then s.area.v else 0.0
  }

  predicate AreaDesc(a: Surface, b: Surface) {
    AreaKey(a) >= AreaKey(b)
  }

  lemma AreaDescOrder()
    ensures Total(AreaDesc) && Transitive(AreaDesc)
  {
  }

  function Min(a: int, b: int): int {
    if a <= b then a else b
  }

  /** The numeric rows, largest area first. */
  function ByArea(surfs: seq<Surface>): (r: seq<Surface>)
    ensures multiset(r) == multiset(Filter(surfs, IsNumeric))
    ensures forall i | 0 <= i < |r| :: IsNumeric(r[i]) && r[i] in surfs
    ensures forall i, j | 0 <= i < j < |r| :: AreaKey(r[i]) >= AreaKey(r[j])
  {
    var f := Filter(surfs, IsNumeric);
    var r := SortBy(f, AreaDesc);
    forall i | 0 <= i < |r| ensures IsNumeric(r[i]) && r[i] in surfs {
      assert r[i] in multiset(f);
      var k :| 0 <= k < |f| && f[k] == r[i];
    }
    AreaDescOrder();
    forall i, j | 0 <= i < j < |r| ensures AreaKey(r[i]) >= AreaKey(r[j]) {
      SortedPairwise(r, AreaDesc, i, j);
    }
    r
  }

  /** The largest numeric rows, at most `n` of them, largest first. */
  function TopRows(s: seq<Surface>, n: nat): (r: seq<Surface>)
    ensures |r| == Min(n, |Filter(s, IsNumeric)|)
    ensures forall i | 0 <= i < |r| :: IsNumeric(r[i]) && r[i] in s
    ensures forall i, j | 0 <= i < j < |r| :: AreaKey(r[i]) >= AreaKey(r[j])
  {
    var sorted := ByArea(s);
    assert |sorted| == |multiset(Filter(s, IsNumeric))|;
    sorted[..Min(n, |sorted|)]
  }

  /** A surface list longer than `maxSurfaces` becomes its top rows
      followed by the sentinel; anything else is left alone. */
  function CompactSurfaces(surfs: Option<seq<Surface>>, maxSurfaces: nat): (r: Option<seq<Surface>>)
    ensures r.None? <==> surfs.None?
    ensures surfs.Some? && |surfs.value| <= maxSurfaces ==> r == surfs
    ensures surfs.Some? && |surfs.value| > maxSurfaces ==>
      var n := Min(maxSurfaces, |Filter(surfs.value, IsNumeric)|);
      |r.value| == n + 1 && r.value[n] == Sentinel && r.value[..n] == TopRows(surfs.value, maxSurfaces)
  {
    match surfs
    case None => None
    case Some(s) =>
      if |s| > maxSurfaces then
        var top := TopRows(s, maxSurfaces);
        assert (top + [Sentinel])[..|top|] == top;
        Some(top + [Sentinel])
      else surfs
  }

  /** In a list sorted by decreasing area, whatever lies past the first
      `n` rows has an area no larger than any of them. */
  lemma PrefixIsTop(sorted: seq<Surface>, n: nat)
    requires n <= |sorted|
    requires forall i, j | 0 <= i < j < |sorted| :: AreaKey(sorted[i]) >= AreaKey(sorted[j])
    ensures multiset(sorted) - multiset(sorted[..n]) == multiset(sorted[n..])
    ensures forall x, i | x in multiset(sorted[n..]) && 0 <= i < n :: AreaKey(x) <= AreaKey(sorted[i])
  {
    assert sorted == sorted[..n] + sorted[n..];
    forall x, i | x in multiset(sorted[n..]) && 0 <= i < n ensures AreaKey(x) <= AreaKey(sorted[i]) {
      var j :| 0 <= j < |sorted[n..]| && sorted[n..][j] == x;
      assert sorted[n + j] == x;
    }
  }

  /** The rows kept are numeric rows of the input, each kept at most as
      often as it occurs. */
  lemma TopRowsSub(s: seq<Surface>, maxSurfaces: nat)
    ensures multiset(TopRows(s, maxSurfaces)) <= multiset(Filter(s, IsNumeric))
  {
    var sorted := ByArea(s);
    PrefixSubMultiset(sorted, Min(maxSurfaces, |sorted|));
  }

  /** The rows kept are the top ones: every numeric row left out has an
      area no larger than any row kept. */
  lemma TopRowsTop(s: seq<Surface>, maxSurfaces: nat)
    ensures var kept := TopRows(s, maxSurfaces);
      forall x, i | x in multiset(Filter(s, IsNumeric)) - multiset(kept) && 0 <= i < |kept| ::
        AreaKey(x) <= AreaKey(kept[i])
  {
    var sorted := ByArea(s);
    var n := Min(maxSurfaces, |sorted|);
    PrefixIsTop(sorted, n);
  }

  function CompactLayer(l: Layer, maxValues: nat, maxSurfaces: nat): Layer {
    l.(values := TruncateValues(l.values, maxValues), surfaces := CompactSurfaces(l.surfaces, maxSurfaces))
  }

  function CompactReport(rep: Report, maxValues: nat, maxSurfaces: nat): (r: Report)
    ensures |r.results| == |rep.results|
    ensures forall j | 0 <= j < |rep.results| :: r.results[j] == CompactLayer(rep.results[j], maxValues, maxSurfaces)
  {
    Report(Map(rep.results, (l: Layer) => CompactLayer(l, maxValues, maxSurfaces)))
  }

  /** `_compact_payload` (defaults 8 and 60): the totals of
      `_add_surface_totals`, then per layer the truncated value lists and
      the top surfaces; tables, parcel areas and totals are kept. */
  function CompactPayload(p: Payload, maxValues: nat, maxSurfaces: nat): (r: Payload)
    ensures r.context == AddSurfaceTotals(p).context
    ensures |r.reports| == |p.reports|
    ensures forall i | 0 <= i < |p.reports| :: |r.reports[i].results| == |p.reports[i].results|
    ensures forall i, j | 0 <= i < |p.reports| && 0 <= j < |p.reports[i].results| ::
      var l := p.reports[i].results[j];
      var c := r.reports[i].results[j];
      c.table == l.table && c.parcelArea == l.parcelArea && c.totals == Some(LayerTotals(l)) &&
      c.values == TruncateValues(l.values, maxValues) &&
      c.surfaces == CompactSurfaces(l.surfaces, maxSurfaces)
  {
    var d := AddSurfaceTotals(p);
    Payload(Map(d.reports, (rep: Report) => CompactReport(rep, maxValues, maxSurfaces)), d.context)
  }

  // ------------------------------------------------------------ _find_layer

  /** `_find_layer`: the first layer whose table is `table`. */
  function FindLayer(results: seq<Layer>, table: string): (r: Option<Layer>)
    ensures r.None? <==> forall i | 0 <= i < |results| :: results[i].table != Some(table)
    ensures r.Some? ==> r.value in results && r.value.table == Some(table)
  {
    if |results| == 0 then None
    else if results[0].table == Some(table) then Some(results[0])
    else
      assert forall i | 1 <= i < |results| :: results[i] == results[1..][i - 1];
      FindLayer(results[1..], table)
  }

  /** The layer found is the first match: no earlier layer has the table. */
  lemma {:induction false} FindLayerFirst(results: seq<Layer>, table: string)
    requires FindLayer(results, table).Some?
    ensures exists i | 0 <= i < |results| ::
      results[i] == FindLayer(results, table).value && forall j | 0 <= j < i :: results[j].table != Some(table)
  {
    var tail := results[1..];
    if results[0].table != Some(table) {
      assert FindLayer(results, table) == FindLayer(tail, table);
      FindLayerFirst(tail, table);
      var i :| 0 <= i < |tail| && tail[i] == FindLayer(tail, table).value &&
        forall j | 0 <= j < i :: tail[j].table != Some(table);
      assert results[i + 1] == tail[i];
      forall j | 0 <= j < i + 1 ensures results[j].table != Some(table) {
        if j > 0 { assert results[j] == tail[j - 1]; }
      }
    } else {
      assert results[0] == FindLayer(results, table).value;
    }
  }
}

=== FILE: reports.dfy ===
/** What the intersection runners compute for one parcel, shared by both
    variants: the query oracles, the post-processing of their rows into
    sampled values, surfaces and coverage lists, and the report records. */
module Reports {
  import opened Wrappers
  import opened Assoc
  import opened Seqs
  import opened Catalog

  /** The parcel as the cadastral lookup returns it; `None` is a property
      absent from the feature. The geometry is its GeoJSON text. */
  datatype Feature = Feature(section: Option<string>, numero: Option<string>, geometry: string)

  /** One row of the per-feature area query; `None` is SQL `NULL`. */
  datatype AreaRow = AreaRow(id: string, interArea: Option<real>, parcelArea: Option<real>)

  /** One row of the grouped coverage query. */
  datatype CovRow = CovRow(value: string, interArea: Option<real>)

  datatype Surface = Surface(id: string, interArea: real, pct: Option<real>)

  datatype CovEntry = CovEntry(value: string, interArea: real, pct: real)

  /** One layer that the parcel intersects. */
  datatype LayerResult = LayerResult(
    schema: string, table: string, geomCol: string, srid: int, count: int,
    values: Assoc<string, seq<string>>,
    surfaces: seq<Surface>,
    coverage: Assoc<string, seq<CovEntry>>,
    parcelArea: Option<real>)

  /** The report of one parcel reference: the intersections, or the
      placeholder written when the cadastral lookup finds nothing. */
  datatype ParcelReport =
    | Report(parcelLabel: string, hits: int, results: seq<LayerResult>)
    | NotFound(parcelLabel: string, error: string)

  /** The database, as the queries the runners issue. Each query answers or
      raises; `geom` is the parcel GeoJSON the queries are bound to.
      - `columns(schema, table)`: the existing columns of the table;
      - `count(geom, layer)`: the scalar of the intersecting-feature count;
      - `values(geom, layer, col)`: the distinct values of one column;
      - `areas(geom, layer, hasId)`: per-feature areas, with the table's `id`
        column as identifier when `hasId`, a row number otherwise;
      - `coverage(geom, layer, col)`: areas grouped by one column's values. */
  datatype Db = Db(
    columns: (string, string) -> Result<seq<string>>,
    count: (string, Layer) -> Result<Option<int>>,
    values: (string, Layer, string) -> Result<seq<Option<string>>>,
    areas: (string, Layer, bool) -> Result<seq<AreaRow>>,
    coverage: (string, Layer, string) -> Result<seq<CovRow>>)

  /** The parcel label: "section numero", with "??" and "????" for missing
      properties. */
  function Label(f: Feature): string {
    f.section.GetOr("??") + " " + f.numero.GetOr("????")
  }

  /** A layer's `keep` columns that exist in its table, in `keep` order. The
      existence test sits inside the comprehension, so an empty `keep` never
      asks for the columns. */
  function KeepEffective(db: Db, l: Layer): (r: Result<seq<string>>)
    ensures |l.keep| == 0 ==> r == Success([])
    ensures |l.keep| > 0 ==> (r.Failure? <==> db.columns(l.schema, l.table).Failure?)
    ensures r.Success? && |l.keep| > 0 ==>
      forall c :: c in r.value <==> c in l.keep && c in db.columns(l.schema, l.table).value
    ensures r.Success? ==> |r.value| <= |l.keep|
    ensures r.Success? && |l.keep| > 0 ==> r.value == Filter(l.keep, InColumns(db.columns(l.schema, l.table).value))
  {
    if |l.keep| == 0 then Success([])
    else
      var cols :- db.columns(l.schema, l.table);
      Success(Filter(l.keep, InColumns(cols)))
  }

  /** `c in cols`, as a filter. */
  function InColumns(cols: seq<string>): string -> bool {
    c => c in cols
  }

  /** `for c in cols: v = query(c); if keep(v): acc[c] = v`, where a query
      that raises ends the loop; a repeated column is assigned again. */
  function AssignEach<V>(cols: seq<string>, query: string -> Result<V>, keep: V -> bool,
                         acc: Assoc<string, V>): (r: Result<Assoc<string, V>>)
    requires UniqueKeys(acc)
    ensures r.Failure? <==> exists i | 0 <= i < |cols| :: query(cols[i]).Failure?
    ensures r.Success? ==> UniqueKeys(r.value)
    ensures r.Success? ==> forall k :: k in Keys(r.value) <==>
      k in Keys(acc) || exists i | 0 <= i < |cols| :: cols[i] == k && keep(query(k).value)
    ensures r.Success? ==> forall i | 0 <= i < |cols| && keep(query(cols[i]).value) ::
      Lookup(r.value, cols[i]) == Some(query(cols[i]).value)
    ensures r.Success? ==> forall k | k !in cols :: Lookup(r.value, k) == Lookup(acc, k)
    decreases |cols|
  {
    if |cols| == 0 then Success(acc)
    else
      var c := cols[0];
      var v :- query(c);
      var acc' := AssignOne(acc, c, v, keep(v));
      assert cols == [c] + cols[1..];
      AssignEach(cols[1..], query, keep, acc')
  }

  /** `AssignEach` from nothing, keeping every answer: one entry per column,
      holding that column's answer. */
  lemma AssignAll<V>(cols: seq<string>, query: string -> Result<V>, r: Assoc<string, V>)
    requires AssignEach(cols, query, Always(), []) == Success(r)
    ensures forall k :: k in Keys(r) <==> k in cols
    ensures forall c | c in cols :: query(c).Success? && Lookup(r, c) == Some(query(c).value)
  {
    forall c | c in cols ensures query(c).Success? && Lookup(r, c) == Some(query(c).value) {
      var i :| 0 <= i < |cols| && cols[i] == c;
    }
  }

  /** One step of `AssignEach`. */
  function AssignOne<V>(acc: Assoc<string, V>, c: string, v: V, keep: bool): (r: Assoc<string, V>)
    requires UniqueKeys(acc)
    ensures UniqueKeys(r)
    ensures forall k :: Lookup(r, k) == if k == c && keep then Some(v) else Lookup(acc, k)
    ensures forall k :: k in Keys(r) <==> k in Keys(acc) || (k == c && keep)
  {
    if keep then
      PutUnique(acc, c, v);
      forall k ensures Lookup(Put(acc, c, v), k) == if k == c then Some(v) else Lookup(acc, k) {
        PutLookup(acc, c, v, k);
      }
      Put(acc, c, v)
    else acc
  }

  /** The sampled values of one column: the distinct non-null values. */
  function ValuesQuery(db: Db, g: string, l: Layer): string -> Result<seq<string>> {
    c => (var rows :- db.values(g, l, c); Success(Somes(rows)))
  }

  function Always<V>(): V -> bool {
    _ => true
  }

  /** `vals_map`: every kept column bound to its sampled values. */
  function ValuesMap(db: Db, g: string, l: Layer, cols: seq<string>): (r: Result<Assoc<string, seq<string>>>)
    ensures r.Failure? <==> exists i | 0 <= i < |cols| :: db.values(g, l, cols[i]).Failure?
    ensures r.Success? ==> UniqueKeys(r.value) && forall k :: k in Keys(r.value) <==> k in cols
    ensures r.Success? ==> forall i | 0 <= i < |cols| ::
      Lookup(r.value, cols[i]) == Some(Somes(db.values(g, l, cols[i]).value))
  {
    AssignEach(cols, ValuesQuery(db, g, l), Always(), [])
  }

  /** Each sampled column holds `[r[0] for r in rows if r[0] is not None]`:
      the non-null values in row order, repeats included. */
  lemma ValuesMapComprehension(db: Db, g: string, l: Layer, cols: seq<string>)
    requires ValuesMap(db, g, l, cols).Success?
    ensures forall i | 0 <= i < |cols| ::
      Lookup(ValuesMap(db, g, l, cols).value, cols[i]) == Some(Map(Filter(db.values(g, l, cols[i]).value, Present), PresentText))
  {
    forall i | 0 <= i < |cols| ensures
      Lookup(ValuesMap(db, g, l, cols).value, cols[i]) == Some(Map(Filter(db.values(g, l, cols[i]).value, Present), PresentText))
    {
      SomesIsComprehension(db.values(g, l, cols[i]).value);
    }
  }

  /** The parcel area: read from the first area row (`NULL` as 0), or
      nothing when there are no rows. */
  function ParcelAreaOf(rows: seq<AreaRow>): Option<real> {
    if |rows| == 0 then None else Some(rows[0].parcelArea.GetOr(0.0))
  }

  predicate PositiveRow(r: AreaRow) {
    r.interArea.GetOr(0.0) > 0.0
  }

  /** The surfaces: the rows with a positive intersection area, in row order,
      each with its share of the parcel in percent when the area is known
      and non-zero. */
  function SurfacesOf(rows: seq<AreaRow>, area: Option<real>): (s: seq<Surface>)
    ensures |s| <= |rows|
    ensures forall i | 0 <= i < |s| :: s[i].interArea > 0.0
    ensures forall i | 0 <= i < |s| ::
      s[i].pct == if Truthy(area) then Some(s[i].interArea / area.value * 100.0) else None
  {
    if |rows| == 0 then []
    else
      var a := rows[0].interArea.GetOr(0.0);
      var rest := SurfacesOf(rows[1..], area);
      if a > 0.0 then
        [Surface(rows[0].id, a, if Truthy(area) then Some(a / area.value * 100.0) else None)] + rest
      else rest
  }

  function SurfaceIds(s: seq<Surface>): seq<string> {
    if |s| == 0 then [] else [s[0].id] + SurfaceIds(s[1..])
  }

  function RowIds(rows: seq<AreaRow>): seq<string> {
    if |rows| == 0 then [] else [rows[0].id] + RowIds(rows[1..])
  }

  /** Exactly the rows with a positive area give a surface, one each, in
      order. */
  lemma {:induction false} SurfacesArePositiveRows(rows: seq<AreaRow>, area: Option<real>)
    ensures SurfaceIds(SurfacesOf(rows, area)) == RowIds(Filter(rows, PositiveRow))
  {
    if |rows| > 0 {
      SurfacesArePositiveRows(rows[1..], area);
      var f := Filter(rows[1..], PositiveRow);
      var t := SurfacesOf(rows[1..], area);
      if PositiveRow(rows[0]) {
        assert Filter(rows, PositiveRow) == [rows[0]] + f;
        assert ([rows[0]] + f)[1..] == f;
        assert RowIds([rows[0]] + f) == [rows[0].id] + RowIds(f);
        var h := SurfacesOf(rows, area)[0];
        assert SurfacesOf(rows, area) == [h] + t;
        assert ([h] + t)[1..] == t;
        assert SurfaceIds([h] + t) == [h.id] + SurfaceIds(t);
      } else {
        assert Filter(rows, PositiveRow) == f;
        assert SurfacesOf(rows, area) == t;
      }
    }
  }

  predicate PositiveCov(r: CovRow) {
    r.interArea.GetOr(0.0) > 0.0
  }

  /** One coverage list: the classes with a positive area, each with its
      share of the parcel; nothing at all when the parcel area is unknown or
      zero. */
  function CovList(rows: seq<CovRow>, area: Option<real>): (c: seq<CovEntry>)
    ensures |c| <= |rows|
    ensures !Truthy(area) ==> c == []
    ensures forall i | 0 <= i < |c| ::
      c[i].interArea > 0.0 && Truthy(area) && c[i].pct == c[i].interArea / area.value * 100.0
  {
    if |rows| == 0 then []
    else
      var a := rows[0].interArea.GetOr(0.0);
      var rest := CovList(rows[1..], area);
      if a > 0.0 && Truthy(area) then [CovEntry(rows[0].value, a, a / area.value * 100.0)] + rest
      else rest
  }

  function CovValues(c: seq<CovEntry>): seq<string> {
    if |c| == 0 then [] else [c[0].value] + CovValues(c[1..])
  }

  function RowValues(rows: seq<CovRow>): seq<string> {
    if |rows| == 0 then [] else [rows[0].value] + RowValues(rows[1..])
  }

  /** With a usable parcel area, exactly the classes with a positive area
      appear, in query order. */
  lemma {:induction false} CovListArePositiveRows(rows: seq<CovRow>, area: Option<real>)
    requires Truthy(area)
    ensures CovValues(CovList(rows, area)) == RowValues(Filter(rows, PositiveCov))
  {
    if |rows| > 0 {
      CovListArePositiveRows(rows[1..], area);
      var f := Filter(rows[1..], PositiveCov);
      var t := CovList(rows[1..], area);
      if PositiveCov(rows[0]) {
        assert Filter(rows, PositiveCov) == [rows[0]] + f;
        assert ([rows[0]] + f)[1..] == f;
        assert RowValues([rows[0]] + f) == [rows[0].value] + RowValues(f);
        var h := CovList(rows, area)[0];
        assert CovList(rows, area) == [h] + t;
        assert ([h] + t)[1..] == t;
        assert CovValues([h] + t) == [h.value] + CovValues(t);
      } else {
        assert Filter(rows, PositiveCov) == f;
        assert CovList(rows, area) == t;
      }
    }
  }

  /** One coverage query turned into its coverage list. */
  function CoverageQuery(db: Db, g: string, l: Layer, area: Option<real>): string -> Result<seq<CovEntry>> {
    c => (var rows :- db.coverage(g, l, c); Success(CovList(rows, area)))
  }

  // -------------------------------------------------- the layer loop

  /** `step(l)` answered with the result `lr`. */
  predicate Produced(step: Layer -> Result<Option<LayerResult>>, l: Layer, lr: LayerResult) {
    step(l) == Success(Some(lr))
  }

  /** `rs` are, in order, the results `step` produced for some of `ls`. */
  predicate FromSteps(rs: seq<LayerResult>, ls: seq<Layer>, step: Layer -> Result<Option<LayerResult>>)
    decreases |ls|
  {
    |rs| == 0 || (|ls| > 0 && ((Produced(step, ls[0], rs[0]) && FromSteps(rs[1..], ls[1..], step)) || FromSteps(rs, ls[1..], step)))
  }

  /** One layer's outcome in front of the outcome of the layers after it. */
  function Cons(step: Result<Option<LayerResult>>, rest: Result<(seq<LayerResult>, int)>): Result<(seq<LayerResult>, int)> {
    if step.Failure? then Failure(step.error)
    else if rest.Failure? then Failure(rest.error)
    else match step.value
      case None => rest
      case Some(lr) => Success(([lr] + rest.value.0, rest.value.1 + 1))
  }

  /** The layer loop: each layer's outcome is a result (counted as a hit),
      nothing, or an exception that ends the parcel. Returns the results in
      layer order and the hit counter. */
  function RunLayers(step: Layer -> Result<Option<LayerResult>>, ls: seq<Layer>): (r: Result<(seq<LayerResult>, int)>)
    ensures r.Failure? <==> exists i | 0 <= i < |ls| :: step(ls[i]).Failure?
    ensures r.Success? ==> r.value.1 == |r.value.0| <= |ls| && FromSteps(r.value.0, ls, step)
  {
    if |ls| == 0 then Success(([], 0))
    else
      var rest := RunLayers(step, ls[1..]);
      assert forall i | 1 <= i < |ls| :: ls[i] == ls[1..][i - 1];
      var r := Cons(step(ls[0]), rest);
      assert r.Success? && step(ls[0]).value.Some? ==> r.value.0[1..] == rest.value.0;
      r
  }

  /** The outcomes of two layer lists run one after the other. */
  function Then(a: Result<(seq<LayerResult>, int)>, b: Result<(seq<LayerResult>, int)>): Result<(seq<LayerResult>, int)> {
    if a.Failure? then a
    else if b.Failure? then Failure(b.error)
    else Success((a.value.0 + b.value.0, a.value.1 + b.value.1))
  }

  lemma ConsThen(s: Result<Option<LayerResult>>, x: Result<(seq<LayerResult>, int)>, y: Result<(seq<LayerResult>, int)>)
    ensures Cons(s, Then(x, y)) == Then(Cons(s, x), y)
  {
    if s.Success? && s.value.Some? && x.Success? && y.Success? {
      assert [s.value.value] + (x.value.0 + y.value.0) == ([s.value.value] + x.value.0) + y.value.0;
    }
  }

  lemma {:induction false} RunLayersAppend(step: Layer -> Result<Option<LayerResult>>, a: seq<Layer>, b: seq<Layer>)
    ensures RunLayers(step, a + b) == Then(RunLayers(step, a), RunLayers(step, b))
  {
    if |a| == 0 {
      assert a + b == b;
      var y := RunLayers(step, b);
      if y.Success? {
        assert [] + y.value.0 == y.value.0;
      }
    } else {
      var ab := a + b;
      assert ab[0] == a[0] && ab[1..] == a[1..] + b;
      RunLayersAppend(step, a[1..], b);
      ConsThen(step(a[0]), RunLayers(step, a[1..]), RunLayers(step, b));
    }
  }

  /** A layer that gives nothing leaves exactly the outcome of the others. */
  lemma SkippedLayerDropped(step: Layer -> Result<Option<LayerResult>>, a: seq<Layer>, l: Layer, b: seq<Layer>)
    requires step(l) == Success(None)
    ensures RunLayers(step, a + [l] + b) == RunLayers(step, a + b)
  {
    RunLayersAppend(step, a + [l], b);
    RunLayersAppend(step, a, [l]);
    RunLayersAppend(step, a, b);
    assert RunLayers(step, [l]) == Success(([], 0)) by {
      assert [l][1..] == [];
    }
    assert Then(RunLayers(step, a), Success(([], 0))) == RunLayers(step, a) by {
      if RunLayers(step, a).Success? {
        assert RunLayers(step, a).value.0 + [] == RunLayers(step, a).value.0;
      }
    }
  }

  // ------------------------------------------------------- the batch

  /** The sum of `layers_with_hits` over the reports that have one. */
  /** The hits one report counts for: none for a parcel not found. */
  function Hits(rpt: ParcelReport): int {
    if rpt.Report? then rpt.hits else 0
  }

  function TotalHits(reports: seq<ParcelReport>): int {
    if |reports| == 0 then 0
    else Hits(reports[0]) + TotalHits(reports[1..])
  }

  lemma {:induction false} TotalHitsAppend(a: seq<ParcelReport>, b: seq<ParcelReport>)
    ensures TotalHits(a + b) == TotalHits(a) + TotalHits(b)
  {
    if |a| == 0 {
      assert a + b == b;
    } else {
      TotalHitsAppend(a[1..], b);
      assert (a + b)[1..] == a[1..] + b;
    }
  }

  lemma TotalHitsSnoc(a: seq<ParcelReport>, rpt: ParcelReport)
    ensures TotalHits(a + [rpt]) == TotalHits(a) + Hits(rpt)
  {
    TotalHitsAppend(a, [rpt]);
    assert [rpt][1..] == [];
  }

  /** A batch outcome with reports already written in front of it. */
  function Prefixed(done: seq<ParcelReport>, rest: Result<seq<ParcelReport>>): Result<seq<ParcelReport>> {
    if rest.Failure? then rest else Success(done + rest.value)
  }

  lemma PrefixedTwice(a: seq<ParcelReport>, b: seq<ParcelReport>, x: Result<seq<ParcelReport>>)
    ensures Prefixed(a, Prefixed(b, x)) == Prefixed(a + b, x)
  {
    if x.Success? {
      assert a + (b + x.value) == (a + b) + x.value;
    }
  }

  /** The placeholder for a reference the cadastral lookup does not know. */
  function NotFoundReport(insee: string, sec: string, num: string): ParcelReport {
    NotFound(sec + " " + num, "Parcelle non trouvée (INSEE " + insee + ", " + sec + " " + num + ")")
  }

  /** The report the batch loop writes for one reference. */
  predicate ReportFor(insee: string, ref: (string, string),
                      locate: (string, string, string) -> Result<Option<Feature>>,
                      intersect: Feature -> Result<ParcelReport>, rep: ParcelReport) {
    match locate(insee, ref.0, ref.1)
    case Failure(_) => false
    case Success(None) => rep == NotFoundReport(insee, ref.0, ref.1)
    case Success(Some(f)) => intersect(f) == Success(rep)
  }

  /** Some reference makes the lookup or the intersection raise. */
  predicate BatchRaises(insee: string, refs: seq<(string, string)>,
                        locate: (string, string, string) -> Result<Option<Feature>>,
                        intersect: Feature -> Result<ParcelReport>) {
    exists i | 0 <= i < |refs| ::
      locate(insee, refs[i].0, refs[i].1).Failure?
      || (locate(insee, refs[i].0, refs[i].1).Success? && locate(insee, refs[i].0, refs[i].1).value.Some?
          && intersect(locate(insee, refs[i].0, refs[i].1).value.value).Failure?)
  }

  /** The per-reference loop of the runners: one report per reference, in
      reference order, a placeholder for an unknown parcel; a lookup or an
      intersection that raises ends the whole batch. */
  function Batch(insee: string, refs: seq<(string, string)>,
                 locate: (string, string, string) -> Result<Option<Feature>>,
                 intersect: Feature -> Result<ParcelReport>): (r: Result<seq<ParcelReport>>)
    ensures r.Failure? <==> BatchRaises(insee, refs, locate, intersect)
    ensures r.Success? ==> |r.value| == |refs|
    ensures r.Success? ==> forall i | 0 <= i < |refs| :: ReportFor(insee, refs[i], locate, intersect, r.value[i])
  {
    if |refs| == 0 then Success([])
    else
      var (sec, num) := refs[0];
      var head: Result<ParcelReport> :=
        match locate(insee, sec, num)
        case Failure(e) => Failure(e)
        case Success(None) => Success(NotFoundReport(insee, sec, num))
        case Success(Some(f)) => intersect(f);
      var rest := Batch(insee, refs[1..], locate, intersect);
      assert forall i | 1 <= i < |refs| :: refs[i] == refs[1..][i - 1];
      if head.Failure? then Failure(head.error)
      else if rest.Failure? then Failure(rest.error)
      else
        var out := [head.value] + rest.value;
        assert forall i | 1 <= i < |refs| :: out[i] == rest.value[i - 1];
        Success(out)
  }

  /** The batch after a reference that gave a report. */
  lemma BatchCons(insee: string, refs: seq<(string, string)>,
                  locate: (string, string, string) -> Result<Option<Feature>>,
                  intersect: Feature -> Result<ParcelReport>, rep: ParcelReport)
    requires |refs| > 0 && ReportFor(insee, refs[0], locate, intersect, rep)
    ensures Batch(insee, refs, locate, intersect) == Prefixed([rep], Batch(insee, refs[1..], locate, intersect))
  {
  }

  /** The batch of references whose first one raises. */
  lemma BatchRaisesFirst(insee: string, refs: seq<(string, string)>,
                         locate: (string, string, string) -> Result<Option<Feature>>,
                         intersect: Feature -> Result<ParcelReport>)
    requires |refs| > 0
    requires locate(insee, refs[0].0, refs[0].1).Failure?
      || (locate(insee, refs[0].0, refs[0].1).Success? && locate(insee, refs[0].0, refs[0].1).value.Some?
          && intersect(locate(insee, refs[0].0, refs[0].1).value.value).Failure?)
    ensures Batch(insee, refs, locate, intersect).Failure?
  {
  }
}

=== FILE: runner.dfy ===
/** The command-line runner shared by both intersection variants: resolve
    the INSEE code, select the catalog layers, parse the parcel references,
    then report on every reference. The variants differ only in how one
    parcel is intersected, which is a parameter here. */
module Runner {
  import opened Wrappers
  import opened Text
  import opened Seqs
  import opened Assoc
  import opened Catalog
  import opened Insee
  import opened ParcelRefs
  import opened Reports

  /** The JSON document the runner writes. */
  datatype Output = Output(commune: string, departement: string, insee: string, reports: seq<ParcelReport>)

  function InSchemas(whitelist: seq<string>): Layer -> bool {
    (l: Layer) => l.schema in whitelist
  }

  /** The layers to intersect: all of them, or those of the listed schemas
      when a list is given. */
  function SelectLayers(layers: seq<Layer>, whitelist: seq<string>): (r: seq<Layer>)
    ensures |whitelist| == 0 ==> r == layers
    ensures forall l :: l in r <==> l in layers && (|whitelist| > 0 ==> l.schema in whitelist)
  {
    if |whitelist| == 0 then layers else Filter(layers, InSchemas(whitelist))
  }

  /** `run`: an INSEE code that is not resolved (or is empty) and a parcel
      text with no usable reference both raise before any parcel is looked
      up; otherwise one report per reference, in order. */
  function Run(csv: Result<Csv>, commune: string, departement: string,
               catalog: Assoc<string, Entry>, whitelist: seq<string>, parcel: string,
               locate: (string, string, string) -> Result<Option<Feature>>,
               intersect: (seq<Layer>, Feature) -> Result<ParcelReport>): (r: Result<Output>)
    ensures GetInseeFromCsv(csv, Strip(commune), Strip(departement)).Failure? ==> r.Failure?
    ensures GetInseeFromCsv(csv, Strip(commune), Strip(departement)) in {Success(None), Success(Some(""))} ==>
      r == Failure("Impossible de déterminer un code INSEE unique.")
    ensures GetInseeFromCsv(csv, Strip(commune), Strip(departement)).Success? && ParseParcelRefs(parcel) == [] ==>
      r.Failure?
    ensures r.Success? ==>
      GetInseeFromCsv(csv, Strip(commune), Strip(departement)) == Success(Some(r.value.insee))
      && r.value.insee != "" && r.value.commune == Strip(commune) && r.value.departement == Strip(departement)
    ensures r.Success? ==>
      var refs := ParseParcelRefs(parcel);
      var layers := SelectLayers(LoadLayerMap(catalog), whitelist);
      |refs| > 0 && |r.value.reports| == |refs|
      && forall i | 0 <= i < |refs| ::
        ReportFor(r.value.insee, refs[i], locate, f => intersect(layers, f), r.value.reports[i])
  {
    var found :- GetInseeFromCsv(csv, Strip(commune), Strip(departement));
    if found.None? || found.value == "" then Failure("Impossible de déterminer un code INSEE unique.")
    else
      var insee := found.value;
      var layers := SelectLayers(LoadLayerMap(catalog), whitelist);
      var refs := ParseParcelRefs(parcel);
      if |refs| == 0 then Failure("Aucune référence parcellaire valide fournie.")
      else
        var reports :- Batch(insee, refs, locate, f => intersect(layers, f));
        Success(Output(Strip(commune), Strip(departement), insee, reports))
  }
}

=== FILE: seqs.dfy ===
/** List comprehensions the pipeline relies on: `[x for x in s if p(x)]`,
    order-preserving de-duplication, and "exactly one row matches". */
module Seqs {
  import opened Wrappers

  function Filter<T>(s: seq<T>, p: T -> bool): (r: seq<T>)
    ensures |r| <= |s|
    ensures forall i | 0 <= i < |r| :: p(r[i]) && r[i] in s
    ensures forall i | 0 <= i < |s| :: p(s[i]) ==> s[i] in r
  {
    if |s| == 0 then []
    else (if p(s[0]) then [s[0]] else []) + Filter(s[1..], p)
  }

  /** Membership in a comprehension. */
  lemma FilterMembers<T>(s: seq<T>, p: T -> bool)
    ensures forall x :: x in Filter(s, p) <==> x in s && p(x)
  {
    var r := Filter(s, p);
    forall x | x in r ensures x in s && p(x) {
      var i :| 0 <= i < |r| && r[i] == x;
    }
    forall x | x in s && p(x) ensures x in r {
      var i :| 0 <= i < |s| && s[i] == x;
    }
  }

  lemma FilterConcat<T>(a: seq<T>, b: seq<T>, p: T -> bool)
    ensures Filter(a + b, p) == Filter(a, p) + Filter(b, p)
  {
    if |a| > 0 {
      FilterConcat(a[1..], b, p);
      assert (a + b)[0] == a[0];
      assert (a + b)[1..] == a[1..] + b;
    } else {
      assert a + b == b;
    }
  }

  /** `[f(x) for x in s]`. */
  function Map<A, B>(s: seq<A>, f: A -> B): (r: seq<B>)
    ensures |r| == |s|
    ensures forall i | 0 <= i < |s| :: r[i] == f(s[i])
  {
    if |s| == 0 then [] else [f(s[0])] + Map(s[1..], f)
  }

  lemma MapConcat<A, B>(a: seq<A>, b: seq<A>, f: A -> B)
    ensures Map(a + b, f) == Map(a, f) + Map(b, f)
  {
  }

  /** Mapping commutes with filtering when the filter on the images is
      the filter on the originals. */
  lemma {:induction false} MapFilter<A, B>(s: seq<A>, f: A -> B, p: A -> bool, q: B -> bool)
    requires forall x :: p(x) == q(f(x))
    ensures Map(Filter(s, p), f) == Filter(Map(s, f), q)
  {
    if |s| > 0 {
      MapFilter(s[1..], f, p, q);
      assert Map(s, f) == [f(s[0])] + Map(s[1..], f);
      assert Map(s, f)[1..] == Map(s[1..], f);
      var rest := Filter(s[1..], p);
      if p(s[0]) {
        assert Filter(s, p) == [s[0]] + rest;
        assert ([s[0]] + rest)[1..] == rest;
      }
    }
  }

  /** Index `i` is the one and only position whose element satisfies `p`. */
  predicate OnlyMatch<T>(s: seq<T>, p: T -> bool, i: int) {
    0 <= i < |s| && p(s[i]) && forall j | 0 <= j < |s| && j != i :: !p(s[j])
  }

  lemma {:induction false} FilterNone<T>(s: seq<T>, p: T -> bool)
    requires forall j | 0 <= j < |s| :: !p(s[j])
    ensures Filter(s, p) == []
  {
    if |s| > 0 {
      FilterNone(s[1..], p);
    }
  }

  /** Exactly one match is exactly a one-element comprehension. */
  lemma {:induction false} FilterSingleton<T>(s: seq<T>, p: T -> bool, i: int)
    requires OnlyMatch(s, p, i)
    ensures Filter(s, p) == [s[i]]
  {
    if i == 0 {
      FilterNone(s[1..], p);
    } else {
      assert OnlyMatch(s[1..], p, i - 1);
      FilterSingleton(s[1..], p, i - 1);
    }
  }

  lemma {:induction false} FilterSingletonBack<T>(s: seq<T>, p: T -> bool)
    requires |Filter(s, p)| == 1
    ensures exists i :: OnlyMatch(s, p, i) && Filter(s, p) == [s[i]]
  {
    if p(s[0]) {
      assert |Filter(s[1..], p)| == 0;
      forall j | 0 < j < |s| ensures !p(s[j]) {
        assert s[j] == s[1..][j - 1];
      }
      assert OnlyMatch(s, p, 0);
    } else {
      FilterSingletonBack(s[1..], p);
      var k :| OnlyMatch(s[1..], p, k) && Filter(s[1..], p) == [s[1..][k]];
      assert OnlyMatch(s, p, k + 1);
    }
  }

  /** The present elements of a list, in order: `[str(v) for v in vs if v is not None]`. */
  function Somes(vs: seq<Option<string>>): (r: seq<string>)
    ensures |r| <= |vs|
    ensures forall x :: x in r <==> Some(x) in vs
  {
    if |vs| == 0 then []
    else
      var rest := Somes(vs[1..]);
      assert forall o | o in vs :: o == vs[0] || o in vs[1..];
      (if vs[0].Some? then [vs[0].value] else []) + rest
  }

  predicate Present(o: Option<string>) {
    o.Some?
  }

  function PresentText(o: Option<string>): string {
    o.GetOr("")
  }

  /** `Somes` is the comprehension itself: the present elements, in order
      and with their repeats. */
  lemma {:induction false} SomesIsComprehension(vs: seq<Option<string>>)
    ensures Somes(vs) == Map(Filter(vs, Present), PresentText)
  {
    if |vs| > 0 {
      SomesIsComprehension(vs[1..]);
      var head := if Present(vs[0]) then [vs[0]] else [];
      assert Filter(vs, Present) == head + Filter(vs[1..], Present);
      MapConcat(head, Filter(vs[1..], Present), PresentText);
    }
  }

  /** The present elements of a concatenation. */
  lemma {:induction false} SomesConcat(a: seq<Option<string>>, b: seq<Option<string>>)
    ensures Somes(a + b) == Somes(a) + Somes(b)
  {
    SomesIsComprehension(a);
    SomesIsComprehension(b);
    SomesIsComprehension(a + b);
    FilterConcat(a, b, Present);
    MapConcat(Filter(a, Present), Filter(b, Present), PresentText);
  }

  /** Order-preserving de-duplication: first occurrences, in input order. */
  function Dedup<T(==,!new)>(s: seq<T>): (r: seq<T>)
    ensures forall i, j | 0 <= i < j < |r| :: r[i] != r[j]
    ensures forall x :: x in r <==> x in s
  {
    DedupFrom(s, [])
  }

  /** De-duplication continuing after the elements already `seen`. */
  function DedupFrom<T(==,!new)>(s: seq<T>, seen: seq<T>): (r: seq<T>)
    ensures forall i, j | 0 <= i < j < |r| :: r[i] != r[j]
    ensures forall x :: x in r <==> x in s && x !in seen
  {
    if |s| == 0 then []
    else if s[0] in seen then DedupFrom(s[1..], seen)
    else
      var rest := DedupFrom(s[1..], seen + [s[0]]);
      assert s[0] !in rest;
      var r := [s[0]] + rest;
      assert forall j | 0 < j < |r| :: r[j] == rest[j - 1];
      r
  }

  lemma ConcatAssoc<T>(a: seq<T>, b: seq<T>, c: seq<T>)
    ensures a + (b + c) == (a + b) + c
  {
  }

  /** One step of de-duplication. */
  lemma DedupFromCons<T(!new)>(x: T, s: seq<T>, seen: seq<T>)
    ensures DedupFrom([x] + s, seen) == if x in seen then DedupFrom(s, seen) else [x] + DedupFrom(s, seen + [x])
  {
    assert ([x] + s)[0] == x && ([x] + s)[1..] == s;
  }

  /** Appending one element to the input appends it to the output exactly
      when it is new. */
  lemma {:induction false} DedupFromSnoc<T(!new)>(s: seq<T>, x: T, seen: seq<T>)
    ensures DedupFrom(s + [x], seen) ==
      if x in s || x in seen then DedupFrom(s, seen) else DedupFrom(s, seen) + [x]
  {
    if |s| == 0 {
      assert s + [x] == [x] + s;
      DedupFromCons(x, s, seen);
    } else {
      assert s + [x] == [s[0]] + (s[1..] + [x]);
      assert s == [s[0]] + s[1..];
      DedupFromCons(s[0], s[1..] + [x], seen);
      DedupFromCons(s[0], s[1..], seen);
      if s[0] in seen {
        DedupFromSnoc(s[1..], x, seen);
      } else {
        DedupFromSnoc(s[1..], x, seen + [s[0]]);
      }
    }
  }

  lemma DedupSnoc<T(!new)>(s: seq<T>, x: T)
    ensures Dedup(s + [x]) == if x in s then Dedup(s) else Dedup(s) + [x]
  {
    DedupFromSnoc(s, x, []);
  }

  /** Without repeats there is nothing to remove. */
  lemma {:induction false} DedupDistinct<T(!new)>(s: seq<T>, seen: seq<T>)
    requires forall i, j | 0 <= i < j < |s| :: s[i] != s[j]
    requires forall i | 0 <= i < |s| :: s[i] !in seen
    ensures DedupFrom(s, seen) == s
  {
    if |s| > 0 {
      DedupDistinct(s[1..], seen + [s[0]]);
    }
  }

  // ------------------------------------------- nested comprehensions

  /** `[f(a, b) for b in bs]`. */
  function Row<A, B, C>(a: A, bs: seq<B>, f: (A, B) -> C): (r: seq<C>)
    ensures |r| == |bs|
  {
    if |bs| == 0 then [] else [f(a, bs[0])] + Row(a, bs[1..], f)
  }

  /** `[f(a, b) for a in as_ for b in bs]`. */
  function Grid<A, B, C>(as_: seq<A>, bs: seq<B>, f: (A, B) -> C): (r: seq<C>)
    ensures |r| == |as_| * |bs|
  {
    if |as_| == 0 then [] else Row(as_[0], bs, f) + Grid(as_[1..], bs, f)
  }

  lemma {:induction false} RowFrom<A, B, C>(a: A, bs: seq<B>, f: (A, B) -> C, x: C)
    requires x in Row(a, bs, f)
    ensures exists j | 0 <= j < |bs| :: x == f(a, bs[j])
  {
    if x != f(a, bs[0]) {
      RowFrom(a, bs[1..], f, x);
      var j :| 0 <= j < |bs[1..]| && x == f(a, bs[1..][j]);
      assert bs[1..][j] == bs[j + 1];
    }
  }

  lemma {:induction false} RowHas<A, B, C>(a: A, bs: seq<B>, f: (A, B) -> C, j: nat)
    requires j < |bs|
    ensures f(a, bs[j]) in Row(a, bs, f)
  {
    if j > 0 {
      RowHas(a, bs[1..], f, j - 1);
      assert bs[1..][j - 1] == bs[j];
    }
  }

  lemma {:induction false} GridFrom<A, B, C>(as_: seq<A>, bs: seq<B>, f: (A, B) -> C, x: C)
    requires x in Grid(as_, bs, f)
    ensures exists i, j | 0 <= i < |as_| && 0 <= j < |bs| :: x == f(as_[i], bs[j])
  {
    if x in Row(as_[0], bs, f) {
      RowFrom(as_[0], bs, f, x);
      var j :| 0 <= j < |bs| && x == f(as_[0], bs[j]);
      assert 0 < |as_| && x == f(as_[0], bs[j]);
    } else {
      GridFrom(as_[1..], bs, f, x);
      var i, j :| 0 <= i < |as_[1..]| && 0 <= j < |bs| && x == f(as_[1..][i], bs[j]);
      assert as_[1..][i] == as_[i + 1];
    }
  }

  lemma {:induction false} GridHas<A, B, C>(as_: seq<A>, bs: seq<B>, f: (A, B) -> C, i: nat, j: nat)
    requires i < |as_| && j < |bs|
    ensures f(as_[i], bs[j]) in Grid(as_, bs, f)
  {
    if i == 0 {
      RowHas(as_[0], bs, f, j);
    } else {
      GridHas(as_[1..], bs, f, i - 1, j);
      assert as_[1..][i - 1] == as_[i];
    }
  }

  /** The grid holds exactly the images of a pair of elements. */
  lemma GridMembers<A, B, C>(as_: seq<A>, bs: seq<B>, f: (A, B) -> C, x: C)
    ensures x in Grid(as_, bs, f) <==> exists i, j | 0 <= i < |as_| && 0 <= j < |bs| :: x == f(as_[i], bs[j])
  {
    if x in Grid(as_, bs, f) {
      GridFrom(as_, bs, f, x);
    }
    if exists i, j | 0 <= i < |as_| && 0 <= j < |bs| :: x == f(as_[i], bs[j]) {
      var i, j :| 0 <= i < |as_| && 0 <= j < |bs| && x == f(as_[i], bs[j]);
      GridHas(as_, bs, f, i, j);
    }
  }

  /** A prefix holds no element more often than the whole. */
  lemma PrefixSubMultiset<T>(s: seq<T>, n: nat)
    requires n <= |s|
    ensures multiset(s[..n]) <= multiset(s)
  {
    assert s == s[..n] + s[n..];
  }
}

=== FILE: sorting.dfy ===
/** Python's stable `sorted(xs, key=...)` as a stable insertion sort over a
    "sorts no later than" relation, plus the lexicographic order Python uses
    to compare strings and tuples of strings. */
module Sorting {

  /** Adjacent elements are in `le` order. */
  predicate SortedBy<T>(s: seq<T>, le: (T, T) -> bool) {
    forall i | 0 <= i < |s| - 1 :: le(s[i], s[i + 1])
  }

  ghost predicate Total<T(!new)>(le: (T, T) -> bool) {
    forall a: T, b: T :: le(a, b) || le(b, a)
  }

  ghost predicate Transitive<T(!new)>(le: (T, T) -> bool) {
    forall a: T, b: T, c: T :: le(a, b) && le(b, c) ==> le(a, c)
  }

  /** Inserts `x` in front of the first element it sorts no later than, so
      that `x` stays ahead of the equal elements that came after it. */
  function InsertBy<T(!new)>(x: T, t: seq<T>, le: (T, T) -> bool): (r: seq<T>)
    ensures |r| == |t| + 1
    ensures multiset(r) == multiset(t) + multiset{x}
    ensures r[0] == x || (|t| > 0 && r[0] == t[0])
  {
    if |t| == 0 then [x]
    else if le(x, t[0]) then [x] + t
    else
      var rest := InsertBy(x, t[1..], le);
      assert t == [t[0]] + t[1..];
      [t[0]] + rest
  }

  /** Inserting into an ordered sequence keeps it ordered. */
  lemma {:induction false} InsertBySorted<T(!new)>(x: T, t: seq<T>, le: (T, T) -> bool)
    requires Total(le) && SortedBy(t, le)
    ensures SortedBy(InsertBy(x, t, le), le)
  {
    if |t| > 0 && !le(x, t[0]) {
      assert SortedBy(t[1..], le);
      InsertBySorted(x, t[1..], le);
    }
  }

  /** Stable sort: a permutation of `s`, ordered when `le` is total. */
  function SortBy<T(!new)>(s: seq<T>, le: (T, T) -> bool): (r: seq<T>)
    ensures |r| == |s|
    ensures multiset(r) == multiset(s)
    ensures Total(le) ==> SortedBy(r, le)
  {
    if |s| == 0 then []
    else
      assert s == [s[0]] + s[1..];
      var t := SortBy(s[1..], le);
      assert Total(le) ==> SortedBy(InsertBy(s[0], t, le), le) by {
        if Total(le) { InsertBySorted(s[0], t, le); }
      }
      InsertBy(s[0], t, le)
  }

  /** Sorting an already ordered sequence changes nothing. */
  lemma {:induction false} SortBySorted<T(!new)>(s: seq<T>, le: (T, T) -> bool)
    requires SortedBy(s, le)
    ensures SortBy(s, le) == s
  {
    if |s| > 0 {
      assert SortedBy(s[1..], le);
      SortBySorted(s[1..], le);
      assert s == [s[0]] + s[1..];
    }
  }

  /** With a transitive relation, adjacent order gives order of every pair. */
  lemma {:induction false} SortedPairwise<T(!new)>(s: seq<T>, le: (T, T) -> bool, i: int, j: int)
    requires Transitive(le) && SortedBy(s, le)
    requires 0 <= i < j < |s|
    ensures le(s[i], s[j])
    decreases j - i
  {
    if j > i + 1 {
      SortedPairwise(s, le, i + 1, j);
    }
  }

  // ------------------------------------------------- lexicographic order

  /** Python's `a <= b` on strings: code-point lexicographic order. */
  predicate LexLe(a: string, b: string)
    decreases |a|
  {
    |a| == 0 || (|b| > 0 && (a[0] < b[0] || (a[0] == b[0] && LexLe(a[1..], b[1..]))))
  }

  lemma {:induction false} LexLeTotal(a: string, b: string)
    ensures LexLe(a, b) || LexLe(b, a)
    decreases |a|
  {
    if |a| > 0 && |b| > 0 && a[0] == b[0] {
      LexLeTotal(a[1..], b[1..]);
    }
  }

  lemma {:induction false} LexLeTrans(a: string, b: string, c: string)
    requires LexLe(a, b) && LexLe(b, c)
    ensures LexLe(a, c)
    decreases |a|
  {
    if |a| > 0 && a[0] == b[0] && b[0] == c[0] {
      LexLeTrans(a[1..], b[1..], c[1..]);
    }
  }

  lemma {:induction false} LexLeAntisym(a: string, b: string)
    requires LexLe(a, b) && LexLe(b, a)
    ensures a == b
    decreases |a|
  {
    if |a| > 0 {
      LexLeAntisym(a[1..], b[1..]);
      assert a == [a[0]] + a[1..];
      assert b == [b[0]] + b[1..];
    }
  }

  lemma LexLeRefl(a: string)
    ensures LexLe(a, a)
    decreases |a|
  {
    if |a| > 0 {
      LexLeRefl(a[1..]);
    }
  }

  /** Python's `a < b` on strings. */
  predicate LexLt(a: string, b: string) {
    LexLe(a, b) && a != b
  }

  function LexLeFn(): (string, string) -> bool {
    (a: string, b: string) => LexLe(a, b)
  }

  lemma LexLeOrder()
    ensures Total(LexLeFn()) && Transitive(LexLeFn())
  {
    forall a: string, b: string ensures LexLeFn()(a, b) || LexLeFn()(b, a) {
      LexLeTotal(a, b);
    }
    forall a: string, b: string, c: string | LexLeFn()(a, b) && LexLeFn()(b, c) ensures LexLeFn()(a, c) {
      LexLeTrans(a, b, c);
    }
  }

  // ---------------------------------------------------------- distinctness

  predicate Distinct<T(==)>(s: seq<T>) {
    forall i, j | 0 <= i < j < |s| :: s[i] != s[j]
  }

  lemma {:induction false} DistinctCount<T>(s: seq<T>, x: T)
    requires Distinct(s)
    ensures multiset(s)[x] <= 1
  {
    if |s| > 0 {
      assert s == [s[0]] + s[1..];
      assert Distinct(s[1..]);
      DistinctCount(s[1..], x);
      if x == s[0] {
        assert x !in s[1..];
      }
    }
  }

  lemma RepeatCount<T>(s: seq<T>, i: nat, j: nat)
    requires i < j < |s| && s[i] == s[j]
    ensures multiset(s)[s[i]] >= 2
  {
    assert s == s[..j] + s[j..];
    assert s[..j][i] == s[i];
    assert s[j..][0] == s[i];
    assert multiset(s[..j])[s[i]] >= 1;
    assert multiset(s[j..])[s[i]] >= 1;
  }

  /** A permutation of distinct elements has distinct elements. */
  lemma DistinctPerm<T>(a: seq<T>, b: seq<T>)
    requires Distinct(a) && multiset(a) == multiset(b)
    ensures Distinct(b)
  {
    forall i, j | 0 <= i < j < |b| ensures b[i] != b[j] {
      if b[i] == b[j] {
        RepeatCount(b, i, j);
        DistinctCount(a, b[i]);
      }
    }
  }

  /** Sorting distinct strings gives them in strictly increasing order. */
  lemma SortStrings(s: seq<string>)
    requires Distinct(s)
    ensures var r := SortBy(s, LexLeFn());
      (forall i, j | 0 <= i < j < |r| :: LexLt(r[i], r[j])) && (forall x :: x in r <==> x in s)
  {
    var r := SortBy(s, LexLeFn());
    LexLeOrder();
    DistinctPerm(s, r);
    forall i, j | 0 <= i < j < |r| ensures LexLt(r[i], r[j]) {
      SortedPairwise(r, LexLeFn(), i, j);
    }
    forall x ensures x in r <==> x in s {
      assert x in r <==> x in multiset(r);
      assert x in s <==> x in multiset(s);
    }
  }

  // ------------------------------------------------ tuples and lengths

  /** Python's `a <= b` on pairs of strings: by first, then by second. */
  predicate PairLe(a: (string, string), b: (string, string)) {
    LexLt(a.0, b.0) || (a.0 == b.0 && LexLe(a.1, b.1))
  }

  predicate PairLt(a: (string, string), b: (string, string)) {
    PairLe(a, b) && a != b
  }

  function PairLeFn(): ((string, string), (string, string)) -> bool {
    (a: (string, string), b: (string, string)) => PairLe(a, b)
  }

  lemma PairLeOrder()
    ensures Total(PairLeFn()) && Transitive(PairLeFn())
  {
    forall a: (string, string), b: (string, string) ensures PairLeFn()(a, b) || PairLeFn()(b, a) {
      LexLeTotal(a.0, b.0);
      LexLeTotal(a.1, b.1);
    }
    forall a: (string, string), b: (string, string), c: (string, string) | PairLeFn()(a, b) && PairLeFn()(b, c)
      ensures PairLeFn()(a, c)
    {
      if a.0 == b.0 && b.0 == c.0 {
        LexLeTrans(a.1, b.1, c.1);
      } else if a.0 == b.0 {
      } else if b.0 == c.0 {
      } else {
        LexLeTrans(a.0, b.0, c.0);
        if a.0 == c.0 {
          LexLeAntisym(a.0, b.0);
        }
      }
    }
  }

  /** Sorting distinct pairs gives them in strictly increasing order. */
  lemma SortPairs(s: seq<(string, string)>)
    requires Distinct(s)
    ensures var r := SortBy(s, PairLeFn());
      (forall i, j | 0 <= i < j < |r| :: PairLt(r[i], r[j])) && (forall x :: x in r <==> x in s)
  {
    var r := SortBy(s, PairLeFn());
    PairLeOrder();
    DistinctPerm(s, r);
    forall i, j | 0 <= i < j < |r| ensures PairLt(r[i], r[j]) {
      SortedPairwise(r, PairLeFn(), i, j);
    }
    forall x ensures x in r <==> x in s {
      assert x in r <==> x in multiset(r);
      assert x in s <==> x in multiset(s);
    }
  }

  /** The order of `key=lambda x: (len(x), x)`: shorter first, then text. */
  predicate ShortLexLe(a: string, b: string) {
    |a| < |b| || (|a| == |b| && LexLe(a, b))
  }

  function ShortLexLeFn(): (string, string) -> bool {
    (a: string, b: string) => ShortLexLe(a, b)
  }

  lemma ShortLexLeOrder()
    ensures Total(ShortLexLeFn()) && Transitive(ShortLexLeFn())
  {
    forall a: string, b: string ensures ShortLexLeFn()(a, b) || ShortLexLeFn()(b, a) {
      LexLeTotal(a, b);
    }
    forall a: string, b: string, c: string | ShortLexLeFn()(a, b) && ShortLexLeFn()(b, c)
      ensures ShortLexLeFn()(a, c)
    {
      if |a| == |b| == |c| {
        LexLeTrans(a, b, c);
      }
    }
  }
}

=== FILE: text.dfy ===
/** Python string primitives used by the pipeline, stated over `seq<char>`:
    `strip`, `split()`, `split(sep)`, `join`, `upper`/`lower`, `zfill`,
    `isdigit`, `startswith`, `in` (substring) and slicing from the end.
    Whitespace is the ASCII set; case mapping covers ASCII and Latin-1. */
module Text {
  import opened Wrappers

  // ---------------------------------------------------------------- chars

  predicate IsSpace(c: char) {
    c == ' ' || c == '\t' || c == '\n' || c == '\r' || c == '\U{000B}' || c == '\U{000C}'
  }

  predicate NoSpace(s: string) {
    forall i | 0 <= i < |s| :: !IsSpace(s[i])
  }

  predicate IsDigit(c: char) {
    '0' <= c <= '9'
  }

  /** Python's `str.isdigit()`: non-empty and every character a digit. */
  predicate IsDigits(s: string) {
    |s| > 0 && forall i | 0 <= i < |s| :: IsDigit(s[i])
  }

  predicate IsUpperAlnum(c: char) {
    ('0' <= c <= '9') || ('A' <= c <= 'Z')
  }

  function UpperChar(c: char): char {
    if 'a' <= c <= 'z' then (c as int - 32) as char
    else if '\U{00E0}' <= c <= '\U{00FE}' && c != '\U{00F7}' then (c as int - 32) as char
    else c
  }

  function LowerChar(c: char): char {
    if 'A' <= c <= 'Z' then (c as int + 32) as char
    else if '\U{00C0}' <= c <= '\U{00DE}' && c != '\U{00D7}' then (c as int + 32) as char
    else c
  }

  lemma UpperCharFacts(c: char)
    ensures UpperChar(UpperChar(c)) == UpperChar(c)
    ensures IsSpace(UpperChar(c)) <==> IsSpace(c)
    ensures UpperChar(c) == ',' <==> c == ','
    ensures IsDigit(UpperChar(c)) <==> IsDigit(c)
  {
  }

  // -------------------------------------------------------------- strings

  function Upper(s: string): (r: string)
    ensures |r| == |s|
    ensures forall i | 0 <= i < |s| :: r[i] == UpperChar(s[i])
  {
    if |s| == 0 then "" else [UpperChar(s[0])] + Upper(s[1..])
  }

  function Lower(s: string): (r: string)
    ensures |r| == |s|
    ensures forall i | 0 <= i < |s| :: r[i] == LowerChar(s[i])
  {
    if |s| == 0 then "" else [LowerChar(s[0])] + Lower(s[1..])
  }

  lemma UpperIdempotent(s: string)
    ensures Upper(Upper(s)) == Upper(s)
  {
    forall i | 0 <= i < |s| ensures Upper(Upper(s))[i] == Upper(s)[i] {
      UpperCharFacts(s[i]);
    }
  }

  /** Upper-casing neither creates nor removes whitespace or commas. */
  lemma UpperKeepsShape(s: string)
    ensures NoSpace(s) ==> NoSpace(Upper(s))
    ensures ',' !in s ==> ',' !in Upper(s)
    ensures |Upper(s)| == |s|
  {
    forall i | 0 <= i < |s| ensures (!IsSpace(s[i]) ==> !IsSpace(Upper(s)[i])) && (s[i] != ',' ==> Upper(s)[i] != ',') {
      UpperCharFacts(s[i]);
    }
  }

  function StartsWith(s: string, p: string): bool {
    |p| <= |s| && s[..|p|] == p
  }

  lemma StartsWithConcat(p: string, rest: string)
    ensures StartsWith(p + rest, p)
  {
    assert (p + rest)[..|p|] == p;
  }

  /** Python truthiness of an optional text. */
  predicate Given(s: Option<string>) {
    s.Some? && s.value != ""
  }

  /** `s or d`. */
  function Or(s: Option<string>, d: string): (r: string)
    ensures d != "" ==> r != ""
  {
    if Given(s) then s.value else d
  }

  /** Python's `sub in s`. */
  function Contains(s: string, sub: string): (b: bool)
    ensures b ==> |sub| <= |s|
    decreases |s|
  {
    StartsWith(s, sub) || (|s| > 0 && Contains(s[1..], sub))
  }

  /** Python's `s[-n:]` for `n > 0`. */
  function Suffix(s: string, n: nat): (r: string)
    ensures |r| == if |s| <= n then |s| else n
    ensures r == s[|s| - |r|..]
  {
    if |s| <= n then s else s[|s| - n..]
  }

  function StripLeft(s: string): (r: string)
    ensures |r| <= |s| && r == s[|s| - |r|..]
    ensures |r| == 0 || !IsSpace(r[0])
    ensures forall i | 0 <= i < |s| - |r| :: IsSpace(s[i])
  {
    if |s| > 0 && IsSpace(s[0]) then StripLeft(s[1..]) else s
  }

  function StripRight(s: string): (r: string)
    ensures |r| <= |s| && r == s[..|r|]
    ensures |r| == 0 || !IsSpace(r[|r| - 1])
    ensures forall i | |r| <= i < |s| :: IsSpace(s[i])
  {
    if |s| > 0 && IsSpace(s[|s| - 1]) then StripRight(s[..|s| - 1]) else s
  }

  /** Python's `str.strip()`. */
  function Strip(s: string): (r: string)
    ensures |r| <= |s|
    ensures |r| == 0 || (!IsSpace(r[0]) && !IsSpace(r[|r| - 1]))
  {
    StripRight(StripLeft(s))
  }

  lemma StripNoSpace(s: string)
    requires |s| == 0 || (!IsSpace(s[0]) && !IsSpace(s[|s| - 1]))
    ensures Strip(s) == s
  {
  }

  lemma StripIdempotent(s: string)
    ensures Strip(Strip(s)) == Strip(s)
  {
    StripNoSpace(Strip(s));
  }

  /** Longest prefix free of whitespace. */
  function TakeWord(s: string): (w: string)
    ensures |w| <= |s| && w == s[..|w|] && NoSpace(w)
    ensures |w| == |s| || IsSpace(s[|w|])
  {
    if |s| == 0 || IsSpace(s[0]) then "" else [s[0]] + TakeWord(s[1..])
  }

  /** Python's `str.split()` with no argument: the maximal whitespace-free runs. */
  function Words(s: string): (r: seq<string>)
    ensures forall i | 0 <= i < |r| :: |r[i]| > 0 && NoSpace(r[i])
    decreases |s|
  {
    if |s| == 0 then []
    else if IsSpace(s[0]) then Words(s[1..])
    else
      var w := TakeWord(s);
      [w] + Words(s[|w|..])
  }

  lemma {:induction false} TakeWordOfWord(a: string, rest: string)
    requires NoSpace(a)
    requires |rest| == 0 || IsSpace(rest[0])
    ensures TakeWord(a + rest) == a
    decreases |a|
  {
    if |a| > 0 {
      assert (a + rest)[1..] == a[1..] + rest;
      TakeWordOfWord(a[1..], rest);
    }
  }

  lemma WordsOfWord(a: string)
    requires |a| > 0 && NoSpace(a)
    ensures Words(a) == [a]
  {
    TakeWordOfWord(a, "");
    assert a + "" == a;
  }

  lemma WordsLeadingSpace(x: string)
    ensures Words(" " + x) == Words(x)
  {
    assert (" " + x)[1..] == x;
  }

  lemma {:induction false} WordsOfWordThen(a: string, rest: string)
    requires |a| > 0 && NoSpace(a)
    requires |rest| == 0 || IsSpace(rest[0])
    ensures Words(a + rest) == [a] + Words(rest)
  {
    var s := a + rest;
    assert s[0] == a[0];
    TakeWordOfWord(a, rest);
    assert s[|a|..] == rest;
  }

  /** Leading blanks add no word. */
  lemma {:induction false} StripLeftWords(s: string)
    ensures Words(StripLeft(s)) == Words(s)
    decreases |s|
  {
    if |s| > 0 && IsSpace(s[0]) {
      StripLeftWords(s[1..]);
    }
  }

  lemma {:induction false} TakeWordSpaceAfter(t: string, c: char)
    requires IsSpace(c)
    ensures TakeWord(t + [c]) == TakeWord(t)
    decreases |t|
  {
    if |t| > 0 && !IsSpace(t[0]) {
      assert (t + [c])[1..] == t[1..] + [c];
      TakeWordSpaceAfter(t[1..], c);
    }
  }

  /** A trailing blank adds no word. */
  lemma {:induction false} TrailingSpaceWords(t: string, c: char)
    requires IsSpace(c)
    ensures Words(t + [c]) == Words(t)
    decreases |t|
  {
    var s := t + [c];
    if |t| == 0 {
      assert s[1..] == [];
    } else if IsSpace(t[0]) {
      assert s[1..] == t[1..] + [c];
      TrailingSpaceWords(t[1..], c);
    } else {
      var w := TakeWord(t);
      TakeWordSpaceAfter(t, c);
      assert s[|w|..] == t[|w|..] + [c];
      TrailingSpaceWords(t[|w|..], c);
    }
  }

  /** Trailing blanks add no word. */
  lemma {:induction false} StripRightWords(s: string)
    ensures Words(StripRight(s)) == Words(s)
    decreases |s|
  {
    if |s| > 0 && IsSpace(s[|s| - 1]) {
      var t := s[..|s| - 1];
      StripRightWords(t);
      assert s == t + [s[|s| - 1]];
      TrailingSpaceWords(t, s[|s| - 1]);
    }
  }

  /** `s.strip().split() == s.split()`. */
  lemma StripWords(s: string)
    ensures Words(Strip(s)) == Words(s)
  {
    StripRightWords(StripLeft(s));
    StripLeftWords(s);
  }

  /** `"AD 0598".split() == ["AD", "0598"]`. */
  lemma WordsOfPair(a: string, b: string)
    requires |a| > 0 && NoSpace(a)
    requires |b| > 0 && NoSpace(b)
    ensures Words(a + " " + b) == [a, b]
  {
    var s := a + " " + b;
    var tail := " " + b;
    assert s == a + tail;
    assert tail[0] == ' ';
    WordsOfWordThen(a, tail);
    WordsLeadingSpace(b);
    WordsOfWord(b);
    assert Words(s) == [a] + Words(tail);
  }

  /** Every character of `s` satisfies `p`. */
  predicate AllChars(s: string, p: char -> bool) {
    forall i | 0 <= i < |s| :: p(s[i])
  }

  /** The words of a text are made of its characters. */
  lemma {:induction false} WordsChars(s: string, p: char -> bool)
    requires AllChars(s, p)
    ensures forall i | 0 <= i < |Words(s)| :: AllChars(Words(s)[i], p)
    decreases |s|
  {
    if |s| > 0 && IsSpace(s[0]) {
      AllCharsSlice(s, 1, |s|, p);
      WordsChars(s[1..], p);
    } else if |s| > 0 {
      var w := TakeWord(s);
      var u := s[|w|..];
      AllCharsSlice(s, 0, |w|, p);
      AllCharsSlice(s, |w|, |s|, p);
      WordsChars(u, p);
      AllCharsCons(w, Words(u), p);
    }
  }

  lemma AllCharsSlice(s: string, i: int, j: int, p: char -> bool)
    requires 0 <= i <= j <= |s| && AllChars(s, p)
    ensures AllChars(s[i..j], p)
  {
    assert forall k | 0 <= k < j - i :: s[i..j][k] == s[i + k];
  }

  lemma AllCharsCons(w: string, ws: seq<string>, p: char -> bool)
    requires AllChars(w, p)
    requires forall i | 0 <= i < |ws| :: AllChars(ws[i], p)
    ensures forall i | 0 <= i < |[w] + ws| :: AllChars(([w] + ws)[i], p)
  {
  }

  /** Python's `" ".join(s.split())`: words separated by single spaces. */
  function CollapseSpaces(s: string): (r: string)
    ensures Words(r) == Words(s)
  {
    WordsOfJoin(Words(s));
    JoinSep(Words(s), " ")
  }

  lemma JoinSepCons(ws: seq<string>, sep: string)
    requires |ws| >= 2
    ensures JoinSep(ws, sep) == ws[0] + (sep + JoinSep(ws[1..], sep))
  {
  }

  /** Joining space-free words with single spaces and splitting again gives
      the words back. */
  lemma {:induction false} WordsOfJoin(ws: seq<string>)
    requires forall i | 0 <= i < |ws| :: |ws[i]| > 0 && NoSpace(ws[i])
    ensures Words(JoinSep(ws, " ")) == ws
  {
    if |ws| == 0 {
    } else if |ws| == 1 {
      WordsOfWord(ws[0]);
    } else {
      var head, tail := ws[0], ws[1..];
      assert [head] + tail == ws;
      var rest := JoinSep(tail, " ");
      WordsOfJoin(tail);
      JoinSepCons(ws, " ");
      WordsOfWordThen(head, " " + rest);
      WordsLeadingSpace(rest);
    }
  }

  lemma CollapseSpacesIdempotent(s: string)
    ensures CollapseSpaces(CollapseSpaces(s)) == CollapseSpaces(s)
  {
  }

  /** Joining keeps a character property when the separator has it too. */
  lemma {:induction false} JoinChars(ws: seq<string>, sep: string, p: char -> bool)
    requires AllChars(sep, p)
    requires forall i | 0 <= i < |ws| :: AllChars(ws[i], p)
    ensures AllChars(JoinSep(ws, sep), p)
  {
    if |ws| > 1 {
      JoinChars(ws[1..], sep, p);
      var j := JoinSep(ws[1..], sep);
      assert JoinSep(ws, sep) == ws[0] + sep + j;
      forall k | 0 <= k < |ws[0] + sep + j| ensures p((ws[0] + sep + j)[k]) {
        if k < |ws[0]| {
        } else if k < |ws[0]| + |sep| {
          assert (ws[0] + sep + j)[k] == sep[k - |ws[0]|];
        } else {
          assert (ws[0] + sep + j)[k] == j[k - |ws[0]| - |sep|];
        }
      }
    }
  }

  /** Python's `str.split(sep)` for a one-character separator: never empty. */
  function SplitOn(s: string, c: char): (r: seq<string>)
    ensures |r| >= 1
    ensures forall i | 0 <= i < |r| :: c !in r[i]
  {
    if |s| == 0 then [""]
    else if s[0] == c then [""] + SplitOn(s[1..], c)
    else
      var rest := SplitOn(s[1..], c);
      [[s[0]] + rest[0]] + rest[1..]
  }

  /** Python's `sep.join(parts)`. */
  function JoinSep(parts: seq<string>, sep: string): string {
    if |parts| == 0 then ""
    else if |parts| == 1 then parts[0]
    else parts[0] + sep + JoinSep(parts[1..], sep)
  }

  /** A join starts with its first part. */
  lemma JoinSepHead(parts: seq<string>, sep: string)
    requires |parts| > 0
    ensures |JoinSep(parts, sep)| >= |parts[0]|
    ensures JoinSep(parts, sep)[..|parts[0]|] == parts[0]
  {
    if |parts| > 1 {
      assert JoinSep(parts, sep) == parts[0] + (sep + JoinSep(parts[1..], sep));
    }
  }

  /** Splitting and re-joining on the same separator gives the text back. */
  lemma {:induction false} SplitJoin(s: string, c: char)
    ensures JoinSep(SplitOn(s, c), [c]) == s
    decreases |s|
  {
    if |s| == 0 {
    } else if s[0] == c {
      SplitJoin(s[1..], c);
      var rest := SplitOn(s[1..], c);
      assert SplitOn(s, c) == [""] + rest;
      if |rest| == 1 {
        assert JoinSep([""] + rest, [c]) == "" + [c] + rest[0];
      } else {
        assert ([""] + rest)[1..] == rest;
      }
      assert s == [c] + s[1..];
    } else {
      SplitJoin(s[1..], c);
      var rest := SplitOn(s[1..], c);
      var r := [[s[0]] + rest[0]] + rest[1..];
      assert SplitOn(s, c) == r;
      if |rest| == 1 {
        assert JoinSep(r, [c]) == [s[0]] + rest[0];
      } else {
        assert r[1..] == rest[1..];
        assert JoinSep(rest, [c]) == rest[0] + [c] + JoinSep(rest[1..], [c]);
      }
      assert s == [s[0]] + s[1..];
    }
  }

  lemma {:induction false} SplitOnNoSep(a: string, c: char)
    requires c !in a
    ensures SplitOn(a, c) == [a]
    decreases |a|
  {
    if |a| > 0 {
      SplitOnNoSep(a[1..], c);
      assert a == [a[0]] + a[1..];
    }
  }

  lemma {:induction false} SplitOnConcat(a: string, c: char, b: string)
    requires c !in a
    ensures SplitOn(a + [c] + b, c) == [a] + SplitOn(b, c)
    decreases |a|
  {
    var s := a + [c] + b;
    if |a| == 0 {
      assert s == [c] + b;
      assert s[1..] == b;
    } else {
      assert s[1..] == a[1..] + [c] + b;
      SplitOnConcat(a[1..], c, b);
      assert [a[0]] + a[1..] == a;
    }
  }

  /** Joining comma-free parts and splitting again gives the parts back. */
  lemma {:induction false} JoinSplit(parts: seq<string>, c: char)
    requires |parts| >= 1
    requires forall i | 0 <= i < |parts| :: c !in parts[i]
    ensures SplitOn(JoinSep(parts, [c]), c) == parts
  {
    if |parts| == 1 {
      SplitOnNoSep(parts[0], c);
    } else {
      JoinSplit(parts[1..], c);
      SplitOnConcat(parts[0], c, JoinSep(parts[1..], [c]));
      assert parts == [parts[0]] + parts[1..];
    }
  }

  function Zeros(n: nat): (r: string)
    ensures |r| == n
    ensures forall i | 0 <= i < n :: r[i] == '0'
  {
    if n == 0 then "" else "0" + Zeros(n - 1)
  }

  /** Python's `str.zfill(width)`: left-pad with '0' to `width`, keeping a
      leading sign in front of the padding. */
  function ZFill(s: string, width: nat): (r: string)
    ensures |r| == if |s| >= width then |s| else width
    ensures |s| >= width ==> r == s
    ensures |s| > 0 && !(s[0] == '+' || s[0] == '-') ==> r[|r| - |s|..] == s
    ensures NoSpace(s) ==> NoSpace(r)
    ensures ',' !in s ==> ',' !in r
  {
    if |s| >= width then s
    else if |s| > 0 && (s[0] == '+' || s[0] == '-') then [s[0]] + Zeros(width - |s|) + s[1..]
    else Zeros(width - |s|) + s
  }

  lemma ZFillIdempotent(s: string, width: nat)
    ensures ZFill(ZFill(s, width), width) == ZFill(s, width)
  {
  }

  /** Python's `s.lstrip(c)` for one character. */
  function LStripChar(s: string, c: char): (r: string)
    ensures |r| <= |s| && r == s[|s| - |r|..]
    ensures |r| == 0 || r[0] != c
    ensures forall i | 0 <= i < |s| - |r| :: s[i] == c
  {
    if |s| > 0 && s[0] == c then LStripChar(s[1..], c) else s
  }

  /** Python's `re.sub(r"\D", "", s)`. */
  function DigitsOnly(s: string): (r: string)
    ensures |r| <= |s|
    ensures forall i | 0 <= i < |r| :: IsDigit(r[i])
    ensures (forall i | 0 <= i < |s| :: IsDigit(s[i])) ==> r == s
  {
    if |s| == 0 then ""
    else if IsDigit(s[0]) then [s[0]] + DigitsOnly(s[1..])
    else DigitsOnly(s[1..])
  }

  /** Python's `s.replace(c, "")` for one character. */
  function RemoveChar(s: string, c: char): (r: string)
    ensures |r| <= |s|
    ensures c !in r
    ensures c !in s ==> r == s
    ensures |s| == 1 ==> r == (if s[0] == c then "" else s)
  {
    if |s| == 0 then ""
    else if s[0] == c then RemoveChar(s[1..], c)
    else [s[0]] + RemoveChar(s[1..], c)
  }

  /** Removal works piecewise: with the one-character case, every other
      character is kept, in order. */
  lemma {:induction false} RemoveCharConcat(a: string, b: string, c: char)
    ensures RemoveChar(a + b, c) == RemoveChar(a, c) + RemoveChar(b, c)
  {
    if |a| == 0 {
      assert a + b == b;
    } else {
      var ab := a + b;
      assert ab[0] == a[0];
      assert ab[1..] == a[1..] + b;
      RemoveCharConcat(a[1..], b, c);
      RemoveCharCons(ab, c);
      RemoveCharCons(a, c);
    }
  }

  lemma RemoveCharCons(s: string, c: char)
    requires |s| > 0
    ensures RemoveChar(s, c) == (if s[0] == c then "" else [s[0]]) + RemoveChar(s[1..], c)
  {
  }

  /** Removing a character that neither end holds keeps both ends. */
  lemma {:induction false} RemoveCharEnds(s: string, c: char)
    requires |s| > 0 && s[0] != c && s[|s| - 1] != c
    ensures |RemoveChar(s, c)| > 0
    ensures RemoveChar(s, c)[0] == s[0]
    ensures RemoveChar(s, c)[|RemoveChar(s, c)| - 1] == s[|s| - 1]
  {
    if |s| > 1 {
      var t := s[1..];
      if t[0] == c {
        var k := 0;
        while k < |t| && t[k] == c
          invariant 0 <= k <= |t|
          invariant forall j | 0 <= j < k :: t[j] == c
          invariant RemoveChar(t, c) == RemoveChar(t[k..], c)
        {
          assert t[k..][1..] == t[k + 1..];
          k := k + 1;
        }
        assert k < |t| by { assert t[|t| - 1] != c; }
        RemoveCharEnds(t[k..], c);
      } else {
        RemoveCharEnds(t, c);
      }
    }
  }

  /** Removing a character only keeps characters the string had. */
  lemma {:induction false} RemoveCharChars(s: string, c: char, p: char -> bool)
    requires AllChars(s, p)
    ensures AllChars(RemoveChar(s, c), p)
  {
    if |s| > 0 {
      RemoveCharChars(s[1..], c, p);
    }
  }

  /** Python's `s.find(c)`, `-1` when absent. */
  function FindFirst(s: string, c: char): (i: int)
    ensures -1 <= i < |s|
    ensures i == -1 <==> c !in s
    ensures i >= 0 ==> s[i] == c && c !in s[..i]
  {
    if |s| == 0 then -1
    else if s[0] == c then 0
    else
      var j := FindFirst(s[1..], c);
      assert s[1..][..if j < 0 then 0 else j] == s[1..1 + if j < 0 then 0 else j];
      if j == -1 then -1 else j + 1
  }

  /** Python's `s.split(c, 1)` when `c` occurs: the text before the first
      `c` and the text after it. */
  function SplitFirst(s: string, c: char): (r: (string, string))
    requires c in s
    ensures r.0 + [c] + r.1 == s
    ensures c !in r.0
  {
    var i := FindFirst(s, c);
    assert s == s[..i] + [c] + s[i + 1..];
    (s[..i], s[i + 1..])
  }

  /** The first-separator split is the only one whose head is free of `c`. */
  lemma SplitFirstUnique(a: string, c: char, b: string)
    requires c !in a
    ensures c in a + [c] + b
    ensures SplitFirst(a + [c] + b, c) == (a, b)
  {
    var s := a + [c] + b;
    assert s[|a|] == c;
    var r := SplitFirst(s, c);
    var n := |r.0|;
    assert s[n] == c by { assert (r.0 + [c] + r.1)[n] == c; }
    if n < |a| {
      assert false;
    } else if n > |a| {
      assert false;
    }
    assert r.0 == s[..n] == a;
    assert r.1 == s[n + 1..] == b;
  }

  lemma {:induction false} StrippedNonEmptyFixed(xs: seq<string>)
    requires forall i | 0 <= i < |xs| :: |xs[i]| > 0 && Strip(xs[i]) == xs[i]
    ensures StrippedNonEmpty(xs) == xs
  {
    if |xs| > 0 {
      StrippedNonEmptyFixed(xs[1..]);
      assert xs == [xs[0]] + xs[1..];
    }
  }

  /** Stripping only removes characters. */
  lemma StripNoChar(s: string, c: char)
    requires c !in s
    ensures c !in Strip(s)
  {
    var l := StripLeft(s);
    NotInSlice(s, |s| - |l|, |s|, c);
    assert s[|s| - |l|..|s|] == l;
    var r := StripRight(l);
    NotInSlice(l, 0, |r|, c);
    assert l[0..|r|] == r;
  }

  lemma NotInSlice<T>(s: seq<T>, lo: nat, hi: nat, c: T)
    requires lo <= hi <= |s| && c !in s
    ensures c !in s[lo..hi]
  {
  }

  /** The stripped, non-empty items of a list: `[x.strip() for x in xs if x.strip()]`. */
  function StrippedNonEmpty(xs: seq<string>): (r: seq<string>)
    ensures |r| <= |xs|
    ensures forall i | 0 <= i < |r| :: |r[i]| > 0 && Strip(r[i]) == r[i]
  {
    if |xs| == 0 then []
    else
      var t := Strip(xs[0]);
      StripIdempotent(xs[0]);
      (if |t| > 0 then [t] else []) + StrippedNonEmpty(xs[1..])
  }

  /** Python's `s.rfind(c)`, `-1` when absent. */
  function FindLast(s: string, c: char): (i: int)
    ensures -1 <= i < |s|
    ensures i == -1 <==> c !in s
    ensures i >= 0 ==> s[i] == c && c !in s[i + 1..]
  {
    if |s| == 0 then -1
    else if s[|s| - 1] == c then |s| - 1
    else
      var j := FindLast(s[..|s| - 1], c);
      assert j >= 0 ==> s[j + 1..] == s[..|s| - 1][j + 1..] + [s[|s| - 1]];
      j
  }
}

=== FILE: wrappers.dfy ===
/** Failure-compatible wrappers used throughout the model.
    `Option` stands for Python's `None`-or-value; `Result` stands for a call that
    either returns a value or raises (the error text plays the exception). */
module Wrappers {

  datatype Option<+T> = None | Some(value: T) {
    predicate IsFailure() { None? }

    function PropagateFailure<U>(): Option<U>
      requires None?
    {
      None
    }

    function Extract(): T
      requires Some?
    {
      value
    }

    function GetOr(default: T): T {
      match this
      case Some(v) => v
      case None => default
    }
  }

  datatype Result<+T> = Success(value: T) | Failure(error: string) {
    predicate IsFailure() { Failure? }

    function PropagateFailure<U>(): Result<U>
      requires Failure?
    {
      Failure(error)
    }

    function Extract(): T
      requires Success?
    {
      value
    }
  }

  /** Python truthiness of an optional number: present and non-zero. */
  predicate Truthy(x: Option<real>) {
    x.Some? && x.value != 0.0
  }
}

=== FILE: zonage.dfy ===
/** `_zonage_from_layers`: the PLU zones of the zoning layers of an
    intersections payload, their covered percent summed per label, the
    approval date and the fallback PLU name. */
module Zonage {
  import opened Wrappers
  import opened Text
  import opened Assoc
  import opened Sorting
  import opened Seqs
  import opened CuaDocx

  /** The accumulator of one label: its zone type and summed fraction. */
  datatype ZoneAcc = ZoneAcc(typezone: Option<string>, pct: real)

  /** One zone of the result, its percent rounded. */
  datatype Zone = Zone(libelle: string, typezone: Option<string>, pct: real)

  /** The state the layers are folded into. */
  datatype ZState = ZState(zones: Assoc<string, ZoneAcc>, pluNom: Option<string>, pluDate: Option<string>)

  datatype Zoning = Zoning(zones: seq<Zone>, pluNom: Option<string>, pluDate: Option<string>)

  const PluFallbackName := "PLU de la commune"

  /** The fraction summed for `v`, zero when it has no entry. */
  function PctOf(zm: Assoc<string, ZoneAcc>, v: string): real {
    match Lookup(zm, v)
    case None => 0.0
    case Some(a) => a.pct
  }

  /** `zones_map[val]["pct"] += pf` on a `defaultdict`. */
  function AddPairs(zm: Assoc<string, ZoneAcc>, ps: seq<(string, real)>): (r: Assoc<string, ZoneAcc>)
    ensures UniqueKeys(zm) ==> UniqueKeys(r)
    decreases |ps|
  {
    if |ps| == 0 then zm
    else
      var prev := AddPairs(zm, ps[..|ps| - 1]);
      var p := ps[|ps| - 1];
      PutKeepsUnique(prev, p.0, Bump(prev, p.0, p.1));
      Put(prev, p.0, Bump(prev, p.0, p.1))
  }

  lemma PutKeepsUnique(m: Assoc<string, ZoneAcc>, k: string, v: ZoneAcc)
    ensures UniqueKeys(m) ==> UniqueKeys(Put(m, k, v))
  {
    if UniqueKeys(m) {
      PutUnique(m, k, v);
    }
  }

  /** Reference definition: the fractions of the pairs labelled `v`, summed. */
  function PairSum(ps: seq<(string, real)>, v: string): real
    decreases |ps|
  {
    if |ps| == 0 then 0.0
    else PairSum(ps[..|ps| - 1], v) + (if ps[|ps| - 1].0 == v then ps[|ps| - 1].1 else 0.0)
  }

  lemma {:induction false} PairSumConcat(a: seq<(string, real)>, b: seq<(string, real)>, v: string)
    ensures PairSum(a + b, v) == PairSum(a, v) + PairSum(b, v)
    decreases |b|
  {
    if |b| > 0 {
      assert (a + b)[..|a + b| - 1] == a + b[..|b| - 1];
      PairSumConcat(a, b[..|b| - 1], v);
    } else {
      assert a + b == a;
    }
  }

  /** The entry of `k` with `x` added to its fraction. */
  function Bump(zm: Assoc<string, ZoneAcc>, k: string, x: real): (a: ZoneAcc)
    ensures a.pct == PctOf(zm, k) + x
  {
    var acc := Lookup(zm, k).GetOr(ZoneAcc(None, 0.0));
    acc.(pct := acc.pct + x)
  }

  /** Adding one pair adds its fraction to its label. */
  lemma AddOnePct(prev: Assoc<string, ZoneAcc>, k: string, x: real, v: string)
    ensures PctOf(Put(prev, k, Bump(prev, k, x)), v) == PctOf(prev, v) + (if k == v then x else 0.0)
  {
    PutLookup(prev, k, Bump(prev, k, x), v);
  }

  /** Adding pairs adds their fractions to each label. */
  lemma {:induction false} AddPairsPct(zm: Assoc<string, ZoneAcc>, ps: seq<(string, real)>, v: string)
    ensures PctOf(AddPairs(zm, ps), v) == PctOf(zm, v) + PairSum(ps, v)
    decreases |ps|
  {
    if |ps| > 0 {
      AddPairsPct(zm, ps[..|ps| - 1], v);
      AddOnePct(AddPairs(zm, ps[..|ps| - 1]), ps[|ps| - 1].0, ps[|ps| - 1].1, v);
    }
  }

  /** Adding pairs labels exactly the pairs' values that were new. */
  lemma {:induction false} AddPairsKeys(zm: Assoc<string, ZoneAcc>, ps: seq<(string, real)>, v: string)
    ensures v in Keys(AddPairs(zm, ps)) <==> v in Keys(zm) || exists i | 0 <= i < |ps| :: ps[i].0 == v
    decreases |ps|
  {
    if |ps| > 0 {
      var init := ps[..|ps| - 1];
      AddPairsKeys(zm, init, v);
      assert forall i | 0 <= i < |init| :: init[i] == ps[i];
    }
  }

  /** The zone types given by a layer, in order, to the first zones. */
  function AssignTypes(zm: Assoc<string, ZoneAcc>, vtype: seq<string>): (r: Assoc<string, ZoneAcc>)
    ensures |r| == |zm|
    ensures forall i | 0 <= i < |zm| ::
      r[i].0 == zm[i].0 && r[i].1.pct == zm[i].1.pct &&
      r[i].1.typezone == (if i < |vtype| then Some(vtype[i]) else zm[i].1.typezone)
  {
    seq(|zm|, i requires 0 <= i < |zm| => if i < |vtype| then (zm[i].0, zm[i].1.(typezone := Some(vtype[i]))) else zm[i])
  }

  /** Assigning types keeps every label and its fraction. */
  lemma AssignTypesKeeps(zm: Assoc<string, ZoneAcc>, vtype: seq<string>, v: string)
    requires UniqueKeys(zm)
    ensures Keys(AssignTypes(zm, vtype)) == Keys(zm) && UniqueKeys(AssignTypes(zm, vtype))
    ensures PctOf(AssignTypes(zm, vtype), v) == PctOf(zm, v)
  {
    var r := AssignTypes(zm, vtype);
    assert Keys(r) == Keys(zm);
    if v in Keys(zm) {
      var i :| 0 <= i < |zm| && Keys(zm)[i] == v;
      LookupAt(zm, i);
      LookupAt(r, i);
    }
  }

  /** The truthy date read from the first value of attribute `cand`. */
  function DateOf(layer: DocLayer, cand: string): (r: Option<string>)
    ensures r.Some? ==> Given(r)
  {
    var va := ValueAttr(layer, [cand]);
    if |va| == 0 then None
    else
      var d := ParseDate(va[0]);
      if Given(d) then d else None
  }

  /** `plu_date = plu_date or d` for the date of one attribute. */
  function DateStep(date: Option<string>, layer: DocLayer, cand: string): Option<string> {
    if DateOf(layer, cand).Some? && !Given(date) then DateOf(layer, cand) else date
  }

  /** The date a layer offers: `datappro` first, then `DATAPPRO`. */
  function LayerDate(layer: DocLayer): (r: Option<string>)
    ensures r.Some? ==> Given(r)
  {
    if DateOf(layer, "datappro").Some? then DateOf(layer, "datappro") else DateOf(layer, "DATAPPRO")
  }

  /** The two `datappro` candidates of one layer: a date already found is
      kept, otherwise the layer's own. */
  function NextDate(date: Option<string>, layer: DocLayer): (r: Option<string>)
    requires date.Some? ==> Given(date)
    ensures r == (if date.Some? then date else LayerDate(layer))
  {
    DateStep(DateStep(date, layer, "datappro"), layer, "DATAPPRO")
  }

  /** What every state reached satisfies: one entry per label, and a date
      only when it is non-empty. */
  predicate Good(st: ZState) {
    UniqueKeys(st.zones) && (st.pluDate.Some? ==> Given(st.pluDate))
  }

  /** The (label, fraction) pairs of a layer. */
  function LayerPairs(layer: DocLayer): seq<(string, real)> {
    CoveragePairs(layer, ["libelle", "LIBELLE"])
  }

  predicate IsZonageLayer(layer: DocLayer) {
    Classify(Or(layer.table, "")) == Zonage
  }

  /** What `ingest` reads from a layer: whether it is a zoning layer, its
      pairs, its zone types, its date and whether it has an INSEE code. */
  datatype LayerView = LayerView(
    zoning: bool, pairs: seq<(string, real)>, types: seq<string>, date: Option<string>, insee: bool)

  function View(layer: DocLayer): (w: LayerView)
    ensures w.date.Some? ==> Given(w.date)
  {
    LayerView(IsZonageLayer(layer), LayerPairs(layer), ValueAttr(layer, ["typezone", "TYPEZONE"]),
      LayerDate(layer), |ValueAttr(layer, ["insee", "INSEE"])| > 0)
  }

  lemma ViewFacts(layer: DocLayer)
    ensures View(layer).zoning == IsZonageLayer(layer)
    ensures View(layer).date == LayerDate(layer)
  {
  }

  /** The views of the layers, in order. */
  function Views(results: seq<DocLayer>): (ws: seq<LayerView>)
  {
    Map(results, View)
  }

  /** The views' dates are truthy whenever present. */
  ghost predicate DatesGiven(ws: seq<LayerView>) {
    forall i | 0 <= i < |ws| :: ws[i].date.Some? ==> Given(ws[i].date)
  }

  /** The zones after one layer's pairs and zone types. */
  function IngestZones(zm: Assoc<string, ZoneAcc>, ps: seq<(string, real)>, vtype: seq<string>): (r: Assoc<string, ZoneAcc>)
    requires UniqueKeys(zm)
    ensures UniqueKeys(r)
    ensures forall v :: PctOf(r, v) == PctOf(zm, v) + PairSum(ps, v)
    ensures forall v :: v in Keys(r) <==> v in Keys(zm) || exists i | 0 <= i < |ps| :: ps[i].0 == v
  {
    var zm1 := AddPairs(zm, ps);
    var zm2 := if |vtype| > 0 then AssignTypes(zm1, vtype) else zm1;
    forall v ensures PctOf(zm2, v) == PctOf(zm, v) + PairSum(ps, v) &&
      (v in Keys(zm2) <==> v in Keys(zm) || exists i | 0 <= i < |ps| :: ps[i].0 == v) {
      AddPairsPct(zm, ps, v);
      AddPairsKeys(zm, ps, v);
      AssignTypesKeeps(zm1, vtype, v);
    }
    zm2
  }

  /** `ingest`: the labels and fractions of the layer's coverage, its zone
      types, the first approval date and the fallback name. */
  function Ingest(st: ZState, w: LayerView): (r: ZState)
    requires Good(st) && (w.date.Some? ==> Given(w.date))
    ensures Good(r)
    ensures forall v :: PctOf(r.zones, v) == PctOf(st.zones, v) + PairSum(w.pairs, v)
    ensures forall v :: v in Keys(r.zones) <==> v in Keys(st.zones) || exists i | 0 <= i < |w.pairs| :: w.pairs[i].0 == v
  {
    var zm := IngestZones(st.zones, w.pairs, w.types);
    var date := if st.pluDate.Some? then st.pluDate else w.date;
    var nom := if !Given(st.pluNom) && w.insee then Some(PluFallbackName) else st.pluNom;
    ZState(zm, nom, date)
  }

  /** The layers folded in order, only the zoning ones ingested. */
  function Fold(ws: seq<LayerView>): (r: ZState)
    requires forall i | 0 <= i < |ws| :: ws[i].date.Some? ==> Given(ws[i].date)
    ensures Good(r)
    decreases |ws|
  {
    if |ws| == 0 then ZState([], None, None)
    else
      var st := Fold(ws[..|ws| - 1]);
      var w := ws[|ws| - 1];
      if w.zoning then Ingest(st, w) else st
  }

  /** Python's sort key `(-pct, libelle)`. */
  predicate ZoneLe(a: Zone, b: Zone) {
    a.pct > b.pct || (a.pct == b.pct && LexLe(a.libelle, b.libelle))
  }

  function ZoneLeFn(): (Zone, Zone) -> bool {
    (a: Zone, b: Zone) => ZoneLe(a, b)
  }

  lemma ZoneLeOrder()
    ensures Total(ZoneLeFn()) && Transitive(ZoneLeFn())
  {
    forall a: Zone, b: Zone ensures ZoneLeFn()(a, b) || ZoneLeFn()(b, a) {
      LexLeTotal(a.libelle, b.libelle);
    }
    forall a: Zone, b: Zone, c: Zone | ZoneLeFn()(a, b) && ZoneLeFn()(b, c) ensures ZoneLeFn()(a, c) {
      if a.pct == b.pct && b.pct == c.pct {
        LexLeTrans(a.libelle, b.libelle, c.libelle);
      }
    }
  }

  /** The zones of the accumulated labels, percents rounded. */
  function ToZones(zm: Assoc<string, ZoneAcc>): (zs: seq<Zone>)
    ensures |zs| == |zm|
    ensures forall i | 0 <= i < |zm| :: zs[i] == Zone(zm[i].0, zm[i].1.typezone, RoundPctFractionToPct(zm[i].1.pct))
  {
    seq(|zm|, i requires 0 <= i < |zm| => Zone(zm[i].0, zm[i].1.typezone, RoundPctFractionToPct(zm[i].1.pct)))
  }

  /** `_zonage_from_layers` on the layers' views: the zones ordered by
      percent, highest first, then by label; the fallback name and the first
      approval date. */
  function FromViews(ws: seq<LayerView>): (r: Zoning)
    requires DatesGiven(ws)
    ensures forall i, j | 0 <= i < j < |r.zones| :: ZoneLe(r.zones[i], r.zones[j])
    ensures multiset(r.zones) == multiset(ToZones(Fold(ws).zones))
    ensures r.pluDate.Some? ==> Given(r.pluDate)
  {
    var st := Fold(ws);
    var zs := SortBy(ToZones(st.zones), ZoneLeFn());
    ZoneLeOrder();
    forall i, j | 0 <= i < j < |zs| ensures ZoneLe(zs[i], zs[j]) {
      SortedPairwise(zs, ZoneLeFn(), i, j);
    }
    Zoning(zs, st.pluNom, st.pluDate)
  }

  function ZonageFromLayers(results: seq<DocLayer>): Zoning {
    FromViews(Views(results))
  }

  // ------------------------------------------------------------ properties

  /** Reference definition: the pairs of the zoning layers, in order. */
  function ZonagePairs(ws: seq<LayerView>): seq<(string, real)>
    decreases |ws|
  {
    if |ws| == 0 then []
    else ZonagePairs(ws[..|ws| - 1]) + (if ws[|ws| - 1].zoning then ws[|ws| - 1].pairs else [])
  }

  /** Each label's fraction is the sum of its pairs over the zoning layers,
      and the labels are exactly the values of those pairs. */
  lemma {:induction false} FoldPct(ws: seq<LayerView>, v: string)
    requires DatesGiven(ws)
    ensures PctOf(Fold(ws).zones, v) == PairSum(ZonagePairs(ws), v)
    ensures v in Keys(Fold(ws).zones) <==> exists p | p in ZonagePairs(ws) :: p.0 == v
    decreases |ws|
  {
    if |ws| > 0 {
      var init := ws[..|ws| - 1];
      var w := ws[|ws| - 1];
      assert DatesGiven(init);
      FoldPct(init, v);
      var extra := if w.zoning then w.pairs else [];
      PairSumConcat(ZonagePairs(init), extra, v);
      var all := ZonagePairs(init) + extra;
      assert (exists p | p in all :: p.0 == v) <==>
        (exists p | p in ZonagePairs(init) :: p.0 == v) || (exists i | 0 <= i < |extra| :: extra[i].0 == v) by {
        if exists i | 0 <= i < |extra| :: extra[i].0 == v {
          var i :| 0 <= i < |extra| && extra[i].0 == v;
          assert extra[i] in all;
        }
        if exists p | p in all :: p.0 == v {
          var p :| p in all && p.0 == v;
          if p !in ZonagePairs(init) {
            var i :| 0 <= i < |extra| && extra[i] == p;
          }
        }
      }
    }
  }

  /** The date found is the date of the first zoning layer that offers
      one; there is none only when no zoning layer offers one. */
  lemma {:induction false} FoldDate(ws: seq<LayerView>)
    requires DatesGiven(ws)
    ensures Fold(ws).pluDate.Some? <==> exists i | 0 <= i < |ws| :: ws[i].zoning && ws[i].date.Some?
    ensures Fold(ws).pluDate.Some? ==> exists i | 0 <= i < |ws| ::
      ws[i].zoning && Fold(ws).pluDate == ws[i].date && forall j | 0 <= j < i :: !(ws[j].zoning && ws[j].date.Some?)
    decreases |ws|
  {
    if |ws| > 0 {
      var init := ws[..|ws| - 1];
      assert DatesGiven(init);
      FoldDate(init);
      assert forall i | 0 <= i < |init| :: init[i] == ws[i];
      if Fold(init).pluDate.None? && Fold(ws).pluDate.Some? {
        var n := |ws| - 1;
        assert ws[n].zoning && Fold(ws).pluDate == ws[n].date;
      }
    }
  }

  /** The fallback name is given exactly when some zoning layer has an
      INSEE attribute. */
  lemma {:induction false} FoldNom(ws: seq<LayerView>)
    requires DatesGiven(ws)
    ensures Fold(ws).pluNom == if exists i | 0 <= i < |ws| :: ws[i].zoning && ws[i].insee then Some(PluFallbackName) else None
    decreases |ws|
  {
    if |ws| > 0 {
      var init := ws[..|ws| - 1];
      assert DatesGiven(init);
      FoldNom(init);
      assert forall i | 0 <= i < |init| :: init[i] == ws[i];
    }
  }

  predicate OfZoning(w: LayerView) {
    w.zoning
  }

  /** Only the zoning layers matter: dropping the others changes nothing. */
  lemma {:induction false} FoldOnlyZoning(ws: seq<LayerView>)
    requires DatesGiven(ws)
    ensures DatesGiven(Filter(ws, OfZoning)) && Fold(Filter(ws, OfZoning)) == Fold(ws)
    decreases |ws|
  {
    if |ws| > 0 {
      var init := ws[..|ws| - 1];
      var w := ws[|ws| - 1];
      assert DatesGiven(init);
      FoldOnlyZoning(init);
      assert ws == init + [w];
      FilterConcat(init, [w], OfZoning);
      assert Filter([w], OfZoning) == if w.zoning then [w] else [];
      var f := Filter(init, OfZoning);
      if w.zoning {
        assert (f + [w])[..|f + [w]| - 1] == f;
      } else {
        assert f + [] == f;
      }
    }
  }

  /** The views of the zoning layers are the zoning views. */
  lemma ViewsFilter(results: seq<DocLayer>)
    ensures Views(Filter(results, IsZonageLayer)) == Filter(Views(results), OfZoning)
  {
    forall x ensures IsZonageLayer(x) == OfZoning(View(x)) {
      ViewFacts(x);
    }
    MapFilter(results, View, IsZonageLayer, OfZoning);
  }

  /** `_zonage_from_layers` on the zoning layers alone gives the same result. */
  lemma ZonageOnlyZoning(results: seq<DocLayer>)
    ensures ZonageFromLayers(Filter(results, IsZonageLayer)) == ZonageFromLayers(results)
  {
    ViewsFilter(results);
    FoldOnlyZoning(Views(results));
  }

  /** Every zone carries a label of the zoning layers' coverage and the
      rounded sum of its fractions. */
  lemma ZonageZone(ws: seq<LayerView>, i: nat)
    requires DatesGiven(ws)
    requires i < |FromViews(ws).zones|
    ensures var z := FromViews(ws).zones[i];
      (exists p | p in ZonagePairs(ws) :: p.0 == z.libelle) &&
      z.pct == RoundPctFractionToPct(PairSum(ZonagePairs(ws), z.libelle))
  {
    var zm := Fold(ws).zones;
    var z := FromViews(ws).zones[i];
    assert z in multiset(ToZones(zm));
    var j :| 0 <= j < |zm| && ToZones(zm)[j] == z;
    assert Keys(zm)[j] == z.libelle;
    LookupAt(zm, j);
    FoldPct(ws, z.libelle);
  }

  /** Every label of the zoning layers' coverage has its zone. */
  lemma ZonageCovers(ws: seq<LayerView>, p: (string, real))
    requires DatesGiven(ws)
    requires p in ZonagePairs(ws)
    ensures exists i | 0 <= i < |FromViews(ws).zones| :: FromViews(ws).zones[i].libelle == p.0
  {
    var zm := Fold(ws).zones;
    FoldPct(ws, p.0);
    var j :| 0 <= j < |zm| && Keys(zm)[j] == p.0;
    var z := ToZones(zm)[j];
    var zs := FromViews(ws).zones;
    assert z in multiset(zs);
    var i :| 0 <= i < |zs| && zs[i] == z;
  }

  /** The approval date is that of the first zoning layer offering one. */
  lemma ZonageDate(results: seq<DocLayer>)
    ensures ZonageFromLayers(results).pluDate.Some? <==>
      exists i | 0 <= i < |results| :: IsZonageLayer(results[i]) && LayerDate(results[i]).Some?
    ensures ZonageFromLayers(results).pluDate.Some? ==> exists i | 0 <= i < |results| ::
      IsZonageLayer(results[i]) && ZonageFromLayers(results).pluDate == LayerDate(results[i]) &&
      forall j | 0 <= j < i :: !(IsZonageLayer(results[j]) && LayerDate(results[j]).Some?)
  {
    var ws := Views(results);
    forall i | 0 <= i < |results| ensures ws[i].zoning == IsZonageLayer(results[i]) && ws[i].date == LayerDate(results[i]) {
      ViewFacts(results[i]);
    }
    FoldDate(ws);
  }
}
